=== FILE: README.md ===
# artoolkitX for Unity: a Dafny model of the plugin's sequential core

artoolkitX for Unity wraps a native augmented-reality tracker for Unity scenes and
Android players. This project models the logic that sits between the native library
and the Unity scene: the decisions that C# components and Java classes make on their
own. The model covers:

- **Video configuration.** `ARXVideoConfig` builds the per-platform option string for
  the native video library, in both the Unity-package variant and the older
  asset-folder variant.
- **Android bridge.**
  - `ARUnityPluginImpl` reports orientation and routes permission results.
  - `UnityCameraEventListener` and `CameraEventListenerUnityImpl` gate the native
    push pipeline on a first successful init.
- **Unity webcam source.** `ARXUnityVideoSourceWebCamTexture` waits for a ready
  webcam, keeps a two-slot buffer pool and flips rows in place.
- **Trackable lifecycles.** `ARXTrackable` (both layouts), `ARTrackable` and
  `ARMarker` cover load, unload, lazy load in update, found/lost edges and the option
  setters that forward to the native side.
- **Base selection and visibility.**
  - `ARXOrigin` and `AROrigin` choose the base trackable.
  - The tracked objects and tracked cameras run found/tracked/lost state machines
    with a grace period.
- **Controllers and cameras.** `ARController`, `ARXController`, `ARXCamera` and
  `ARCamera` cover start, stop and pause, the bounded log, viewport layout, the
  content-mode cycle and tracking bookkeeping.
- **Utilities and editor code.**
  - the handedness flip of `ARUtilityFunctions` and its pixel-format table;
  - the scripting-define list editor;
  - the gizmo stroke font;
  - the packager's command-line scan and version code;
  - the Android manifest post-processor.

Native calls, Unity and Android queries, the clock and the file system are
parameters:

- a native answer is an argument;
- an outbound call is an entry in a returned list of events or calls;
- every component is an immutable value, and each operation is a function from the
  old value to the new one.

Each module corresponds to one source class, or to one class and its older copies.
Where the copies differ, a `Flavour` or `Variant` parameter selects the behaviour.

Module map:

| module | source |
|---|---|
| `VideoConfig` | both `ARXVideoConfig.cs` |
| `AndroidPlugin` | `ARUnityPluginImpl.java` |
| `CameraStream`, `UnityCameraEventListener`, `CameraEventListenerUnityImpl` | the two camera event listeners |
| `WebcamSource` | `ARXUnityVideoSourceWebCamTexture.cs` |
| `TrackableCore` | what the trackable components share |
| `ArxTrackable`, `LegacyArxTrackable`, `ArTrackable`, `ArMarker` | the trackable components |
| `Visibility` | the found and lost edges the trackables and tracked cameras share |
| `Origin` | the origin components |
| `TrackedObject`, `TrackedCamera` | the tracked objects and cameras |
| `Camera` | `ARXCamera.cs`, `ARCamera.cs` |
| `Controller` | `ARController.cs` |
| `ArxController` | `ARXController.cs` |
| `Utility` | `ARUtilityFunctions.cs` |
| `ScriptingDefines` | `ARToolKitEditorUtilities.cs` |
| `Gizmo` | `ARXTrackedCameraGizmo.cs` |
| `Packager` | `ARToolKitPackager.cs` |
| `Manifest` | `ARToolKitPostProcessor.cs` |

`Text`, `Lists` and `Wrappers` hold shared helpers: split and join, integer
printing and parsing, list search and removal, and `Option`.

## Model

| member | source | states |
|---|---|---|
| AndroidPlugin.Initial | Source/Extra/arunityX_java/arunityX_Android_Player/arunityXPlayer/src/main/java/org/artoolkitx/arx/unity/ARUnityPluginImpl.java:61-65 | a new plugin has no orientation or permission target, an undefined orientation and rotation 0 |
| AndroidPlugin.TargetName | Source/Extra/arunityX_java/arunityX_Android_Player/arunityXPlayer/src/main/java/org/artoolkitx/arx/unity/ARUnityPluginImpl.java:174-177 | a null or empty object name stores no target; any other name is stored as given |
| AndroidPlugin.OrientationCodeClasses | Source/Extra/arunityX_java/arunityX_Android_Player/arunityXPlayer/src/main/java/org/artoolkitx/arx/unity/ARUnityPluginImpl.java:152-161 | the code is 1 or 2 exactly for portrait, 3 or 4 exactly for landscape, 0 otherwise; 2 exactly for portrait at rotation 90 or 180, 4 exactly for landscape at 180 or 270 |
| AndroidPlugin.RegisterForOrientationNotifications | Source/Extra/arunityX_java/arunityX_Android_Player/arunityXPlayer/src/main/java/org/artoolkitx/arx/unity/ARUnityPluginImpl.java:171-179 | the orientation target is cleared for a null or empty name and replaced otherwise; the permission target and the stored orientation and rotation are untouched |
| AndroidPlugin.OnConfigurationChanged | Source/Extra/arunityX_java/arunityX_Android_Player/arunityXPlayer/src/main/java/org/artoolkitx/arx/unity/ARUnityPluginImpl.java:137-164 | with no target nothing is sent or stored; an unchanged (orientation, rotation) pair sends nothing; otherwise the pair is stored and exactly one orientation message carrying the code goes to the target; a missing display counts as rotation 0 |
| AndroidPlugin.ConfigurationChangeDeduplicated | Source/Extra/arunityX_java/arunityX_Android_Player/arunityXPlayer/src/main/java/org/artoolkitx/arx/unity/ARUnityPluginImpl.java:146-150 | repeating the same change sends nothing and changes nothing the second time; one change sends at most one message |
| AndroidPlugin.RotationChangeResendsSameCode | Source/Extra/arunityX_java/arunityX_Android_Player/arunityXPlayer/src/main/java/org/artoolkitx/arx/unity/ARUnityPluginImpl.java:146-163 | portrait at rotation 0 then at rotation 270 sends two messages with the same code, because de-duplication compares the raw pair and not the code |
| AndroidPlugin.RequestCameraPermissions | Source/Extra/arunityX_java/arunityX_Android_Player/arunityXPlayer/src/main/java/org/artoolkitx/arx/unity/ARUnityPluginImpl.java:113-124 | the permission target becomes the name, or none for a null or empty name; exactly one camera request with the plugin's request code is issued; the orientation state is untouched |
| AndroidPlugin.CheckCameraPermissions | Source/Extra/arunityX_java/arunityX_Android_Player/arunityXPlayer/src/main/java/org/artoolkitx/arx/unity/ARUnityPluginImpl.java:102-110 | the answer is whether the permission is granted; when granted nothing is issued or stored, otherwise one request is issued and the target is stored |
| AndroidPlugin.ShouldExplainCameraPermissions | Source/Extra/arunityX_java/arunityX_Android_Player/arunityXPlayer/src/main/java/org/artoolkitx/arx/unity/ARUnityPluginImpl.java:127-135 | false whenever the permission is granted, otherwise Android's rationale answer |
| AndroidPlugin.OnRequestPermissionsResult | Source/Extra/arunityX_java/arunityX_Android_Player/arunityXPlayer/src/main/java/org/artoolkitx/arx/unity/ARUnityPluginImpl.java:188-204 | another request code, or no stored target, sends nothing; otherwise exactly one message goes to the target, Granted iff the result array is non-empty and its first entry is granted, Denied otherwise (an empty, cancelled result included) |
| AndroidPlugin.PermissionAnswerReachesRequester | Source/Extra/arunityX_java/arunityX_Android_Player/arunityXPlayer/src/main/java/org/artoolkitx/arx/unity/ARUnityPluginImpl.java:188-203 | after an ungranted check by a named object, the result is sent to that object; after an anonymous check it is sent to nobody |
| AndroidPlugin.GrantedNeedsNoExplanation | Source/Extra/arunityX_java/arunityX_Android_Player/arunityXPlayer/src/main/java/org/artoolkitx/arx/unity/ARUnityPluginImpl.java:131-132 | with the permission granted there is nothing to explain and a check issues no request |
| CameraStream.Fresh | Source/Extra/arunityX_java/arunityX_Android_Player/arunityXPlayer/src/main/java/org/artoolkitx/arx/unity/UnityCameraEventListener.java:51 | a listener starts in its first update |
| CameraStream.OnFrame | Source/Extra/arunityX_java/arunityX_Android_Player/arunityXPlayer/src/main/java/org/artoolkitx/arx/unity/UnityCameraEventListener.java:73-87 | during the first update a frame makes exactly one init call with the recorded geometry (plus an error log when it fails) and is not forwarded; the gate closes exactly when the init succeeds; afterwards a frame makes exactly one forwarding call and nothing else changes |
| CameraStream.RunCalls | Source/Extra/arunityX_java/arunityX_Android_Player/arunityXPlayer/src/main/java/org/artoolkitx/arx/unity/UnityCameraEventListener.java:72-106 | over any stream of frames the calls are: one failed attempt (init and error log) per frame before the first successful init, that init alone for the frame it succeeds on, then every later frame forwarded in order; a listener already past its first update only forwards and stays as it is |
| CameraStream.RunForwardsOnly | Source/Extra/arunityX_java/arunityX_Android_Player/arunityXPlayer/src/main/java/org/artoolkitx/arx/unity/UnityCameraEventListener.java:80-81 | past the first update every frame is forwarded, in order, and the listener does not change |
| CameraStream.RunAllFail | Source/Extra/arunityX_java/arunityX_Android_Player/arunityXPlayer/src/main/java/org/artoolkitx/arx/unity/UnityCameraEventListener.java:75-76 | when no init succeeds, every frame is one failed attempt and the listener stays in its first update |
| CameraStream.NoInitAfterFirstUpdate | Source/Extra/arunityX_java/arunityX_Android_Player/arunityXPlayer/src/main/java/org/artoolkitx/arx/unity/UnityCameraEventListener.java:74-106 | once the first update is over no frame ever issues another init call |
| CameraStream.ForwardedCount | Source/Extra/arunityX_java/arunityX_Android_Player/arunityXPlayer/src/main/java/org/artoolkitx/arx/unity/UnityCameraEventListener.java:74-106 | from a fresh listener, n frames whose first successful init is the k-th make 2k+1+(n-k-1) calls, or 2n when none succeeds |
| UnityCameraEventListener.StreamStarted | Source/Extra/arunityX_java/arunityX_Android_Player/arunityXPlayer/src/main/java/org/artoolkitx/arx/unity/UnityCameraEventListener.java:58-70 | all five geometry values are recorded and one init for source 0 is issued with the front-facing flag as 1 or 0; exactly when the answer is non-zero a second call follows, and it is the init-failed error log; firstUpdate is untouched |
| UnityCameraEventListener.StreamFrame | Source/Extra/arunityX_java/arunityX_Android_Player/arunityXPlayer/src/main/java/org/artoolkitx/arx/unity/UnityCameraEventListener.java:72-106 | during the first update either overload issues an init for source 0 and stays in the first update exactly when the answer is negative; afterwards a packed frame goes to convertAndDetect1 and a planar one to convertAndDetect2, arguments unchanged |
| UnityCameraEventListener.StreamStopped | Source/Extra/arunityX_java/arunityX_Android_Player/arunityXPlayer/src/main/java/org/artoolkitx/arx/unity/UnityCameraEventListener.java:148-155 | exactly one push-final for source 0; the listener, firstUpdate included, is unchanged |
| UnityCameraEventListener.PositiveAnswerReadTwoWays | Source/Extra/arunityX_java/arunityX_Android_Player/arunityXPlayer/src/main/java/org/artoolkitx/arx/unity/UnityCameraEventListener.java:66-79 | a positive init answer is logged as a failure at stream start (the != 0 test) but ends the first update when it comes on a frame (the < 0 test) |
| UnityCameraEventListener.RestartSkipsFrameInit | Source/Extra/arunityX_java/arunityX_Android_Player/arunityXPlayer/src/main/java/org/artoolkitx/arx/unity/UnityCameraEventListener.java:58-70 | neither stopping nor restarting a stream reopens the gate: after a stop and a new start, the first frame is forwarded without a frame-time init |
| CameraEventListenerUnityImpl.StreamStarted | Source/Extras/arunityX_java/arunityX_Android_Player/arunityXPlayer/src/main/java/org/artoolkitx/arx/unity/CameraEventListenerUnityImpl.java:58-73 | the geometry is recorded and onlyPushVideo is called once; the first update ends when that call answers false (success); exactly when it answers true a second call follows, and it is the init-failed error log |
| CameraEventListenerUnityImpl.StreamFrame | Source/Extras/arunityX_java/arunityX_Android_Player/arunityXPlayer/src/main/java/org/artoolkitx/arx/unity/CameraEventListenerUnityImpl.java:75-101 | during the first update a frame retries onlyPushVideo with the recorded geometry and the gate stays closed exactly when it fails; afterwards a packed frame goes to convert1 and a planar one to convert, arguments unchanged |
| CameraEventListenerUnityImpl.StreamStopped | Source/Extras/arunityX_java/arunityX_Android_Player/arunityXPlayer/src/main/java/org/artoolkitx/arx/unity/CameraEventListenerUnityImpl.java:103-108 | exactly one onlyFinal call; the listener is unchanged |
| CameraEventListenerUnityImpl.EagerInitForwardsFirstFrame | Source/Extras/arunityX_java/arunityX_Android_Player/arunityXPlayer/src/main/java/org/artoolkitx/arx/unity/CameraEventListenerUnityImpl.java:67-87 | after a successful eager init at stream start, the very first frame is forwarded |
| WebcamSource.ReverseRowsAt | Packages/artoolkitX-Unity/Runtime/Scripts/ARXUnityVideoSourceWebCamTexture.cs:148-156 | the flip the source performs sends pixel (r, c) to pixel (h-1-r, c): the top row of the pushed image is the bottom row Unity gives |
| WebcamSource.ReverseRowsInvolution | Packages/artoolkitX-Unity/Runtime/Scripts/ARXUnityVideoSourceWebCamTexture.cs:148-156 | flipping an image's rows twice gives the image back |
| WebcamSource.MiddleRowFixed | Packages/artoolkitX-Unity/Runtime/Scripts/ARXUnityVideoSourceWebCamTexture.cs:151 | for an odd height the loop stops before h/2, so the middle row stays in place |
| WebcamSource.FlipRows | Packages/artoolkitX-Unity/Runtime/Scripts/ARXUnityVideoSourceWebCamTexture.cs:149-156 | the in-place exchange of rows i and h-1-i for i < h/2, through a one-row temporary, produces exactly the reversed-rows image |
| WebcamSource.Fresh | Packages/artoolkitX-Unity/Runtime/Scripts/ARXUnityVideoSourceWebCamTexture.cs:56-61 | a new source has no controller, no webcam, no pool and is not initialised |
| WebcamSource.OnVideoStart | Packages/artoolkitX-Unity/Runtime/Scripts/ARXUnityVideoSourceWebCamTexture.cs:63-75 | a second start while a controller is attached is refused and changes nothing; otherwise the source attaches, gets a playing webcam and will re-initialise |
| WebcamSource.FirstFree | Packages/artoolkitX-Unity/Runtime/Scripts/ARXUnityVideoSourceWebCamTexture.cs:129-138 | the slot chosen is the lowest-numbered free one, and -1 exactly when every slot is checked out |
| WebcamSource.NewPool | Packages/artoolkitX-Unity/Runtime/Scripts/ARXUnityVideoSourceWebCamTexture.cs:102-108 | initialisation allocates two free slots of w*h pixels each |
| WebcamSource.Update | Packages/artoolkitX-Unity/Runtime/Scripts/ARXUnityVideoSourceWebCamTexture.cs:82-173 | no controller or webcam fails with no call; a webcam not playing or still at the 16x16 not-ready size waits successfully; init is pushed only from an uninitialised source; a successful push leaves its slot checked out; the pool keeps two slots once initialised |
| WebcamSource.OnVideoUpdate | Packages/artoolkitX-Unity/Runtime/Scripts/ARXUnityVideoSourceWebCamTexture.cs:82-173 | the imperative update, with the flip done in place, agrees with the functional update on every input |
| WebcamSource.Release | Packages/artoolkitX-Unity/Runtime/Scripts/ARXUnityVideoSourceWebCamTexture.cs:160-164 | the release callback frees exactly the slot it names and leaves every other slot and the flags alone |
| WebcamSource.OnVideoStop | Packages/artoolkitX-Unity/Runtime/Scripts/ARXUnityVideoSourceWebCamTexture.cs:180-198 | a stop is ignored unless the webcam is playing; otherwise the controller and webcam are dropped, and an initialised source also pushes final and drops its pool |
| WebcamSource.PushThenReleaseRestoresPool | Packages/artoolkitX-Unity/Runtime/Scripts/ARXUnityVideoSourceWebCamTexture.cs:129-172 | a new frame goes into the first free slot as one push of the flipped image; it succeeds exactly when the native push does not fail, and its release puts the pool back as it was |
| WebcamSource.FullPoolDropsFrame | Packages/artoolkitX-Unity/Runtime/Scripts/ARXUnityVideoSourceWebCamTexture.cs:139-143 | with both slots checked out a new frame is dropped: no push and a failed update |
| WebcamSource.InitialisationAllocatesPool | Packages/artoolkitX-Unity/Runtime/Scripts/ARXUnityVideoSourceWebCamTexture.cs:93-122 | a ready webcam first pushes init with the frame's size, RGBA and the unknown position, allocating two slots; a refused init leaves the source uninitialised so the next update retries |
| WebcamSource.IdleStopBlocksRestart | Packages/artoolkitX-Unity/Runtime/Scripts/ARXUnityVideoSourceWebCamTexture.cs:180-185 | a stop while the webcam is not playing keeps the controller attached, so the next start is refused |
| WebcamSource.StopThenStart | Packages/artoolkitX-Unity/Runtime/Scripts/ARXUnityVideoSourceWebCamTexture.cs:180-198 | stopping a playing, initialised source pushes final, returns it to the fresh state, and a new start succeeds |
| ArxTrackable.Fresh | Packages/artoolkitX-Unity/Runtime/Scripts/ARXTrackable.cs:113-246 | a new component has no UID, the 2D type, the default options, and is neither visible, loading, in error nor waiting on an unpack |
| ArxTrackable.Set | Packages/artoolkitX-Unity/Runtime/Scripts/ARXTrackable.cs:677-755 | a setter always stores its value and forwards it natively exactly when the trackable has a UID, is not loading and the option fits its type (continuous pose for square types, scale for NFT, filters for all) |
| ArxTrackable.SetAllWhileLoading | Packages/artoolkitX-Unity/Runtime/Scripts/ARXTrackable.cs:677-755 | while a load is in progress, re-applying the stored options forwards nothing and changes nothing |
| ArxTrackable.SetAllForwards | Packages/artoolkitX-Unity/Runtime/Scripts/ARXTrackable.cs:677-755 | outside a load, a run of setters forwards exactly the settings whose type fits, in order, and no others |
| ArxTrackable.LoadFailed | Packages/artoolkitX-Unity/Runtime/Scripts/ARXTrackable.cs:542-547 | a failed load raises the error flag and ends the load, leaving the rest of the component alone |
| ArxTrackable.LoadNativeDropsOptions | Packages/artoolkitX-Unity/Runtime/Scripts/ARXTrackable.cs:507-540 | as written, the options re-applied after the add run while the loading flag is still set, so the add is the only native call and no stored option is sent |
| ArxTrackable.LoadNativeForwardingSendsOptions | Packages/artoolkitX-Unity/Runtime/Scripts/ARXTrackable.cs:507-540 | the corrected load reaches the same state and, after a successful add, forwards exactly the stored options that fit the type; a NO_ID answer is a failure with only the add sent |
| ArxTrackable.ForwardingSendsFilter | Packages/artoolkitX-Unity/Runtime/Scripts/ARXTrackable.cs:524 | after a successful corrected load the stored filter flag is always sent, since filtering applies to every type |
| ArxTrackable.FilteredSquareExample | Packages/artoolkitX-Unity/Runtime/Scripts/ARXTrackable.cs:426-540 | a filtered square marker: the load as written sends the add alone, so filtering is never switched on natively; the corrected load follows the add with the filter call |
| ArxTrackable.UncachedNftFiles | Packages/artoolkitX-Unity/Runtime/Scripts/ARXTrackable.cs:465-476 | the NFT files to unpack are among the dataset name with each of its extensions, none of them already cached |
| ArxTrackable.PlanFrom | Packages/artoolkitX-Unity/Runtime/Scripts/ARXTrackable.cs:428-504 | a load fails exactly when its type's data is missing (pattern, multi-marker file, NFT name, image) or the type is unknown; it unpacks only when assets must be unpacked, with a non-empty list of uncached files |
| ArxTrackable.LoadPlanAsWritten | Packages/artoolkitX-Unity/Runtime/Scripts/ARXTrackable.cs:428-504 | the branches as written fail under the same conditions as the corrected branches |
| ArxTrackable.LoadPlan | Packages/artoolkitX-Unity/Runtime/Scripts/ARXTrackable.cs:428-504 | the corrected branches fail exactly when the type's data is missing |
| ArxTrackable.LoadPlanReadsFromCache | Packages/artoolkitX-Unity/Runtime/Scripts/ARXTrackable.cs:451-498 | with the correction, every file handed to the native side comes from the cache exactly when assets must be unpacked, and unpacking is started only for files not yet cached |
| ArxTrackable.CachedImageReadFromArchive | Packages/artoolkitX-Unity/Runtime/Scripts/ARXTrackable.cs:493-498 | as written, a 2D image already in the cache on an unpacking platform is still handed over by its streaming-assets path |
| ArxTrackable.Load | Packages/artoolkitX-Unity/Runtime/Scripts/ARXTrackable.cs:409-505 | as written: a load is a no-op with a UID assigned, a controller not ready or a load already running; otherwise missing data is a load error, an uncached file starts an unpack and keeps the load open, and an immediate add of the configuration the branches as written build (a cached multi-marker file or 2D image still named by its streaming-assets path) sets the UID from the native answer and is the only native call |
| ArxTrackable.LoadCorrected | Packages/artoolkitX-Unity/Runtime/Scripts/ARXTrackable.cs:409-540 | with both corrections the same guards and failures hold; cached files are named by their cache path, and a successful add is followed by exactly the stored options that fit the type |
| ArxTrackable.CachedConfig | Packages/artoolkitX-Unity/Runtime/Scripts/ARXTrackable.cs:451-498 | the configuration an unpack callback adds names the temporary cache: the unpacked multi-marker file, the NFT dataset, or the 2D image with its width in millimetres |
| ArxTrackable.UnpackFinished | Packages/artoolkitX-Unity/Runtime/Scripts/ARXTrackable.cs:451-498 | as written: when the unpack finishes, success adds the pending configuration from the cache and that add is the only native call; failure ends the load in error; without a pending unpack nothing happens |
| ArxTrackable.UnpackFinishedCorrected | Packages/artoolkitX-Unity/Runtime/Scripts/ARXTrackable.cs:451-540 | the corrected callback: success adds the cached configuration and then forwards the stored options that fit the type; failure and the missing unpack behave as written |
| ArxTrackable.Unload | Packages/artoolkitX-Unity/Runtime/Scripts/ARXTrackable.cs:624-642 | unloading does nothing without a UID or during a load; otherwise the UID, error, patterns and visibility are reset, and the native remove is sent exactly when the controller is ready |
| ArxTrackable.UnloadIdempotent | Packages/artoolkitX-Unity/Runtime/Scripts/ARXTrackable.cs:624-642 | unloading a second time changes nothing and sends nothing |
| ArxTrackable.UnloadUndoesLoad | Packages/artoolkitX-Unity/Runtime/Scripts/ARXTrackable.cs:409-642 | unloading right after a synchronous load returns the component to its state before the load; the load sends the add alone and the unload the remove of the UID it gave |
| ArxTrackable.Update | Packages/artoolkitX-Unity/Runtime/Scripts/ARXTrackable.cs:551-621 | outside the player or during a load nothing happens; otherwise the lazy load runs first and its state and calls are kept, followed by at most one edge; the trackable is visible only when the controller is ready, it has a UID and the native query says so; Found is fired exactly on a hidden-to-visible change and Lost on the reverse |
| ArxTrackable.LoadHasNoEdges | Packages/artoolkitX-Unity/Runtime/Scripts/ARXTrackable.cs:409-505 | loading never fires Found or Lost and never changes visibility |
| ArxTrackable.UpdateEdges | Packages/artoolkitX-Unity/Runtime/Scripts/ARXTrackable.cs:613-618 | the edges one update fires lead from the old visibility to the new one |
| ArxTrackable.RunEdgesAlternate | Packages/artoolkitX-Unity/Runtime/Scripts/ARXTrackable.cs:551-621 | over any run of frames Found and Lost alternate, starting with Found exactly when the trackable starts hidden, and the last edge agrees with the final visibility |
| ArxTrackable.Reconfigure | Packages/artoolkitX-Unity/Runtime/Scripts/ARXTrackable.cs:134-204 | each reconfiguration unloads first, so a loaded trackable's remove is the first native call; the result is then exactly the load of the reconfigured, unloaded trackable with its load error cleared, whose events follow the unload's |
| ArxTrackable.ConfigureAsTwoD | Packages/artoolkitX-Unity/Runtime/Scripts/ARXTrackable.cs:134-142 | reconfigures as 2D; the image path is replaced only by a non-empty one and the width only by a positive one; options survive; the result is the unload followed by the load of that 2D configuration with the load error cleared |
| ArxTrackable.ConfigureAsSquarePattern | Packages/artoolkitX-Unity/Runtime/Scripts/ARXTrackable.cs:156-168 | reconfigures as a square pattern; a given path sets the file name and the pattern's lines joined by spaces, no path keeps both; the width is replaced only by a positive one; the result is the unload followed by the load of that configuration with the load error cleared |
| ArxTrackable.ConfigureAsSquareBarcode | Packages/artoolkitX-Unity/Runtime/Scripts/ARXTrackable.cs:169-177 | reconfigures as a barcode; the non-negative test always passes for an unsigned ID, so the ID is always replaced; the width only by a positive one; the result is the unload followed by the load of that configuration with the load error cleared |
| ArxTrackable.ConfigureAsMultiSquare | Packages/artoolkitX-Unity/Runtime/Scripts/ARXTrackable.cs:182-189 | reconfigures as a multi-marker; the file is replaced only by a non-empty path; the result is the unload followed by the load of that configuration with the load error cleared |
| ArxTrackable.ConfigureAsNFT | Packages/artoolkitX-Unity/Runtime/Scripts/ARXTrackable.cs:197-204 | reconfigures as NFT; the dataset name is replaced only by a non-empty one; the result is the unload followed by the load of that configuration with the load error cleared |
| ArxTrackable.ConfigureAsTwoDReloads | Packages/artoolkitX-Unity/Runtime/Scripts/ARXTrackable.cs:134-142 | reconfiguring a loaded trackable removes it first; with an image and nothing to unpack the add of the streaming-assets image follows at once, alone, and the new UID is taken; with no image the load ends in error after the remove alone |
| ArxTrackable.ParseULong | Packages/artoolkitX-Unity/Runtime/Scripts/ARXTrackable.cs:336-340 | like `ulong.TryParse`, surrounding white space and one leading plus are accepted; the text of a digit run parses exactly when its value fits in 64 unsigned bits, and to that value; blank text does not parse |
| ArxTrackable.ParseULongPadded | Packages/artoolkitX-Unity/Runtime/Scripts/ARXTrackable.cs:336-340 | every value up to 2^64-1, written in decimal with optional white space around it and an optional plus, parses back to itself |
| ArxTrackable.ParseULongRejectsStray | Packages/artoolkitX-Unity/Runtime/Scripts/ARXTrackable.cs:336-340 | a character that is neither white space, a digit nor a plus sign anywhere in the text makes the parse fail |
| ArxTrackable.AutoCreatedTrackable | Packages/artoolkitX-Unity/Runtime/Scripts/ARXTrackable.cs:327-342 | the auto-created component takes the native UID and type; square types take the native width in metres, a barcode takes the parsed ID when it parses and otherwise keeps 0 |
| ArxTrackable.FirstWithUid | Packages/artoolkitX-Unity/Runtime/Scripts/ARXTrackable.cs:348-355 | the component found is the first in scene order with the UID, and -1 exactly when none has it |
| ArxTrackable.NotOnKeeps | Packages/artoolkitX-Unity/Runtime/Scripts/ARXTrackable.cs:353 | destroying a GameObject keeps exactly the components that are neither on it nor on one of its descendants, in order |
| ArxTrackable.NotOnTakesChildren | Packages/artoolkitX-Unity/Runtime/Scripts/ARXTrackable.cs:353 | destroying a GameObject removes the components of its children too and keeps those of its parent and siblings |
| ArxTrackable.AutoCreateAppends | Packages/artoolkitX-Unity/Runtime/Scripts/ARXTrackable.cs:321-344 | auto-creation before the controller is ready does nothing; otherwise one component with the new UID is appended on the controller's GameObject and announced; other event types do nothing |
| ArxTrackable.ComponentOnlyRemovesFirstMatch | Packages/artoolkitX-Unity/Runtime/Scripts/ARXTrackable.cs:345-357 | the corrected auto-removal takes out exactly the first component with the UID and keeps the rest in order and the controller; with no match nothing happens |
| ArxTrackable.AutoRemoveTakesSiblings | Packages/artoolkitX-Unity/Runtime/Scripts/ARXTrackable.cs:321-357 | as written, removing one of two auto-created trackables also destroys the other and the controller, since all three sit on the controller's GameObject |
| ArxTrackable.OnTrackableEvent | Packages/artoolkitX-Unity/Runtime/Scripts/ARXTrackable.cs:321-357 | nothing happens for another event type or without an inited controller; creation appends the auto-created component on the controller's GameObject and announces it; removal with no match does nothing, and with a match keeps exactly the components off the first match's GameObject subtree, clears the controller exactly when its GameObject is in that subtree, and announces the removal |
| ArxTrackable.AutoRemoveDestroysSubtree | Packages/artoolkitX-Unity/Runtime/Scripts/ARXTrackable.cs:345-355 | after removal with a match, the matched component is gone, every survivor was in the scene and lies off the destroyed subtree, and every component off that subtree survives |
| ArxTrackable.OnDisable | Packages/artoolkitX-Unity/Runtime/Scripts/ARXTrackable.cs:363-367 | disabling the component unloads it |
| TrackableCore.TypeFromCode | Packages/artoolkitX-Unity/Runtime/Scripts/ARXTrackable.cs:59-67 | the cast from a native type code gives a declared type exactly for codes -1 to 4, and every code comes back from the type it gives |
| TrackableCore.TypeCodeRoundTrip | Packages/artoolkitX-Unity/Runtime/Scripts/ARXTrackable.cs:59-67 | each declared trackable type survives the trip through its native code |
| TrackableCore.DefaultOptions | Packages/artoolkitX-Unity/Runtime/Scripts/ARXTrackable.cs:212-220 | the serialised options start with continuous pose estimation and filtering off, a 30 Hz sample rate, a 15 Hz cutoff and an NFT scale of 1 |
| TrackableCore.StoreThenGet | Packages/artoolkitX-Unity/Runtime/Scripts/ARXTrackable.cs:677-755 | an option's getter returns what its setter last stored, and a setter leaves every other option alone |
| TrackableCore.StoreStoredUnchanged | Packages/artoolkitX-Unity/Runtime/Scripts/ARXTrackable.cs:677-755 | storing the value a getter returns changes nothing |
| TrackableCore.NativeSet | Packages/artoolkitX-Unity/Runtime/Scripts/ARXTrackable.cs:69-85 | a forwarded setting goes to the trackable's own UID, as a boolean call for filtering and continuous pose estimation and as a float call otherwise |
| TrackableCore.NativeSetDistinguishes | Packages/artoolkitX-Unity/Runtime/Scripts/ARXTrackable.cs:69-85 | different options travel under different option codes |
| TrackableCore.ForwardedCalls | Packages/artoolkitX-Unity/Runtime/Scripts/ARXTrackable.cs:677-755 | a run of setters on a loaded trackable forwards only option calls to its UID, every setting when all fit the type and none when none do |
| TrackableCore.ForwardedCallsContain | Packages/artoolkitX-Unity/Runtime/Scripts/ARXTrackable.cs:677-755 | every setting in a run that fits the type reaches the native side |
| TrackableCore.ReappliedSettings | Packages/artoolkitX-Unity/Runtime/Scripts/ARXTrackable.cs:519-526 | a load re-applies all five stored options, each with its current value, so re-applying stores nothing new |
| TrackableCore.FiltersForwarded | Packages/artoolkitX-Unity/Runtime/Scripts/ARXTrackable.cs:523-526 | the three filter settings are forwarded whatever the type |
| TrackableCore.PatternsAfterAdd | Packages/artoolkitX-Unity/Runtime/Scripts/ARXTrackable.cs:528-536 | the pattern array is replaced by one of the native count when that count is positive and kept otherwise |
| TrackableCore.DataFolder | Source/Package/Assets/artoolkitX-Unity/Scripts/ARTrackable.cs:208-221 | without an archive the data is read from streaming assets; with one, from the cache exactly when every file unpacks, and from nowhere when one fails |
| TrackableCore.DataFolderOfOne | Source/Package/Assets/artoolkitX-Unity/Scripts/ARTrackable.cs:274-297 | a one-file type has a folder exactly when there is no archive or its file unpacks |
| TrackableCore.NftFiles | Source/Package/Assets/artoolkitX-Unity/Scripts/ARTrackable.cs:300-313 | an NFT dataset is its name with each of the three extensions iset, fset and fset3 |
| TrackableCore.ConfigurationDecided | Source/Package/Assets/artoolkitX-Unity/Scripts/ARTrackable.cs:255-340 | a configuration string exists exactly when the type's data is named and, with an archive, unpacked; a multi-marker or NFT configuration names its own file in the cache when unpacking was needed and in streaming assets otherwise |
| TrackableCore.MarkerReappliedSettings | Source/Package/Assets/artoolkitX-Unity/Scripts/ARTrackable.cs:354-361 | the older components re-apply continuous pose estimation, the three filters and then the NFT scale, each with its current value |
| TrackableCore.MarkerForwardedCallsSquare | Source/Package/Assets/artoolkitX-Unity/Scripts/ARTrackable.cs:354-357 | after adding a square or barcode marker the older components forward continuous pose estimation and then the three filter options |
| TrackableCore.MarkerForwardedCallsNft | Source/Package/Assets/artoolkitX-Unity/Scripts/ARTrackable.cs:355-361 | after adding an NFT marker the older components forward the three filter options and then the NFT scale |
| TrackableCore.MarkerForwardedFilters | Source/Package/Assets/artoolkitX-Unity/Scripts/ARTrackable.cs:355-361 | after continuous pose estimation come the filter options and then the NFT scale only for an NFT marker |
| TrackableCore.MarkerPatternsAfterAdd | Source/Package/Assets/artoolkitX-Unity/Scripts/ARTrackable.cs:359-379 | NFT and 2D trackables of the older components keep their pattern array; other types take the native count when positive |
| TrackableCore.FileName | Packages/artoolkitX-Unity/Runtime/Scripts/ARXTrackable.cs:162 | the file name of a path is its longest suffix without a slash or backslash: it is preceded by a separator unless it is the whole path |
| LegacyArxTrackable.Fresh | Source/Package/Assets/artoolkitX-Unity/Scripts/ARXTrackable.cs:110-227 | a new component is enabled, without a UID, error, patterns or visibility, of the 2D type with the default options |
| LegacyArxTrackable.ConfigOf | Source/Package/Assets/artoolkitX-Unity/Scripts/ARXTrackable.cs:374-458 | this variant has no configuration string exactly when its type's data is missing or cannot be unpacked from the archive |
| LegacyArxTrackable.Load | Source/Package/Assets/artoolkitX-Unity/Scripts/ARXTrackable.cs:356-493 | a disabled component, one with a UID or an uninitialised plugin does nothing, and so does a missing configuration; otherwise the add is sent first, the UID is the native answer, NO_ID is the only load error, and a real UID is followed by every stored option that fits the type; nothing but the UID, error and patterns changes |
| LegacyArxTrackable.LoadForwardsOptions | Source/Package/Assets/artoolkitX-Unity/Scripts/ARXTrackable.cs:470-478 | every stored option that fits the type reaches a trackable the native side accepted |
| LegacyArxTrackable.Set | Source/Package/Assets/artoolkitX-Unity/Scripts/ARXTrackable.cs:605-695 | a setter always stores its value and forwards it exactly when the trackable has a UID and the option fits its type |
| LegacyArxTrackable.SetGatedByType | Source/Package/Assets/artoolkitX-Unity/Scripts/ARXTrackable.cs:661-695 | on a loaded trackable, continuous pose estimation is held back from non-square types, the NFT scale from non-NFT types, and each filter option is always sent once |
| LegacyArxTrackable.Unload | Source/Package/Assets/artoolkitX-Unity/Scripts/ARXTrackable.cs:546-564 | without a UID nothing happens; otherwise the UID, error and patterns are reset, the native remove is sent only while the plugin is inited, and visibility is left as it was |
| LegacyArxTrackable.UnloadUndoesLoad | Source/Package/Assets/artoolkitX-Unity/Scripts/ARXTrackable.cs:356-564 | a load then an unload gives the component back with the error cleared; the native side sees the add first and the remove of the given UID last |
| LegacyArxTrackable.Update | Source/Package/Assets/artoolkitX-Unity/Scripts/ARXTrackable.cs:497-543 | outside the player nothing changes; without an inited plugin the trackable is hidden; otherwise it loads lazily unless a load failed and is visible exactly when it has a UID and the native query says so |
| LegacyArxTrackable.UpdateHidesUnloaded | Source/Package/Assets/artoolkitX-Unity/Scripts/ARXTrackable.cs:507-540 | a trackable left without a UID after an update is never visible |
| LegacyArxTrackable.MissingConfigRetried | Source/Package/Assets/artoolkitX-Unity/Scripts/ARXTrackable.cs:460-491 | a configuration that cannot be built leaves no error, so the next update tries again; a native refusal sets the error and stops further loads |
| LegacyArxTrackable.Apply | Source/Package/Assets/artoolkitX-Unity/Scripts/ARXTrackable.cs:137-208 | a reconfiguration sets the type, replaces paths and names only by non-empty ones and widths only by positive ones, always replaces the barcode ID, and leaves the UID, options and enabled flag alone |
| LegacyArxTrackable.DataOfApply | Source/Package/Assets/artoolkitX-Unity/Scripts/ARXTrackable.cs:137-208 | what a reconfiguration does to the configuration data depends only on that data |
| LegacyArxTrackable.ApplySameData | Source/Package/Assets/artoolkitX-Unity/Scripts/ARXTrackable.cs:137-208 | two components with the same configuration data still have the same data after the same reconfiguration |
| LegacyArxTrackable.Configure | Source/Package/Assets/artoolkitX-Unity/Scripts/ARXTrackable.cs:137-208 | a reconfiguration removes a loaded trackable first, keeps the options, and then a load with data takes the new native UID, an error exactly for NO_ID; a disabled component ends unloaded without error |
| LegacyArxTrackable.OnDisable | Source/Package/Assets/artoolkitX-Unity/Scripts/ARXTrackable.cs:319-323 | disabling the component leaves it without a UID and with its visibility unchanged |
| ArTrackable.Adopt | Source/Package/Assets/artoolkitX-Unity/Scripts/ARTrackable.cs:238-245 | a component with no plugin functions takes the controller's when a controller exists; one that has its own keeps them |
| TrackableCore.MetresConfiguration | Source/Package/Assets/artoolkitX-Unity/Scripts/ARTrackable.cs:258-340 | the older components have no configuration string exactly when the type's data is missing or cannot be unpacked, and write the 2D width in metres as given |
| ArTrackable.Load | Source/Package/Assets/artoolkitX-Unity/Scripts/ARTrackable.cs:226-386 | the answer is -1 exactly for a disabled component, 1 exactly when it has a UID or ready plugin functions, and 0 when it has neither, queued exactly when asked; asked to queue with no controller in the scene it throws instead of answering, leaving the component as it was; an add sends the configuration first, takes the native UID and then forwards continuous pose estimation, the filters and the NFT scale as the type admits |
| ArTrackable.RefusedLoadReportsSuccess | Source/Package/Assets/artoolkitX-Unity/Scripts/ARTrackable.cs:345-349 | a native refusal still answers 1 and leaves no UID and nothing that stops the next attempt |
| ArTrackable.LoadForwardOrder | Source/Package/Assets/artoolkitX-Unity/Scripts/ARTrackable.cs:354-361 | after an add, an NFT marker's last forwarded option is its scale and a square marker's first is continuous pose estimation |
| ArTrackable.Unload | Source/Package/Assets/artoolkitX-Unity/Scripts/ARTrackable.cs:436-453 | without a UID nothing happens; otherwise the UID and patterns are reset, and the native remove is sent exactly when the plugin functions are inited |
| ArTrackable.UnloadUndoesLoad | Source/Package/Assets/artoolkitX-Unity/Scripts/ARTrackable.cs:226-453 | unloading what a load just added restores the component and removes the UID the native side gave |
| ArTrackable.SetType | Source/Package/Assets/artoolkitX-Unity/Scripts/ARTrackable.cs:126-141 | setting the same type does nothing; a new type unloads (the remove comes first for a loaded trackable), stores the type and loads again with queueing: the component, calls and queueing are exactly the unload's followed by that load's, so the setter throws exactly when the component is enabled, has no ready plugin functions and no controller exists, and with ready functions and a complete configuration the add of the new configuration follows the remove and the new UID is taken |
| ArTrackable.SetTypeBack | Source/Package/Assets/artoolkitX-Unity/Scripts/ARTrackable.cs:126-141 | changing the type and changing it back leaves the configuration data as it was |
| ArTrackable.SetPluginFunctions | Source/Package/Assets/artoolkitX-Unity/Scripts/ARTrackable.cs:92-108 | null unloads through the old functions and then drops them; non-null functions are stored first and then used to load, so an inited plugin adds the configuration at once, and the setter throws exactly when an enabled component without a UID is given uninited functions with no controller in the scene |
| ArTrackable.Update | Source/Package/Assets/artoolkitX-Unity/Scripts/ARTrackable.cs:391-433 | outside the player nothing changes; in it the component is visible exactly when it has a UID, inited plugin functions and the native query says so |
| ArTrackable.UpdateNeverLoads | Source/Package/Assets/artoolkitX-Unity/Scripts/ARTrackable.cs:402-406 | a component without a UID stays unloaded and hidden across updates |
| ArTrackable.Set | Source/Package/Assets/artoolkitX-Unity/Scripts/ARTrackable.cs:496-588 | a setter always stores its value and forwards it exactly when the component has a UID and the option fits its type |
| ArMarker.Awake | Source/Package/Assets/artoolkitX-Unity/Scripts/ARMarker.cs:155-159 | waking the marker clears its UID and nothing else |
| ArMarker.Load | Source/Package/Assets/artoolkitX-Unity/Scripts/ARMarker.cs:191-334 | a disabled or loaded marker, an uninitialised plugin or a missing configuration does nothing; otherwise the add comes first, the UID is the native answer, a refusal changes nothing else, and an accepted marker gets every stored option its type admits; only the UID and patterns change |
| ArMarker.LoadSetsFilters | Source/Package/Assets/artoolkitX-Unity/Scripts/ARMarker.cs:304-307 | a loaded marker of any type has its three filter options set natively |
| ArMarker.Unload | Source/Package/Assets/artoolkitX-Unity/Scripts/ARMarker.cs:373-389 | without a UID nothing happens; otherwise the UID and patterns are reset, and the native remove is sent exactly when the plugin is inited |
| ArMarker.UnloadUndoesLoad | Source/Package/Assets/artoolkitX-Unity/Scripts/ARMarker.cs:191-389 | unloading what a load just added gives the marker back and removes the given UID |
| ArMarker.Update | Source/Package/Assets/artoolkitX-Unity/Scripts/ARMarker.cs:339-370 | a marker without a UID or with the plugin not inited is hidden, in play mode or not; in play mode a loaded marker shows the native answer; otherwise it keeps its visibility |
| ArMarker.UpdateVisibleMeansLoaded | Source/Package/Assets/artoolkitX-Unity/Scripts/ARMarker.cs:339-370 | after any update a visible marker is loaded and the plugin inited |
| ArMarker.Set | Source/Package/Assets/artoolkitX-Unity/Scripts/ARMarker.cs:431-514 | a setter always stores its value and forwards it exactly when the marker is loaded and the option fits its type |
| ArMarker.SetStoresEvenUnloaded | Source/Package/Assets/artoolkitX-Unity/Scripts/ARMarker.cs:431-514 | on an unloaded marker a setter makes no native call yet the getter returns the value set |
| Origin.AddTrackable | Runtime/Scripts/ARXOrigin.cs:83-90 | adding puts the trackable at the front when asked and at the back otherwise, keeping the other entries in order and the base as it was |
| Origin.RemoveTrackable | Runtime/Scripts/ARXOrigin.cs:92-96 | removing drops the first occurrence only, forgets the base if it is the one removed, and answers whether the list held it |
| Origin.RemoveAllTrackables | Runtime/Scripts/ARXOrigin.cs:98-102 | clearing empties the list and forgets the base; it also runs on quitting |
| Origin.KeepFound | Runtime/Scripts/ARXOrigin.cs:108-113 | the search keeps exactly the found trackables the mode admits: all in AutoAll, those whose tag is listed in AutoByTags |
| Origin.FindTrackables | Runtime/Scripts/ARXOrigin.cs:104-126 | a search (also run at start) forgets the base; Manual leaves the list empty, AutoAll lists every trackable found in the order found, AutoByTags exactly the found ones whose tag is listed |
| Origin.SetFindMode | Runtime/Scripts/ARXOrigin.cs:70-81 | setting the current mode again does nothing; a new mode re-runs the search |
| Origin.FirstVisible | Runtime/Scripts/ARXOrigin.cs:135-141 | the scan stops at the first visible entry, every earlier entry being hidden |
| Origin.GetBaseTrackable | Runtime/Scripts/ARXOrigin.cs:129-144 | a visible cached base is kept; otherwise the base becomes the first visible eligible trackable, and there is none exactly when no eligible trackable is visible |
| Origin.GetBaseStable | Source/Package/Assets/artoolkitX-Unity/Scripts/AROrigin.cs:120-135 | asking for the base again with nothing changed gives the same answer |
| Origin.AddAtHeadBecomesBase | Source/Package/Assets/artoolkitX-Unity/Scripts/AROrigin.cs:79-135 | a visible trackable added at the head becomes the base unless a visible base is already cached |
| Origin.RemovedBaseNotChosen | src/Unity/Assets/ARToolKit5-Unity/Scripts/AROrigin.cs:88-136 | after removing a trackable listed once, the next base is never that trackable |
| Origin.ChosenIsBaseOrListed | Runtime/Scripts/ARXOrigin.cs:129-144 | the base chosen is always the cached base or an eligible trackable |
| TrackedObject.Notify | Packages/artoolkitX-Unity/Runtime/Scripts/ARXTrackedObject.cs:213-225 | a notification goes out once as a Unity event when the component has them and once as a broadcast when an event receiver is set |
| TrackedObject.Show | Packages/artoolkitX-Unity/Runtime/Scripts/ARXTrackedObject.cs:203-226 | a shown frame makes the content visible; the found notifications (and child activation) go out only on a hidden-to-visible change, the tracked ones on every shown frame |
| TrackedObject.Hide | Packages/artoolkitX-Unity/Runtime/Scripts/ARXTrackedObject.cs:228-252 | a hidden frame records the time on a visible-to-hidden change; the content stays up exactly while it was up and the grace period has not run out, and the lost notifications go out only when it comes down |
| TrackedObject.LostOncePerLoss | Packages/artoolkitX-Unity/Runtime/Scripts/ARXTrackedObject.cs:228-252 | a loss is reported once: the next hidden frame sends nothing whatever the time |
| TrackedObject.NoGraceLosesAtOnce | Packages/artoolkitX-Unity/Runtime/Scripts/ARXTrackedObject.cs:239-251 | with no grace period the first hidden frame after a visible one reports the loss |
| TrackedObject.RefoundWithinGrace | Packages/artoolkitX-Unity/Runtime/Scripts/ARXTrackedObject.cs:203-252 | a trackable back within the grace period reports found again although no loss was reported in between |
| TrackedObject.Run | Packages/artoolkitX-Unity/Runtime/Scripts/ARXTrackedObject.cs:153-201 | a run of frames applies each frame to the state the previous one left, concatenating their notifications |
| TrackedObject.StepBalance | Packages/artoolkitX-Unity/Runtime/Scripts/ARXTrackedObject.cs:203-252 | one frame sends lost only to close content that was up, and opens at most one pending loss with a found |
| TrackedObject.LostNeverOutnumbersFound | Packages/artoolkitX-Unity/Runtime/Scripts/ARXTrackedObject.cs:203-252 | over any run, lost events never outnumber found events plus content already up at the start |
| TrackedObject.FirstTagged | Packages/artoolkitX-Unity/Runtime/Scripts/ARXTrackedObject.cs:91-104 | the trackable looked up is the first in the scene search carrying the tag, and there is none exactly when no trackable carries it |
| TrackedObject.Cached | Packages/artoolkitX-Unity/Runtime/Scripts/ARXTrackedObject.cs:91-134 | a cached lookup keeps its cached answer and otherwise takes the search result |
| TrackedObject.FirstReferenceCamera | Packages/artoolkitX-Unity/Runtime/Scripts/ARXTrackedObject.cs:119-134 | the camera chosen is the first mono camera or left eye, and there is none exactly when every camera is a right eye |
| TrackedObject.SetTag | Packages/artoolkitX-Unity/Runtime/Scripts/ARXTrackedObject.cs:57-69 | a new tag drops the cached trackable and changes nothing else |
| TrackedObject.SetTagThenLookup | Packages/artoolkitX-Unity/Runtime/Scripts/ARXTrackedObject.cs:57-104 | after a new tag, the next lookup finds the first trackable carrying that tag |
| TrackedObject.ShowFrame | Packages/artoolkitX-Unity/Runtime/Scripts/ARXTrackedObject.cs:175-194 | a placed frame records its pose reference and the shown-frame notifications |
| TrackedObject.HideFrame | Source/Package/Assets/artoolkitX-Unity/Scripts/ARTrackedObject.cs:184-200 | an unplaced frame of the older components carries the hidden-frame notifications and no pose |
| TrackedObject.ArxHide | Packages/artoolkitX-Unity/Runtime/Scripts/ARXTrackedObject.cs:228-252 | the newer component reads the clock only while something is showing and uses 0 otherwise |
| TrackedObject.ArxHideIsHide | Packages/artoolkitX-Unity/Runtime/Scripts/ARXTrackedObject.cs:230 | reading 0 instead of the clock when nothing is showing changes nothing, since that time is neither recorded nor compared |
| TrackedObject.ArxUpdate | Packages/artoolkitX-Unity/Runtime/Scripts/ARXTrackedObject.cs:153-201 | outside the player nothing happens; with no tagged trackable the content is marked hidden without notification; with an origin the content is placed when the origin has a base and the trackable is visible, at the origin when it is the base; without an origin the first mono or left-eye camera is the reference, and without one the content is marked hidden |
| TrackedObject.ArxBaseAtOrigin | Packages/artoolkitX-Unity/Runtime/Scripts/ARXTrackedObject.cs:172-176 | a visible trackable that the origin already holds as its base is placed at the origin |
| TrackedObject.ArxFirstSightingActivates | Packages/artoolkitX-Unity/Runtime/Scripts/ARXTrackedObject.cs:203-226 | a first sighting activates the children and fires found, and the tracked notification is the frame's last |
| TrackedObject.LegacyUpdate | Source/Package/Assets/artoolkitX-Unity/Scripts/ARTrackedObject.cs:128-206 | the older component does nothing outside the player, without an origin or without a tagged trackable; otherwise it reads the clock and follows the base as the newer one does |
| TrackedObject.LegacyMissingTrackableKeepsContent | Source/Package/Assets/artoolkitX-Unity/Scripts/ARTrackedObject.cs:144-148 | when the tagged trackable is missing, the older component leaves showing content up while the newer one takes it down |
| TrackedObject.MarkerFoundMessages | src/Unity/Assets/ARToolKit5-Unity/Scripts/ARTrackedObject.cs:143-163 | the marker component broadcasts OnMarkerFound, activates its children and broadcasts OnMarkerTracked on a first sighting, with no Unity events |
| TrackedCamera.Start | Runtime/Scripts/ARXTrackedCamera.cs:110-118 | the camera's culling mask is captured only while none has been captured, and an earlier capture is kept |
| TrackedCamera.StartOnce | Source/Package/Assets/ARToolKit5-Unity/Scripts/ARTrackedCamera.cs:101-109 | starting twice captures the same mask as starting once |
| TrackedCamera.SetTag | Runtime/Scripts/ARXTrackedCamera.cs:68-80 | a new tag drops the cached trackable, so the next lookup searches again |
| TrackedCamera.GetTrackable | Runtime/Scripts/ARXTrackedCamera.cs:95-108 | a cached trackable is kept; otherwise the first trackable carrying the tag is cached |
| TrackedCamera.ApplyTracking | Runtime/Scripts/ARXTrackedCamera.cs:120-143 | content is rendered while the trackable is visible or within the grace period; the mask is restored with found, or cleared with lost, only when visibility differs from the previous apply, which then records visibility |
| TrackedCamera.ApplyTrackingOnShownEdge | Runtime/Scripts/ARXTrackedCamera.cs:120-143 | corrected: the mask and the found and lost notifications change exactly when the rendered state differs from the previous apply, which then records the rendered state |
| TrackedCamera.NoGraceAgrees | Runtime/Scripts/ARXTrackedCamera.cs:120-143 | with no grace period the as-written and corrected apply steps agree on every input |
| TrackedCamera.ArxUpdate | Packages/artoolkitX-Unity/Runtime/Scripts/ARXCamera.cs:381-389 | outside play mode or without a cached origin nothing happens; otherwise the tagged trackable's sighting updates the tracking state and the apply step runs |
| TrackedCamera.GraceLossNeverReported | Runtime/Scripts/ARXTrackedCamera.cs:120-143 | as written, a loss inside the grace period fires found again and the later end of the grace period fires no lost, leaving the content rendered while nothing is tracked |
| TrackedCamera.AbsorbedLossStaysUnreported | Source/Package/Assets/ARToolKit5-Unity/Scripts/ARTrackedCamera.cs:121-127 | as written, once a loss has been absorbed no later hidden frame reports it or clears the mask |
| TrackedCamera.GraceLossReported | Runtime/Scripts/ARXTrackedCamera.cs:120-143 | corrected, the same frames report the loss once the grace period ends and clear the mask |
| TrackedCamera.ShownEdgeEdges | Runtime/Scripts/ARXTrackedCamera.cs:120-143 | gated on the rendered state, found is among a frame's events exactly when the content starts being shown and lost exactly when it stops, and the edges lead from the old rendered state to the new one |
| TrackedCamera.FrameEdge | Runtime/Scripts/ARXTrackedCamera.cs:120-143 | corrected, one frame after the tracking update: found fires exactly on a hidden-to-shown change of the rendered state and lost exactly on the reverse |
| TrackedCamera.CorrectedFoundLostAlternate | Runtime/Scripts/ARXTrackedCamera.cs:120-143 | corrected, over any run found and lost alternate, starting with found exactly when the content was hidden, and the last of them agrees with the final rendered state |
| Camera.ContentModeNamesDistinct | Packages/artoolkitX-Unity/Runtime/Scripts/ARXCamera.cs:68-74 | the content-mode names table gives every mode its own name |
| Camera.CycleContentMode | Packages/artoolkitX-Unity/Runtime/Scripts/ARXCamera.cs:391-410 | a content-mode cycle step always moves to a different mode |
| Camera.CycleHasPeriodFour | Packages/artoolkitX-Unity/Runtime/Scripts/ARXCamera.cs:391-410 | four cycle steps return to the start after passing through all four modes |
| Camera.SetContentMode | Packages/artoolkitX-Unity/Runtime/Scripts/ARXCamera.cs:78-92 | the setter leaves the requested mode in place and writes only when it differs from the current one |
| Camera.UpdateTracking | Packages/artoolkitX-Unity/Runtime/Scripts/ARXCamera.cs:319-372 | an update notes the time and takes visibility from the sighting; the loss time changes only on, and always on, a visible-to-hidden change |
| Camera.UpdateTrackingKeepsOrder | Packages/artoolkitX-Unity/Runtime/Scripts/ARXCamera.cs:319-372 | with a clock that does not run backwards, the loss time never lies ahead of the last update |
| Camera.LossIsFresh | Packages/artoolkitX-Unity/Runtime/Scripts/ARXCamera.cs:363-367 | right after a loss, no time has passed since the loss |
| Camera.BaseOf | Packages/artoolkitX-Unity/Runtime/Scripts/ARXCamera.cs:311-316 | without an origin there is no trackable; with one it is the origin's base, with the origin's updated state |
| Camera.BaseIsVisible | Packages/artoolkitX-Unity/Runtime/Scripts/ARXCamera.cs:311-316 | whatever base the origin gives is visible, so the camera sees exactly when there is a base |
| Camera.Track | Packages/artoolkitX-Unity/Runtime/Scripts/ARXCamera.cs:319-380 | the camera moves exactly when the updated tracking state is visible, taking the pose from the matrix chosen for it |
| Camera.ArxUpdate | Packages/artoolkitX-Unity/Runtime/Scripts/ARXCamera.cs:381-389 | outside the player or with no cached origin nothing happens; otherwise the camera follows the origin's base, through the optical view when optical setup succeeded and else through the left or right video camera |
| Camera.GetOrigin | Packages/artoolkitX-Unity/Runtime/Scripts/ARXCamera.cs:301-308 | an origin found in the parent hierarchy is cached, and a cached one is kept |
| Camera.ArxUncachedOriginIgnored | Packages/artoolkitX-Unity/Runtime/Scripts/ARXCamera.cs:385-388 | a camera whose origin was never cached follows nothing, even in the player |
| Camera.LegacyUpdate | Source/Package/Assets/artoolkitX-Unity/Scripts/ARCamera.cs:243-254 | the older camera, in the player, looks up and caches its origin and follows its base, through the optical view or the left video camera |
| Camera.LegacyNoOriginLoses | Source/Package/Assets/artoolkitX-Unity/Scripts/ARCamera.cs:188-200 | without an origin a visible camera loses tracking at this update's time |
| Camera.SetupCamera | Source/Package/Assets/artoolkitX-Unity/Scripts/ARCamera.cs:114-166 | setup fails exactly when optical parameters are needed and do not load; optical output is reported exactly when they are needed and load |
| Camera.OpticalSetupUsesOpticalPose | Source/Package/Assets/artoolkitX-Unity/Scripts/ARCamera.cs:114-212 | after a setup that reported optical output the camera takes its pose through the optical view |
| Controller.Logged | Source/Package/Assets/artoolkitX-Unity/Scripts/ARController.cs:1937-1943 | the log keeps at most the last thousand entries and ends with the new message; below the limit nothing is dropped |
| Controller.AppendLog | Source/Package/Assets/artoolkitX-Unity/Scripts/ARController.cs:1937-1943 | appending and then dropping the oldest entry while over the limit gives the bounded log, never longer than the limit |
| Controller.LoggedDropsOnlyOldest | Source/Package/Assets/artoolkitX-Unity/Scripts/ARController.cs:1937-1943 | the new log is the old one with some oldest entries dropped and the message appended, order kept |
| Controller.OnApplicationPause | Source/Package/Assets/artoolkitX-Unity/Scripts/ARController.cs:501-520 | pausing a running session stops it and remembers to restart; resuming asks for a start exactly when that was remembered and forgets it |
| Controller.PauseResumeRestartsOnce | Source/Package/Assets/artoolkitX-Unity/Scripts/ARController.cs:501-520 | pause then resume restarts exactly once, however many pause notifications come in between |
| Controller.ResumeWithoutPauseIsQuiet | Source/Package/Assets/artoolkitX-Unity/Scripts/ARController.cs:512-519 | resuming with no session paused does nothing |
| Controller.GetVideoThreshold | Source/Package/Assets/artoolkitX-Unity/Scripts/ARController.cs:1119-1127 | while running the threshold is the native one, replaced by 100 when outside 0 to 255; otherwise the stored one |
| Controller.SetVideoThreshold | Source/Package/Assets/artoolkitX-Unity/Scripts/ARController.cs:1129-1136 | a set threshold is stored, and sent to the native side exactly while running |
| Controller.ThresholdSetThenGet | Source/Package/Assets/artoolkitX-Unity/Scripts/ARController.cs:1117-1137 | a threshold set while stopped reads back unchanged |
| Controller.SetContentMode | Source/Package/Assets/artoolkitX-Unity/Scripts/ARController.cs:1364-1381 | the content-mode setter stores the value and reconfigures viewports exactly when it changed while running |
| Controller.CycleContentMode | Source/Package/Assets/artoolkitX-Unity/Scripts/ARController.cs:1786-1804 | a cycle step moves to the next mode in the cycle and, the mode always changing, reconfigures a running controller |
| Controller.StopAR | Source/Package/Assets/artoolkitX-Unity/Scripts/ARController.cs:962-986 | stopping answers false and does nothing unless running; otherwise it stops natively whatever the answer, destroys the video background and clear camera, resets the sleep timeout and clears running |
| Controller.StopTwice | Source/Package/Assets/artoolkitX-Unity/Scripts/ARController.cs:962-986 | a second stop does nothing |
| Controller.Half | Source/Package/Assets/artoolkitX-Unity/Scripts/ARController.cs:1766-1774 | the centring halves truncate toward zero, landing within one of half the margin |
| Controller.Scaled | Source/Package/Assets/artoolkitX-Unity/Scripts/ARController.cs:1743-1751 | Fit stays within the screen and meets one of its edges; Fill covers the screen and meets one of its edges |
| Controller.Viewport | Source/Package/Assets/artoolkitX-Unity/Scripts/ARController.cs:1716-1784 | stereo gives each eye half the width side by side; otherwise the size follows the content mode on the rotated content size, and the position follows the alignment's column and row |
| Controller.StretchFillsScreen | Source/Package/Assets/artoolkitX-Unity/Scripts/ARController.cs:1733-1737 | Stretch covers the whole screen whatever the alignment |
| Controller.StereoEyesAdjacent | Source/Package/Assets/artoolkitX-Unity/Scripts/ARController.cs:1722-1730 | the right eye's viewport starts where the left eye's ends, both of the same width, within the screen |
| Controller.CentredWithinOnePixel | Source/Package/Assets/artoolkitX-Unity/Scripts/ARController.cs:1760-1774 | a centred viewport leaves equal margins on opposite sides up to one pixel, also when they are negative |
| Controller.CentredFitOnScreenFillCovers | Source/Package/Assets/artoolkitX-Unity/Scripts/ARController.cs:1739-1774 | a centred Fit viewport lies on screen; a centred Fill one covers the screen |
| Controller.FarAlignmentsTouchEdges | Source/Package/Assets/artoolkitX-Unity/Scripts/ARController.cs:1760-1774 | a top-right-aligned viewport ends at the screen's right and top edges |
| ArxController.Instance | Packages/artoolkitX-Unity/Runtime/Scripts/ARXController.cs:72-92 | a cached controller is kept; otherwise one is cached exactly when the scene holds exactly one, and any other count logs an error and gives none |
| ArxController.OnDestroy | Packages/artoolkitX-Unity/Runtime/Scripts/ARXController.cs:474-484 | destroying clears the cache only when it holds the controller going away |
| ArxController.InstanceSticksUntilDestroyed | Packages/artoolkitX-Unity/Runtime/Scripts/ARXController.cs:72-484 | a found controller stays the instance whatever later searches find until that controller is destroyed, after which the next access searches again |
| ArxController.LevelOf | Packages/artoolkitX-Unity/Runtime/Scripts/ARXController.cs:1107-1111 | a message is an error exactly when it starts with the error tag, a warning exactly when it starts with the warning tag and not the error one, and information otherwise |
| ArxController.TaggedMessagesRouted | Packages/artoolkitX-Unity/Runtime/Scripts/ARXController.cs:1107-1111 | whatever follows the tag, an `[error]` message is an error and a `[warning]` message a warning; any message not opening with a bracket is information |
| ArxController.LogAt | Packages/artoolkitX-Unity/Runtime/Scripts/ARXController.cs:1125-1133 | only debug builds keep messages, in the same bounded buffer as the older controller |
| ArxController.StartARCo | Packages/artoolkitX-Unity/Runtime/Scripts/ARXController.cs:495-679 | a start while running, before the plugin initialises, or while waiting for camera permission does nothing; otherwise the screen size is noted and the orientation only on a mobile platform, the scene is marked unconfigured, a Unity video source starts when configured, and AR runs exactly when the native start succeeds, after which the settings are applied |
| ArxController.StartARCoReleasing | Packages/artoolkitX-Unity/Runtime/Scripts/ARXController.cs:495-679 | corrected: the same start, except that a start that does not end running stops the Unity video source it began |
| ArxController.UpdateAR | Packages/artoolkitX-Unity/Runtime/Scripts/ARXController.cs:684-741 | nothing happens unless running; otherwise the video source is pumped, the scene is configured the first time video is running, a geometry change is announced and remembered, and the answer is false exactly when a frame arrived and the native update failed |
| ArxController.VideoStartedAtMostOnce | Packages/artoolkitX-Unity/Runtime/Scripts/ARXController.cs:696-716 | over any run of updates the video-started listeners fire at most once, exactly when the scene goes from unconfigured to configured |
| ArxController.GeometryChangeAnnouncedOnce | Packages/artoolkitX-Unity/Runtime/Scripts/ARXController.cs:719-731 | a screen geometry change is announced once, and the next update on the same screen is quiet about it |
| ArxController.StopAR | Packages/artoolkitX-Unity/Runtime/Scripts/ARXController.cs:743-768 | stopping answers false and does nothing unless running; otherwise the video source is stopped and dropped, the plugin stopped whatever it answers, listeners told, and AR no longer runs |
| ArxController.OnApplicationPause | Packages/artoolkitX-Unity/Runtime/Scripts/ARXController.cs:369-388 | the shared pause protocol with this controller's stop: a pause while running stops and remembers; a resume asks for a start exactly when remembered |
| ArxController.PauseResumeStopsThenRestarts | Packages/artoolkitX-Unity/Runtime/Scripts/ARXController.cs:369-388 | pausing a running session stops its video source and tells the listeners; resuming then asks for a fresh start and forgets the request |
| ArxController.ReleasingKeepsSourceInvariant | Packages/artoolkitX-Unity/Runtime/Scripts/ARXController.cs:495-768 | with the corrected start, starting, updating, stopping and pausing all keep a Unity video source active only while AR runs |
| ArxController.FailedStartLeaksVideoSource | Packages/artoolkitX-Unity/Runtime/Scripts/ARXController.cs:587-627 | as written, a Unity video source started before a failing native start stays active while AR is not running, and a later stop does nothing |
| ArxController.FailedStartReleasesVideoSource | Packages/artoolkitX-Unity/Runtime/Scripts/ARXController.cs:587-627 | corrected, the same failed start stops the source it started |
| ScriptingDefines.ChangeScriptingDefine | Packages/artoolkitX-Unity/Editor/Scripts/ARToolKitEditorUtilities.cs:57-79 | adding writes back exactly when the define is absent, as the old list with it appended; removing writes back exactly when it is present, as the list without its first occurrence |
| ScriptingDefines.AddIsIdempotent | Packages/artoolkitX-Unity/Editor/Scripts/ARToolKitEditorUtilities.cs:57-79 | after adding, the define is present, the old defines are kept in order before it, and adding again writes nothing |
| ScriptingDefines.RemoveReadsBack | Packages/artoolkitX-Unity/Editor/Scripts/ARToolKitEditorUtilities.cs:68-77 | after removing, the string written reads back as the remaining defines, and is empty when none remain |
| ScriptingDefines.RemoveTakesOneCopy | Packages/artoolkitX-Unity/Editor/Scripts/ARToolKitEditorUtilities.cs:68-77 | removing takes out one copy only, so a define listed twice is still present afterwards |
| ScriptingDefines.NoChangeNoWrite | Packages/artoolkitX-Unity/Editor/Scripts/ARToolKitEditorUtilities.cs:62-78 | adding a present define or removing an absent one writes nothing |
| ScriptingDefines.AddToEmptyKeepsLeadingSeparator | Packages/artoolkitX-Unity/Editor/Scripts/ARToolKitEditorUtilities.cs:60-77 | adding to an empty defines string keeps the empty entry the split gives, so the string written starts with a separator |
| Text.JoinSplit | Packages/artoolkitX-Unity/Editor/Scripts/ARToolKitEditorUtilities.cs:60-76 | joining the pieces of a split with the same separator gives back the original string |
| Text.SplitJoin | Packages/artoolkitX-Unity/Editor/Scripts/ARToolKitEditorUtilities.cs:61-76 | splitting a join of separator-free pieces gives back the pieces, empty ones included |
| Lists.IndexOf | Packages/artoolkitX-Unity/Editor/Scripts/ARToolKitEditorUtilities.cs:68-71 | the position found holds the element and no earlier one does; the length means the element is absent |
| Lists.RemoveFirst | Packages/artoolkitX-Unity/Editor/Scripts/ARToolKitEditorUtilities.cs:68-71 | removing drops the first occurrence only, keeping the rest in order, and leaves a list without the element unchanged |
| Lists.RemoveFirstMultiset | Packages/artoolkitX-Unity/Editor/Scripts/ARToolKitEditorUtilities.cs:68-71 | removing takes exactly one copy of the element out of the list's contents |
| Utility.FindCameraByName | Source/Package/Assets/artoolkitX-Unity/Scripts/ARUtilityFunctions.cs:54-62 | the camera found is the first one with the name, and there is none exactly when no camera has it |
| Utility.MatrixFromFloatArray | Source/Package/Assets/artoolkitX-Unity/Scripts/ARUtilityFunctions.cs:70-77 | a missing array or one of fewer than sixteen values is an argument error; otherwise the matrix holds the first sixteen values in order |
| Utility.ToFloatArray | Source/Package/Assets/artoolkitX-Unity/Scripts/ARUtilityFunctions.cs:70-77 | the flat view holds each entry at the index Unity's flat indexer gives it |
| Utility.MatrixRoundTrip | Source/Package/Assets/artoolkitX-Unity/Scripts/ARUtilityFunctions.cs:70-77 | a matrix's values, with anything after them, give the matrix back |
| Utility.LHMatrixFromRHMatrix | Source/Package/Assets/artoolkitX-Unity/Scripts/ARUtilityFunctions.cs:116-145 | the left-handed matrix negates exactly the entries in row 2 or column 2 but not both |
| Utility.LHIsRowThenColumnNegation | Source/Package/Assets/artoolkitX-Unity/Scripts/ARUtilityFunctions.cs:111-145 | the conversion is negating row 2 and then column 2 |
| Utility.LHInvolution | Source/Package/Assets/ARToolKit5-Unity/Scripts/ARUtilityFunctions.cs:114-143 | converting twice gives the matrix back, and entry (2,2) never changes |
| Utility.PositionFromMatrix | Source/Package/Assets/ARToolKit5-Unity/Scripts/ARUtilityFunctions.cs:104-107 | the position is the translation column |
| Utility.LHPositionMirrorsZ | Source/Package/Assets/artoolkitX-Unity/Scripts/ARUtilityFunctions.cs:106-145 | after the conversion the position keeps x and y and negates z |
| Utility.QuaternionFromMatrix | Source/Package/Assets/artoolkitX-Unity/Scripts/ARUtilityFunctions.cs:95-103 | the rotation falls back to the identity exactly when column 2 compares equal to zero, and otherwise looks along column 2 with column 1 up |
| Utility.LHKeepsIdentityFallback | Source/Package/Assets/ARToolKit5-Unity/Scripts/ARUtilityFunctions.cs:93-143 | a matrix falls back to the identity rotation before the handedness conversion exactly when it does after it |
| Utility.GetTextureFormatFromARPixelFormat | Source/Package/Assets/artoolkitX-Unity/Scripts/ARUtilityFunctions.cs:197-219 | a pixel format has a texture format other than zero exactly when it is one of the eight supported ones |
| Utility.TextureFormatRoundTrip | Source/Package/Assets/artoolkitX-Unity/Scripts/ARUtilityFunctions.cs:197-219 | each texture format comes from exactly one pixel-format name |
| Utility.CreateTexture | Source/Package/Assets/artoolkitX-Unity/Scripts/ARUtilityFunctions.cs:221-245 | no texture for a non-positive size; otherwise a texture of that size and format whose every pixel is opaque black |
| Utility.CreateTextureMesh | Source/Package/Assets/artoolkitX-Unity/Scripts/ARUtilityFunctions.cs:247-281 | a quad at the given depth with two triangles, its texture coordinates spanning the scale and swapped on the flipped axes |
| Utility.FlipsMirrorTextureCoordinates | Source/Package/Assets/artoolkitX-Unity/Scripts/ARUtilityFunctions.cs:247-281 | flipping an axis mirrors every texture coordinate on it and leaves the geometry alone |
| Utility.CreateVideoGameObject | Source/Package/Assets/artoolkitX-Unity/Scripts/ARUtilityFunctions.cs:157-194 | no object for a non-positive video size; otherwise one named after the source index, in the layer, with an ARGB32 texture of the video's size and the unit quad flipped as asked |
| Gizmo.Trace | Editor/Scripts/ARXTrackedCameraGizmo.cs:282-307 | a path draws one line per closing bracket, the first from the pen-down point to the current position when the path starts with one |
| Gizmo.TraceTranslates | Editor/Scripts/ARXTrackedCameraGizmo.cs:272-307 | tracing from a shifted start draws the same lines shifted |
| Gizmo.TraceIgnoresOthers | Editor/Scripts/ARXTrackedCameraGizmo.cs:282-307 | a character other than the six commands can be dropped from a path without changing the drawing |
| Gizmo.DrawLetter | Editor/Scripts/ARXTrackedCameraGizmo.cs:272-307 | a letter draws exactly when the font has it, as its path's lines placed at the origin, one per closing bracket; a missing one is the lookup's error |
| Gizmo.SpaceDrawsNothing | Editor/Scripts/ARXTrackedCameraGizmo.cs:192-274 | a space draws nothing |
| Gizmo.TraceWalks | Editor/Scripts/ARXTrackedCameraGizmo.cs:282-307 | moves outside brackets draw nothing and only carry the position along |
| Gizmo.Stroke | Editor/Scripts/ARXTrackedCameraGizmo.cs:282-307 | a bracketed run of moves is one line from where it starts to where the moves end |
| Gizmo.PrintableAsciiDrawable | Editor/Scripts/ARXTrackedCameraGizmo.cs:192-274 | every printable ASCII character, upper-cased, has a glyph in the font |
| Gizmo.DrawWord | Editor/Scripts/ARXTrackedCameraGizmo.cs:264-270 | a word draws exactly when every upper-cased character has a glyph, each character six units to the right of the one before; no result stands for the lookup exception a missing glyph raises |
| Gizmo.DrawWordIgnoresCase | Editor/Scripts/ARXTrackedCameraGizmo.cs:264-270 | a word draws the same as its upper-case form |
| Gizmo.DrawRectangle | Editor/Scripts/ARXTrackedCameraGizmo.cs:176-190 | four lines closing into a loop around the rectangle, with opposite corners symmetric about the centre |
| Packager.Step | Source/Package/Assets/artoolkitX-Unity/Scripts/Editor/ARToolKitPackager.cs:31-107 | an argument followed by another sets a two-part option's setting to that value; the release option, in any case, asks for a release; an argument matching no option changes no setting |
| Packager.ReleaseIffFlagGiven | Source/Package/Assets/artoolkitX-Unity/Scripts/Editor/ARToolKitPackager.cs:31-107 | a release build is asked for exactly when some argument is the release option in some letter case |
| Packager.LastPairWins | Source/Package/Assets/artoolkitX-Unity/Scripts/Editor/ARToolKitPackager.cs:31-107 | a two-part option followed by a value that is not a one-part option sets its setting to that value whatever came before |
| Packager.TrailingOptionIgnored | Source/Package/Assets/artoolkitX-Unity/Scripts/Editor/ARToolKitPackager.cs:31-35 | a two-part option in last place has no value and changes no setting |
| Packager.ValueScannedAsOption | Source/Package/Assets/artoolkitX-Unity/Scripts/Editor/ARToolKitPackager.cs:31-107 | the value after a two-part option is scanned as an argument too, so a value naming a one-part option takes effect |
| Packager.Cap | Source/Package/Assets/artoolkitX-Unity/Scripts/Editor/ARToolKitPackager.cs:116 | the cap is at most 99 and leaves smaller numbers alone |
| Packager.VersionCodeDecodes | Source/Package/Assets/artoolkitX-Unity/Scripts/Editor/ARToolKitPackager.cs:116 | for numbers from 0 to 99 the version code holds major, minor and tiny as two decimal digits each, build 0 |
| Packager.VersionCodeOrdered | Source/Package/Assets/artoolkitX-Unity/Scripts/Editor/ARToolKitPackager.cs:116 | for numbers from 0 to 99 a later version has a larger code |
| Packager.CappedVersionsCollide | Source/Package/Assets/artoolkitX-Unity/Scripts/Editor/ARToolKitPackager.cs:116 | a minor number above 99 gives the same code as 99 |
| Packager.VersionCodeOf | Source/Package/Assets/artoolkitX-Unity/Scripts/Editor/ARToolKitPackager.cs:111-116 | the code exists exactly when the first piece and every minor or tiny piece present parse, missing ones counting as 0 |
| Packager.MajorOnlyVersion | Source/Package/Assets/artoolkitX-Unity/Scripts/Editor/ARToolKitPackager.cs:111-116 | a version without dots is its major number alone |
| Packager.Settings | Source/Package/Assets/artoolkitX-Unity/Scripts/Editor/ARToolKitPackager.cs:116-147 | development settings exactly unless releasing, no profiler, and the custom keystore exactly when all four keystore settings are non-empty, with those four values |
| Packager.StepKeepsKeystorePath | Source/Package/Assets/artoolkitX-Unity/Scripts/Editor/ARToolKitPackager.cs:31-107 | an argument other than the keystore path option leaves the keystore path as it was |
| Packager.NoKeystoreOptionsNoCustomKeystore | Source/Package/Assets/artoolkitX-Unity/Scripts/Editor/ARToolKitPackager.cs:16-107 | with no keystore path option on the command line the keystore path stays empty |
| Packager.NoKeystoreOptionsUseDefault | Source/Package/Assets/artoolkitX-Unity/Scripts/Editor/ARToolKitPackager.cs:16-147 | with no keystore path option the default keystore is used |
| Text.IntToString | Source/Package/Assets/artoolkitX-Unity/Scripts/Editor/ARToolKitPackager.cs:112-114 | a rendered integer starts with a minus sign exactly when it is negative, and is digits otherwise |
| Text.ParseInt | Source/Package/Assets/artoolkitX-Unity/Scripts/Editor/ARToolKitPackager.cs:112-114 | a parse gives a 32-bit value or fails, and the empty string fails |
| Text.ParseIntOfIntToString | Source/Package/Assets/artoolkitX-Unity/Scripts/Editor/ARToolKitPackager.cs:112-114 | parsing undoes rendering for every 32-bit value |
| Text.DigitsValueOfNatToString | Source/Package/Assets/artoolkitX-Unity/Scripts/Editor/ARToolKitPackager.cs:112-114 | the digits of a natural number's rendering read back as that number |
| Text.Split | Source/Package/Assets/artoolkitX-Unity/Scripts/Editor/ARToolKitPackager.cs:111 | a split gives at least one piece and no piece contains the separator |
| Manifest.FindFirstChild | Source/Package/Assets/artoolkitX-Unity/Scripts/Editor/ARToolKitPostProcessor.cs:164-177 | the child found is the first with the tag, and there is none exactly when no child has it |
| Manifest.Look | Source/Package/Assets/artoolkitX-Unity/Scripts/Editor/ARToolKitPostProcessor.cs:196-200 | an Android-namespace attribute is found exactly when the child is an element holding one with the name, and its value is that attribute's |
| Manifest.FindOrCreateTagWithAttribute | Source/Package/Assets/artoolkitX-Unity/Scripts/Editor/ARToolKitPostProcessor.cs:186-211 | the node is left as it is exactly when some child has the tag with the attribute value; otherwise one such element is appended and nothing else changes |
| Manifest.FindOrCreateTagWithAttributeIdempotent | Source/Package/Assets/artoolkitX-Unity/Scripts/Editor/ARToolKitPostProcessor.cs:186-211 | creating the attribute again finds the element appended the first time |
| Manifest.SetAttribute | Source/Package/Assets/artoolkitX-Unity/Scripts/Editor/ARToolKitPostProcessor.cs:230-238 | setting an attribute makes its lookup give the value, moves no other attribute's lookup, and changes nothing when the value is already there |
| Manifest.FindOrCreateTagWithAttributes | Source/Package/Assets/artoolkitX-Unity/Scripts/Editor/ARToolKitPostProcessor.cs:213-250 | a child is appended exactly when none has the tag with the first attribute value; otherwise only the first such child changes, and only in its second attribute |
| Manifest.FindOrCreateTagWithAttributesSettles | Source/Package/Assets/artoolkitX-Unity/Scripts/Editor/ARToolKitPostProcessor.cs:213-250 | afterwards the first child with the tag and first attribute value carries the second attribute's value |
| Manifest.FindOrCreateTagWithAttributesIdempotent | Source/Package/Assets/artoolkitX-Unity/Scripts/Editor/ARToolKitPostProcessor.cs:213-250 | on a node already settled the operation changes nothing, so running it twice is running it once |
| Manifest.SettlingKeepsOtherSettled | Source/Package/Assets/artoolkitX-Unity/Scripts/Editor/ARToolKitPostProcessor.cs:276-279 | settling one feature leaves another feature, keyed by a different name, settled |
| Manifest.AndroidNamesDistinct | Source/Package/Assets/artoolkitX-Unity/Scripts/Editor/ARToolKitPostProcessor.cs:273-279 | the names the seven edits use keep them from disturbing one another |
| Manifest.AddPermissions | Source/Package/Assets/artoolkitX-Unity/Scripts/Editor/ARToolKitPostProcessor.cs:273-275 | the manifest ends up asking for the camera, network-state and internet permissions, keeping every child it had |
| Manifest.AddMetaData | Source/Package/Assets/artoolkitX-Unity/Scripts/Editor/ARToolKitPostProcessor.cs:276 | the application node ends up telling the Unity player to skip its permission dialog, and the manifest's children keep their names and keys |
| Manifest.PatchManifestReady | Source/Package/Assets/artoolkitX-Unity/Scripts/Editor/ARToolKitPostProcessor.cs:273-279 | after the seven edits the manifest holds the three permissions, the meta-data entry and the three camera features with their required flags |
| Manifest.PostProcess | Source/Package/Assets/artoolkitX-Unity/Scripts/Editor/ARToolKitPostProcessor.cs:261-281 | nothing is written when the document has no manifest or the manifest no application; otherwise the document is written back with only its first manifest child patched |
| Manifest.PostProcessReady | Source/Package/Assets/artoolkitX-Unity/Scripts/Editor/ARToolKitPostProcessor.cs:253-282 | a document the post-processing writes holds everything it adds |
| Manifest.ReadyIsFixedPoint | Source/Package/Assets/artoolkitX-Unity/Scripts/Editor/ARToolKitPostProcessor.cs:253-282 | a document that already holds everything is written back unchanged |
| Manifest.OnPostGenerateGradleAndroidProject | Source/Package/Assets/artoolkitX-Unity/Scripts/Editor/ARToolKitPostProcessor.cs:253-282 | the post-processing with the Android manifest's own names writes nothing exactly when the manifest or its application is missing |
| Manifest.PostProcessIdempotent | Source/Package/Assets/artoolkitX-Unity/Scripts/Editor/ARToolKitPostProcessor.cs:253-282 | post-processing the generated project twice writes the same manifest as doing it once |
| VideoConfig.Modules | Packages/artoolkitX-Unity/Runtime/Scripts/ARXVideoConfig.cs:222-389 | the module table: every selection string starts with `-module=`; only AVFoundation and Android select by position; V4L2, AVFoundation, Android and WinMF select by index, WinMF alone counting from 1; AVFoundation sizes by preset and Android by preference |
| VideoConfig.PresetOption | Packages/artoolkitX-Unity/Runtime/Scripts/ARXVideoConfig.cs:403-416 | every preset option starts with `-preset=`, and the photo preset writes the same option as medium |
| VideoConfig.PreferenceOption | Packages/artoolkitX-Unity/Runtime/Scripts/ARXVideoConfig.cs:429-440 | every size-preference option starts with `-prefer=` |
| VideoConfig.FindIndex | Packages/artoolkitX-Unity/Runtime/Scripts/ARXVideoConfig.cs:823 | the position of the first record for the platform, or -1 exactly when no record names it |
| VideoConfig.FindIndexAt | Packages/artoolkitX-Unity/Runtime/Scripts/ARXVideoConfig.cs:823 | a record naming the platform preceded only by records for other platforms is the one found |
| VideoConfig.GetPlatformConfig | Packages/artoolkitX-Unity/Runtime/Scripts/ARXVideoConfig.cs:820-829 | the first record for the platform in the stereo list when the second input is asked for and in the mono list otherwise, or none when that list has no such record |
| VideoConfig.ConfigString | Packages/artoolkitX-Unity/Runtime/Scripts/ARXVideoConfig.cs:836-904 | a manual record yields its manual string verbatim; a Unity-source record yields the external module with `-nocopy` (without it in the older variant); any other record starts with its module's selection string |
| VideoConfig.WrittenIndexCases | Packages/artoolkitX-Unity/Runtime/Scripts/ARXVideoConfig.cs:864-868 | the index the builder writes for a stored 32-bit index is the index itself for 0-indexed modules, one more for the 1-indexed module, and the smallest 32-bit value when the largest is shifted, since C# `int` addition wraps |
| VideoConfig.VideoConfigString | Packages/artoolkitX-Unity/Runtime/Scripts/ARXVideoConfig.cs:831-906 | a platform with no record gets the empty string |
| VideoConfig.IsUsingUnityVideoSource | Packages/artoolkitX-Unity/Runtime/Scripts/ARXVideoConfig.cs:939-944 | false for a platform with no record; true only when a record for the platform uses a Unity video source |
| VideoConfig.OptionsSpaceSeparated | Packages/artoolkitX-Unity/Runtime/Scripts/ARXVideoConfig.cs:847-895 | every input-selection option and every size option the builder appends is empty or starts with a space |
| VideoConfig.ConfigStringNamesModule | Packages/artoolkitX-Unity/Runtime/Scripts/ARXVideoConfig.cs:836-904 | for a record that is not manual, the first word of the option string names the module the native side will open: External for a Unity video source, the record's own module otherwise |
| VideoConfig.ModuleNamedSelection | Packages/artoolkitX-Unity/Runtime/Scripts/ARXVideoConfig.cs:222-389 | the first word of each module's selection string names that module |
| VideoConfig.ModuleNamedOnlySelections | Packages/artoolkitX-Unity/Runtime/Scripts/ARXVideoConfig.cs:222-389 | a word names a module only when it is the first word of that module's selection string, so distinct modules have distinct selection words |
| VideoConfig.NthCameraWritesIndex | Source/Package/Assets/artoolkitX-Unity/Scripts/ARXVideoConfig.cs:714-719 | selecting the n-th camera writes the index option exactly for modules that select by index, adding one for 1-indexed modules in wrapping 32-bit arithmetic (the largest index wraps to the smallest), and the number written reads back as the index |
| VideoConfig.PositionWordCases | Packages/artoolkitX-Unity/Runtime/Scripts/ARXVideoConfig.cs:854-856 | the position word is back or front for those positions, external only for the other position on Android, and nothing otherwise |
| VideoConfig.PositionOptionShape | Packages/artoolkitX-Unity/Runtime/Scripts/ARXVideoConfig.cs:851-860 | modules without position support, or positions without a word, add no position option; otherwise a space, the module's position prefix and the word |
| VideoConfig.PositionInput | Packages/artoolkitX-Unity/Runtime/Scripts/ARXVideoConfig.cs:849-863 | selecting the camera at a position writes only the position option |
| VideoConfig.PositionSelection | Packages/artoolkitX-Unity/Runtime/Scripts/ARXVideoConfig.cs:849-871 | selecting the n-th camera at a position writes the position option first and the index option after it |
| VideoConfig.SourceListWritesToken | Source/Package/Assets/artoolkitX-Unity/Scripts/ARXVideoConfig.cs:720-722 | the video-source-list method writes a space and the stored open token after the module selection |
| VideoConfig.PreferenceSizeOptions | Packages/artoolkitX-Unity/Runtime/Scripts/ARXVideoConfig.cs:882-888 | under the size-preference strategy the preference is written exactly when it ignores width and height or both are non-zero, and then followed by the dimensions when it uses them |
| VideoConfig.WidthAndHeightAlwaysWritten | Source/Package/Assets/artoolkitX-Unity/Scripts/ARXVideoConfig.cs:739-741 | the width-and-height strategy always ends the string with both dimensions, zeros included |
| VideoConfig.DefaultConfigs | Packages/artoolkitX-Unity/Runtime/Scripts/ARXVideoConfig.cs:467-640 | no shipped mono record is manual, and the older variant's records never use a Unity video source |
| VideoConfig.StereoConfigs | Packages/artoolkitX-Unity/Runtime/Scripts/ARXVideoConfig.cs:642-816 | no shipped second-input record is manual |
| VideoConfig.StereoWindowsPlayerRecord | Packages/artoolkitX-Unity/Runtime/Scripts/ARXVideoConfig.cs:682-700 | the stereo Windows-player record is the first for that platform and selects WinMF camera 1 by index at 640 by 480 |
| VideoConfig.DefaultStereoWindowsPlayer | Packages/artoolkitX-Unity/Runtime/Scripts/ARXVideoConfig.cs:682-700 | the Windows player's second input is configured as `-module=WinMF -devNum=2 -width=640 -height=480` |
| VideoConfig.AndroidRecord | Packages/artoolkitX-Unity/Runtime/Scripts/ARXVideoConfig.cs:545-564 | the mono Android record is the first for that platform: back camera, closest pixel count to 1280 by 720 |
| VideoConfig.DefaultAndroid | Packages/artoolkitX-Unity/Runtime/Scripts/ARXVideoConfig.cs:545-564 | Android is configured as `-module=Android -native -prefer=closestpixelcount -width=1280 -height=720`: any camera, so no position option is written |
| VideoConfig.WebGLRecord | Packages/artoolkitX-Unity/Runtime/Scripts/ARXVideoConfig.cs:621-640 | the WebGL record is the last mono record of the current variant, and the older variant has none |
| VideoConfig.WebGLSelected | Packages/artoolkitX-Unity/Runtime/Scripts/ARXVideoConfig.cs:621-640 | looking up WebGL finds that record whichever stereo list is supplied |
| VideoConfig.DefaultWebGL | Packages/artoolkitX-Unity/Runtime/Scripts/ARXVideoConfig.cs:621-640 | WebGL is configured as `-module=External -nocopy` and reports a Unity video source; the older variant configures nothing for it |
| CameraStream.RunFromFirstUpdate | Source/Extra/arunityX_java/arunityX_Android_Player/arunityXPlayer/src/main/java/org/artoolkitx/arx/unity/UnityCameraEventListener.java:72-106 | from the first update, the calls are one failed attempt per frame up to the first successful init, then that init, then every later frame forwarded in order; the gate closes exactly when some init succeeds |
| Controller.RepeatPauseKeeps | Source/Package/Assets/artoolkitX-Unity/Scripts/ARController.cs:501-511 | further pauses of a session already paused by the application keep it stopped and still marked for restart |
| Origin.KeepAllFound | src/Unity/Assets/ARToolKit5-Unity/Scripts/AROrigin.cs:100-112 | in AutoAll mode the search keeps every trackable found, in the order found |
| Manifest.SettledIsFixed | Source/Package/Assets/artoolkitX-Unity/Scripts/Editor/ARToolKitPostProcessor.cs:213-250 | once a tag with both attributes set is present, finding or creating it again leaves the node unchanged |
| Manifest.ReadyManifestUnchanged | Source/Package/Assets/artoolkitX-Unity/Scripts/Editor/ARToolKitPostProcessor.cs:273-279 | a manifest that already holds every permission, feature and meta-data entry is left unchanged by the patch |
| WebcamSource.FlippedTwiceAt | Packages/artoolkitX-Unity/Runtime/Scripts/ARXUnityVideoSourceWebCamTexture.cs:148-156 | flipping the rows of a flipped image puts every pixel back where it was |
| ArxController.UpdateBalance | Packages/artoolkitX-Unity/Runtime/Scripts/ARXController.cs:696-716 | one update announces the video start exactly when it is the update that configures the scene, and never changes whether AR is running |
| TrackedObject.NotifyCounts | Packages/artoolkitX-Unity/Runtime/Scripts/ARXTrackedObject.cs:213-225 | with Unity events enabled a notification carries exactly one Unity event of its own kind and none of the other |

## Left out

- Native and foreign calls are not modelled as code. The P/Invoke wrappers, the JNI bridge and `UnitySendMessage` are answers passed in, or entries in the returned event and call lists.
- Logging text is not modelled. Log calls appear as events where a contract needs them, and their message formatting is dropped. `Controller.Logged` and `ArxController.LogAt` keep the buffer, not the strings.
- Floats are modelled as Dafny reals: pose matrices, scales and times. Single-precision rounding is not modelled.
- Float-to-string formatting in trackable configuration strings, and the metre-to-millimetre scaling, are not modelled. Configurations are kept as structured values.
- Projection, quaternion and pose arithmetic are not modelled. Frames carry which matrix a pose was taken from, not the pose.
- `Quaternion.LookRotation` is an opaque constructor of the model.
- Utility.QuaternionFromMatrix: Unity's approximate `Vector4 ==` is modelled as a squared length below 1e-10 in exact real arithmetic. The single-precision rounding of that squared length is not modelled.
- Controller.Viewport: the Fit and Fill sizes for a non-positive content dimension are a parameter (`degenerate`). Float division gives an infinite or undefined ratio there.
- Coroutines are modelled as a pending state plus a separate completion step: the asset unpack of `ARXTrackable` and the body of `StartARCo`. Frame timing is not modelled.
- The load locks of `ARXTrackable` (older layout) and `ARTrackable` are not modelled. Every operation runs to completion on its own.
- The load queue `ARTrackable` joins when the controller is not ready is recorded as a queued flag. Draining the queue is not modelled. A queueing load with no controller is modelled as a thrown NullReferenceException: the step records that it threw, and what a Unity caller does next is not modelled.
- `ArxController` leaves out the camera-permission dialog, the GUI, and the platform-specific video-configuration tweaks of `StartARCo` (ARXController.cs lines 555-585). Whether video configuration succeeded is an answer.
- The `onVideoStarted` projection set-up in the camera is left out. The controller's event gating around it is modelled.
- `GetOrigin` of the cameras takes "an origin exists in the parent hierarchy" as a parameter.
- The Unity scene search `FindObjectsOfType` is a parameter listing the components in scene order. Unity does not specify that order.
- `ARXUnityVideoSourceWebCamTexture.WillCallUpdateAR` and `GetTexture` are constant getters. They carry no logic.
- `ARTrackable` and `ARMarker` `OnEnable`/`OnDisable` are left out: they only load and unload, and load and unload are modelled.
- The NFT dataset size queries are left out. They are native calls after the load.
- The static `Add2D`-style factory helpers of `ARXTrackable` are left out. They create a GameObject, add a component and call `ConfigureAs*`, which is modelled.
- The older `ARXTrackable.OnTrackableEvent` (Source/Package/Assets/artoolkitX-Unity/Scripts/ARXTrackable.cs lines 291-317) is not modelled separately. It has the same structure as the current one, with the same auto-removal finding.
- The tracked objects' `Start` is left out. It is scene wiring: it deactivates the children in the player and activates them in the editor.
- The ARToolKit5 5.x `ARCamera` base class is left out beyond the tracked-camera logic it shares.
- The gizmo's `OnDrawGizmos` and the `DrawMarker`, `DrawSingleMarker`, `DrawMultiMarker` and `DrawNFTMarker` methods are left out. They are Unity drawing calls around the modelled stroke generators.
- `ARToolKitPackager`'s `ExportPackage` and its editor-settings writes are file-system and editor I/O. The settings it computes are modelled.
- `ARToolKitPostProcessor` XML loading and saving, exceptions and attribute namespace prefixes are left out. The manifest is an abstract tree.
- `ARToolKitPostProcessor.OnPostprocessBuild` is file-system and tool I/O: the Windows DLL moves and the iOS Xcode project edits.
- Text.ToLower and Text.ToUpper fold only ASCII letters. C#'s culture-aware case mapping also folds other letters; option names and tags in the model are ASCII.
- Text.ParseInt: accepts an optional sign and decimal digits within the 32-bit range. It does not accept the surrounding white space that `int.Parse` allows.
- ArxTrackable.ParseULong: white space is space and TAB to CR only, and signs are ASCII. `ulong.TryParse` also skips other Unicode white space, takes the culture's signs and accepts "-0"; barcode IDs in the model are ASCII.
- Gizmo.DrawWord: a character with no glyph gives no result at all. In the editor the lookup throws after the earlier characters' lines are already drawn; those partial lines are not modelled.
- ArxTrackable.OnTrackableEvent: the step returns the scene as it stands after the frame's pending destruction, so successive steps compose only across frames. Unity carries out `Destroy` at the end of the frame. A second auto-event delivered by the same native update still sees the doomed components and the controller, and can announce a removal or create a component on the doomed GameObject. The model does not promise that behaviour. The model also leaves out the callbacks `Destroy` triggers, which Unity runs in an order it chooses. These are each destroyed `ARXTrackable`'s `OnDisable`, which unloads it and removes its native trackable (lines 363-367, modelled on its own as `OnDisable`), and a destroyed controller's `OnDisable`, which shuts AR down (Packages/artoolkitX-Unity/Runtime/Scripts/ARXController.cs lines 421-470).
- Packager.VersionCodeOf: does not model 32-bit wrap-around. A large negative major version (such as -5000) wraps in C#; the model's integers are unbounded.

## Findings

| source | as written | input that shows it | evidently intended | confidence | as-written member | corrected member |
|---|---|---|---|---|---|---|
| Packages/artoolkitX-Unity/Runtime/Scripts/ARXTrackable.cs:507-540 | `LoadNative` re-applies the stored options while `_loading` is still set. Each setter forwards only when not loading, so no option reaches the native trackable. | a square trackable with the filter option on, loaded with a successful add | the stored options are forwarded once the UID is known, as the older layout does | not executed | ArxTrackable.LoadNativeDropsOptions | ArxTrackable.LoadNativeForwardingSendsOptions |
| Runtime/Scripts/ARXTrackedCamera.cs:120-143 | A loss inside the grace period takes the shown branch and fires found again. When the grace period ends, `arVisible` already equals `lastArVisible`, so lost never fires and the culling mask is never cleared. | grace period 1 s; visible at t=0, lost at t=0.5 and still lost at t=2 | found and lost fire on changes of the rendered state, so the mask is cleared when the grace period ends | not executed | TrackedCamera.GraceLossNeverReported | TrackedCamera.GraceLossReported |
| Packages/artoolkitX-Unity/Runtime/Scripts/ARXTrackable.cs:321-357 | Auto-removal destroys the GameObject of the matching component. Auto-created components all live on the controller's own GameObject, so this destroys the controller and every sibling trackable. | two auto-created trackables, then an auto-removed event for one of them | only the matching component is destroyed | not executed | ArxTrackable.AutoRemoveTakesSiblings | ArxTrackable.ComponentOnlyRemovesFirstMatch |
| Packages/artoolkitX-Unity/Runtime/Scripts/ARXTrackable.cs:451-498 | When data must be unpacked and the file is already cached, a 2D image or multi-marker file is still read from the streaming-assets path. The NFT branch reads the cache. | a 2D trackable on a platform whose streaming assets are archived, with the image already in the temporary cache | every cached file is read from the temporary cache | not executed | ArxTrackable.CachedImageReadFromArchive | ArxTrackable.LoadPlanReadsFromCache |
| Packages/artoolkitX-Unity/Runtime/Scripts/ARXController.cs:587-627 | When the native start fails after a Unity video source was attached, the start gives up without stopping or releasing that source. | a platform configured for a Unity video source, with the native start answering false | a failed start releases the video source it attached | not executed | ArxController.FailedStartLeaksVideoSource | ArxController.FailedStartReleasesVideoSource |

=== FILE: android_plugin.dfy ===
/** The Android side of the Unity plugin (`ARUnityPluginImpl`): it tells a registered
    Unity object about device-orientation changes, and it requests the camera permission
    and routes the answer back to the object that asked. `UnityPlayer.UnitySendMessage`
    and `ActivityCompat.requestPermissions` become entries of the returned `sent` list;
    the permission store, the display rotation and the rationale flag are parameters. */
module AndroidPlugin {
  import opened Wrappers
  import Text

  /** `Configuration.ORIENTATION_*`. */
  const OrientationUndefined: int := 0
  const OrientationPortrait: int := 1
  const OrientationLandscape: int := 2

  /** `Surface.ROTATION_*`. */
  const Rotation0: int := 0
  const Rotation90: int := 1
  const Rotation180: int := 2
  const Rotation270: int := 3

  /** `PackageManager.PERMISSION_GRANTED`. */
  const PermissionGranted: int := 0

  /** The message names and request code the plugin interface declares. */
  const GrantedMessage: string := "OnCameraPermissionGranted"
  const DeniedMessage: string := "OnCameraPermissionDenied"
  const OrientationChangeMessage: string := "OnDeviceOrientationChanged"
  const CameraPermissionRequest: int := 1

  datatype Event =
    | SendMessage(target: string, name: string, value: string)
    | RequestPermissions(code: int)

  /** The plugin's fields; a Java `null` target is `None`. */
  datatype Plugin = Plugin(
    orientationTarget: Option<string>,
    permissionTarget: Option<string>,
    orientation: int,
    rotation: int)

  datatype Step = Step(plugin: Plugin, sent: seq<Event>)

  /** A freshly constructed plugin: no targets, undefined orientation, rotation 0. */
  function Initial(): (p: Plugin)
    ensures p.orientationTarget.None? && p.permissionTarget.None?
    ensures p.orientation == OrientationUndefined && p.rotation == Rotation0
  {
    Plugin(None, None, OrientationUndefined, Rotation0)
  }

  /** A notification-object argument as stored: null and "" both mean no target. */
  function TargetName(obj: Option<string>): (t: Option<string>)
    ensures t.None? <==> obj.None? || obj.value == ""
    ensures t.Some? ==> t == obj && t.value != ""
  {
    if obj.Some? && obj.value != "" then obj else None
  }

  /** The code sent with an orientation change: 1 or 2 for portrait, 3 or 4 for
      landscape (the larger when the display is turned), 0 otherwise. */
  function OrientationCode(orientation: int, rotation: int): (code: int)
    ensures 0 <= code <= 4
  {
    if orientation == OrientationPortrait then
      if rotation == Rotation180 || rotation == Rotation90 then 2 else 1
    else if orientation == OrientationLandscape then
      if rotation == Rotation180 || rotation == Rotation270 then 4 else 3
    else 0
  }

  /** The code determines the orientation class, and which rotations count as turned. */
  lemma OrientationCodeClasses(orientation: int, rotation: int)
    ensures var code := OrientationCode(orientation, rotation);
      && (code == 1 || code == 2 <==> orientation == OrientationPortrait)
      && (code == 3 || code == 4 <==> orientation == OrientationLandscape)
      && (code == 0 <==> orientation != OrientationPortrait && orientation != OrientationLandscape)
      && (code == 2 <==> orientation == OrientationPortrait && (rotation == Rotation90 || rotation == Rotation180))
      && (code == 4 <==> orientation == OrientationLandscape && (rotation == Rotation180 || rotation == Rotation270))
  {
  }

  /** `registerForOrientationNotifications`: replaces the orientation target, or clears
      it for a null or empty name. */
  function RegisterForOrientationNotifications(p: Plugin, obj: Option<string>): (q: Plugin)
    ensures q.orientationTarget.None? <==> obj.None? || obj.value == ""
    ensures q.orientationTarget.Some? ==> q.orientationTarget == obj
    ensures q.permissionTarget == p.permissionTarget
    ensures q.orientation == p.orientation && q.rotation == p.rotation
  {
    p.(orientationTarget := TargetName(obj))
  }

  /** `onConfigurationChanged`; `display` is the rotation of the default display, or
      `None` when there is no display (rotation 0 is then assumed). */
  function OnConfigurationChanged(p: Plugin, newOrientation: int, display: Option<int>): (r: Step)
    ensures p.orientationTarget.None? ==> r == Step(p, [])
    ensures var rotation := display.GetOr(Rotation0);
      p.orientationTarget.Some? && newOrientation == p.orientation && rotation == p.rotation ==> r == Step(p, [])
    ensures var rotation := display.GetOr(Rotation0);
      p.orientationTarget.Some? && (newOrientation != p.orientation || rotation != p.rotation) ==>
        && r.plugin == p.(orientation := newOrientation, rotation := rotation)
        && r.sent == [SendMessage(p.orientationTarget.value, OrientationChangeMessage,
                                  Text.IntToString(OrientationCode(newOrientation, rotation)))]
  {
    match p.orientationTarget
    case None => Step(p, [])
    case Some(target) =>
      var rotation := display.GetOr(Rotation0);
      if newOrientation == p.orientation && rotation == p.rotation then Step(p, [])
      else
        var q := p.(orientation := newOrientation, rotation := rotation);
        Step(q, [SendMessage(target, OrientationChangeMessage,
                             Text.IntToString(OrientationCode(q.orientation, q.rotation)))])
  }

  /** Repeating a configuration change sends nothing the second time: de-duplication
      is on the raw (orientation, rotation) pair. */
  lemma {:induction false} ConfigurationChangeDeduplicated(p: Plugin, newOrientation: int, display: Option<int>)
    ensures var first := OnConfigurationChanged(p, newOrientation, display);
      var second := OnConfigurationChanged(first.plugin, newOrientation, display);
      second.sent == [] && second.plugin == first.plugin && |first.sent| <= 1
  {
    var first := OnConfigurationChanged(p, newOrientation, display);
    if p.orientationTarget.Some? {
      assert first.plugin.orientation == newOrientation;
      assert first.plugin.rotation == display.GetOr(Rotation0);
    }
  }

  /** Two changes that differ only in rotation but land on the same code still send
      twice; the message stream is not de-duplicated on the code. */
  lemma RotationChangeResendsSameCode()
    ensures var p := RegisterForOrientationNotifications(Initial(), Some("ARController"));
      var first := OnConfigurationChanged(p, OrientationPortrait, Some(Rotation0));
      var second := OnConfigurationChanged(first.plugin, OrientationPortrait, Some(Rotation270));
      && |first.sent| == 1 && |second.sent| == 1
      && first.sent[0].value == second.sent[0].value
  {
    var p := RegisterForOrientationNotifications(Initial(), Some("ARController"));
    var first := OnConfigurationChanged(p, OrientationPortrait, Some(Rotation0));
    assert first.plugin.rotation == Rotation0;
  }

  /** `hasCameraPermissions`. */
  predicate HasCameraPermissions(status: int) {
    status == PermissionGranted
  }

  /** `requestCameraPermissions`: remembers who asked (null for an empty name) and
      issues one request with the plugin's request code. */
  function RequestCameraPermissions(p: Plugin, obj: Option<string>): (r: Step)
    ensures r.plugin.permissionTarget.None? <==> obj.None? || obj.value == ""
    ensures r.plugin.permissionTarget.Some? ==> r.plugin.permissionTarget == obj
    ensures r.plugin.orientationTarget == p.orientationTarget
    ensures r.plugin.orientation == p.orientation && r.plugin.rotation == p.rotation
    ensures r.sent == [RequestPermissions(CameraPermissionRequest)]
  {
    Step(p.(permissionTarget := TargetName(obj)), [RequestPermissions(CameraPermissionRequest)])
  }

  datatype CheckResult = CheckResult(authorized: bool, step: Step)

  /** `checkCameraPermissions`: reports the current state and asks only when the
      permission is not yet granted. */
  function CheckCameraPermissions(p: Plugin, status: int, obj: Option<string>): (r: CheckResult)
    ensures r.authorized <==> HasCameraPermissions(status)
    ensures r.authorized ==> r.step == Step(p, [])
    ensures !r.authorized ==> r.step.sent == [RequestPermissions(CameraPermissionRequest)]
    ensures !r.authorized ==> r.step.plugin.permissionTarget == TargetName(obj)
  {
    var authorized := HasCameraPermissions(status);
    CheckResult(authorized, if authorized then Step(p, []) else RequestCameraPermissions(p, obj))
  }

  /** `shouldExplainCameraPermissions`; `rationale` is Android's answer for the camera. */
  function ShouldExplainCameraPermissions(status: int, rationale: bool): (b: bool)
    ensures HasCameraPermissions(status) ==> !b
    ensures !HasCameraPermissions(status) ==> b == rationale
  {
    if HasCameraPermissions(status) then false else rationale
  }

  /** `onRequestPermissionsResult`: one Granted or Denied message to the stored target
      for the plugin's own request; an empty result (a cancelled request) is a denial. */
  function OnRequestPermissionsResult(p: Plugin, requestCode: int, grantResults: seq<int>): (sent: seq<Event>)
    ensures requestCode != CameraPermissionRequest || p.permissionTarget.None? ==> sent == []
    ensures requestCode == CameraPermissionRequest && p.permissionTarget.Some? ==>
      |sent| == 1 && sent[0].SendMessage? && sent[0].target == p.permissionTarget.value
      && sent[0].value == sent[0].name
      && (sent[0].name == GrantedMessage <==> |grantResults| > 0 && grantResults[0] == PermissionGranted)
      && (sent[0].name == DeniedMessage <==> !(|grantResults| > 0 && grantResults[0] == PermissionGranted))
  {
    if requestCode != CameraPermissionRequest || p.permissionTarget.None? then []
    else if |grantResults| > 0 && grantResults[0] == PermissionGranted then
      [SendMessage(p.permissionTarget.value, GrantedMessage, GrantedMessage)]
    else
      [SendMessage(p.permissionTarget.value, DeniedMessage, DeniedMessage)]
  }

  /** The round trip: whoever asked through `checkCameraPermissions` with a non-empty
      name is the one told the outcome; an anonymous request is answered to nobody. */
  lemma PermissionAnswerReachesRequester(p: Plugin, status: int, name: string, grantResults: seq<int>)
    requires !HasCameraPermissions(status)
    ensures var asked := CheckCameraPermissions(p, status, Some(name)).step;
      var answer := OnRequestPermissionsResult(asked.plugin, asked.sent[0].code, grantResults);
      && (name != "" ==> |answer| == 1 && answer[0].target == name)
      && (name == "" ==> answer == [])
  {
  }

  /** Granting the permission leaves nothing to explain. */
  lemma GrantedNeedsNoExplanation(rationale: bool)
    ensures !ShouldExplainCameraPermissions(PermissionGranted, rationale)
    ensures CheckCameraPermissions(Initial(), PermissionGranted, Some("ARController")).step.sent == []
  {
  }
}

=== FILE: ar_marker.dfy ===
/** `ARMarker`, the marker component of the older package. It talks to the static
    plugin functions, whose `inited` flag is a parameter; `Load` and `Unload` behave as
    in `ARTrackable` without the result code, the queue or a per-component plugin.
    `Update` hides an unloaded marker even outside play mode. */
module ArMarker {
  import opened Wrappers
  import opened TrackableCore

  datatype Marker = Marker(
    enabled: bool,
    uid: int,
    data: MarkerData,
    options: Options,
    patterns: Option<nat>,
    visible: bool)

  /** Whether the plugin is inited, and how data files are unpacked. */
  datatype Env = Env(inited: bool, unpacker: Unpacker)

  datatype Step = Step(m: Marker, calls: seq<Call>)

  /** `Awake`: the marker starts without a UID, whatever was stored. */
  function Awake(m: Marker): (r: Marker)
    ensures r.uid == NoId
    ensures r == m.(uid := r.uid)
  {
    m.(uid := NoId)
  }

  /** The configuration string of this variant: as in `ARTrackable`, the 2D width is
      written in metres. */
  function ConfigOf(m: Marker, env: Env): Option<Config> {
    MetresConfiguration(m.data, env.unpacker)
  }

  /** `Load`: nothing happens when the marker is disabled, already loaded, or the plugin
      is not inited, and nothing without a configuration. Otherwise the configuration is
      added and, when the native side accepts it, the stored options that fit the type
      follow. */
  function Load(m: Marker, env: Env, a: Answers): (r: Step)
    ensures !m.enabled || m.uid != NoId || !env.inited || ConfigOf(m, env).None? ==> r == Step(m, [])
    ensures m.enabled && m.uid == NoId && env.inited && ConfigOf(m, env).Some? ==>
      && r.m.uid == a.uid
      && |r.calls| >= 1 && r.calls[0] == AddTrackable(ConfigOf(m, env).value)
      && (a.uid == NoId ==> r == Step(m, r.calls) && |r.calls| == 1)
      && (a.uid != NoId ==> r.calls[1..] == ForwardedCalls(a.uid, m.data.kind, MarkerReappliedSettings(m.options)))
    ensures r.m == m.(uid := r.m.uid, patterns := r.m.patterns)
  {
    if !m.enabled || m.uid != NoId || !env.inited then Step(m, [])
    else match ConfigOf(m, env)
      case None => Step(m, [])
      case Some(cfg) =>
        if a.uid == NoId then Step(m, [AddTrackable(cfg)])
        else
          Step(m.(uid := a.uid, patterns := MarkerPatternsAfterAdd(m.data.kind, m.patterns, a.patternCount)),
               [AddTrackable(cfg)] + ForwardedCalls(a.uid, m.data.kind, MarkerReappliedSettings(m.options)))
  }

  /** A loaded marker of any type has its three filter options set natively. */
  lemma LoadSetsFilters(m: Marker, env: Env, a: Answers)
    requires m.enabled && m.uid == NoId && env.inited && ConfigOf(m, env).Some? && a.uid != NoId
    ensures var r := Load(m, env, a);
      && SetOptionBool(a.uid, OptionFiltered, m.options.filtered) in r.calls
      && SetOptionFloat(a.uid, OptionFilterSampleRate, m.options.filterSampleRate) in r.calls
      && SetOptionFloat(a.uid, OptionFilterCutoffFreq, m.options.filterCutoffFreq) in r.calls
  {
    var ss := MarkerReappliedSettings(m.options);
    var r := Load(m, env, a);
    assert ss[1] in ss && ss[2] in ss && ss[3] in ss;
    ForwardedCallsContain(a.uid, m.data.kind, ss, ss[1]);
    ForwardedCallsContain(a.uid, m.data.kind, ss, ss[2]);
    ForwardedCallsContain(a.uid, m.data.kind, ss, ss[3]);
    assert r.calls == [r.calls[0]] + r.calls[1..];
  }

  /** `Unload`: without a UID nothing happens; otherwise the UID and the patterns are
      reset and the native marker is removed only while the plugin is inited. */
  function Unload(m: Marker, env: Env): (r: Step)
    ensures m.uid == NoId ==> r == Step(m, [])
    ensures m.uid != NoId ==>
      && r.m == m.(uid := NoId, patterns := None)
      && (r.calls == [RemoveTrackable(m.uid)] <==> env.inited)
      && (r.calls == [] <==> !env.inited)
  {
    if m.uid == NoId then Step(m, [])
    else Step(m.(uid := NoId, patterns := None), if env.inited then [RemoveTrackable(m.uid)] else [])
  }

  /** Unloading what a load just added gives the marker back. */
  lemma UnloadUndoesLoad(m: Marker, env: Env, a: Answers)
    requires m.enabled && m.uid == NoId && env.inited && ConfigOf(m, env).Some? && a.uid != NoId
    requires m.patterns.None?
    ensures var l := Load(m, env, a);
      Unload(l.m, env) == Step(m, [RemoveTrackable(a.uid)])
  {
  }

  /** `Update`: an unloaded marker, or any marker while the plugin is not inited, is
      hidden, in play mode or not; in play mode a loaded marker shows the native
      answer; otherwise nothing changes. */
  function Update(m: Marker, env: Env, playing: bool, seen: bool): (r: Marker)
    ensures m.uid == NoId || !env.inited ==> r == m.(visible := false)
    ensures m.uid != NoId && env.inited ==> r == m.(visible := if playing then seen else m.visible)
  {
    if m.uid == NoId || !env.inited then m.(visible := false)
    else if playing then m.(visible := seen)
    else m
  }

  /** After any update, a visible marker is a loaded one. */
  lemma UpdateVisibleMeansLoaded(m: Marker, env: Env, playing: bool, seen: bool)
    ensures Update(m, env, playing, seen).visible ==> m.uid != NoId && env.inited
  {
  }

  /** An option setter: it always stores the value, and forwards it only for a loaded
      marker whose type the option fits. */
  function Set(m: Marker, s: Setting): (r: Step)
    ensures r.m == m.(options := Store(m.options, s))
    ensures r.calls == (if m.uid != NoId && AppliesTo(s, m.data.kind) then [NativeSet(m.uid, s)] else [])
  {
    Step(m.(options := Store(m.options, s)),
         if m.uid != NoId && AppliesTo(s, m.data.kind) then [NativeSet(m.uid, s)] else [])
  }

  /** Setting an option and reading it back gives the value set, loaded or not, and an
      unloaded marker makes no native call. */
  lemma SetStoresEvenUnloaded(m: Marker, s: Setting)
    requires m.uid == NoId
    ensures Stored(Set(m, s).m.options, s) == s && Set(m, s).calls == []
  {
    StoreThenGet(m.options, s, s);
  }
}

=== FILE: ar_trackable.dfy ===
/** `ARTrackable`, the trackable component that holds its own reference to the plugin
    functions. `Load` answers -1 (disabled), 0 (plugin not ready, possibly queued with
    the controller) or 1 (loaded, or an add was attempted), and throws when asked to
    queue with no controller in the scene; setting `Type` or `PluginFunctions` unloads
    and reloads; `Update` only copies the native visibility and never loads. Plugin
    objects are identified by number; which of them are inited is a parameter, and so
    is every native answer. The load lock is not modelled. */
module ArTrackable {
  import opened Wrappers
  import opened TrackableCore

  datatype Trackable = Trackable(
    enabled: bool,
    uid: int,
    /** `pluginFunctions`: `None` for null. */
    plugin: Option<nat>,
    data: MarkerData,
    options: Options,
    patterns: Option<nat>,
    visible: bool)

  /** The scene as `Load` sees it: whether an `ARController` exists and which plugin it
      holds, which plugins are inited, and how data files are unpacked. */
  datatype Env = Env(controllerPresent: bool, controllerPlugin: Option<nat>, inited: set<nat>, unpacker: Unpacker)

  /** A component, its native calls in order, whether it queued itself for a later
      load with the controller, and whether the call ended in a NullReferenceException. */
  datatype Step = Step(t: Trackable, calls: seq<Call>, queued: bool, threw: bool)

  /** `code` is the answer, or `None` when asking a missing controller to queue the
      component throws a NullReferenceException instead of answering; the component and
      the native calls are as they stood at that point. */
  datatype LoadResult = LoadResult(code: Option<int>, t: Trackable, calls: seq<Call>, queued: bool)

  predicate PluginReady(t: Trackable, env: Env) {
    t.plugin.Some? && t.plugin.value in env.inited
  }

  /** A component without plugin functions borrows the controller's. */
  function Adopt(t: Trackable, env: Env): (u: Trackable)
    ensures t.plugin.Some? ==> u == t
    ensures t.plugin.None? && env.controllerPresent ==> u == t.(plugin := env.controllerPlugin)
    ensures t.plugin.None? && !env.controllerPresent ==> u == t
  {
    if t.plugin.None? && env.controllerPresent && env.controllerPlugin.Some? then t.(plugin := env.controllerPlugin)
    else t
  }

  /** The configuration string of this variant: the 2D width is written in metres, as
      given, with no conversion to millimetres. */
  function ConfigOf(t: Trackable, env: Env): Option<Config> {
    MetresConfiguration(t.data, env.unpacker)
  }

  /** `Load(Queue)`. Queueing goes through `ARController.Instance` without a null
      check, so with no controller in the scene a queueing load throws. */
  function Load(t: Trackable, env: Env, a: Answers, queue: bool): (r: LoadResult)
    ensures r.code == Some(-1) <==> !t.enabled
    ensures r.code == Some(1) <==> t.enabled && (t.uid != NoId || PluginReady(Adopt(t, env), env))
    ensures r.code == Some(0) <==>
      t.enabled && t.uid == NoId && !PluginReady(Adopt(t, env), env) && (!queue || env.controllerPresent)
    ensures r.code.None? <==>
      t.enabled && t.uid == NoId && !PluginReady(Adopt(t, env), env) && queue && !env.controllerPresent
    ensures r.code.None? ==> r.t == t
    ensures r.queued <==> r.code == Some(0) && queue
    ensures r.code != Some(1) || t.uid != NoId ==> r.calls == []
    ensures r.t.data == t.data && r.t.options == t.options && r.t.enabled == t.enabled && r.t.visible == t.visible
    ensures t.enabled && t.uid == NoId && PluginReady(Adopt(t, env), env) ==>
      var p := Adopt(t, env);
      && r.t.plugin == p.plugin
      && (ConfigOf(p, env).None? ==> r.t == p && r.calls == [])
      && (ConfigOf(p, env).Some? ==>
            && r.t.uid == a.uid
            && |r.calls| >= 1 && r.calls[0] == AddTrackable(ConfigOf(p, env).value)
            && (a.uid == NoId ==> r.t == p && |r.calls| == 1)
            && (a.uid != NoId ==> r.calls[1..] == ForwardedCalls(a.uid, t.data.kind, MarkerReappliedSettings(t.options))))
  {
    if !t.enabled then LoadResult(Some(-1), t, [], false)
    else if t.uid != NoId then LoadResult(Some(1), t, [], false)
    else
      var p := Adopt(t, env);
      if !PluginReady(p, env) then
        if queue && !env.controllerPresent then LoadResult(None, p, [], false)
        else LoadResult(Some(0), p, [], queue)
      else match ConfigOf(p, env)
        case None => LoadResult(Some(1), p, [], false)
        case Some(cfg) =>
          if a.uid == NoId then LoadResult(Some(1), p, [AddTrackable(cfg)], false)
          else
            LoadResult(Some(1), p.(uid := a.uid, patterns := MarkerPatternsAfterAdd(p.data.kind, p.patterns, a.patternCount)),
                       [AddTrackable(cfg)] + ForwardedCalls(a.uid, p.data.kind, MarkerReappliedSettings(p.options)), false)
  }

  /** A native refusal is still reported as a load: the answer is 1 and the component
      has no UID, with nothing recorded that would stop the next attempt. */
  lemma RefusedLoadReportsSuccess(t: Trackable, env: Env, a: Answers, queue: bool)
    requires t.enabled && t.uid == NoId && PluginReady(Adopt(t, env), env) && a.uid == NoId
    ensures var r := Load(t, env, a, queue);
      r.code == Some(1) && r.t.uid == NoId && Load(r.t, env, a, queue) == r
  {
  }

  /** After a successful add, the NFT scale is the last option forwarded for an NFT
      marker, and continuous pose estimation the first for a square one. */
  lemma LoadForwardOrder(t: Trackable, env: Env, a: Answers)
    requires t.enabled && t.uid == NoId && PluginReady(Adopt(t, env), env) && a.uid != NoId
    requires ConfigOf(Adopt(t, env), env).Some?
    ensures var r := Load(t, env, a, true);
      && (t.data.kind == NFT ==> r.calls[|r.calls| - 1] == NativeSet(a.uid, NftScale(t.options.nftScale)))
      && (t.data.kind == Square ==> r.calls[1] == NativeSet(a.uid, UseContPoseEstimation(t.options.useContPoseEstimation)))
  {
    if t.data.kind == NFT {
      MarkerForwardedCallsNft(a.uid, t.options);
    } else if t.data.kind == Square {
      MarkerForwardedCallsSquare(a.uid, Square, t.options);
    }
  }

  /** `Unload`: without a UID nothing happens; otherwise the UID and the patterns are
      reset, and the native trackable is removed only through inited plugin functions. */
  function Unload(t: Trackable, env: Env): (r: Step)
    ensures t.uid == NoId ==> r == Step(t, [], false, false)
    ensures t.uid != NoId ==>
      && r.t == t.(uid := NoId, patterns := None)
      && (r.calls == [RemoveTrackable(t.uid)] <==> PluginReady(t, env))
      && (r.calls == [] <==> !PluginReady(t, env))
      && !r.queued && !r.threw
  {
    if t.uid == NoId then Step(t, [], false, false)
    else Step(t.(uid := NoId, patterns := None), if PluginReady(t, env) then [RemoveTrackable(t.uid)] else [], false, false)
  }

  /** Unloading what a load just added restores the component that owned plugin
      functions before the load. */
  lemma UnloadUndoesLoad(t: Trackable, env: Env, a: Answers)
    requires t.enabled && t.uid == NoId && t.plugin.Some? && PluginReady(t, env) && t.patterns.None?
    requires ConfigOf(t, env).Some? && a.uid != NoId
    ensures var l := Load(t, env, a, true);
      var u := Unload(l.t, env);
      u.t == t && u.calls == [RemoveTrackable(a.uid)]
  {
  }

  /** The `Type` setter: an unchanged value does nothing; a new value unloads, stores
      the type and loads again with queueing. */
  function SetType(t: Trackable, env: Env, a: Answers, k: TrackableType): (r: Step)
    ensures k == t.data.kind ==> r == Step(t, [], false, false)
    ensures k != t.data.kind ==>
      && r.t.data == t.data.(kind := k)
      && (t.uid != NoId && PluginReady(t, env) ==> |r.calls| >= 1 && r.calls[0] == RemoveTrackable(t.uid))
      && (r.threw <==> t.enabled && !PluginReady(t, env) && !env.controllerPresent)
    ensures k != t.data.kind ==>
      var u := Unload(t, env);
      var l := Load(u.t.(data := u.t.data.(kind := k)), env, a, true);
      && r.t == l.t && r.calls == u.calls + l.calls && r.queued == l.queued
    ensures var n := t.(data := t.data.(kind := k));
      k != t.data.kind && t.enabled && PluginReady(t, env) && ConfigOf(n, env).Some? ==>
      && r.t.uid == a.uid && !r.queued && !r.threw
      && (t.uid != NoId ==> |r.calls| >= 2 && r.calls[1] == AddTrackable(ConfigOf(n, env).value))
      && (t.uid == NoId ==> |r.calls| >= 1 && r.calls[0] == AddTrackable(ConfigOf(n, env).value))
  {
    if k == t.data.kind then Step(t, [], false, false)
    else
      var u := Unload(t, env);
      var l := Load(u.t.(data := u.t.data.(kind := k)), env, a, true);
      Step(l.t, u.calls + l.calls, l.queued, l.code.None?)
  }

  /** Changing the type and changing it back leaves the type as it was. */
  lemma SetTypeBack(t: Trackable, env: Env, a: Answers, k: TrackableType)
    requires k != t.data.kind
    ensures var r := SetType(SetType(t, env, a, k).t, env, a, t.data.kind);
      r.t.data == t.data
  {
  }

  /** The `PluginFunctions` setter: null unloads through the old functions first and
      then drops them; anything else is stored first and then loaded. */
  function SetPluginFunctions(t: Trackable, env: Env, a: Answers, p: Option<nat>): (r: Step)
    ensures p.None? ==> r.t.plugin.None? && r.t.uid == NoId && !r.queued && !r.threw
    ensures p.None? && t.uid != NoId ==> (r.calls == [RemoveTrackable(t.uid)] <==> PluginReady(t, env))
    ensures p.Some? ==> r.t.plugin == p
    ensures p.Some? ==> (r.threw <==> t.enabled && t.uid == NoId && p.value !in env.inited && !env.controllerPresent)
    ensures p.Some? && t.enabled && t.uid == NoId && p.value in env.inited && ConfigOf(t, env).Some? ==>
      r.t.uid == a.uid && |r.calls| >= 1 && r.calls[0] == AddTrackable(ConfigOf(t, env).value)
  {
    if p.None? then
      var u := Unload(t, env);
      Step(u.t.(plugin := None), u.calls, false, false)
    else
      var l := Load(t.(plugin := p), env, a, true);
      assert ConfigOf(t.(plugin := p), env) == ConfigOf(t, env);
      Step(l.t, l.calls, l.queued, l.code.None?)
  }

  /** `Update` in play mode: a component without a UID or without inited plugin
      functions is hidden; otherwise it shows what the native side reports. It never
      loads. */
  function Update(t: Trackable, env: Env, playing: bool, seen: bool): (r: Trackable)
    ensures !playing ==> r == t
    ensures playing ==> r == t.(visible := t.uid != NoId && PluginReady(t, env) && seen)
  {
    if !playing then t
    else if t.uid == NoId || !PluginReady(t, env) then t.(visible := false)
    else t.(visible := seen)
  }

  /** Because `Update` never loads, an unloaded component stays unloaded and hidden
      frame after frame. */
  lemma UpdateNeverLoads(t: Trackable, env: Env, seen: bool)
    requires t.uid == NoId
    ensures Update(t, env, true, seen).uid == NoId && !Update(t, env, true, seen).visible
  {
  }

  /** An option setter: it always stores the value, and forwards it only for a loaded
      component whose type the option fits. */
  function Set(t: Trackable, s: Setting): (r: Step)
    ensures r.t == t.(options := Store(t.options, s)) && !r.queued && !r.threw
    ensures r.calls == (if t.uid != NoId && AppliesTo(s, t.data.kind) then [NativeSet(t.uid, s)] else [])
  {
    Step(t.(options := Store(t.options, s)),
         if t.uid != NoId && AppliesTo(s, t.data.kind) then [NativeSet(t.uid, s)] else [], false, false)
  }
}

=== FILE: arx_controller.dfy ===
/** `ARXController`'s session logic: the cached singleton, log levels, starting,
    updating and stopping AR, and the pause protocol. The plugin's answers (whether it
    initialised, whether video is running, whether a frame arrived), the screen and the
    build kind are parameters; what the controller asks of the plugin, of the Unity video
    source and of its listeners is recorded as a sequence of effects. */
module ArxController {
  import opened Wrappers
  import Text
  import Controller

  /** `Instance`: a cached controller is returned as is; otherwise the scene search must
      find exactly one, which is cached, and anything else logs an error and gives none. */
  function Instance(cached: Option<nat>, found: seq<nat>): (r: (Option<nat>, bool))
    ensures cached.Some? ==> r == (cached, false)
    ensures cached.None? ==> (r.0.Some? <==> |found| == 1) && (r.1 <==> |found| != 1)
    ensures cached.None? && |found| == 1 ==> r.0 == Some(found[0])
  {
    if cached.Some? then (cached, false)
    else if |found| == 1 then (Some(found[0]), false)
    else (None, true)
  }

  /** `OnDestroy`: the cache is cleared only when it holds the controller going away. */
  function OnDestroy(cached: Option<nat>, self: nat): (r: Option<nat>)
    ensures r.None? <==> cached.None? || cached == Some(self)
    ensures r.Some? ==> r == cached
  {
    if cached == Some(self) then None else cached
  }

  /** Once found, the instance is kept whatever later searches find, until that very
      controller is destroyed; then the next access searches again. */
  lemma InstanceSticksUntilDestroyed(found: seq<nat>, later: seq<nat>, other: nat)
    requires |found| == 1 && other != found[0]
    ensures var c := Instance(None, found).0;
      && Instance(c, later).0 == Some(found[0])
      && Instance(OnDestroy(c, other), later).0 == Some(found[0])
      && Instance(OnDestroy(c, found[0]), later) == Instance(None, later)
  {
  }

  datatype Level = Error | Warning | Info

  /** `Log(string)`: the level is read off the message's `[error]` or `[warning]` prefix. */
  function LevelOf(msg: string): (r: Level)
    ensures r == Error <==> Text.StartsWith(msg, "[error]")
    ensures r == Warning <==> !Text.StartsWith(msg, "[error]") && Text.StartsWith(msg, "[warning]")
  {
    if Text.StartsWith(msg, "[error]") then Error
    else if Text.StartsWith(msg, "[warning]") then Warning
    else Info
  }

  /** Whatever follows the tag, a message the plugin tags is routed by that tag, and a
      message that does not open with a bracket is information. */
  lemma TaggedMessagesRouted(m: string)
    ensures LevelOf("[error]" + m) == Error
    ensures LevelOf("[warning]" + m) == Warning
    ensures |m| == 0 || m[0] != '[' ==> LevelOf(m) == Info
  {
    assert ("[error]" + m)[..7] == "[error]";
    assert ("[warning]" + m)[..9] == "[warning]";
    assert ("[warning]" + m)[..7] != "[error]" by { assert ("[warning]" + m)[1] == 'w'; }
  }

  /** `Log(level, msg)`'s buffer: only debug builds keep messages, capped like the older
      controller's. */
  function LogAt(log: seq<string>, debugBuild: bool, msg: string): (r: seq<string>)
    ensures !debugBuild ==> r == log
    ensures debugBuild ==> r == Controller.Logged(log, msg)
    ensures |r| <= Controller.MaximumLogMessages || r == log
  {
    if debugBuild then Controller.Logged(log, msg) else log
  }

  /** The screen geometry the controller remembers. */
  datatype Screen = Screen(width: int, height: int, orientation: int)

  /** The controller's session state: whether AR runs, whether to restart on resume,
      whether the scene is configured for video (and the waiting message logged), the
      screen last seen, whether a Unity video source is active, and the threshold. */
  datatype Ctl = Ctl(
    running: bool,
    runOnUnpause: bool,
    sceneConfigured: bool,
    waitingLogged: bool,
    screen: Screen,
    videoSource: bool,
    threshold: int)

  /** What the controller asks of the plugin, the video source and its listeners. */
  datatype Effect =
    | VideoSourceStart | VideoSourceUpdate | VideoSourceStop
    | StartRunning | StopRunning | ApplySettings(threshold: int)
    | VideoStarted | ScreenGeometryChanged | Capture | NativeUpdate | VideoFrame | VideoStopped

  /** How far `StartARCo` gets: the plugin could not be initialised, camera permission
      is being requested, a camera-parameter file is missing, or the native start ran
      and answered `ok`. */
  datatype StartOutcome = NotInitialised | AwaitingPermission | ParametersMissing | NativeStart(ok: bool)

  /** The platform: whether the video configuration uses a Unity video source, and
      whether screen orientation is watched (iOS and Android). */
  datatype Platform = Platform(unityVideo: bool, mobile: bool)

  /** `StartARCo` as written: a second start is ignored; otherwise the screen size is
      noted (the orientation only on iOS and Android), the scene is marked
      unconfigured, a Unity video source is started if the configuration asks for one,
      and the native start decides whether AR runs. The video source stays started
      when a parameter file is missing or the native start fails. */
  function StartARCo(c: Ctl, p: Platform, screen: Screen, outcome: StartOutcome): (r: (Ctl, seq<Effect>))
    ensures c.running || outcome.NotInitialised? || outcome.AwaitingPermission? ==> r == (c, [])
    ensures r.0.running <==> c.running || outcome == NativeStart(true)
    ensures !c.running && (outcome.ParametersMissing? || outcome.NativeStart?) ==>
      && !r.0.sceneConfigured && Sees(r.0.screen, screen, p.mobile)
      && r.0.screen.width == screen.width && r.0.screen.height == screen.height
      && r.0.screen.orientation == (if p.mobile then screen.orientation else c.screen.orientation)
      && (r.0.videoSource <==> c.videoSource || p.unityVideo)
      && (VideoSourceStart in r.1 <==> p.unityVideo)
      && (StartRunning in r.1 <==> outcome.NativeStart?)
    ensures !c.running && outcome == NativeStart(true) ==> r.1[|r.1| - 1] == ApplySettings(c.threshold)
  {
    if c.running || outcome.NotInitialised? || outcome.AwaitingPermission? then (c, [])
    else
      var noted := Screen(screen.width, screen.height, if p.mobile then screen.orientation else c.screen.orientation);
      var c1 := c.(sceneConfigured := false, waitingLogged := false, screen := noted,
                   videoSource := c.videoSource || p.unityVideo);
      var e1: seq<Effect> := if p.unityVideo then [VideoSourceStart] else [];
      match outcome
      case ParametersMissing => (c1, e1)
      case NativeStart(ok) =>
        if ok then (c1.(running := true), e1 + [StartRunning, ApplySettings(c.threshold)])
        else (c1, e1 + [StartRunning])
  }

  /** `StartARCo` releasing what it started: a start that does not end running stops
      the Unity video source it began. */
  function StartARCoReleasing(c: Ctl, p: Platform, screen: Screen, outcome: StartOutcome): (r: (Ctl, seq<Effect>))
    ensures r.0.running == StartARCo(c, p, screen, outcome).0.running
    ensures r.0.running ==> r == StartARCo(c, p, screen, outcome)
    ensures !r.0.running && (outcome.ParametersMissing? || outcome.NativeStart?) ==>
      && r.0 == StartARCo(c, p, screen, outcome).0.(videoSource := false)
      && (VideoSourceStop in r.1 <==> c.videoSource || p.unityVideo)
  {
    var s := StartARCo(c, p, screen, outcome);
    if s.0.running || outcome.NotInitialised? || outcome.AwaitingPermission? then s
    else
      (s.0.(videoSource := false), s.1 + (if s.0.videoSource then [VideoSourceStop] else []))
  }

  /** `UpdateAR`: nothing unless running. Otherwise the video source is pumped; the
      scene is configured for video once, on the first update that finds the plugin's
      video running; a change of screen geometry is announced and remembered; then a
      frame is captured and, if one arrived, tracking is updated. The answer is false
      only when the plugin's update fails. */
  function UpdateAR(c: Ctl, p: Platform, screen: Screen, videoRunning: bool, gotFrame: bool, updateOK: bool): (r: (Ctl, bool, seq<Effect>))
    ensures !c.running ==> r == (c, true, [])
    ensures !r.1 <==> c.running && gotFrame && !updateOK
    ensures r.0.running == c.running && r.0.videoSource == c.videoSource && r.0.threshold == c.threshold
    ensures c.running ==>
      && (r.0.sceneConfigured <==> c.sceneConfigured || videoRunning)
      && (VideoStarted in r.2 <==> !c.sceneConfigured && videoRunning)
      && (ScreenGeometryChanged in r.2 <==> GeometryChanged(c.screen, screen, p.mobile))
      && Sees(r.0.screen, screen, p.mobile)
      && (VideoFrame in r.2 <==> gotFrame && updateOK)
  {
    if !c.running then (c, true, [])
    else
      var e0: seq<Effect> := if c.videoSource then [VideoSourceUpdate] else [];
      var (c1, e1) :=
        if c.sceneConfigured then (c, e0)
        else if !videoRunning then (c.(waitingLogged := true), e0)
        else (c.(sceneConfigured := true), e0 + [VideoStarted]);
      var (c2, e2) :=
        if GeometryChanged(c1.screen, screen, p.mobile) then
          (c1.(screen := Screen(screen.width, screen.height,
                                if p.mobile then screen.orientation else c1.screen.orientation)),
           e1 + [ScreenGeometryChanged])
        else (c1, e1);
      if !gotFrame then (c2, true, e2 + [Capture])
      else if !updateOK then (c2, false, e2 + [Capture, NativeUpdate])
      else (c2, true, e2 + [Capture, NativeUpdate, VideoFrame])
  }

  /** Whether the screen differs from the remembered one in what the platform watches. */
  predicate GeometryChanged(known: Screen, now: Screen, mobile: bool) {
    known.width != now.width || known.height != now.height || (mobile && known.orientation != now.orientation)
  }

  /** Whether the remembered screen agrees with the current one in what is watched. */
  predicate Sees(known: Screen, now: Screen, mobile: bool) {
    !GeometryChanged(known, now, mobile)
  }

  /** One `Update` call's inputs. */
  datatype Tick = Tick(screen: Screen, videoRunning: bool, gotFrame: bool)

  function Updates(c: Ctl, p: Platform, ticks: seq<Tick>): (r: (Ctl, seq<Effect>))
    ensures |ticks| > 0 ==>
      var u := UpdateAR(c, p, ticks[0].screen, ticks[0].videoRunning, ticks[0].gotFrame, true);
      var rest := Updates(u.0, p, ticks[1..]);
      r == (rest.0, u.2 + rest.1)
    decreases |ticks|
  {
    if |ticks| == 0 then (c, [])
    else
      var u := UpdateAR(c, p, ticks[0].screen, ticks[0].videoRunning, ticks[0].gotFrame, true);
      var rest := Updates(u.0, p, ticks[1..]);
      (rest.0, u.2 + rest.1)
  }

  function B2N(b: bool): nat { if b then 1 else 0 }

  lemma UpdateBalance(c: Ctl, p: Platform, t: Tick)
    ensures var u := UpdateAR(c, p, t.screen, t.videoRunning, t.gotFrame, true);
      && multiset(u.2)[VideoStarted] + B2N(c.sceneConfigured) == B2N(u.0.sceneConfigured)
      && u.0.running == c.running
  {
    var u := UpdateAR(c, p, t.screen, t.videoRunning, t.gotFrame, true);
    if c.running && !c.sceneConfigured && t.videoRunning {
      assert VideoStarted in u.2;
      var e0: seq<Effect> := if c.videoSource then [VideoSourceUpdate] else [];
      assert multiset(e0)[VideoStarted] == 0;
    } else {
      assert VideoStarted !in u.2;
      assert multiset(u.2)[VideoStarted] == 0;
    }
  }

  /** Across any run of successful updates, the video-started listeners fire at most
      once: exactly when the run takes the scene from unconfigured to configured. */
  lemma {:induction false} VideoStartedAtMostOnce(c: Ctl, p: Platform, ticks: seq<Tick>)
    ensures var r := Updates(c, p, ticks);
      multiset(r.1)[VideoStarted] + B2N(c.sceneConfigured) == B2N(r.0.sceneConfigured)
    ensures multiset(Updates(c, p, ticks).1)[VideoStarted] <= 1
    decreases |ticks|
  {
    if |ticks| > 0 {
      var t := ticks[0];
      var u := UpdateAR(c, p, t.screen, t.videoRunning, t.gotFrame, true);
      UpdateBalance(c, p, t);
      VideoStartedAtMostOnce(u.0, p, ticks[1..]);
    }
  }

  /** A geometry change is announced once: the next update on the same screen is
      quiet about it. */
  lemma GeometryChangeAnnouncedOnce(c: Ctl, p: Platform, screen: Screen, v1: bool, v2: bool, f1: bool, f2: bool)
    requires c.running
    ensures var u := UpdateAR(c, p, screen, v1, f1, true);
      ScreenGeometryChanged !in UpdateAR(u.0, p, screen, v2, f2, true).2
  {
  }

  /** `StopAR`: false and nothing when not running; otherwise the Unity video source is
      stopped and dropped, the plugin is stopped (whatever it answers), the listeners are
      told, and AR no longer runs. */
  function StopAR(c: Ctl): (r: (Ctl, bool, seq<Effect>))
    ensures r.1 <==> c.running
    ensures !c.running ==> r == (c, false, [])
    ensures c.running ==>
      && r.0 == c.(running := false, videoSource := false)
      && r.2 == (if c.videoSource then [VideoSourceStop] else []) + [StopRunning, VideoStopped]
  {
    if !c.running then (c, false, [])
    else
      (c.(running := false, videoSource := false), true,
       (if c.videoSource then [VideoSourceStop] else []) + [StopRunning, VideoStopped])
  }

  /** `OnApplicationPause`, following the protocol the two controllers share, with this
      controller's `StopAR`; the answer says whether a start was requested. */
  function OnApplicationPause(c: Ctl, paused: bool): (r: (Ctl, seq<Effect>, bool))
    ensures var q := Controller.OnApplicationPause(Controller.RunState(c.running, c.runOnUnpause), paused);
      && r.0.running == q.s.running && r.0.runOnUnpause == q.s.runOnUnpause
      && r.2 == q.startRequested
      && (q.stopped ==> r.1 == StopAR(c).2)
      && (!q.stopped ==> r.1 == [] && r.0 == c.(runOnUnpause := q.s.runOnUnpause))
  {
    var q := Controller.OnApplicationPause(Controller.RunState(c.running, c.runOnUnpause), paused);
    if q.stopped then
      var s := StopAR(c);
      (s.0.(runOnUnpause := q.s.runOnUnpause), s.2, false)
    else (c.(runOnUnpause := q.s.runOnUnpause), [], q.startRequested)
  }

  /** The invariant the corrected start keeps: a Unity video source is active only
      while AR runs. */
  predicate SourceOnlyWhileRunning(c: Ctl) {
    c.videoSource ==> c.running
  }

  /** Every operation of the corrected controller keeps the invariant. */
  lemma ReleasingKeepsSourceInvariant(c: Ctl, p: Platform, screen: Screen, outcome: StartOutcome,
                                      v: bool, f: bool, ok: bool, paused: bool)
    requires SourceOnlyWhileRunning(c)
    ensures SourceOnlyWhileRunning(StartARCoReleasing(c, p, screen, outcome).0)
    ensures SourceOnlyWhileRunning(UpdateAR(c, p, screen, v, f, ok).0)
    ensures SourceOnlyWhileRunning(StopAR(c).0)
    ensures SourceOnlyWhileRunning(OnApplicationPause(c, paused).0)
  {
  }

  /** The failed start as written: with a Unity video source and a native start that
      fails, the source is left active while AR is not running, and a later `StopAR`
      does nothing, so the source is never stopped. */
  lemma FailedStartLeaksVideoSource()
    ensures var c := Ctl(false, false, false, false, Screen(0, 0, 0), false, Controller.DefaultThreshold);
      var s := StartARCo(c, Platform(true, false), Screen(640, 480, 0), NativeStart(false));
      && s.1 == [VideoSourceStart, StartRunning]
      && s.0.videoSource && !s.0.running
      && !SourceOnlyWhileRunning(s.0)
      && StopAR(s.0) == (s.0, false, [])
  {
  }

  /** The same failed start, corrected: the source is stopped as soon as the start
      fails. */
  lemma FailedStartReleasesVideoSource()
    ensures var c := Ctl(false, false, false, false, Screen(0, 0, 0), false, Controller.DefaultThreshold);
      var s := StartARCoReleasing(c, Platform(true, false), Screen(640, 480, 0), NativeStart(false));
      && s.1 == [VideoSourceStart, StartRunning, VideoSourceStop]
      && !s.0.videoSource && !s.0.running
  {
  }

  /** Pausing a running session and resuming it stops whatever video source it had and
      then asks for a fresh start. */
  lemma PauseResumeStopsThenRestarts(c: Ctl)
    requires c.running
    ensures var a := OnApplicationPause(c, true);
      var b := OnApplicationPause(a.0, false);
      && !a.0.running && !a.0.videoSource && VideoStopped in a.1 && !a.2
      && b.2 && b.1 == [] && !b.0.runOnUnpause
  {
  }
}

=== FILE: arx_trackable.dfy ===
/** `ARXTrackable` as the Unity package ships it: a component that owns one native
    trackable. `Load` builds a configuration from the component's fields and adds it on
    the native side, possibly after unpacking data files in a coroutine; `Update` loads
    lazily and reports visibility edges; `Unload` removes the native trackable.

    The controller's readiness (instance present, plugin functions set, `IsInited()`),
    the asset-unpacking flag and cache, and every native answer are parameters; native
    calls, coroutine starts and the Found/Lost events come back as a list of events. */
module ArxTrackable {
  import opened Wrappers
  import opened TrackableCore
  import Text
  import Visibility

  /** What an unpacking coroutine will load once its files are in the cache. */
  datatype Pending =
    | PendingMulti(file: string)
    | PendingNft
    | PendingTwoD(image: string)

  datatype Trackable = Trackable(
    uid: int,
    kind: TrackableType,
    twoDImageFile: string,
    twoDImageWidth: real,
    patternFileName: string,
    patternContents: string,
    barcodeId: nat,
    patternWidth: real,
    multiConfigFile: string,
    nftDataName: string,
    options: Options,
    /** `patterns`: `None` for null, otherwise the array length. */
    patterns: Option<nat>,
    visible: bool,
    loading: bool,
    loadError: bool,
    /** The continuation of a running unpack coroutine. */
    pending: Option<Pending>)

  /** The environment `Load` consults: whether the controller is ready for native calls,
      `_mustUnpackAssets`, and the names present in the temporary cache. */
  datatype Env = Env(ready: bool, mustUnpack: bool, cached: set<string>)

  datatype Event =
    | Native(call: Call)
    | StartUnpack(files: seq<string>)
    | Found
    | Lost

  datatype Step = Step(t: Trackable, events: seq<Event>)

  /** A component as added: no UID, a 2D type, the field initialisers. */
  function Fresh(): (t: Trackable)
    ensures t.uid == NoId && t.kind == TwoD && t.options == DefaultOptions()
    ensures !t.visible && !t.loading && !t.loadError && t.pending.None? && t.patterns.None?
  {
    Trackable(NoId, TwoD, "", 1.0, "", "", 0, 0.08, "", "", DefaultOptions(), None,
              false, false, false, None)
  }

  /** `FileIsCached`: an empty name is never cached. */
  predicate FileIsCached(env: Env, name: string) {
    name != "" && name in env.cached
  }

  function NativeEvents(cs: seq<Call>): (es: seq<Event>)
    ensures |es| == |cs|
    ensures forall i :: 0 <= i < |cs| ==> es[i] == Native(cs[i])
    decreases |cs|
  {
    if |cs| == 0 then [] else [Native(cs[0])] + NativeEvents(cs[1..])
  }

  lemma {:induction false} NativeEventsAppend(a: seq<Call>, b: seq<Call>)
    ensures NativeEvents(a + b) == NativeEvents(a) + NativeEvents(b)
  {
    var l, r := NativeEvents(a + b), NativeEvents(a) + NativeEvents(b);
    assert |l| == |r|;
    forall i | 0 <= i < |l| ensures l[i] == r[i] {
      if i < |a| {
        assert (a + b)[i] == a[i];
      } else {
        assert (a + b)[i] == b[i - |a|];
      }
    }
  }

  /** A property setter: it always stores the value, and forwards it only for a loaded
      trackable that is not in the middle of a load and whose type the option fits. */
  function Set(t: Trackable, s: Setting): (r: Step)
    ensures r.t == t.(options := Store(t.options, s))
    ensures |r.events| <= 1
    ensures r.events != [] <==> t.uid != NoId && !t.loading && AppliesTo(s, t.kind)
    ensures r.events != [] ==> r.events[0] == Native(NativeSet(t.uid, s))
  {
    var stored := t.(options := Store(t.options, s));
    if t.uid != NoId && !t.loading && AppliesTo(s, t.kind) then Step(stored, [Native(NativeSet(t.uid, s))])
    else Step(stored, [])
  }

  /** Several setters in a row. */
  function SetAll(t: Trackable, ss: seq<Setting>): (r: Step)
    decreases |ss|
  {
    if |ss| == 0 then Step(t, [])
    else
      var first := Set(t, ss[0]);
      var rest := SetAll(first.t, ss[1..]);
      Step(rest.t, first.events + rest.events)
  }

  /** While `loading` holds, setters store but never forward, and storing the current
      values changes nothing. */
  lemma {:induction false} SetAllWhileLoading(t: Trackable, ss: seq<Setting>)
    requires t.loading
    requires forall i :: 0 <= i < |ss| ==> Store(t.options, ss[i]) == t.options
    ensures SetAll(t, ss) == Step(t, [])
    decreases |ss|
  {
    if |ss| > 0 {
      assert Set(t, ss[0]).t == t;
      SetAllWhileLoading(t, ss[1..]);
    }
  }

  /** Outside a load, setters forward exactly the settings the type admits. */
  lemma {:induction false} SetAllForwards(t: Trackable, ss: seq<Setting>)
    requires t.uid != NoId && !t.loading
    requires forall i :: 0 <= i < |ss| ==> Store(t.options, ss[i]) == t.options
    ensures SetAll(t, ss) == Step(t, NativeEvents(ForwardedCalls(t.uid, t.kind, ss)))
    decreases |ss|
  {
    if |ss| > 0 {
      var first := Set(t, ss[0]);
      assert first.t == t;
      SetAllForwards(t, ss[1..]);
      var head := if AppliesTo(ss[0], t.kind) then [NativeSet(t.uid, ss[0])] else [];
      assert ForwardedCalls(t.uid, t.kind, ss) == head + ForwardedCalls(t.uid, t.kind, ss[1..]);
      NativeEventsAppend(head, ForwardedCalls(t.uid, t.kind, ss[1..]));
      assert first.events == NativeEvents(head);
    }
  }

  /** `LoadFailed`: the error flag is raised and the load is over. */
  function LoadFailed(t: Trackable): (u: Trackable)
    ensures u.loadError && !u.loading
    ensures u == t.(loadError := true, loading := false)
  {
    t.(loadError := true, loading := false)
  }

  /** The state after the add, whichever way the options go: the UID is the native
      answer, the load is over, and NO_ID counts as an error. */
  function AfterAdd(t: Trackable, a: Answers): (u: Trackable)
  {
    if a.uid == NoId then t.(uid := a.uid, loadError := true, loading := false)
    else t.(uid := a.uid, loadError := false, loading := false,
            patterns := PatternsAfterAdd(t.patterns, a.patternCount))
  }

  /** `LoadNative` as written: the UID is taken from the add; NO_ID is a load failure.
      The option setters run while `_loading` is still set, so they forward nothing. */
  function LoadNative(t: Trackable, cfg: Config, a: Answers): (r: Step)
    requires t.loading
  {
    var added := t.(uid := a.uid);
    if a.uid == NoId then Step(LoadFailed(added), [Native(AddTrackable(cfg))])
    else
      var reapplied := SetAll(added, ReappliedSettings(added.options));
      var done := reapplied.t.(patterns := PatternsAfterAdd(reapplied.t.patterns, a.patternCount),
                               loadError := false, loading := false);
      Step(done, [Native(AddTrackable(cfg))] + reapplied.events)
  }

  /** The load that `LoadNative` evidently intends: the same steps with the stored
      options forwarded once the UID is known. */
  function LoadNativeForwarding(t: Trackable, cfg: Config, a: Answers): (r: Step)
    requires t.loading
  {
    var added := t.(uid := a.uid);
    if a.uid == NoId then Step(LoadFailed(added), [Native(AddTrackable(cfg))])
    else
      var ready := added.(loadError := false, loading := false);
      var reapplied := SetAll(ready, ReappliedSettings(ready.options));
      var done := reapplied.t.(patterns := PatternsAfterAdd(reapplied.t.patterns, a.patternCount));
      Step(done, [Native(AddTrackable(cfg))] + reapplied.events)
  }

  /** As written, a load sends the add and nothing else: no stored option reaches the
      native trackable. */
  lemma LoadNativeDropsOptions(t: Trackable, cfg: Config, a: Answers)
    requires t.loading
    ensures LoadNative(t, cfg, a) == Step(AfterAdd(t, a), [Native(AddTrackable(cfg))])
  {
    if a.uid != NoId {
      SetAllWhileLoading(t.(uid := a.uid), ReappliedSettings(t.options));
    }
  }

  /** The intended load reaches the same state and, after a successful add, forwards
      exactly the stored options that fit the type. */
  lemma LoadNativeForwardingSendsOptions(t: Trackable, cfg: Config, a: Answers)
    requires t.loading
    ensures var r := LoadNativeForwarding(t, cfg, a);
      && r.t == AfterAdd(t, a)
      && r.events == [Native(AddTrackable(cfg))]
           + (if a.uid == NoId then [] else NativeEvents(ForwardedCalls(a.uid, t.kind, ReappliedSettings(t.options))))
  {
    if a.uid != NoId {
      SetAllForwards(t.(uid := a.uid, loadError := false, loading := false), ReappliedSettings(t.options));
    }
  }

  /** After a successful intended load the filter setting is always on the wire, since
      the filter options fit every type. */
  lemma ForwardingSendsFilter(t: Trackable, cfg: Config, a: Answers)
    requires t.loading && a.uid != NoId
    ensures Native(SetOptionBool(a.uid, OptionFiltered, t.options.filtered)) in LoadNativeForwarding(t, cfg, a).events
  {
    LoadNativeForwardingSendsOptions(t, cfg, a);
    var ss := ReappliedSettings(t.options);
    assert ss[2] in ss;
    ForwardedCallsContain(a.uid, t.kind, ss, ss[2]);
    var calls := ForwardedCalls(a.uid, t.kind, ss);
    var i :| 0 <= i < |calls| && calls[i] == NativeSet(a.uid, ss[2]);
    assert LoadNativeForwarding(t, cfg, a).events[1 + i] == Native(calls[i]);
  }

  /** A filtered square marker shows the difference: the intended load switches the
      filter on natively, the code as written never does. */
  lemma FilteredSquareExample()
    ensures var t := Fresh().(kind := Square, patternContents := "pattern",
                               options := DefaultOptions().(filtered := true));
      var env := Env(true, false, {});
      var a := Answers(7, 1);
      && Native(SetOptionBool(7, OptionFiltered, true)) !in Load(t, env, a).events
      && Native(SetOptionBool(7, OptionFiltered, true)) in LoadCorrected(t, env, a).events
  {
    var t := Fresh().(kind := Square, patternContents := "pattern",
                      options := DefaultOptions().(filtered := true));
    var env := Env(true, false, {});
    var a := Answers(7, 1);
    FilteredSquareAsWritten(t, env, a);
    FilteredSquareCorrected(t, env, a);
  }

  lemma FilteredSquareAsWritten(t: Trackable, env: Env, a: Answers)
    requires t.uid == NoId && !t.loading && env.ready && t.kind == Square && t.patternContents != ""
    ensures Native(SetOptionBool(a.uid, OptionFiltered, true)) !in Load(t, env, a).events
  {
    assert LoadPlanAsWritten(t, env).AddNow?;
  }

  lemma FilteredSquareCorrected(t: Trackable, env: Env, a: Answers)
    requires t.uid == NoId && !t.loading && env.ready && t.kind == Square && t.patternContents != ""
    requires t.options.filtered && a.uid != NoId
    ensures Native(SetOptionBool(a.uid, OptionFiltered, true)) in LoadCorrected(t, env, a).events
  {
    var cfg := SingleBuffer(t.patternWidth * 1000.0, t.patternContents);
    assert LoadPlan(t, env) == AddNow(cfg);
    ForwardingSendsFilter(t.(loading := true), cfg, a);
    LoadNativeForwardingSendsOptions(t.(loading := true), cfg, a);
    assert LoadCorrected(t, env, a).events == LoadNativeForwarding(t.(loading := true), cfg, a).events;
  }

  /** The data files of an NFT dataset that are not yet in the cache. */
  function UncachedNftFiles(env: Env, name: string, exts: seq<string>): (files: seq<string>)
    ensures |files| <= |exts|
    ensures forall i :: 0 <= i < |files| ==> !FileIsCached(env, files[i])
    decreases |exts|
  {
    if |exts| == 0 then []
    else
      var file := name + "." + exts[0];
      (if FileIsCached(env, file) then [] else [file]) + UncachedNftFiles(env, name, exts[1..])
  }

  /** The configuration a type needs is missing (no pattern, no multi-marker file, no
      NFT dataset name, no image file), or the type is not one `Load` knows. */
  predicate MissingData(t: Trackable) {
    match t.kind
    case Square => t.patternContents == ""
    case SquareBarcode => false
    case Multimarker => t.multiConfigFile == ""
    case NFT => t.nftDataName == ""
    case TwoD => t.twoDImageFile == ""
    case _ => true
  }

  /** What `Load` decides once it has claimed the load: fail, start an unpacking
      coroutine, or add right away. */
  datatype Plan = Fail | Unpack(next: Pending, files: seq<string>) | AddNow(config: Config)

  /** The folder a file is read from. */
  function ConfigFolder(cfg: Config): (f: Option<Folder>)
  {
    match cfg
    case Multi(p) => Some(p.folder)
    case Nft(p) => Some(p.folder)
    case TwoDImage(p, _) => Some(p.folder)
    case _ => None
  }

  /** The branches of `Load`. `cachedFolder` is where a multi-marker file or 2D image
      that needs unpacking but is already cached is read from. */
  function PlanFrom(t: Trackable, env: Env, cachedFolder: Folder): (p: Plan)
    ensures p.Fail? <==> MissingData(t)
    ensures p.Unpack? ==>
      && env.mustUnpack && |p.files| > 0
      && (forall i :: 0 <= i < |p.files| ==> !FileIsCached(env, p.files[i]))
  {
    match t.kind
    case Square =>
      if t.patternContents == "" then Fail
      else AddNow(SingleBuffer(t.patternWidth * 1000.0, t.patternContents))
    case SquareBarcode =>
      AddNow(SingleBarcode(t.barcodeId, t.patternWidth * 1000.0))
    case Multimarker =>
      if t.multiConfigFile == "" then Fail
      else if env.mustUnpack && !FileIsCached(env, t.multiConfigFile) then
        Unpack(PendingMulti(t.multiConfigFile), [t.multiConfigFile])
      else AddNow(Multi(FilePath(if env.mustUnpack then cachedFolder else StreamingAssets, t.multiConfigFile)))
    case NFT =>
      if t.nftDataName == "" then Fail
      else if env.mustUnpack then
        var files := UncachedNftFiles(env, t.nftDataName, NftDataExts);
        if |files| > 0 then Unpack(PendingNft, files)
        else AddNow(Nft(FilePath(TemporaryCache, t.nftDataName)))
      else AddNow(Nft(FilePath(StreamingAssets, t.nftDataName)))
    case TwoD =>
      if t.twoDImageFile == "" then Fail
      else if env.mustUnpack && !FileIsCached(env, t.twoDImageFile) then
        Unpack(PendingTwoD(t.twoDImageFile), [t.twoDImageFile])
      else AddNow(TwoDImage(FilePath(if env.mustUnpack then cachedFolder else StreamingAssets, t.twoDImageFile),
                            t.twoDImageWidth * 1000.0))
    case _ => Fail
  }

  /** `Load`'s branches as written: a multi-marker file or 2D image already in the cache
      is still read from the streaming-assets path, which is an archive or a URL on the
      platforms that need unpacking. */
  function LoadPlanAsWritten(t: Trackable, env: Env): (p: Plan)
    ensures p.Fail? <==> MissingData(t)
  {
    PlanFrom(t, env, StreamingAssets)
  }

  /** `Load`'s branches as evidently intended, and as the NFT branch already does:
      whenever assets must be unpacked, files are read from the cache. */
  function LoadPlan(t: Trackable, env: Env): (p: Plan)
    ensures p.Fail? <==> MissingData(t)
  {
    PlanFrom(t, env, TemporaryCache)
  }

  /** Every file the intended plan hands to the native side is in the cache when
      unpacking is needed and in streaming assets otherwise; unpacking is started only
      for files not yet cached. */
  lemma LoadPlanReadsFromCache(t: Trackable, env: Env)
    ensures var p := LoadPlan(t, env);
      && (p.AddNow? && ConfigFolder(p.config).Some? ==>
            (ConfigFolder(p.config).value == TemporaryCache <==> env.mustUnpack))
      && (p.Unpack? ==> env.mustUnpack && forall i :: 0 <= i < |p.files| ==> !FileIsCached(env, p.files[i]))
  {
  }

  /** As written, a cached 2D image on a platform that needs unpacking is handed to the
      native side by its streaming-assets path. */
  lemma CachedImageReadFromArchive()
    ensures var t := Fresh().(twoDImageFile := "marker.jpg");
      var env := Env(true, true, {"marker.jpg"});
      && LoadPlanAsWritten(t, env) == AddNow(TwoDImage(FilePath(StreamingAssets, "marker.jpg"), 1000.0))
      && LoadPlan(t, env) == AddNow(TwoDImage(FilePath(TemporaryCache, "marker.jpg"), 1000.0))
  {
  }

  /** The body of `Load` once `_loading` has been set, as written. */
  function LoadByType(t: Trackable, env: Env, a: Answers): (r: Step)
    requires t.loading
  {
    match LoadPlanAsWritten(t, env)
    case Fail => Step(LoadFailed(t), [])
    case Unpack(next, files) => Step(t.(pending := Some(next)), [StartUnpack(files)])
    case AddNow(cfg) => LoadNative(t, cfg, a)
  }

  /** The body of `Load` with both corrections applied: cached files are read from the
      cache and the stored options are forwarded. */
  function LoadByTypeCorrected(t: Trackable, env: Env, a: Answers): (r: Step)
    requires t.loading
  {
    match LoadPlan(t, env)
    case Fail => Step(LoadFailed(t), [])
    case Unpack(next, files) => Step(t.(pending := Some(next)), [StartUnpack(files)])
    case AddNow(cfg) => LoadNativeForwarding(t, cfg, a)
  }

  /** The options a successful corrected add forwards. */
  function AddEvents(t: Trackable, cfg: Config, a: Answers): (es: seq<Event>)
  {
    [Native(AddTrackable(cfg))]
      + (if a.uid == NoId then [] else NativeEvents(ForwardedCalls(a.uid, t.kind, ReappliedSettings(t.options))))
  }

  /** `Load`: nothing happens with a UID assigned, with the controller not ready or
      during a load; otherwise the branch the plan as written picks runs, and an add is
      the only native call, whatever options are stored. */
  function Load(t: Trackable, env: Env, a: Answers): (r: Step)
    ensures t.uid != NoId || !env.ready || t.loading ==> r == Step(t, [])
    ensures t.uid == NoId && env.ready && !t.loading ==>
      var p := LoadPlanAsWritten(t, env);
      && (p.Fail? ==> r == Step(t.(loadError := true), []))
      && (p.Unpack? ==> r == Step(t.(loading := true, pending := Some(p.next)), [StartUnpack(p.files)]))
      && (p.AddNow? ==> r == Step(AfterAdd(t, a), [Native(AddTrackable(p.config))]))
    ensures SameConfig(r.t, t) && r.t.visible == t.visible
  {
    if t.uid != NoId || !env.ready || t.loading then Step(t, [])
    else
      var claimed := t.(loading := true);
      assert LoadPlanAsWritten(claimed, env) == LoadPlanAsWritten(t, env);
      var r := LoadByType(claimed, env, a);
      var p := LoadPlanAsWritten(t, env);
      if p.AddNow? then
        LoadNativeDropsOptions(claimed, p.config, a);
        assert AfterAdd(claimed, a) == AfterAdd(t, a);
        r
      else r
  }

  /** `Load` with both corrections: the plan reads cached files from the cache, and a
      successful add is followed by the stored options that fit the type. */
  function LoadCorrected(t: Trackable, env: Env, a: Answers): (r: Step)
    ensures t.uid != NoId || !env.ready || t.loading ==> r == Step(t, [])
    ensures t.uid == NoId && env.ready && !t.loading ==>
      var p := LoadPlan(t, env);
      && (p.Fail? ==> r == Step(t.(loadError := true), []))
      && (p.Unpack? ==> r == Step(t.(loading := true, pending := Some(p.next)), [StartUnpack(p.files)]))
      && (p.AddNow? ==> r == Step(AfterAdd(t, a), AddEvents(t, p.config, a)))
    ensures SameConfig(r.t, t) && r.t.visible == t.visible
  {
    if t.uid != NoId || !env.ready || t.loading then Step(t, [])
    else
      var claimed := t.(loading := true);
      assert LoadPlan(claimed, env) == LoadPlan(t, env);
      var r := LoadByTypeCorrected(claimed, env, a);
      var p := LoadPlan(t, env);
      if p.AddNow? then
        LoadNativeForwardingSendsOptions(claimed, p.config, a);
        assert AfterAdd(claimed, a) == AfterAdd(t, a);
        r
      else r
  }

  /** The configuration an unpacking coroutine adds once its files are cached: the
      unpacked path for a multi-marker file or 2D image, the cached dataset for NFT. */
  function CachedConfig(t: Trackable, next: Pending): (cfg: Config)
    ensures ConfigFolder(cfg) == Some(TemporaryCache)
    ensures next.PendingMulti? ==> cfg == Multi(FilePath(TemporaryCache, next.file))
    ensures next.PendingNft? ==> cfg == Nft(FilePath(TemporaryCache, t.nftDataName))
    ensures next.PendingTwoD? ==> cfg == TwoDImage(FilePath(TemporaryCache, next.image), t.twoDImageWidth * 1000.0)
  {
    match next
    case PendingMulti(file) => Multi(FilePath(TemporaryCache, file))
    case PendingNft => Nft(FilePath(TemporaryCache, t.nftDataName))
    case PendingTwoD(image) => TwoDImage(FilePath(TemporaryCache, image), t.twoDImageWidth * 1000.0)
  }

  /** The unpacking coroutine has finished: on success the pending add runs with the
      cached path and, as in `Load`, is the only native call; on failure the load fails.
      Without a pending unpack nothing happens. */
  function UnpackFinished(t: Trackable, success: bool, a: Answers): (r: Step)
    ensures t.pending.None? || !t.loading ==> r == Step(t, [])
    ensures t.pending.Some? && t.loading && !success ==>
      r == Step(t.(pending := None, loadError := true, loading := false), [])
    ensures t.pending.Some? && t.loading && success ==>
      r == Step(AfterAdd(t.(pending := None), a), [Native(AddTrackable(CachedConfig(t, t.pending.value)))])
  {
    if t.pending.None? || !t.loading then Step(t, [])
    else
      var resumed := t.(pending := None);
      if !success then Step(LoadFailed(resumed), [])
      else
        var cfg := CachedConfig(t, t.pending.value);
        LoadNativeDropsOptions(resumed, cfg, a);
        LoadNative(resumed, cfg, a)
  }

  /** The unpack callback with the options forwarded after the add. */
  function UnpackFinishedCorrected(t: Trackable, success: bool, a: Answers): (r: Step)
    ensures t.pending.None? || !t.loading ==> r == Step(t, [])
    ensures t.pending.Some? && t.loading && !success ==>
      r == Step(t.(pending := None, loadError := true, loading := false), [])
    ensures t.pending.Some? && t.loading && success ==>
      r == Step(AfterAdd(t.(pending := None), a), AddEvents(t, CachedConfig(t, t.pending.value), a))
  {
    if t.pending.None? || !t.loading then Step(t, [])
    else
      var resumed := t.(pending := None);
      if !success then Step(LoadFailed(resumed), [])
      else
        var cfg := CachedConfig(t, t.pending.value);
        LoadNativeForwardingSendsOptions(resumed, cfg, a);
        LoadNativeForwarding(resumed, cfg, a)
  }

  /** `Unload`: nothing to do without a UID or during a load; otherwise the native
      trackable is removed (when the controller can still take the call) and the UID,
      error flag, patterns and visibility are reset. */
  function Unload(t: Trackable, ready: bool): (r: Step)
    ensures t.uid == NoId || t.loading ==> r == Step(t, [])
    ensures t.uid != NoId && !t.loading ==>
      && r.t == t.(uid := NoId, loadError := false, patterns := None, visible := false)
      && (r.events == [Native(RemoveTrackable(t.uid))] <==> ready)
      && (r.events == [] <==> !ready)
  {
    if t.uid == NoId || t.loading then Step(t, [])
    else
      Step(t.(uid := NoId, loadError := false, patterns := None, visible := false),
           if ready then [Native(RemoveTrackable(t.uid))] else [])
  }

  /** Unloading twice is unloading once. */
  lemma UnloadIdempotent(t: Trackable, ready: bool)
    ensures Unload(Unload(t, ready).t, ready) == Step(Unload(t, ready).t, [])
  {
  }

  /** Unloading a trackable that a synchronous load just added takes it back to where
      it was before the load; the load sends the add alone and the unload the remove
      alone. */
  lemma UnloadUndoesLoad(t: Trackable, env: Env, a: Answers)
    requires t.uid == NoId && env.ready && !t.loading && !t.loadError && !t.visible && t.patterns.None?
    requires LoadPlanAsWritten(t, env).AddNow? && a.uid != NoId
    ensures var loaded := Load(t, env, a);
      var unloaded := Unload(loaded.t, env.ready);
      && unloaded.t == t
      && loaded.events == [Native(AddTrackable(LoadPlanAsWritten(t, env).config))]
      && unloaded.events == [Native(RemoveTrackable(a.uid))]
  {
  }

  /** One `Update` in the player (`playing` false is the editor, where nothing happens):
      outside a load, and with the controller ready, a trackable without UID and without
      a recorded error is loaded lazily, and a trackable with a UID is visible exactly
      when the native query (`seen`) says so. Found and Lost fire on the edges. */
  function Update(t: Trackable, env: Env, playing: bool, a: Answers, seen: bool): (r: Step)
    ensures !playing || t.loading ==> r == Step(t, [])
    ensures playing && !t.loading && !(env.ready && t.uid == NoId && !t.loadError) ==>
      r.t == t.(visible := env.ready && t.uid != NoId && seen)
    ensures playing && !t.loading ==>
      var v := r.t.visible;
      && (Found in r.events <==> v && !t.visible)
      && (Lost in r.events <==> !v && t.visible)
      && (v ==> env.ready && r.t.uid != NoId && seen)
    ensures playing && !t.loading ==>
      var lazy := if env.ready && t.uid == NoId && !t.loadError then Load(t, env, a) else Step(t, []);
      && r.t == lazy.t.(visible := r.t.visible)
      && |lazy.events| <= |r.events| <= |lazy.events| + 1
      && r.events[..|lazy.events|] == lazy.events
  {
    if !playing || t.loading then Step(t, [])
    else
      var loaded := if env.ready && t.uid == NoId && !t.loadError then Load(t, env, a) else Step(t, []);
      LoadHasNoEdges(t, env, a);
      var v := env.ready && loaded.t.uid != NoId && seen;
      var edge := if v && !t.visible then [Found] else if !v && t.visible then [Lost] else [];
      Step(loaded.t.(visible := v), loaded.events + edge)
  }

  predicate NoEdges(es: seq<Event>) {
    forall i :: 0 <= i < |es| ==> !es[i].Found? && !es[i].Lost?
  }

  /** Loading never reports visibility and never changes it. */
  lemma LoadHasNoEdges(t: Trackable, env: Env, a: Answers)
    ensures NoEdges(Load(t, env, a).events)
    ensures Load(t, env, a).t.visible == t.visible
  {
  }

  /** What the native side answers on one frame. */
  datatype Frame = Frame(playing: bool, answers: Answers, seen: bool)

  function Run(t: Trackable, env: Env, frames: seq<Frame>): (r: Step)
    decreases |frames|
  {
    if |frames| == 0 then Step(t, [])
    else
      var first := Update(t, env, frames[0].playing, frames[0].answers, frames[0].seen);
      var rest := Run(first.t, env, frames[1..]);
      Step(rest.t, first.events + rest.events)
  }

  /** Found and Lost, in order, with everything else dropped. */
  function Edges(es: seq<Event>): (r: seq<Event>)
    ensures forall i :: 0 <= i < |r| ==> r[i].Found? || r[i].Lost?
  {
    Visibility.Edges(es, Found, Lost)
  }

  /** Found and Lost alternate from visibility `from` to visibility `to`. */
  predicate Alternating(es: seq<Event>, from: bool, to: bool) {
    Visibility.Alternating(es, Found, Lost, from, to)
  }

  lemma UpdateEdges(t: Trackable, env: Env, playing: bool, a: Answers, seen: bool)
    ensures var r := Update(t, env, playing, a, seen);
      Alternating(Edges(r.events), t.visible, r.t.visible)
  {
    var r := Update(t, env, playing, a, seen);
    if playing && !t.loading {
      var loaded := if env.ready && t.uid == NoId && !t.loadError then Load(t, env, a) else Step(t, []);
      LoadHasNoEdges(t, env, a);
      var v := env.ready && loaded.t.uid != NoId && seen;
      var edge := if v && !t.visible then [Found] else if !v && t.visible then [Lost] else [];
      assert r.events == loaded.events + edge && r.t.visible == v;
      QuietThenEdge(loaded.events, edge, t.visible, v);
    }
  }

  /** Events without edges followed by the one edge a visibility change reports
      alternate from the old visibility to the new one. */
  lemma QuietThenEdge(quiet: seq<Event>, edge: seq<Event>, from: bool, to: bool)
    requires NoEdges(quiet)
    requires edge == if to && !from then [Found] else if !to && from then [Lost] else []
    ensures Alternating(Edges(quiet + edge), from, to)
  {
    Visibility.EdgesAppend(quiet, edge, Found, Lost);
    Visibility.EdgesOfQuiet(quiet, Found, Lost);
    assert Edges(edge) == edge;
  }

  /** Over any run of frames, Found and Lost alternate: a trackable is never reported
      found twice without being lost in between, and the last event agrees with its
      final visibility. */
  lemma {:induction false} RunEdgesAlternate(t: Trackable, env: Env, frames: seq<Frame>)
    ensures var r := Run(t, env, frames);
      Alternating(Edges(r.events), t.visible, r.t.visible)
    decreases |frames|
  {
    if |frames| > 0 {
      var f := frames[0];
      var first := Update(t, env, f.playing, f.answers, f.seen);
      var rest := Run(first.t, env, frames[1..]);
      UpdateEdges(t, env, f.playing, f.answers, f.seen);
      RunEdgesAlternate(first.t, env, frames[1..]);
      Visibility.EdgesAppend(first.events, rest.events, Found, Lost);
      Visibility.AlternatingAppend(Edges(first.events), Edges(rest.events), Found, Lost,
                                   t.visible, first.t.visible, rest.t.visible);
    }
  }

  /** The overwrite rule of the `ConfigureAs*` methods: a string only if non-empty, a
      width only if positive. */
  function KeepUnlessEmpty(current: string, given: string): (s: string)
    ensures given != "" ==> s == given
    ensures given == "" ==> s == current
  {
    if given != "" then given else current
  }

  function KeepUnlessNonPositive(current: real, given: real): (w: real)
    ensures given > 0.0 ==> w == given
    ensures given <= 0.0 ==> w == current
  {
    if given > 0.0 then given else current
  }

  /** The serialised configuration: type, data files, widths, IDs and options. */
  predicate SameConfig(u: Trackable, t: Trackable) {
    && u.kind == t.kind && u.twoDImageFile == t.twoDImageFile && u.twoDImageWidth == t.twoDImageWidth
    && u.patternFileName == t.patternFileName && u.patternContents == t.patternContents
    && u.barcodeId == t.barcodeId && u.patternWidth == t.patternWidth
    && u.multiConfigFile == t.multiConfigFile && u.nftDataName == t.nftDataName
    && u.options == t.options
  }

  /** A loaded trackable is removed from the native side before it is reconfigured. */
  predicate RemovesFirst(t: Trackable, env: Env, r: Step) {
    t.uid != NoId && !t.loading && env.ready ==> |r.events| > 0 && r.events[0] == Native(RemoveTrackable(t.uid))
  }

  /** The shared shape of the `ConfigureAs*` methods: unload, reconfigure, clear the
      load error, load. The unload's events come first and the load keeps the new
      configuration. */
  function Reconfigure(t: Trackable, env: Env, a: Answers, configure: Trackable -> Trackable): (r: Step)
    ensures var u := Unload(t, env.ready);
      && SameConfig(r.t, configure(u.t))
      && |u.events| <= |r.events| && r.events[..|u.events|] == u.events
    ensures var u := Unload(t, env.ready);
      var l := Load(configure(u.t).(loadError := false), env, a);
      r.t == l.t && r.events == u.events + l.events
    ensures RemovesFirst(t, env, r)
  {
    var u := Unload(t, env.ready);
    var l := Load(configure(u.t).(loadError := false), env, a);
    assert (u.events + l.events)[..|u.events|] == u.events;
    Step(l.t, u.events + l.events)
  }

  /** The configuration `ConfigureAsTwoD` gives an unloaded trackable. */
  function AsTwoD(u: Trackable, imageFilePath: string, imageWidth: real): Trackable {
    u.(kind := TwoD,
       twoDImageFile := KeepUnlessEmpty(u.twoDImageFile, imageFilePath),
       twoDImageWidth := KeepUnlessNonPositive(u.twoDImageWidth, imageWidth))
  }

  /** `ConfigureAsTwoD`. */
  function ConfigureAsTwoD(t: Trackable, env: Env, a: Answers, imageFilePath: string, imageWidth: real): (r: Step)
    ensures r.t.kind == TwoD
    ensures r.t.twoDImageFile == (if imageFilePath != "" then imageFilePath else t.twoDImageFile)
    ensures r.t.twoDImageWidth == (if imageWidth > 0.0 then imageWidth else t.twoDImageWidth)
    ensures r.t.options == t.options && r.t.nftDataName == t.nftDataName
    ensures RemovesFirst(t, env, r)
    ensures var u := Unload(t, env.ready);
      var l := Load(AsTwoD(u.t, imageFilePath, imageWidth).(loadError := false), env, a);
      r.t == l.t && r.events == u.events + l.events
  {
    Reconfigure(t, env, a, (u: Trackable) => AsTwoD(u, imageFilePath, imageWidth))
  }

  function AsSquarePattern(u: Trackable, patternFilePath: string, fileLines: seq<string>, width: real): Trackable {
    u.(kind := Square,
       patternFileName := if patternFilePath != "" then FileName(patternFilePath) else u.patternFileName,
       patternContents := if patternFilePath != "" then Text.Join(fileLines, ' ') else u.patternContents,
       patternWidth := KeepUnlessNonPositive(u.patternWidth, width))
  }

  /** `ConfigureAsSquarePattern`; `fileLines` are the lines of the pattern file, which
      is read only when a path is given. */
  function ConfigureAsSquarePattern(t: Trackable, env: Env, a: Answers, patternFilePath: string,
                                    fileLines: seq<string>, width: real): (r: Step)
    ensures r.t.kind == Square
    ensures patternFilePath != "" ==>
      r.t.patternFileName == FileName(patternFilePath) && r.t.patternContents == Text.Join(fileLines, ' ')
    ensures patternFilePath == "" ==>
      r.t.patternFileName == t.patternFileName && r.t.patternContents == t.patternContents
    ensures r.t.patternWidth == (if width > 0.0 then width else t.patternWidth)
    ensures r.t.options == t.options && r.t.barcodeId == t.barcodeId
    ensures RemovesFirst(t, env, r)
    ensures var u := Unload(t, env.ready);
      var l := Load(AsSquarePattern(u.t, patternFilePath, fileLines, width).(loadError := false), env, a);
      r.t == l.t && r.events == u.events + l.events
  {
    Reconfigure(t, env, a, (u: Trackable) => AsSquarePattern(u, patternFilePath, fileLines, width))
  }

  function AsSquareBarcode(u: Trackable, barcodeId: nat, width: real): Trackable {
    u.(kind := SquareBarcode, barcodeId := barcodeId, patternWidth := KeepUnlessNonPositive(u.patternWidth, width))
  }

  /** `ConfigureAsSquareBarcode`: the `barcodeID >= 0` test always holds for an
      unsigned ID, so the ID is always replaced. */
  function ConfigureAsSquareBarcode(t: Trackable, env: Env, a: Answers, barcodeId: nat, width: real): (r: Step)
    ensures r.t.kind == SquareBarcode && r.t.barcodeId == barcodeId
    ensures r.t.patternWidth == (if width > 0.0 then width else t.patternWidth)
    ensures r.t.patternContents == t.patternContents && r.t.options == t.options
    ensures RemovesFirst(t, env, r)
    ensures var u := Unload(t, env.ready);
      var l := Load(AsSquareBarcode(u.t, barcodeId, width).(loadError := false), env, a);
      r.t == l.t && r.events == u.events + l.events
  {
    Reconfigure(t, env, a, (u: Trackable) => AsSquareBarcode(u, barcodeId, width))
  }

  function AsMultiSquare(u: Trackable, multiConfigFilePath: string): Trackable {
    u.(kind := Multimarker, multiConfigFile := KeepUnlessEmpty(u.multiConfigFile, multiConfigFilePath))
  }

  /** `ConfigureAsMultiSquare`. */
  function ConfigureAsMultiSquare(t: Trackable, env: Env, a: Answers, multiConfigFilePath: string): (r: Step)
    ensures r.t.kind == Multimarker
    ensures r.t.multiConfigFile == (if multiConfigFilePath != "" then multiConfigFilePath else t.multiConfigFile)
    ensures r.t.options == t.options
    ensures RemovesFirst(t, env, r)
    ensures var u := Unload(t, env.ready);
      var l := Load(AsMultiSquare(u.t, multiConfigFilePath).(loadError := false), env, a);
      r.t == l.t && r.events == u.events + l.events
  {
    Reconfigure(t, env, a, (u: Trackable) => AsMultiSquare(u, multiConfigFilePath))
  }

  function AsNFT(u: Trackable, nftDataName: string): Trackable {
    u.(kind := NFT, nftDataName := KeepUnlessEmpty(u.nftDataName, nftDataName))
  }

  /** `ConfigureAsNFT`. */
  function ConfigureAsNFT(t: Trackable, env: Env, a: Answers, nftDataName: string): (r: Step)
    ensures r.t.kind == NFT
    ensures r.t.nftDataName == (if nftDataName != "" then nftDataName else t.nftDataName)
    ensures r.t.options == t.options
    ensures RemovesFirst(t, env, r)
    ensures var u := Unload(t, env.ready);
      var l := Load(AsNFT(u.t, nftDataName).(loadError := false), env, a);
      r.t == l.t && r.events == u.events + l.events
  {
    Reconfigure(t, env, a, (u: Trackable) => AsNFT(u, nftDataName))
  }

  /** Reconfiguring a loaded, idle trackable removes the old native trackable before
      anything else, and a new one is added straight after, by its streaming-assets
      path and with no option call, when the image is there and needs no unpacking or
      is already cached; a configuration that lacks its data ends in a load error with
      no add. */
  lemma ConfigureAsTwoDReloads(t: Trackable, env: Env, a: Answers, path: string, width: real)
    requires t.uid != NoId && !t.loading && env.ready
    ensures var r := ConfigureAsTwoD(t, env, a, path, width);
      && 1 <= |r.events| && r.events[0] == Native(RemoveTrackable(t.uid))
      && r.t.kind == TwoD
      && (path != "" ==> r.t.twoDImageFile == path)
      && (width > 0.0 ==> r.t.twoDImageWidth == width)
      && (path == "" && t.twoDImageFile == "" ==> r.t.loadError && r.events == [r.events[0]])
      && (r.t.twoDImageFile != "" && (!env.mustUnpack || FileIsCached(env, r.t.twoDImageFile)) ==>
            r.events == [r.events[0], Native(AddTrackable(
              TwoDImage(FilePath(StreamingAssets, r.t.twoDImageFile), r.t.twoDImageWidth * 1000.0)))]
            && r.t.uid == a.uid)
  {
    var u := Unload(t, env.ready);
    var c := AsTwoD(u.t, path, width).(loadError := false);
    var l := Load(c, env, a);
    assert c.uid == NoId && !c.loading;
  }

  /** A GameObject, named by its place in the scene hierarchy: the index of its root,
      then the child index at each level below. Its descendants are the GameObjects
      whose path it begins. */
  type GameObject = seq<nat>

  /** An `ARXTrackable` component in the scene and the GameObject that carries it. */
  datatype Placed = Placed(host: GameObject, t: Trackable)

  /** The part of the scene the auto-create callback touches: the controller's
      GameObject, if a controller exists, and every trackable component in the order
      `FindObjectsByType` returns them. */
  datatype Scene = Scene(controllerHost: Option<GameObject>, controllerInited: bool, trackables: seq<Placed>)

  /** What the native side reports about a trackable it created by itself: the type
      code, the square width in millimetres and the barcode ID as text. */
  datatype AutoInfo = AutoInfo(typeCode: int, squareWidth: real, barcodeText: string)

  datatype Notice = AutoCreated(uid: int) | AutoRemoved(uid: int)

  datatype SceneStep = SceneStep(scene: Scene, notices: seq<Notice>)

  const AutoCreatedEvent: int := 1
  const AutoRemovedEvent: int := 2
  const ULongMax: int := 0xFFFF_FFFF_FFFF_FFFF

  /** The white space `NumberStyles.Integer` allows around a number: tab, line feed,
      vertical tab, form feed, carriage return and space. */
  predicate IsWhite(c: char) {
    c == ' ' || '\t' <= c <= '\r'
  }

  predicate AllWhite(s: string) {
    forall i :: 0 <= i < |s| ==> IsWhite(s[i])
  }

  /** `s` without its leading white space. */
  function TrimStart(s: string): (r: string)
    ensures |r| <= |s| && r == s[|s| - |r|..]
    ensures AllWhite(s[..|s| - |r|])
    ensures |r| > 0 ==> !IsWhite(r[0])
    decreases |s|
  {
    if |s| > 0 && IsWhite(s[0]) then TrimStart(s[1..]) else s
  }

  /** `s` without its trailing white space. */
  function TrimEnd(s: string): (r: string)
    ensures |r| <= |s| && r == s[..|r|]
    ensures AllWhite(s[|r|..])
    ensures |r| > 0 ==> !IsWhite(r[|r| - 1])
    decreases |s|
  {
    if |s| > 0 && IsWhite(s[|s| - 1]) then TrimEnd(s[..|s| - 1]) else s
  }

  /** `ulong.TryParse` in the invariant culture: white space around an optionally
      `+`-signed run of decimal digits whose value fits in 64 unsigned bits. */
  function ParseULong(s: string): (r: Option<nat>)
    ensures r.Some? ==> r.value <= ULongMax
    ensures AllWhite(s) ==> r.None?
    ensures |s| > 0 && Text.AllDigits(s) ==>
      (r.Some? <==> Text.DigitsValue(s) <= ULongMax) && (r.Some? ==> r.value == Text.DigitsValue(s))
  {
    var core := TrimEnd(TrimStart(s));
    var digits := if |core| > 0 && core[0] == '+' then core[1..] else core;
    if |digits| == 0 || !Text.AllDigits(digits) then None
    else if Text.DigitsValue(digits) <= ULongMax then Some(Text.DigitsValue(digits))
    else None
  }

  lemma {:induction false} TrimStartPadded(lead: string, rest: string)
    requires AllWhite(lead) && |rest| > 0 && !IsWhite(rest[0])
    ensures TrimStart(lead + rest) == rest
    decreases |lead|
  {
    if |lead| > 0 {
      assert (lead + rest)[0] == lead[0];
      assert (lead + rest)[1..] == lead[1..] + rest;
      TrimStartPadded(lead[1..], rest);
    } else {
      assert lead + rest == rest;
    }
  }

  lemma {:induction false} TrimEndPadded(rest: string, trail: string)
    requires AllWhite(trail) && |rest| > 0 && !IsWhite(rest[|rest| - 1])
    ensures TrimEnd(rest + trail) == rest
    decreases |trail|
  {
    if |trail| > 0 {
      var s := rest + trail;
      assert s[|s| - 1] == trail[|trail| - 1];
      assert s[..|s| - 1] == rest + trail[..|trail| - 1];
      TrimEndPadded(rest, trail[..|trail| - 1]);
    } else {
      assert rest + trail == rest;
    }
  }

  lemma ParseULongTrimmed(s: string, plus: bool, d: string)
    requires |d| > 0 && Text.AllDigits(d) && Text.DigitsValue(d) <= ULongMax
    requires TrimEnd(TrimStart(s)) == (if plus then "+" else "") + d
    ensures ParseULong(s) == Some(Text.DigitsValue(d))
  {
    var core := TrimEnd(TrimStart(s));
    var digits := if |core| > 0 && core[0] == '+' then core[1..] else core;
    if plus {
      assert core == ['+'] + d;
      assert core[1..] == d;
    } else {
      assert core == d;
      assert core[0] != '+' by { assert Text.IsDigit(d[0]); }
    }
    assert digits == d;
  }

  /** A character that is neither white space, a digit nor `+` makes the parse fail,
      wherever it stands. */
  lemma ParseULongRejectsStray(s: string, i: int)
    requires 0 <= i < |s| && !IsWhite(s[i]) && !Text.IsDigit(s[i]) && s[i] != '+'
    ensures ParseULong(s).None?
  {
    StrayStaysInDigits(s, i);
  }

  /** A character that is neither white space nor `+` survives the trimming and the
      sign, so it lands among the digits `ParseULong` reads. */
  lemma StrayStaysInDigits(s: string, i: int)
    requires 0 <= i < |s| && !IsWhite(s[i]) && s[i] != '+'
    ensures var core := TrimEnd(TrimStart(s));
      var digits := if |core| > 0 && core[0] == '+' then core[1..] else core;
      s[i] in digits
  {
    var a := TrimStart(s);
    var j := TrimStartKeeps(s, i);
    var m := TrimEndKeeps(a, j);
    var b := TrimEnd(a);
    assert b[m] == s[i];
    if |b| > 0 && b[0] == '+' {
      assert m != 0;
      assert b[1..][m - 1] == s[i];
      assert s[i] in b[1..];
    } else {
      assert s[i] in b;
    }
  }

  /** A character that is not white space survives `TrimStart`, at index `j`. */
  lemma TrimStartKeeps(s: string, i: int) returns (j: int)
    requires 0 <= i < |s| && !IsWhite(s[i])
    ensures 0 <= j < |TrimStart(s)| && TrimStart(s)[j] == s[i]
  {
    var a := TrimStart(s);
    var k := |s| - |a|;
    NotWhiteAfter(s, k, i);
    j := i - k;
    assert s[k..][j] == s[i];
  }

  /** A character that is not white space lies past every all-white prefix. */
  lemma NotWhiteAfter(s: string, k: int, i: int)
    requires 0 <= k <= |s| && AllWhite(s[..k]) && 0 <= i < |s| && !IsWhite(s[i])
    ensures k <= i
  {
  }

  /** A character that is not white space survives `TrimEnd`, at the same index. */
  lemma TrimEndKeeps(a: string, j: int) returns (m: int)
    requires 0 <= j < |a| && !IsWhite(a[j])
    ensures m == j && j < |TrimEnd(a)| && TrimEnd(a)[m] == a[j]
  {
    var b := TrimEnd(a);
    if j >= |b| {
      assert false;
    }
    m := j;
    assert a[..|b|][j] == a[j];
  }

  /** Parsing reads back every 64-bit unsigned value written in decimal, with or
      without a `+` and with any white space around it. */
  lemma ParseULongPadded(lead: string, plus: bool, n: nat, trail: string)
    requires AllWhite(lead) && AllWhite(trail) && n <= ULongMax
    ensures ParseULong(lead + (if plus then "+" else "") + Text.NatToString(n) + trail) == Some(n)
  {
    var d := Text.NatToString(n);
    var sign: string := if plus then "+" else "";
    var core := sign + d;
    assert core[|core| - 1] == d[|d| - 1] && Text.IsDigit(d[|d| - 1]);
    assert Text.IsDigit(d[0]);
    assert core[0] == if plus then '+' else d[0];
    assert lead + sign + d + trail == lead + (core + trail);
    assert (core + trail)[0] == core[0];
    TrimStartPadded(lead, core + trail);
    TrimEndPadded(core, trail);
    Text.DigitsValueOfNatToString(n);
    ParseULongTrimmed(lead + sign + d + trail, plus, d);
  }

  /** The component the auto-create branch adds for a trackable the native side made. */
  function AutoCreatedTrackable(uid: int, info: AutoInfo): (t: Trackable)
    ensures t.uid == uid && t.kind == TypeFromCode(info.typeCode)
    ensures t.kind == Square || t.kind == SquareBarcode ==> t.patternWidth == info.squareWidth * 0.001
    ensures !(t.kind == Square || t.kind == SquareBarcode) ==> t.patternWidth == Fresh().patternWidth
    ensures t.kind == SquareBarcode && ParseULong(info.barcodeText).Some? ==>
      t.barcodeId == ParseULong(info.barcodeText).value
    ensures !(t.kind == SquareBarcode && ParseULong(info.barcodeText).Some?) ==> t.barcodeId == 0
  {
    var k := TypeFromCode(info.typeCode);
    var t := Fresh().(uid := uid, kind := k);
    if k == Square || k == SquareBarcode then
      var sized := t.(patternWidth := info.squareWidth * 0.001);
      if k == SquareBarcode && ParseULong(info.barcodeText).Some? then
        sized.(barcodeId := ParseULong(info.barcodeText).value)
      else sized
    else t
  }

  /** The first component, in scene order, whose UID is `uid`. */
  function FirstWithUid(ps: seq<Placed>, uid: int): (i: int)
    ensures -1 <= i < |ps|
    ensures i == -1 <==> forall j :: 0 <= j < |ps| ==> ps[j].t.uid != uid
    ensures i >= 0 ==> ps[i].t.uid == uid && forall j :: 0 <= j < i ==> ps[j].t.uid != uid
    decreases |ps|
  {
    if |ps| == 0 then -1
    else if ps[0].t.uid == uid then 0
    else
      var i := FirstWithUid(ps[1..], uid);
      if i == -1 then -1 else i + 1
  }

  /** The components left once GameObject `host` is destroyed: `Destroy` takes the
      GameObject's children along, so components on `host` and on every descendant of
      it go, and the others stay in order. */
  function NotOn(ps: seq<Placed>, host: GameObject): (r: seq<Placed>)
    ensures |r| <= |ps|
    decreases |ps|
  {
    if |ps| == 0 then []
    else (if !(host <= ps[0].host) then [ps[0]] else []) + NotOn(ps[1..], host)
  }

  /** What `NotOn` keeps: only components off the destroyed subtree, and every one of
      them. */
  lemma {:induction false} NotOnKeeps(ps: seq<Placed>, host: GameObject)
    ensures var r := NotOn(ps, host);
      && (forall j :: 0 <= j < |r| ==> !(host <= r[j].host) && r[j] in ps)
      && (forall j :: 0 <= j < |ps| && !(host <= ps[j].host) ==> ps[j] in r)
    decreases |ps|
  {
    if |ps| > 0 {
      NotOnKeeps(ps[1..], host);
      var r := NotOn(ps, host);
      var rest := NotOn(ps[1..], host);
      var head := if !(host <= ps[0].host) then [ps[0]] else [];
      assert r == head + rest;
      forall j | 0 <= j < |r|
        ensures !(host <= r[j].host) && r[j] in ps
      {
        if j >= |head| {
          assert r[j] == rest[j - |head|];
          var k :| 0 <= k < |ps[1..]| && ps[1..][k] == r[j];
          assert ps[k + 1] == r[j];
        } else {
          assert r[j] == ps[0];
        }
      }
      forall j | 0 <= j < |ps| && !(host <= ps[j].host)
        ensures ps[j] in r
      {
        if j > 0 {
          assert ps[j] == ps[1..][j - 1];
        }
      }
    }
  }

  /** Destroying a GameObject also removes the components on its children, and keeps
      those on its parent and on its siblings. */
  lemma NotOnTakesChildren(t: Trackable)
    ensures NotOn([Placed([0], t), Placed([0, 1], t), Placed([2], t), Placed([0, 1, 3], t)], [0, 1])
      == [Placed([0], t), Placed([2], t)]
  {
    HostPrefixes();
    NotOnFilters(Placed([0], t), Placed([0, 1], t), Placed([2], t), Placed([0, 1, 3], t), [0, 1]);
  }

  /** Four components, the second and fourth under `h`. */
  lemma NotOnFilters(p0: Placed, p1: Placed, p2: Placed, p3: Placed, h: GameObject)
    requires !(h <= p0.host) && h <= p1.host && !(h <= p2.host) && h <= p3.host
    ensures NotOn([p0, p1, p2, p3], h) == [p0, p2]
  {
    NotOnCons(p3, [], h);
    NotOnCons(p2, [p3], h);
    NotOnCons(p1, [p2, p3], h);
    NotOnCons(p0, [p1, p2, p3], h);
  }

  /** Which of the example's GameObjects lie under `[0, 1]`. */
  lemma HostPrefixes()
    ensures var h: GameObject := [0, 1];
      h <= [0, 1] && h <= [0, 1, 3] && !(h <= [0]) && !(h <= [2])
  {
    var h: GameObject := [0, 1];
    var g3: GameObject, g2: GameObject := [0, 1, 3], [2];
    assert g3[..2] == h;
    assert g2[0] != h[0];
  }

  /** One step of `NotOn`, stated on a sequence built by prepending. */
  lemma NotOnCons(p: Placed, ps: seq<Placed>, host: GameObject)
    ensures NotOn([p] + ps, host) == (if host <= p.host then [] else [p]) + NotOn(ps, host)
  {
    assert ([p] + ps)[1..] == ps;
  }

  /** `OnTrackableEvent` as written. The auto-created component is added to the
      controller's GameObject, and auto-removal destroys the GameObject of the first
      match, which takes the controller and every other component on it along. The
      resulting scene is the one left once the frame's pending destruction has been
      carried out, so two events compose only across frames. */
  function OnTrackableEvent(s: Scene, eventType: int, uid: int, info: AutoInfo): (r: SceneStep)
    ensures eventType != AutoCreatedEvent && eventType != AutoRemovedEvent ==> r == SceneStep(s, [])
    ensures s.controllerHost.None? || !s.controllerInited ==> r == SceneStep(s, [])
    ensures eventType == AutoCreatedEvent && s.controllerHost.Some? && s.controllerInited ==>
      && r.scene.controllerHost == s.controllerHost && r.scene.controllerInited
      && r.scene.trackables == s.trackables + [Placed(s.controllerHost.value, AutoCreatedTrackable(uid, info))]
      && r.notices == [AutoCreated(uid)]
    ensures eventType == AutoRemovedEvent && s.controllerHost.Some? && s.controllerInited ==>
      var i := FirstWithUid(s.trackables, uid);
      && (i == -1 ==> r == SceneStep(s, []))
      && (i >= 0 ==>
            var host := s.trackables[i].host;
            && r.scene.trackables == NotOn(s.trackables, host)
            && r.scene.controllerInited
            && (r.scene.controllerHost.None? <==> host <= s.controllerHost.value)
            && (r.scene.controllerHost.Some? ==> r.scene.controllerHost == s.controllerHost)
            && r.notices == [AutoRemoved(uid)])
  {
    if eventType == AutoCreatedEvent then
      if s.controllerHost.None? || !s.controllerInited then SceneStep(s, [])
      else
        var t := AutoCreatedTrackable(uid, info);
        SceneStep(s.(trackables := s.trackables + [Placed(s.controllerHost.value, t)]), [AutoCreated(uid)])
    else if eventType == AutoRemovedEvent then
      if s.controllerHost.None? || !s.controllerInited then SceneStep(s, [])
      else
        var i := FirstWithUid(s.trackables, uid);
        if i == -1 then SceneStep(s, [])
        else
          var host := s.trackables[i].host;
          var controllerHost := if s.controllerHost.Some? && host <= s.controllerHost.value then None
                                else s.controllerHost;
          SceneStep(Scene(controllerHost, s.controllerInited, NotOn(s.trackables, host)), [AutoRemoved(uid)])
    else SceneStep(s, [])
  }

  /** The evident intent of auto-removal: destroy the one component that stood for the
      removed native trackable. */
  function OnTrackableEventComponentOnly(s: Scene, eventType: int, uid: int, info: AutoInfo): (r: SceneStep)
  {
    if eventType == AutoRemovedEvent && s.controllerHost.Some? && s.controllerInited then
      var i := FirstWithUid(s.trackables, uid);
      if i == -1 then SceneStep(s, [])
      else SceneStep(s.(trackables := s.trackables[..i] + s.trackables[i + 1..]), [AutoRemoved(uid)])
    else OnTrackableEvent(s, eventType, uid, info)
  }

  /** Auto-creation appends one component for the new UID to the controller's GameObject
      and announces it; nothing happens before the controller is ready or for an event
      type other than created or removed. */
  lemma AutoCreateAppends(s: Scene, uid: int, info: AutoInfo)
    ensures s.controllerHost.None? || !s.controllerInited ==>
      OnTrackableEvent(s, AutoCreatedEvent, uid, info) == SceneStep(s, [])
    ensures s.controllerHost.Some? && s.controllerInited ==>
      var r := OnTrackableEvent(s, AutoCreatedEvent, uid, info);
      && r.scene.trackables[..|s.trackables|] == s.trackables
      && |r.scene.trackables| == |s.trackables| + 1
      && r.scene.trackables[|s.trackables|].host == s.controllerHost.value
      && r.scene.trackables[|s.trackables|].t.uid == uid
      && r.notices == [AutoCreated(uid)]
    ensures forall e :: e != AutoCreatedEvent && e != AutoRemovedEvent ==>
      OnTrackableEvent(s, e, uid, info) == SceneStep(s, [])
  {
  }

  /** The intended removal destroys exactly the first component with that UID and
      keeps every other one, in order; with no match it does nothing. */
  lemma ComponentOnlyRemovesFirstMatch(s: Scene, uid: int, info: AutoInfo)
    requires s.controllerHost.Some? && s.controllerInited
    ensures var r := OnTrackableEventComponentOnly(s, AutoRemovedEvent, uid, info);
      var i := FirstWithUid(s.trackables, uid);
      && (i == -1 ==> r == SceneStep(s, []))
      && (i >= 0 ==>
            && |r.scene.trackables| == |s.trackables| - 1
            && r.scene.trackables == s.trackables[..i] + s.trackables[i + 1..]
            && r.scene.controllerHost == s.controllerHost
            && r.notices == [AutoRemoved(uid)])
  {
  }

  /** Auto-removal with a match destroys the matched component's GameObject and its
      subtree: the matched component goes, every surviving component was in the scene
      and lies off that subtree, and every component off it survives. */
  lemma AutoRemoveDestroysSubtree(s: Scene, uid: int, info: AutoInfo)
    requires s.controllerHost.Some? && s.controllerInited
    requires FirstWithUid(s.trackables, uid) >= 0
    ensures var i := FirstWithUid(s.trackables, uid);
      var host := s.trackables[i].host;
      var kept := OnTrackableEvent(s, AutoRemovedEvent, uid, info).scene.trackables;
      && s.trackables[i] !in kept
      && (forall j :: 0 <= j < |kept| ==> kept[j] in s.trackables && !(host <= kept[j].host))
      && (forall j :: 0 <= j < |s.trackables| && !(host <= s.trackables[j].host) ==> s.trackables[j] in kept)
  {
    var i := FirstWithUid(s.trackables, uid);
    var host := s.trackables[i].host;
    var kept := OnTrackableEvent(s, AutoRemovedEvent, uid, info).scene.trackables;
    assert kept == NotOn(s.trackables, host);
    NotOnKeeps(s.trackables, host);
    forall p | p in kept
      ensures host <= p.host ==> false
    {
      var j :| 0 <= j < |kept| && kept[j] == p;
    }
  }

  /** As written, removing one of two auto-created trackables also destroys the other
      and the controller, since all three live on the controller's GameObject. */
  lemma AutoRemoveTakesSiblings()
    ensures var s0 := Scene(Some([0]), true, []);
      var s1 := OnTrackableEvent(s0, AutoCreatedEvent, 5, AutoInfo(4, 0.0, "")).scene;
      var s2 := OnTrackableEvent(s1, AutoCreatedEvent, 6, AutoInfo(4, 0.0, "")).scene;
      var asWritten := OnTrackableEvent(s2, AutoRemovedEvent, 5, AutoInfo(4, 0.0, "")).scene;
      var intended := OnTrackableEventComponentOnly(s2, AutoRemovedEvent, 5, AutoInfo(4, 0.0, "")).scene;
      && |s2.trackables| == 2
      && asWritten.trackables == [] && asWritten.controllerHost.None?
      && |intended.trackables| == 1 && intended.trackables[0].t.uid == 6
      && intended.controllerHost == Some([0])
  {
    var info := AutoInfo(4, 0.0, "");
    var p5, p6 := Placed([0], AutoCreatedTrackable(5, info)), Placed([0], AutoCreatedTrackable(6, info));
    var s2 := Scene(Some([0]), true, [p5, p6]);
    AutoCreateTwice(info);
    assert FirstWithUid(s2.trackables, 5) == 0;
    NotOnCons(p6, [], [0]);
    NotOnCons(p5, [p6], [0]);
    assert s2.trackables[1..] == [p6];
  }

  /** Two auto-created events on a ready controller at the root GameObject. */
  lemma AutoCreateTwice(info: AutoInfo)
    ensures var s0 := Scene(Some([0]), true, []);
      var s1 := OnTrackableEvent(s0, AutoCreatedEvent, 5, info).scene;
      OnTrackableEvent(s1, AutoCreatedEvent, 6, info).scene
        == Scene(Some([0]), true, [Placed([0], AutoCreatedTrackable(5, info)), Placed([0], AutoCreatedTrackable(6, info))])
  {
  }

  /** `OnDisable` unloads. */
  function OnDisable(t: Trackable, ready: bool): (r: Step)
    ensures r == Unload(t, ready)
  {
    Unload(t, ready)
  }
}

=== FILE: camera.dfy ===
/** The AR cameras: `ARXCamera` and the older `ARCamera`. Each keeps the tracking state
    of the trackable acting as the base of its origin (`arVisible`, the time of the last
    update and the time tracking was lost) and moves its transform only while that
    trackable is visible. `ARXCamera` also carries the content mode and its four-step
    cycle. Poses are not computed; a frame says which matrix the pose came from. */
module Camera {
  import opened Wrappers
  import Origin

  /** `ContentMode`, shared with the controllers. */
  datatype ContentMode = Stretch | Fit | Fill | OneToOne

  /** `ContentModeNames`. */
  function ContentModeName(m: ContentMode): (s: string) {
    match m
    case Stretch => "Stretch"
    case Fit => "Fit"
    case Fill => "Fill"
    case OneToOne => "1:1"
  }

  /** Every content mode has its own name. */
  lemma ContentModeNamesDistinct(a: ContentMode, b: ContentMode)
    ensures ContentModeName(a) == ContentModeName(b) <==> a == b
  {
  }

  /** `CycleContentMode`: Fit, Fill, Stretch, 1:1, and back to Fit. */
  function CycleContentMode(m: ContentMode): (r: ContentMode)
    ensures r != m
  {
    match m
    case Fit => Fill
    case Fill => Stretch
    case Stretch => OneToOne
    case OneToOne => Fit
  }

  /** Four steps of the cycle return to the start and pass through every mode. */
  lemma CycleHasPeriodFour(m: ContentMode)
    ensures CycleContentMode(CycleContentMode(CycleContentMode(CycleContentMode(m)))) == m
    ensures {m, CycleContentMode(m), CycleContentMode(CycleContentMode(m)),
             CycleContentMode(CycleContentMode(CycleContentMode(m)))} == {Stretch, Fit, Fill, OneToOne}
  {
    match m
    case Stretch =>
    case Fit =>
    case Fill =>
    case OneToOne =>
  }

  /** The `CameraContentMode` setter: the new mode, and whether it was written. */
  function SetContentMode(current: ContentMode, v: ContentMode): (r: (ContentMode, bool))
    ensures r.0 == v
    ensures r.1 <==> current != v
  {
    if current != v then (v, true) else (current, false)
  }

  /** `arVisible`, `timeLastUpdate` and `timeTrackingLost`. */
  datatype Tracking = Tracking(arVisible: bool, timeLastUpdate: real, timeTrackingLost: real)

  const InitialTracking := Tracking(false, 0.0, 0.0)

  /** `UpdateTracking`'s bookkeeping: the time is noted, visibility follows what is
      seen, and the loss time is recorded on a visible-to-hidden change only. */
  function UpdateTracking(t: Tracking, now: real, seen: bool): (r: Tracking)
    ensures r.arVisible == seen && r.timeLastUpdate == now
    ensures r.timeTrackingLost != t.timeTrackingLost ==> t.arVisible && !seen
    ensures t.arVisible && !seen ==> r.timeTrackingLost == now
  {
    if !seen then
      if t.arVisible then Tracking(false, now, now) else t.(timeLastUpdate := now)
    else t.(arVisible := true, timeLastUpdate := now)
  }

  /** With a clock that does not run backwards, the loss time never lies ahead of the
      last update. */
  predicate Ordered(t: Tracking) {
    t.timeTrackingLost <= t.timeLastUpdate
  }

  lemma UpdateTrackingKeepsOrder(t: Tracking, now: real, seen: bool)
    requires Ordered(t) && now >= t.timeLastUpdate
    ensures Ordered(UpdateTracking(t, now, seen))
  {
  }

  /** Right after a loss, the time since the loss is zero. */
  lemma LossIsFresh(t: Tracking, now: real)
    requires t.arVisible
    ensures var r := UpdateTracking(t, now, false);
      !r.arVisible && r.timeLastUpdate - r.timeTrackingLost == 0.0
  {
  }

  /** The matrix a pose is taken from: through the optical view, or the left or right
      camera of the video. */
  datatype PoseFrom = Optical | LeftVideo | RightVideo

  /** The camera component: whether its origin is cached, its tracking state, the
      optical and stereo settings that choose the pose matrix, and the content mode. */
  datatype Cam = Cam(
    originCached: bool,
    tracking: Tracking,
    optical: bool,
    opticalSetupOK: bool,
    rightEyeOfStereoVideo: bool,
    mode: ContentMode)

  /** One update's view of the scene: play mode, the time, the origin in the parent
      hierarchy and which trackables report themselves visible. */
  datatype Scene = Scene(playing: bool, now: real, origin: Option<Origin.Origin>, visibleOf: nat -> bool)

  /** The camera after an update, the origin after its base lookup, and the pose matrix
      when the transform moved. */
  datatype Frame = Frame(c: Cam, origin: Option<Origin.Origin>, moved: Option<PoseFrom>)

  /** `GetTrackable`: no origin, no trackable; otherwise the origin's base. */
  function BaseOf(origin: Option<Origin.Origin>, visibleOf: nat -> bool): (r: (Option<Origin.Origin>, Option<nat>))
    ensures origin.None? ==> r == (None, None)
    ensures origin.Some? ==> r.0 == Some(Origin.GetBaseTrackable(origin.value, visibleOf).0)
                              && r.1 == Origin.GetBaseTrackable(origin.value, visibleOf).1
  {
    match origin
    case None => (None, None)
    case Some(o) =>
      var b := Origin.GetBaseTrackable(o, visibleOf);
      (Some(b.0), b.1)
  }

  /** Whatever base the origin gives is visible, so the camera sees exactly when there
      is a base. */
  lemma BaseIsVisible(origin: Option<Origin.Origin>, visibleOf: nat -> bool)
    ensures var b := BaseOf(origin, visibleOf);
      b.1.Some? ==> visibleOf(b.1.value)
  {
  }

  function ArxPose(c: Cam): PoseFrom {
    if c.optical && c.opticalSetupOK then Optical
    else if c.rightEyeOfStereoVideo then RightVideo else LeftVideo
  }

  /** `UpdateTracking` followed by `ApplyTracking` for a camera following `trackable`. */
  function Track(c: Cam, now: real, trackable: Option<nat>, visibleOf: nat -> bool, pose: PoseFrom): (r: (Cam, Option<PoseFrom>))
    ensures r.0 == c.(tracking := UpdateTracking(c.tracking, now, trackable.Some? && visibleOf(trackable.value)))
    ensures r.1.Some? <==> r.0.tracking.arVisible
    ensures r.1.Some? ==> r.1.value == pose
  {
    var t := UpdateTracking(c.tracking, now, trackable.Some? && visibleOf(trackable.value));
    (c.(tracking := t), if t.arVisible then Some(pose) else None)
  }

  /** `ARXCamera.Update`: in play mode with its origin cached, the camera follows the
      origin's base; otherwise nothing happens. */
  function ArxUpdate(c: Cam, sc: Scene): (r: Frame)
    ensures !sc.playing || !c.originCached ==> r == Frame(c, sc.origin, None)
    ensures sc.playing && c.originCached ==>
      var b := BaseOf(sc.origin, sc.visibleOf);
      && r.origin == b.0
      && r.c == c.(tracking := UpdateTracking(c.tracking, sc.now, b.1.Some?))
      && (r.moved.Some? <==> b.1.Some?)
      && (r.moved.Some? ==> r.moved.value == ArxPose(c))
  {
    if !sc.playing || !c.originCached then Frame(c, sc.origin, None)
    else
      var b := BaseOf(sc.origin, sc.visibleOf);
      BaseIsVisible(sc.origin, sc.visibleOf);
      var k := Track(c, sc.now, b.1, sc.visibleOf, ArxPose(c));
      Frame(k.0, b.0, k.1)
  }

  /** `GetOrigin`: the origin found in the parent hierarchy is cached. */
  function GetOrigin(c: Cam, originInParent: bool): (r: Cam)
    ensures r == c.(originCached := c.originCached || originInParent)
  {
    if !c.originCached && originInParent then c.(originCached := true) else c
  }

  /** A camera whose origin never got cached does not follow anything, even in play
      mode. */
  lemma ArxUncachedOriginIgnored(c: Cam, sc: Scene)
    requires !c.originCached
    ensures ArxUpdate(c, sc).c == c && ArxUpdate(c, sc).moved.None?
  {
  }

  /** `ARCamera.LateUpdate`: in play mode the origin is looked up (and cached) and the
      camera follows its base; it has no stereo pose. */
  function LegacyUpdate(c: Cam, sc: Scene): (r: Frame)
    ensures !sc.playing ==> r == Frame(c, sc.origin, None)
    ensures sc.playing ==>
      var b := BaseOf(sc.origin, sc.visibleOf);
      && r.origin == b.0
      && r.c.originCached == (c.originCached || sc.origin.Some?)
      && r.c.tracking == UpdateTracking(c.tracking, sc.now, b.1.Some?)
      && (r.moved.Some? <==> b.1.Some?)
      && (r.moved.Some? ==> r.moved.value == (if c.optical && c.opticalSetupOK then Optical else LeftVideo))
  {
    if !sc.playing then Frame(c, sc.origin, None)
    else
      var c1 := GetOrigin(c, sc.origin.Some?);
      var b := BaseOf(sc.origin, sc.visibleOf);
      BaseIsVisible(sc.origin, sc.visibleOf);
      var k := Track(c1, sc.now, b.1, sc.visibleOf, if c.optical && c.opticalSetupOK then Optical else LeftVideo);
      Frame(k.0, b.0, k.1)
  }

  /** Without an origin the camera loses tracking: a visible camera records the loss
      at this update's time. */
  lemma LegacyNoOriginLoses(c: Cam, sc: Scene)
    requires sc.playing && sc.origin.None? && c.tracking.arVisible
    ensures var r := LegacyUpdate(c, sc);
      !r.c.tracking.arVisible && r.c.tracking.timeTrackingLost == sc.now && r.moved.None?
  {
  }

  /** `ARCamera.SetupCamera`'s outcome: the result, `opticalOut`, and the camera with
      its optical flag recorded. Without optical mode setup succeeds and is not optical;
      with it, both follow whether the optical parameters loaded. */
  function SetupCamera(c: Cam, opticalLoadOK: bool): (r: (bool, bool, Cam))
    ensures r.1 ==> r.0
    ensures r.1 <==> c.optical && opticalLoadOK
    ensures !r.0 <==> c.optical && !opticalLoadOK
    ensures r.2 == (if c.optical then c.(opticalSetupOK := opticalLoadOK) else c)
  {
    if c.optical then
      if !opticalLoadOK then (false, false, c.(opticalSetupOK := false))
      else (true, true, c.(opticalSetupOK := true))
    else (true, false, c)
  }

  /** After a setup that reported optical output, the camera takes its pose through
      the optical view. */
  lemma OpticalSetupUsesOpticalPose(c: Cam, opticalLoadOK: bool)
    requires SetupCamera(c, opticalLoadOK).1
    ensures ArxPose(SetupCamera(c, opticalLoadOK).2) == Optical
  {
  }
}

=== FILE: camera_listener.dfy ===
/** The shared shape of the two Android camera listeners that feed Unity: each
    remembers the stream geometry, tries to initialise the native push pipeline on
    every frame until one attempt succeeds (that frame is consumed, not forwarded),
    then forwards every later frame unchanged. The two listeners differ in the native
    entry points they call and in how they read the init answer; they are the modules
    `UnityCameraEventListener` and `CameraEventListenerUnityImpl` below. */
module CameraStream {
  import opened Wrappers
  import Lists

  /** The arguments of `cameraStreamStarted`; the pixel format is a Java string that
      may be null before the stream starts. */
  datatype Geometry = Geometry(width: int, height: int, pixelFormat: Option<string>,
                               cameraIndex: int, frontFacing: bool)

  /** The two `cameraStreamFrame` overloads: one packed buffer, or planes with their
      pixel and row strides. The bytes are left abstract. */
  datatype Frame<Bytes> =
    | Packed(frame: Bytes, frameSize: int)
    | Planar(planes: seq<Bytes>, pixelStrides: seq<int>, rowStrides: seq<int>)

  datatype Listener = Listener(firstUpdate: bool, geometry: Geometry)

  /** The calls a listener makes, in both flavours. */
  datatype Event<Bytes> =
    | PushInit(source: int, width: int, height: int, pixelFormat: Option<string>, cameraIndex: int, frontFacing: int)
    | PushFinal(source: int)
    | ConvertAndDetect1(frame: Bytes, frameSize: int)
    | ConvertAndDetect2(planes: seq<Bytes>, pixelStrides: seq<int>, rowStrides: seq<int>)
    | OnlyPushVideo(width: int, height: int, pixelFormat: Option<string>, cameraIndex: int, frontFacingFlag: bool)
    | OnlyFinal
    | Convert1(frame: Bytes, frameSize: int)
    | Convert(planes: seq<Bytes>, pixelStrides: seq<int>, rowStrides: seq<int>)
    | LogError(message: ErrorMessage)

  /** The two error logs the listeners write; `MessageText` gives their text. */
  datatype ErrorMessage = PushInitFailed | StartedPushInitFailed

  function MessageText(m: ErrorMessage): string {
    match m
    case PushInitFailed => "arwAndroidVideoPushInit failed"
    case StartedPushInitFailed => "cameraStarted::arwAndroidVideoPushInit() failed"
  }

  /** Which listener: `UnityCameraEventListener` calls `arwAndroidVideoPushInit`
      directly; `CameraEventListenerUnityImpl` goes through the Java controller. */
  datatype Flavour = DirectPush | ControllerPush

  /** A listener before any stream has started: fields at their Java defaults. */
  function Fresh(): (l: Listener)
    ensures l.firstUpdate
  {
    Listener(true, Geometry(0, 0, None, 0, false))
  }

  /** The init call a listener makes with its recorded geometry. */
  function InitCall<Bytes>(f: Flavour, g: Geometry): Event<Bytes> {
    match f
    case DirectPush => PushInit(0, g.width, g.height, g.pixelFormat, g.cameraIndex, if g.frontFacing then 1 else 0)
    case ControllerPush => OnlyPushVideo(g.width, g.height, g.pixelFormat, g.cameraIndex, g.frontFacing)
  }

  predicate IsInit<Bytes>(e: Event<Bytes>) {
    e.PushInit? || e.OnlyPushVideo?
  }

  /** The forwarding call for a frame, arguments passed through unchanged. */
  function ForwardCall<Bytes>(f: Flavour, frame: Frame<Bytes>): (e: Event<Bytes>)
    ensures !IsInit(e) && !e.LogError?
  {
    match (f, frame)
    case (DirectPush, Packed(b, n)) => ConvertAndDetect1(b, n)
    case (DirectPush, Planar(p, ps, rs)) => ConvertAndDetect2(p, ps, rs)
    case (ControllerPush, Packed(b, n)) => Convert1(b, n)
    case (ControllerPush, Planar(p, ps, rs)) => Convert(p, ps, rs)
  }

  datatype Step<Bytes> = Step(listener: Listener, calls: seq<Event<Bytes>>)

  /** One frame, given whether the init attempt (made only while `firstUpdate` holds)
      succeeds in the listener's own reading of the answer. */
  function OnFrame<Bytes>(f: Flavour, l: Listener, frame: Frame<Bytes>, initOk: bool): (r: Step<Bytes>)
    ensures r.listener.geometry == l.geometry
    ensures l.firstUpdate ==> |r.calls| >= 1 && r.calls[0] == InitCall(f, l.geometry)
    ensures l.firstUpdate ==> (r.listener.firstUpdate <==> !initOk)
    ensures l.firstUpdate ==> forall i :: 0 <= i < |r.calls| ==> r.calls[i] == InitCall(f, l.geometry) || r.calls[i].LogError?
    ensures !l.firstUpdate ==> r == Step(l, [ForwardCall(f, frame)])
  {
    if l.firstUpdate then
      if initOk then Step(l.(firstUpdate := false), [InitCall(f, l.geometry)])
      else Step(l, [InitCall(f, l.geometry), LogError(PushInitFailed)])
    else Step(l, [ForwardCall(f, frame)])
  }

  /** A stream of frames, with the listener's reading of each init answer (the
      readings for frames after the first success are never consulted). */
  function Run<Bytes>(f: Flavour, l: Listener, frames: seq<Frame<Bytes>>, initOk: seq<bool>): (r: Step<Bytes>)
    requires |initOk| == |frames|
    ensures r.listener.geometry == l.geometry
    decreases |frames|
  {
    if |frames| == 0 then Step(l, [])
    else
      var first := OnFrame(f, l, frames[0], initOk[0]);
      var rest := Run(f, first.listener, frames[1..], initOk[1..]);
      Step(rest.listener, first.calls + rest.calls)
  }

  /** The index of the first successful init reading, or the length when none succeeds. */
  function FirstSuccess(initOk: seq<bool>): (k: nat)
    ensures k <= |initOk|
    ensures forall i :: 0 <= i < k ==> !initOk[i]
    ensures k < |initOk| ==> initOk[k]
  {
    if |initOk| == 0 then 0
    else if initOk[0] then 0
    else 1 + FirstSuccess(initOk[1..])
  }

  function Forwards<Bytes>(f: Flavour, frames: seq<Frame<Bytes>>): (calls: seq<Event<Bytes>>)
    ensures |calls| == |frames|
    ensures forall i :: 0 <= i < |frames| ==> calls[i] == ForwardCall(f, frames[i])
  {
    seq(|frames|, i requires 0 <= i < |frames| => ForwardCall(f, frames[i]))
  }

  /** The failed attempt that precedes a success: an init call and an error log. */
  function FailedAttempts<Bytes>(f: Flavour, g: Geometry, n: nat): (calls: seq<Event<Bytes>>)
    ensures |calls| == 2 * n
  {
    if n == 0 then [] else [InitCall(f, g), LogError(PushInitFailed)] + FailedAttempts(f, g, n - 1)
  }

  /** The listener's calls over a stream, stated without stepping: failed attempts up
      to the first success, one successful init that swallows its frame, then every
      remaining frame forwarded in order; a listener already past its first update
      only forwards. */
  lemma {:induction false} RunCalls<Bytes>(f: Flavour, l: Listener, frames: seq<Frame<Bytes>>, initOk: seq<bool>)
    requires |initOk| == |frames|
    ensures var r := Run(f, l, frames, initOk);
      var k := FirstSuccess(initOk);
      && (!l.firstUpdate ==> r.calls == Forwards(f, frames) && r.listener == l)
      && (l.firstUpdate && k == |frames| ==> r.calls == FailedAttempts(f, l.geometry, k) && r.listener == l)
      && (l.firstUpdate && k < |frames| ==>
            r.calls == FailedAttempts(f, l.geometry, k) + [InitCall(f, l.geometry)] + Forwards(f, frames[k + 1..])
            && !r.listener.firstUpdate)
  {
    if l.firstUpdate {
      RunFromFirstUpdate(f, l, frames, initOk);
    } else {
      RunForwardsOnly(f, l, frames, initOk);
    }
  }

  /** Past the first update, every frame is forwarded and the listener stays put. */
  lemma {:induction false} RunForwardsOnly<Bytes>(f: Flavour, l: Listener, frames: seq<Frame<Bytes>>, initOk: seq<bool>)
    requires |initOk| == |frames| && !l.firstUpdate
    ensures var r := Run(f, l, frames, initOk);
      r.calls == Forwards(f, frames) && r.listener == l
    decreases |frames|
  {
    if |frames| > 0 {
      var first := OnFrame(f, l, frames[0], initOk[0]);
      RunForwardsOnly(f, first.listener, frames[1..], initOk[1..]);
      assert Forwards(f, frames) == [ForwardCall(f, frames[0])] + Forwards(f, frames[1..]);
    }
  }

  /** From the first update on: failed attempts up to the first success, then one
      successful init and the remaining frames forwarded. */
  lemma RunFromFirstUpdate<Bytes>(f: Flavour, l: Listener, frames: seq<Frame<Bytes>>, initOk: seq<bool>)
    requires |initOk| == |frames| && l.firstUpdate
    ensures var r := Run(f, l, frames, initOk);
      var k := FirstSuccess(initOk);
      && (k == |frames| ==> r.calls == FailedAttempts(f, l.geometry, k) && r.listener == l)
      && (k < |frames| ==>
            r.calls == FailedAttempts(f, l.geometry, k) + [InitCall(f, l.geometry)] + Forwards(f, frames[k + 1..])
            && !r.listener.firstUpdate)
  {
    if FirstSuccess(initOk) == |frames| {
      RunAllFail(f, l, frames, initOk);
    } else {
      RunUntilSuccess(f, l, frames, initOk);
    }
  }

  /** When no init succeeds, every frame is one failed attempt. */
  lemma {:induction false} RunAllFail<Bytes>(f: Flavour, l: Listener, frames: seq<Frame<Bytes>>, initOk: seq<bool>)
    requires |initOk| == |frames| && l.firstUpdate && FirstSuccess(initOk) == |frames|
    ensures var r := Run(f, l, frames, initOk);
      r.calls == FailedAttempts(f, l.geometry, |frames|) && r.listener == l
    decreases |frames|
  {
    if |frames| > 0 {
      RunAllFail(f, l, frames[1..], initOk[1..]);
      FailedFirstInit(f, l, frames, initOk);
    }
  }

  /** When some init succeeds, the failed attempts before it, its init call, and the
      later frames forwarded. */
  lemma {:induction false} RunUntilSuccess<Bytes>(f: Flavour, l: Listener, frames: seq<Frame<Bytes>>, initOk: seq<bool>)
    requires |initOk| == |frames| && l.firstUpdate && FirstSuccess(initOk) < |frames|
    ensures UntilSuccess(f, l, frames, initOk)
    decreases |frames|
  {
    if initOk[0] {
      FirstInitSucceeds(f, l, frames, initOk);
    } else {
      RunUntilSuccess(f, l, frames[1..], initOk[1..]);
      FailThenSucceed(f, l, frames, initOk);
    }
  }

  /** The calls up to and after the first successful init, as `RunUntilSuccess` states
      them. */
  ghost predicate UntilSuccess<Bytes>(f: Flavour, l: Listener, frames: seq<Frame<Bytes>>, initOk: seq<bool>)
    requires |initOk| == |frames| && FirstSuccess(initOk) < |frames|
  {
    var r := Run(f, l, frames, initOk);
    var k := FirstSuccess(initOk);
    r.calls == FailedAttempts(f, l.geometry, k) + [InitCall(f, l.geometry)] + Forwards(f, frames[k + 1..])
    && !r.listener.firstUpdate
  }

  /** One failed attempt in front of a stream that later succeeds. */
  lemma FailThenSucceed<Bytes>(f: Flavour, l: Listener, frames: seq<Frame<Bytes>>, initOk: seq<bool>)
    requires |initOk| == |frames| > 0 && l.firstUpdate && !initOk[0] && FirstSuccess(initOk) < |frames|
    requires UntilSuccess(f, l, frames[1..], initOk[1..])
    ensures UntilSuccess(f, l, frames, initOk)
  {
    FailedFirstInit(f, l, frames, initOk);
    Lists.Regroup(Run(f, l, frames, initOk).calls, [InitCall(f, l.geometry), LogError(PushInitFailed)],
            Run(f, l, frames[1..], initOk[1..]).calls,
            FailedAttempts(f, l.geometry, FirstSuccess(initOk[1..])), [InitCall(f, l.geometry)],
            Forwards(f, frames[1..][FirstSuccess(initOk[1..]) + 1..]),
            FailedAttempts(f, l.geometry, FirstSuccess(initOk)),
            Forwards(f, frames[FirstSuccess(initOk) + 1..]));
  }

  /** A first update whose init succeeds consumes the frame and forwards the rest. */
  lemma FirstInitSucceeds<Bytes>(f: Flavour, l: Listener, frames: seq<Frame<Bytes>>, initOk: seq<bool>)
    requires |initOk| == |frames| > 0 && l.firstUpdate && initOk[0]
    ensures UntilSuccess(f, l, frames, initOk)
  {
    var first := OnFrame(f, l, frames[0], initOk[0]);
    RunForwardsOnly(f, first.listener, frames[1..], initOk[1..]);
    assert FailedAttempts<Bytes>(f, l.geometry, 0) == [];
    assert frames[1..] == frames[0 + 1..];
  }

  /** A failed init adds one failed attempt in front of what the rest of the stream
      does. */
  lemma FailedFirstInit<Bytes>(f: Flavour, l: Listener, frames: seq<Frame<Bytes>>, initOk: seq<bool>)
    requires |initOk| == |frames| > 0 && l.firstUpdate && !initOk[0]
    ensures var rest := Run(f, l, frames[1..], initOk[1..]);
      && Run(f, l, frames, initOk) == Step(rest.listener, [InitCall(f, l.geometry), LogError(PushInitFailed)] + rest.calls)
      && FirstSuccess(initOk) == 1 + FirstSuccess(initOk[1..])
      && FailedAttempts<Bytes>(f, l.geometry, FirstSuccess(initOk))
         == [InitCall(f, l.geometry), LogError(PushInitFailed)] + FailedAttempts(f, l.geometry, FirstSuccess(initOk[1..]))
      && (FirstSuccess(initOk[1..]) < |frames| - 1 ==> frames[1..][FirstSuccess(initOk[1..]) + 1..] == frames[FirstSuccess(initOk) + 1..])
  {
  }

  /** Once the first update is over, no frame ever triggers another init call. */
  lemma NoInitAfterFirstUpdate<Bytes>(f: Flavour, l: Listener, frames: seq<Frame<Bytes>>, initOk: seq<bool>)
    requires |initOk| == |frames| && !l.firstUpdate
    ensures var r := Run(f, l, frames, initOk);
      forall i :: 0 <= i < |r.calls| ==> !IsInit(r.calls[i])
  {
    RunCalls(f, l, frames, initOk);
  }

  /** Of n frames, exactly those after the first successful init are forwarded. */
  lemma ForwardedCount<Bytes>(f: Flavour, frames: seq<Frame<Bytes>>, initOk: seq<bool>)
    requires |initOk| == |frames|
    ensures var r := Run(f, Fresh(), frames, initOk);
      var k := FirstSuccess(initOk);
      |r.calls| == (if k < |frames| then 2 * k + 1 + (|frames| - k - 1) else 2 * |frames|)
  {
    RunCalls(f, Fresh(), frames, initOk);
  }
}

/** `UnityCameraEventListener`: `cameraStreamStarted` already calls the native init
    (the answer is only logged, with a `!= 0` test), frames retry it with a `< 0` test,
    and frames go to `convertAndDetect1`/`convertAndDetect2`. */
module UnityCameraEventListener {
  import opened CameraStream

  /** `cameraStreamStarted`: records all five values and issues one init for source 0;
      `firstUpdate` is left as it was, whatever the answer. */
  function StreamStarted<Bytes>(l: Listener, g: Geometry, answer: int): (r: Step<Bytes>)
    ensures r.listener == l.(geometry := g)
    ensures |r.calls| >= 1
    ensures r.calls[0] == PushInit(0, g.width, g.height, g.pixelFormat, g.cameraIndex, if g.frontFacing then 1 else 0)
    ensures |r.calls| == 2 <==> answer != 0
    ensures |r.calls| <= 2 && (|r.calls| == 2 ==> r.calls[1] == LogError(StartedPushInitFailed))
  {
    var call := InitCall(DirectPush, g);
    Step(l.(geometry := g), if answer != 0 then [call, LogError(StartedPushInitFailed)] else [call])
  }

  /** The frame-time reading of the native answer: only a negative code is a failure. */
  predicate InitSucceeded(answer: int) {
    answer >= 0
  }

  /** Either `cameraStreamFrame` overload. */
  function StreamFrame<Bytes>(l: Listener, frame: Frame<Bytes>, answer: int): (r: Step<Bytes>)
    ensures l.firstUpdate ==> 1 <= |r.calls| && r.calls[0].PushInit? && r.calls[0].source == 0
    ensures l.firstUpdate ==> (r.listener.firstUpdate <==> answer < 0)
    ensures !l.firstUpdate && frame.Packed? ==> r.calls == [ConvertAndDetect1(frame.frame, frame.frameSize)]
    ensures !l.firstUpdate && frame.Planar? ==>
      r.calls == [ConvertAndDetect2(frame.planes, frame.pixelStrides, frame.rowStrides)]
  {
    OnFrame(DirectPush, l, frame, InitSucceeded(answer))
  }

  /** `cameraStreamStopped`: one push-final for source 0; `firstUpdate` is kept. */
  function StreamStopped<Bytes>(l: Listener): (r: Step<Bytes>)
    ensures r.listener == l && r.calls == [PushFinal(0)]
  {
    Step(l, [PushFinal(0)])
  }

  /** The two tests disagree on a positive answer: the start logs it as a failure,
      while a frame accepts it and ends the first update. */
  lemma PositiveAnswerReadTwoWays<Bytes>(g: Geometry, frame: Frame<Bytes>)
    ensures var started := StreamStarted<Bytes>(Fresh(), g, 1);
      var next := StreamFrame(started.listener, frame, 1);
      && started.calls[|started.calls| - 1].LogError?
      && started.listener.firstUpdate
      && !next.listener.firstUpdate
      && next.calls == [InitCall(DirectPush, g)]
  {
  }

  /** A stop does not reset the gate: after a stream has been initialised, a restarted
      stream forwards its first frame without a new frame-time init. */
  lemma RestartSkipsFrameInit<Bytes>(l: Listener, g: Geometry, answer: int, frame: Frame<Bytes>)
    requires !l.firstUpdate
    ensures var stopped := StreamStopped<Bytes>(l);
      var started := StreamStarted<Bytes>(stopped.listener, g, answer);
      var next := StreamFrame(started.listener, frame, answer);
      |next.calls| == 1 && !IsInit(next.calls[0])
  {
  }
}

/** `CameraEventListenerUnityImpl`: `cameraStreamStarted` already counts as the first
    attempt (a `false` answer from `onlyPushVideo` means success), and frames go to
    `convert1`/`convert`. */
module CameraEventListenerUnityImpl {
  import opened CameraStream

  /** `cameraStreamStarted`: records the geometry and calls `onlyPushVideo` once; a
      `false` answer clears `firstUpdate`. */
  function StreamStarted<Bytes>(l: Listener, g: Geometry, failed: bool): (r: Step<Bytes>)
    ensures r.listener.geometry == g
    ensures r.listener.firstUpdate <==> l.firstUpdate && failed
    ensures 1 <= |r.calls| && r.calls[0] == OnlyPushVideo(g.width, g.height, g.pixelFormat, g.cameraIndex, g.frontFacing)
    ensures |r.calls| == 2 <==> failed
    ensures |r.calls| <= 2 && (|r.calls| == 2 ==> r.calls[1] == LogError(StartedPushInitFailed))
  {
    var call := InitCall(ControllerPush, g);
    if failed then Step(l.(geometry := g), [call, LogError(StartedPushInitFailed)])
    else Step(Listener(false, g), [call])
  }

  /** Either `cameraStreamFrame` overload. */
  function StreamFrame<Bytes>(l: Listener, frame: Frame<Bytes>, failed: bool): (r: Step<Bytes>)
    ensures l.firstUpdate ==> 1 <= |r.calls| && r.calls[0] == InitCall(ControllerPush, l.geometry)
    ensures l.firstUpdate ==> (r.listener.firstUpdate <==> failed)
    ensures !l.firstUpdate && frame.Packed? ==> r.calls == [Convert1(frame.frame, frame.frameSize)]
    ensures !l.firstUpdate && frame.Planar? ==> r.calls == [Convert(frame.planes, frame.pixelStrides, frame.rowStrides)]
  {
    OnFrame(ControllerPush, l, frame, !failed)
  }

  /** `cameraStreamStopped`: one `onlyFinal`. */
  function StreamStopped<Bytes>(l: Listener): (r: Step<Bytes>)
    ensures r.listener == l && r.calls == [OnlyFinal]
  {
    Step(l, [OnlyFinal])
  }

  /** A successful eager init at stream start means the very first frame is forwarded. */
  lemma EagerInitForwardsFirstFrame<Bytes>(g: Geometry, frame: Frame<Bytes>, failed: bool)
    ensures var started := StreamStarted<Bytes>(Fresh(), g, false);
      StreamFrame(started.listener, frame, failed).calls == [ForwardCall(ControllerPush, frame)]
  {
  }
}

=== FILE: controller.dfy ===
/** The controllers' shared logic and the older `ARController`'s own: the bounded log
    buffer, the pause/unpause protocol, the `VideoThreshold` getter and setter, the
    `ContentMode` setter and cycle, `StopAR`, and the integer part of the viewport
    layout. Starting AR is a coroutine in the source; here it is only requested. */
module Controller {
  import Camera

  /** `MaximumLogMessages`. */
  const MaximumLogMessages := 1000

  /** The log after adding `msg`: the last `MaximumLogMessages` entries of the old log
      followed by the new message. */
  function Logged(log: seq<string>, msg: string): (r: seq<string>)
    ensures |r| == if |log| + 1 <= MaximumLogMessages then |log| + 1 else MaximumLogMessages
    ensures r[|r| - 1] == msg
    ensures |log| < MaximumLogMessages ==> r == log + [msg]
  {
    var all := log + [msg];
    if |all| <= MaximumLogMessages then all else all[|all| - MaximumLogMessages..]
  }

  /** `Log`'s buffer update as the source runs it: append, then drop the oldest entry
      while the buffer is over the limit. */
  method AppendLog(log: seq<string>, msg: string) returns (r: seq<string>)
    ensures r == Logged(log, msg)
    ensures |r| <= MaximumLogMessages
  {
    r := log + [msg];
    ghost var dropped := 0;
    while |r| > MaximumLogMessages
      invariant 0 <= dropped <= |log| + 1
      invariant r == (log + [msg])[dropped..]
      invariant dropped > 0 ==> |r| >= MaximumLogMessages
      decreases |r|
    {
      r := r[1..];
      dropped := dropped + 1;
    }
  }

  /** Logging keeps the order of what is kept: the new buffer is the old one with some
      oldest entries dropped and the message appended. */
  lemma LoggedDropsOnlyOldest(log: seq<string>, msg: string)
    ensures exists k :: 0 <= k <= |log| && Logged(log, msg) == log[k..] + [msg]
  {
    var all := log + [msg];
    if |all| > MaximumLogMessages {
      var k := |all| - MaximumLogMessages;
      assert all[k..] == log[k..] + [msg];
    } else {
      assert log[0..] == log;
    }
  }

  /** Whether AR is running, and whether it should restart when the application
      resumes. */
  datatype RunState = RunState(running: bool, runOnUnpause: bool)

  /** What the pause handler did: stopped AR, or asked for it to start. */
  datatype PauseOutcome = PauseOutcome(s: RunState, stopped: bool, startRequested: bool)

  /** `OnApplicationPause`: pausing while running stops AR and remembers to restart;
      resuming restarts only if that was remembered, and forgets it. */
  function OnApplicationPause(s: RunState, paused: bool): (r: PauseOutcome)
    ensures paused ==> !r.startRequested && (r.stopped <==> s.running)
    ensures paused && s.running ==> r.s == RunState(false, true)
    ensures paused && !s.running ==> r.s == s
    ensures !paused ==> !r.stopped && (r.startRequested <==> s.runOnUnpause)
    ensures !paused ==> r.s == s.(runOnUnpause := false)
  {
    if paused then
      if s.running then PauseOutcome(RunState(false, true), true, false)
      else PauseOutcome(s, false, false)
    else
      if s.runOnUnpause then PauseOutcome(s.(runOnUnpause := false), false, true)
      else PauseOutcome(s, false, false)
  }

  /** Pausing a running session and resuming it asks for exactly one restart, however
      many pause notifications arrive in between. */
  lemma PauseResumeRestartsOnce(s: RunState, extraPauses: nat)
    requires s.running
    ensures var p := OnApplicationPause(s, true);
      var q := RepeatPause(p.s, extraPauses);
      && OnApplicationPause(q, false).startRequested
      && !OnApplicationPause(OnApplicationPause(q, false).s, false).startRequested
    decreases extraPauses
  {
    RepeatPauseKeeps(OnApplicationPause(s, true).s, extraPauses);
  }

  function RepeatPause(s: RunState, n: nat): RunState
    decreases n
  {
    if n == 0 then s else RepeatPause(OnApplicationPause(s, true).s, n - 1)
  }

  lemma {:induction false} RepeatPauseKeeps(s: RunState, n: nat)
    requires !s.running && s.runOnUnpause
    ensures RepeatPause(s, n) == s
    decreases n
  {
    if n > 0 {
      RepeatPauseKeeps(OnApplicationPause(s, true).s, n - 1);
    }
  }

  /** Resuming without a paused session does nothing. */
  lemma ResumeWithoutPauseIsQuiet(s: RunState)
    requires !s.runOnUnpause
    ensures OnApplicationPause(s, false) == PauseOutcome(s, false, false)
  {
  }

  /** The default threshold, and the one substituted for a native value out of range. */
  const DefaultThreshold := 100

  /** The `VideoThreshold` getter: while running, the native value, replaced by the
      default when outside 0..255, and stored; otherwise the stored value. */
  function GetVideoThreshold(running: bool, current: int, native: int): (r: int)
    ensures running ==> 0 <= r <= 255
    ensures running && 0 <= native <= 255 ==> r == native
    ensures running && !(0 <= native <= 255) ==> r == DefaultThreshold
    ensures !running ==> r == current
  {
    if running then (if native < 0 || native > 255 then DefaultThreshold else native) else current
  }

  /** The `VideoThreshold` setter: the value is stored, and sent to the native side
      only while running (the answer says whether it was sent). */
  function SetVideoThreshold(running: bool, value: int): (r: (int, bool))
    ensures r.0 == value && (r.1 <==> running)
  {
    (value, running)
  }

  /** A value set while stopped is what the getter returns until AR runs. */
  lemma ThresholdSetThenGet(value: int, native: int)
    ensures GetVideoThreshold(false, SetVideoThreshold(false, value).0, native) == value
  {
  }

  /** The `ContentMode` setter: a new value is stored, and viewports are reconfigured
      when it changed while running. */
  function SetContentMode(current: Camera.ContentMode, v: Camera.ContentMode, running: bool): (r: (Camera.ContentMode, bool))
    ensures r.0 == v
    ensures r.1 <==> current != v && running
  {
    if current != v then (v, running) else (current, false)
  }

  /** `CycleContentMode` goes through the setter, so every cycle reconfigures a running
      controller. */
  function CycleContentMode(current: Camera.ContentMode, running: bool): (r: (Camera.ContentMode, bool))
    ensures r.0 == Camera.CycleContentMode(current)
    ensures r.1 <==> running
  {
    SetContentMode(current, Camera.CycleContentMode(current), running)
  }

  /** What `StopAR` does to the scene, in order. */
  datatype StopEffect = StopRunning | DestroyVideoBackground | DestroyClearCamera | ResetSleepTimeout

  /** `ARController.StopAR`: false and nothing when not running; otherwise the native
      stop (whatever it answers), the clean-up, and the running flag cleared. */
  function StopAR(running: bool): (r: (bool, bool, seq<StopEffect>))
    ensures r.0 <==> running
    ensures !r.1
    ensures !running ==> r.2 == []
    ensures running ==> r.2 == [StopRunning, DestroyVideoBackground, DestroyClearCamera, ResetSleepTimeout]
  {
    if !running then (false, false, [])
    else (true, false, [StopRunning, DestroyVideoBackground, DestroyClearCamera, ResetSleepTimeout])
  }

  /** A second stop does nothing. */
  lemma StopTwice(running: bool)
    ensures var r := StopAR(running); StopAR(r.1) == (false, false, [])
  {
  }

  /** `ContentAlign`. */
  datatype ContentAlign = TopLeft | Top | TopRight | Left | Center | Right | BottomLeft | Bottom | BottomRight

  datatype Eye = LeftEye | RightEye

  /** A viewport rectangle in pixels. */
  datatype Rect = Rect(left: int, bottom: int, w: int, h: int)

  /** C#'s integer division by 2, which truncates toward zero. */
  function Half(x: int): (r: int)
    ensures x >= 0 ==> r == x / 2
    ensures x - 1 <= 2 * r <= x + 1
    ensures x >= 0 ==> 2 * r <= x
    ensures x < 0 ==> 2 * r >= x
  {
    if x >= 0 then x / 2 else -((-x) / 2)
  }

  predicate LeftColumn(a: ContentAlign) { a == TopLeft || a == Left || a == BottomLeft }
  predicate RightColumn(a: ContentAlign) { a == TopRight || a == Right || a == BottomRight }
  predicate BottomRow(a: ContentAlign) { a == BottomLeft || a == Bottom || a == BottomRight }
  predicate TopRow(a: ContentAlign) { a == TopLeft || a == Top || a == TopRight }

  /** The size Fit (or, with `fill`, Fill) gives content of a positive size: scaled by
      the smaller (larger) of the two screen-to-content ratios and truncated. Real
      arithmetic stands in for the source's single-precision floats. */
  function Scaled(backingWidth: nat, backingHeight: nat, cw: int, ch: int, fill: bool): (r: (int, int))
    requires cw > 0 && ch > 0
    ensures r.0 >= 0 && r.1 >= 0
    ensures !fill ==> r.0 <= backingWidth && r.1 <= backingHeight
    ensures !fill ==> r.0 == backingWidth || r.1 == backingHeight
    ensures fill ==> r.0 >= backingWidth && r.1 >= backingHeight
    ensures fill ==> r.0 == backingWidth || r.1 == backingHeight
  {
    var rw := backingWidth as real / cw as real;
    var rh := backingHeight as real / ch as real;
    var ratio := if fill then (if rh > rw then rh else rw) else (if rh < rw then rh else rw);
    ((cw as real * ratio).Floor, (ch as real * ratio).Floor)
  }

  /** The settings `getViewport` reads. `degenerate` is the size the floating-point
      scaling gives when a content dimension is not positive (an infinite, undefined or
      negative ratio), which is not modelled. */
  datatype Layout = Layout(
    backingWidth: nat,
    backingHeight: nat,
    mode: Camera.ContentMode,
    align: ContentAlign,
    rotate90: bool,
    degenerate: (int, int))

  /** `getViewport`. */
  function Viewport(l: Layout, contentWidth: int, contentHeight: int, stereo: bool, eye: Eye): (r: Rect)
    ensures stereo ==> r == Rect(if eye == LeftEye then 0 else l.backingWidth / 2, 0, l.backingWidth / 2, l.backingHeight)
    ensures !stereo && l.mode == Camera.Stretch ==> r.w == l.backingWidth && r.h == l.backingHeight
    ensures !stereo && l.mode == Camera.OneToOne ==>
      (r.w, r.h) == (if l.rotate90 then (contentHeight, contentWidth) else (contentWidth, contentHeight))
    ensures !stereo && (l.mode == Camera.Fit || l.mode == Camera.Fill) ==>
      var (cw, ch) := if l.rotate90 then (contentHeight, contentWidth) else (contentWidth, contentHeight);
      (r.w, r.h) == if cw > 0 && ch > 0 then Scaled(l.backingWidth, l.backingHeight, cw, ch, l.mode == Camera.Fill)
                    else l.degenerate
    ensures !stereo ==>
      && r.left == (if LeftColumn(l.align) then 0 else if RightColumn(l.align) then l.backingWidth - r.w
                    else Half(l.backingWidth - r.w))
      && r.bottom == (if BottomRow(l.align) then 0 else if TopRow(l.align) then l.backingHeight - r.h
                      else Half(l.backingHeight - r.h))
  {
    if stereo then
      Rect(if eye == LeftEye then 0 else l.backingWidth / 2, 0, l.backingWidth / 2, l.backingHeight)
    else
      var (cw, ch) := if l.rotate90 then (contentHeight, contentWidth) else (contentWidth, contentHeight);
      var size :=
        if l.mode == Camera.Stretch then (l.backingWidth as int, l.backingHeight as int)
        else if l.mode == Camera.OneToOne then (cw, ch)
        else if cw > 0 && ch > 0 then Scaled(l.backingWidth, l.backingHeight, cw, ch, l.mode == Camera.Fill)
        else l.degenerate;
      var (w, h) := size;
      var left := if LeftColumn(l.align) then 0 else if RightColumn(l.align) then l.backingWidth - w else Half(l.backingWidth - w);
      var bottom := if BottomRow(l.align) then 0 else if TopRow(l.align) then l.backingHeight - h else Half(l.backingHeight - h);
      Rect(left, bottom, w, h)
  }

  /** Stretch covers the whole screen, whatever the alignment. */
  lemma StretchFillsScreen(l: Layout, cw: int, ch: int, eye: Eye)
    requires l.mode == Camera.Stretch
    ensures Viewport(l, cw, ch, false, eye) == Rect(0, 0, l.backingWidth, l.backingHeight)
  {
  }

  /** In stereo the two eyes sit side by side: the right eye's viewport starts where the
      left eye's ends. */
  lemma StereoEyesAdjacent(l: Layout, cw: int, ch: int)
    ensures var a := Viewport(l, cw, ch, true, LeftEye);
      var b := Viewport(l, cw, ch, true, RightEye);
      a.left == 0 && b.left == a.left + a.w && a.w == b.w && b.left + b.w <= l.backingWidth
  {
  }

  /** A centred viewport leaves equal margins on both sides, up to one pixel, also when
      the content is larger than the screen and the margins are negative. */
  lemma CentredWithinOnePixel(l: Layout, cw: int, ch: int)
    requires l.align == Center
    ensures var r := Viewport(l, cw, ch, false, LeftEye);
      var rightMargin := l.backingWidth - (r.left + r.w);
      var topMargin := l.backingHeight - (r.bottom + r.h);
      -1 <= rightMargin - r.left <= 1 && -1 <= topMargin - r.bottom <= 1
  {
  }

  /** A centred Fit viewport of positive content lies wholly on screen; a centred Fill
      viewport covers the whole screen. */
  lemma CentredFitOnScreenFillCovers(l: Layout, cw: int, ch: int)
    requires l.align == Center && cw > 0 && ch > 0
    requires l.mode == Camera.Fit || l.mode == Camera.Fill
    ensures var r := Viewport(l, cw, ch, false, LeftEye);
      && (l.mode == Camera.Fit ==>
            0 <= r.left && r.left + r.w <= l.backingWidth && 0 <= r.bottom && r.bottom + r.h <= l.backingHeight)
      && (l.mode == Camera.Fill ==>
            r.left <= 0 && l.backingWidth <= r.left + r.w && r.bottom <= 0 && l.backingHeight <= r.bottom + r.h)
  {
  }

  /** A right-aligned viewport ends exactly at the screen's right edge, and a
      top-aligned one at its top. */
  lemma FarAlignmentsTouchEdges(l: Layout, cw: int, ch: int)
    requires RightColumn(l.align) && TopRow(l.align)
    ensures var r := Viewport(l, cw, ch, false, LeftEye);
      r.left + r.w == l.backingWidth && r.bottom + r.h == l.backingHeight
  {
  }
}

=== FILE: gizmo.dfy ===
/** The editor gizmo's drawing of a tracked camera's trackable: outline rectangles and
    the trackable's tag written in a stroke font. A letter is a path over a grid whose
    unit is the letter size: `(` puts the pen down where it is, `)` draws a line from
    there to where it is now, and `U`, `D`, `R`, `L` move one unit forward, back,
    right and left. Points here are grid positions; the world position of a grid point
    `(x, y)` is the origin plus `x` times the right vector plus `y` times the forward
    vector, scaled by the size. */
module Gizmo {
  import opened Wrappers
  import Text
  import Utility

  datatype Pt = Pt(x: int, y: int)

  datatype Segment = Segment(from: Pt, to: Pt)

  /** `letters`: the stroke path of every character the font has; none for the
      characters it lacks. */
  function Letter(c: char): Option<string> {
    match c
    case ' ' => Some("")
    case '!' => Some("RR(U)U(UU)")
    case '"' => Some("UUUUR(D)URR(D)")
    case '#' => Some("R(UUUU)RR(DDDD)UR(LLLL)UU(RRRR)")
    case '$' => Some("RR(UUUU)DR(LL)(D)(RR)(D)(LL)")
    case '%' => Some("RUUUU(D)DDD(RRUUUU)DDD(D)")
    case '&' => Some("RRRRUU(DDLL)(L)(UL)(RRRUU)(UL)(DL)(DDDRRR)")
    case '\'' => Some("RRUUU(U)")
    case '(' => Some("RRR(UL)(UU)(UR)")
    case ')' => Some("R(UR)(UU)(UL)")
    case '*' => Some("RR(UUUU)DL(DDRR)UU(DDLL)UL(RRRR)")
    case '+' => Some("RUU(RR)LU(DD)")
    case ',' => Some("R(UR)")
    case '-' => Some("UR(RR)")
    case '.' => Some("RR(U)")
    case '/' => Some("R(UUUURR)")
    case '0' => Some("(UUUU)(RRRR)(DDDD)(LLLL)")
    case '1' => Some("RR(UUUU)")
    case '2' => Some("UUU(UR)(RR)(DR)(DDDLLLL)(RRRR)")
    case '3' => Some("U(DR)(RR)(UR)(ULL)(URR)(UL)(LL)(DL)")
    case '4' => Some("RRRRU(LLLL)(UUURRR)(DDDD)")
    case '5' => Some("(RRRR)(UU)(LLLL)(UU)(RRRR)")
    case '6' => Some("UUUURRR(LL)(DDL)(DD)(RRRR)(UU)(LLLL)")
    case '7' => Some("UUUU(RRRR)(DDDDLL)")
    case '8' => Some("(UUUU)(RRRR)(DDDD)(LLLL)UU(RRRR)")
    case '9' => Some("R(RR)(UUR)(LLLL)(UU)(RRRR)(DD)")
    case ':' => Some("RR(U)UU(U)")
    case ';' => Some("R(UR)UU(U)")
    case '<' => Some("RRR(UULL)(RRUU)")
    case '=' => Some("UR(RR)UU(LL)")
    case '>' => Some("R(UURR)(LLUU)")
    case '?' => Some("RR(U)U(R)(UR)(UL)(L)(DL)")
    case '@' => Some("RRR(LL)(UL)(UU)(UR)(RR)(DR)(DD)(LL)(U)(R)(D)")
    case 'A' => Some("(UUU)(UR)(RR)(DR)(DDD)UU(LLLL)")
    case 'B' => Some("(UUUU)(RRR)(DR)(DD)(DL)(LLL)UU(RRRR)")
    case 'C' => Some("RRRRU(DL)(LL)(UL)(UU)(UR)(RR)(DR)")
    case 'D' => Some("(UUUU)(RRR)(DR)(DD)(DL)(LLL)")
    case 'E' => Some("(UUUU)(RRRR)DDLL(LL)DD(RRRR)")
    case 'F' => Some("(UUUU)(RRRR)DDLL(LL)")
    case 'G' => Some("UURR(RR)(DD)(LLL)(UL)(UU)(UR)(RR)(DR)")
    case 'H' => Some("(UUUU)DD(RRRR)UU(DDDD)")
    case 'I' => Some("(RRRR)LL(UUUU)LL(RRRR)")
    case 'J' => Some("U(D)(RR)(UUUU)LL(RRRR)")
    case 'K' => Some("(UUUU)RRRR(DDLLLL)(DDRRRR)")
    case 'L' => Some("UUUU(DDDD)(RRRR)")
    case 'M' => Some("(UUUU)(DDRR)(UURR)(DDDD)")
    case 'N' => Some("(UUUU)(DDDDRRRR)(UUUU)")
    case 'O' => Some("U(UU)(UR)(RR)(DR)(DD)(DL)(LL)(UL)")
    case 'P' => Some("(UUUU)(RRR)(DR)(D)(DL)(LLL)")
    case 'Q' => Some("U(UU)(UR)(RR)(DR)(DD)(DL)(LL)(UL)RRR(DR)")
    case 'R' => Some("(UUUU)(RRR)(DR)(D)(DL)(LLL)RRR(DR)")
    case 'S' => Some("U(DR)(RR)(UR)(UL)(LL)(UL)(UR)(RR)(DR)")
    case 'T' => Some("RR(UUUU)LL(RRRR)")
    case 'U' => Some("UUUU(DDDD)(RRR)(UR)(UUU)")
    case 'V' => Some("UUUU(DDDDRR)(UUUURR)")
    case 'W' => Some("UUUU(DDDDR)(UUR)(DDR)(UUUUR)")
    case 'X' => Some("(UUUURRRR)LLLL(DDDDRRRR)")
    case 'Y' => Some("UUUU(DDRR)(UURR)DDLL(DD)")
    case 'Z' => Some("UUUU(RRRR)(DDDDLLLL)(RRRR)")
    case '[' => Some("RRR(L)(UUUU)(R)")
    case '\\' => Some("RRR(UUUULL)")
    case ']' => Some("R(R)(UUUU)(L)")
    case '^' => Some("UUR(UUR)(DDR)")
    case '_' => Some("(RRRR)")
    case '`' => Some("UUUURR(DR)")
    case '{' => Some("RRR(L)(U)(LU)(RU)(U)(R)")
    case '|' => Some("RR(UUUU)")
    case '}' => Some("R(R)(U)(RU)(LU)(U)(L)")
    case '~' => Some("UU(UR)(DDRR)(UR)")
    case _ => None
  }

  /** How many times `c` occurs in `s`. */
  function Count(s: string, c: char): (n: nat)
    ensures n <= |s|
    decreases |s|
  {
    if |s| == 0 then 0 else (if s[0] == c then 1 else 0) + Count(s[1..], c)
  }

  /** `DrawLetter`'s loop over a path, from pen-down point `down` and position
      `current`: one segment per `)`; characters other than the six commands are
      ignored. */
  function Trace(path: string, down: Pt, current: Pt): (r: seq<Segment>)
    ensures |r| == Count(path, ')')
    ensures |path| > 0 && path[0] == ')' ==> r[0] == Segment(down, current)
    decreases |path|
  {
    if |path| == 0 then []
    else
      var rest := path[1..];
      match path[0]
      case '(' => Trace(rest, current, current)
      case ')' => [Segment(down, current)] + Trace(rest, down, current)
      case 'U' => Trace(rest, down, Pt(current.x, current.y + 1))
      case 'D' => Trace(rest, down, Pt(current.x, current.y - 1))
      case 'R' => Trace(rest, down, Pt(current.x + 1, current.y))
      case 'L' => Trace(rest, down, Pt(current.x - 1, current.y))
      case _ => Trace(rest, down, current)
  }

  function Shift(p: Pt, o: Pt): Pt {
    Pt(p.x + o.x, p.y + o.y)
  }

  function ShiftAll(segs: seq<Segment>, o: Pt): (r: seq<Segment>)
    ensures |r| == |segs|
    ensures forall i :: 0 <= i < |segs| ==> r[i] == Segment(Shift(segs[i].from, o), Shift(segs[i].to, o))
  {
    seq(|segs|, i requires 0 <= i < |segs| => Segment(Shift(segs[i].from, o), Shift(segs[i].to, o)))
  }

  /** Tracing from a shifted start draws the same strokes shifted. */
  lemma {:induction false} TraceTranslates(path: string, down: Pt, current: Pt, o: Pt)
    ensures Trace(path, Shift(down, o), Shift(current, o)) == ShiftAll(Trace(path, down, current), o)
    decreases |path|
  {
    if |path| > 0 {
      var rest := path[1..];
      match path[0]
      case '(' => TraceTranslates(rest, current, current, o);
      case ')' => TraceTranslates(rest, down, current, o);
      case 'U' => TraceTranslates(rest, down, Pt(current.x, current.y + 1), o);
      case 'D' => TraceTranslates(rest, down, Pt(current.x, current.y - 1), o);
      case 'R' => TraceTranslates(rest, down, Pt(current.x + 1, current.y), o);
      case 'L' => TraceTranslates(rest, down, Pt(current.x - 1, current.y), o);
      case _ => TraceTranslates(rest, down, current, o);
    }
  }

  predicate IsCommand(c: char) {
    c == '(' || c == ')' || c == 'U' || c == 'D' || c == 'R' || c == 'L'
  }

  /** A character that is not a command can be dropped from a path without changing
      what is drawn. */
  lemma {:induction false} TraceIgnoresOthers(p: string, c: char, q: string, down: Pt, current: Pt)
    requires !IsCommand(c)
    ensures Trace(p + [c] + q, down, current) == Trace(p + q, down, current)
    decreases |p|
  {
    if |p| == 0 {
      assert (p + [c] + q)[1..] == q;
      assert p + q == q;
    } else {
      assert (p + [c] + q)[0] == p[0] && (p + [c] + q)[1..] == p[1..] + [c] + q;
      assert (p + q)[0] == p[0] && (p + q)[1..] == p[1..] + q;
      var rest := p[1..];
      match p[0]
      case '(' => TraceIgnoresOthers(rest, c, q, current, current);
      case ')' => TraceIgnoresOthers(rest, c, q, down, current);
      case 'U' => TraceIgnoresOthers(rest, c, q, down, Pt(current.x, current.y + 1));
      case 'D' => TraceIgnoresOthers(rest, c, q, down, Pt(current.x, current.y - 1));
      case 'R' => TraceIgnoresOthers(rest, c, q, down, Pt(current.x + 1, current.y));
      case 'L' => TraceIgnoresOthers(rest, c, q, down, Pt(current.x - 1, current.y));
      case _ => TraceIgnoresOthers(rest, c, q, down, current);
    }
  }

  /** `DrawLetter`: the strokes of a letter drawn at `origin`, pen down at the origin;
      a character the font lacks is an error (a failed dictionary lookup). */
  function DrawLetter(letter: char, origin: Pt): (r: Option<seq<Segment>>)
    ensures r.Some? <==> Letter(letter).Some?
    ensures r.Some? ==> |r.value| == Count(Letter(letter).value, ')')
    ensures r.Some? ==> r.value == ShiftAll(Trace(Letter(letter).value, Pt(0, 0), Pt(0, 0)), origin)
  {
    match Letter(letter)
    case None => None
    case Some(path) =>
      TraceTranslates(path, Pt(0, 0), Pt(0, 0), origin);
      assert Shift(Pt(0, 0), origin) == origin;
      Some(Trace(path, origin, origin))
  }

  /** A space draws nothing. */
  lemma SpaceDrawsNothing(origin: Pt)
    ensures DrawLetter(' ', origin) == Some([])
  {
    assert Letter(' ') == Some("");
  }

  predicate IsMove(c: char) {
    c == 'U' || c == 'D' || c == 'R' || c == 'L'
  }

  /** Where a run of moves ends. */
  function Walk(moves: string, current: Pt): Pt
    decreases |moves|
  {
    if |moves| == 0 then current
    else
      var c := current;
      var next := match moves[0]
        case 'U' => Pt(c.x, c.y + 1)
        case 'D' => Pt(c.x, c.y - 1)
        case 'R' => Pt(c.x + 1, c.y)
        case 'L' => Pt(c.x - 1, c.y)
        case _ => c;
      Walk(moves[1..], next)
  }

  /** Moves draw nothing and only carry the position along. */
  lemma {:induction false} TraceWalks(moves: string, rest: string, down: Pt, current: Pt)
    requires forall i :: 0 <= i < |moves| ==> IsMove(moves[i])
    ensures Trace(moves + rest, down, current) == Trace(rest, down, Walk(moves, current))
    decreases |moves|
  {
    if |moves| > 0 {
      assert (moves + rest)[0] == moves[0] && (moves + rest)[1..] == moves[1..] + rest;
      var c := current;
      var next := match moves[0]
        case 'U' => Pt(c.x, c.y + 1)
        case 'D' => Pt(c.x, c.y - 1)
        case 'R' => Pt(c.x + 1, c.y)
        case 'L' => Pt(c.x - 1, c.y)
        case _ => c;
      TraceWalks(moves[1..], rest, down, next);
    } else {
      assert moves + rest == rest;
    }
  }

  /** A bracketed run of moves is one stroke from where it starts to where the moves
      end. */
  lemma Stroke(moves: string, rest: string, down: Pt, current: Pt)
    requires forall i :: 0 <= i < |moves| ==> IsMove(moves[i])
    ensures Trace("(" + moves + ")" + rest, down, current) ==
      [Segment(current, Walk(moves, current))] + Trace(rest, current, Walk(moves, current))
  {
    var path := "(" + moves + ")" + rest;
    assert path[0] == '(' && path[1..] == moves + (")" + rest);
    TraceWalks(moves, ")" + rest, current, current);
    assert (")" + rest)[0] == ')' && (")" + rest)[1..] == rest;
  }

  /** The font covers printable ASCII once lower-case letters are upper-cased, so any
      word of printable ASCII can be drawn. */
  lemma PrintableAsciiDrawable(c: char)
    requires ' ' <= c <= '~'
    ensures Letter(Text.ToUpperChar(c)).Some?
  {
    if c < '0' { PunctuationDrawable(c); }
    else if c < 'A' { DigitsAndSymbolsDrawable(c); }
    else if c < 'a' { CapitalsDrawable(c); }
    else { LowerCaseDrawable(c); }
  }

  lemma PunctuationDrawable(c: char)
    requires ' ' <= c < '0'
    ensures Letter(Text.ToUpperChar(c)).Some?
  {
  }

  lemma DigitsAndSymbolsDrawable(c: char)
    requires '0' <= c < 'A'
    ensures Letter(Text.ToUpperChar(c)).Some?
  {
  }

  lemma CapitalsDrawable(c: char)
    requires 'A' <= c < 'a'
    ensures Letter(Text.ToUpperChar(c)).Some?
  {
  }

  lemma LowerCaseDrawable(c: char)
    requires 'a' <= c <= '~'
    ensures Letter(Text.ToUpperChar(c)).Some?
  {
  }

  /** The horizontal advance from one character to the next, in letter units. */
  const Advance := 6

  /** `DrawWord`: the word is upper-cased and its characters drawn one after another,
      each `Advance` units to the right of the previous. A character the font lacks
      makes the dictionary lookup throw; `None` stands for that exception, and the
      lines of the characters before it, which the editor has already drawn by then,
      are not part of the result. */
  function DrawWord(word: string, origin: Pt): (r: Option<seq<Segment>>)
    ensures r.Some? <==> forall i :: 0 <= i < |word| ==> Letter(Text.ToUpperChar(word[i])).Some?
    ensures r.Some? && |word| > 0 ==>
      r.value == DrawLetter(Text.ToUpperChar(word[0]), origin).value
                 + DrawWord(word[1..], Shift(origin, Pt(Advance, 0))).value
    decreases |word|
  {
    if |word| == 0 then Some([])
    else
      var first := DrawLetter(Text.ToUpperChar(word[0]), origin);
      var rest := DrawWord(word[1..], Shift(origin, Pt(Advance, 0)));
      DrawableSplits(word);
      if first.None? || rest.None? then None
      else Some(first.value + rest.value)
  }

  /** Every character of a non-empty word has a glyph exactly when its first one does
      and every character of the rest does. */
  lemma DrawableSplits(word: string)
    requires |word| > 0
    ensures (forall i :: 0 <= i < |word| ==> Letter(Text.ToUpperChar(word[i])).Some?)
        <==> Letter(Text.ToUpperChar(word[0])).Some?
             && forall i :: 0 <= i < |word[1..]| ==> Letter(Text.ToUpperChar(word[1..][i])).Some?
  {
    assert forall i :: 1 <= i < |word| ==> word[i] == word[1..][i - 1];
  }

  /** Upper-casing happens per character, so a word draws the same as its upper-case
      spelling. */
  lemma {:induction false} DrawWordIgnoresCase(word: string, origin: Pt)
    ensures DrawWord(word, origin) == DrawWord(Text.ToUpper(word), origin)
    decreases |word|
  {
    if |word| > 0 {
      var u := Text.ToUpper(word);
      assert u[1..] == Text.ToUpper(word[1..]);
      assert Text.ToUpperChar(u[0]) == Text.ToUpperChar(word[0]);
      DrawWordIgnoresCase(word[1..], Shift(origin, Pt(Advance, 0)));
      assert forall i :: 0 <= i < |word| ==> Text.ToUpperChar(u[i]) == Text.ToUpperChar(word[i]);
    }
  }

  /** `DrawRectangle`: four lines around the rectangle with the given centre, width
      along `right` and height along `up`, from the lower left corner up, across, down
      and back. */
  function DrawRectangle(centre: Utility.Vector3, up: Utility.Vector3, right: Utility.Vector3, width: real, height: real): (r: seq<(Utility.Vector3, Utility.Vector3)>)
    ensures |r| == 4
    ensures forall i :: 0 <= i < 3 ==> r[i].1 == r[i + 1].0
    ensures r[3].1 == r[0].0
    ensures Add(Add(r[0].0, r[2].0), Scale(centre, -2.0)) == Zero()
  {
    var u := Scale(up, height);
    var rv := Scale(right, width);
    var p := Add(Add(centre, Scale(u, -0.5)), Scale(rv, -0.5));
    [(p, Add(p, u)), (Add(p, u), Add(Add(p, u), rv)), (Add(Add(p, u), rv), Add(p, rv)), (Add(p, rv), p)]
  }

  function Add(a: Utility.Vector3, b: Utility.Vector3): Utility.Vector3 {
    Utility.Vector3(a.x + b.x, a.y + b.y, a.z + b.z)
  }

  function Scale(a: Utility.Vector3, k: real): Utility.Vector3 {
    Utility.Vector3(a.x * k, a.y * k, a.z * k)
  }

  function Zero(): Utility.Vector3 {
    Utility.Vector3(0.0, 0.0, 0.0)
  }
}

=== FILE: legacy_arx_trackable.dfy ===
/** The older `ARXTrackable` of the source package: the same component without the
    unpacking coroutine. `Load` is synchronous and guarded by the component's `enabled`
    flag; data files are unpacked on the spot when the streaming assets sit inside an
    archive; after a successful add the stored options are forwarded at once. `Update`
    loads lazily and copies the native visibility without raising events. The load lock
    is not modelled: every operation runs to completion on its own. */
module LegacyArxTrackable {
  import opened Wrappers
  import opened TrackableCore
  import Text

  datatype Trackable = Trackable(
    enabled: bool,
    uid: int,
    loadError: bool,
    kind: TrackableType,
    twoDImageFile: string,
    twoDImageWidth: real,
    patternFileName: string,
    patternContents: string,
    barcodeId: nat,
    patternWidth: real,
    multiConfigFile: string,
    nftDataName: string,
    options: Options,
    /** `patterns`: `None` for null, otherwise the array length. */
    patterns: Option<nat>,
    visible: bool)

  /** What `Load` consults besides the component: whether the controller's plugin is
      inited, and how data files are unpacked. */
  datatype Env = Env(ready: bool, unpacker: Unpacker)

  /** A component with its native calls, in order. */
  datatype Step = Step(t: Trackable, calls: seq<Call>)

  /** An enabled component as added: no UID, a 2D type, the field initialisers. */
  function Fresh(): (t: Trackable)
    ensures t.enabled && t.uid == NoId && !t.loadError && !t.visible && t.patterns.None?
    ensures t.kind == TwoD && t.options == DefaultOptions()
  {
    Trackable(true, NoId, false, TwoD, "", 1.0, "", "", 0, 0.08, "", "", DefaultOptions(), None, false)
  }

  /** The fields the configuration string is built from. */
  function DataOf(t: Trackable): (d: MarkerData)
    ensures d.kind == t.kind && d.multiConfigFile == t.multiConfigFile && d.nftDataName == t.nftDataName
  {
    MarkerData(t.kind, t.twoDImageFile, t.twoDImageWidth, t.patternContents, t.barcodeId, t.patternWidth,
               t.multiConfigFile, t.nftDataName)
  }

  /** The configuration string of this variant: 2D widths are converted to millimetres. */
  function ConfigOf(t: Trackable, env: Env): (cfg: Option<Config>)
    ensures cfg.None? <==> NoConfiguration(DataOf(t), env.unpacker)
  {
    ConfigurationDecided(DataOf(t), env.unpacker, 1000.0);
    Configuration(DataOf(t), env.unpacker, 1000.0)
  }

  /** `Load`: nothing happens when the component is disabled, already has a UID or the
      plugin is not inited, and nothing happens without a configuration. Otherwise the
      configuration is added; NO_ID is a load error, and a real UID clears the error and
      forwards the stored options that fit the type. */
  function Load(t: Trackable, env: Env, a: Answers): (r: Step)
    ensures !t.enabled || t.uid != NoId || !env.ready ==> r == Step(t, [])
    ensures ConfigOf(t, env).None? ==> r == Step(t, [])
    ensures t.enabled && t.uid == NoId && env.ready && ConfigOf(t, env).Some? ==>
      && |r.calls| >= 1 && r.calls[0] == AddTrackable(ConfigOf(t, env).value)
      && r.t.uid == a.uid
      && (r.t.loadError <==> a.uid == NoId)
      && (a.uid == NoId ==> |r.calls| == 1)
      && (a.uid != NoId ==> r.calls[1..] == ForwardedCalls(a.uid, t.kind, ReappliedSettings(t.options)))
    ensures r.t == t.(uid := r.t.uid, loadError := r.t.loadError, patterns := r.t.patterns)
  {
    if !t.enabled || t.uid != NoId || !env.ready then Step(t, [])
    else match ConfigOf(t, env)
      case None => Step(t, [])
      case Some(cfg) =>
        if a.uid == NoId then Step(t.(loadError := true), [AddTrackable(cfg)])
        else
          Step(t.(uid := a.uid, loadError := false, patterns := PatternsAfterAdd(t.patterns, a.patternCount)),
               [AddTrackable(cfg)] + ForwardedCalls(a.uid, t.kind, ReappliedSettings(t.options)))
  }

  /** Every option that fits the type reaches a trackable the native side accepted. */
  lemma LoadForwardsOptions(t: Trackable, env: Env, a: Answers, s: Setting)
    requires t.enabled && t.uid == NoId && env.ready && ConfigOf(t, env).Some? && a.uid != NoId
    requires s in ReappliedSettings(t.options) && AppliesTo(s, t.kind)
    ensures NativeSet(a.uid, s) in Load(t, env, a).calls
  {
    var r := Load(t, env, a);
    ForwardedCallsContain(a.uid, t.kind, ReappliedSettings(t.options), s);
    assert NativeSet(a.uid, s) in r.calls[1..];
  }

  /** An option setter: it always stores the value, and forwards it only for a loaded
      trackable whose type the option fits. */
  function Set(t: Trackable, s: Setting): (r: Step)
    ensures r.t == t.(options := Store(t.options, s))
    ensures r.calls == (if t.uid != NoId && AppliesTo(s, t.kind) then [NativeSet(t.uid, s)] else [])
  {
    Step(t.(options := Store(t.options, s)),
         if t.uid != NoId && AppliesTo(s, t.kind) then [NativeSet(t.uid, s)] else [])
  }

  /** The setters the type gate holds back: continuous pose estimation on anything but
      a square or barcode marker, the NFT scale on anything but an NFT marker. */
  lemma SetGatedByType(t: Trackable, s: Setting)
    requires t.uid != NoId
    ensures s.UseContPoseEstimation? && t.kind != Square && t.kind != SquareBarcode ==> Set(t, s).calls == []
    ensures s.NftScale? && t.kind != NFT ==> Set(t, s).calls == []
    ensures s.Filtered? || s.FilterSampleRate? || s.FilterCutoffFreq? ==> |Set(t, s).calls| == 1
  {
  }

  /** `Unload`: without a UID nothing happens; otherwise the UID, the error flag and the
      patterns are reset, the native trackable is removed only while the plugin is
      inited, and visibility is left as it was. */
  function Unload(t: Trackable, ready: bool): (r: Step)
    ensures t.uid == NoId ==> r == Step(t, [])
    ensures t.uid != NoId ==>
      && r.t.uid == NoId && !r.t.loadError && r.t.patterns.None?
      && r.t.visible == t.visible
      && r.calls == (if ready then [RemoveTrackable(t.uid)] else [])
    ensures r.t == t.(uid := r.t.uid, loadError := r.t.loadError, patterns := r.t.patterns)
  {
    if t.uid == NoId then Step(t, [])
    else Step(t.(uid := NoId, loadError := false, patterns := None), if ready then [RemoveTrackable(t.uid)] else [])
  }

  /** A load followed by an unload gives the component back, error flag cleared, with
      the add first and the remove last on the native side. */
  lemma UnloadUndoesLoad(t: Trackable, env: Env, a: Answers)
    requires t.enabled && t.uid == NoId && env.ready && ConfigOf(t, env).Some? && a.uid != NoId
    requires t.patterns.None?
    ensures var l := Load(t, env, a);
      var u := Unload(l.t, env.ready);
      && u.t == t.(loadError := false)
      && l.calls[0].AddTrackable? && u.calls == [RemoveTrackable(a.uid)]
  {
  }

  /** `Update` on a playing scene: with the plugin inited it loads lazily unless a load
      already failed, then copies the native visibility; otherwise the trackable is
      hidden. Outside play mode nothing changes. */
  function Update(t: Trackable, env: Env, playing: bool, a: Answers, seen: bool): (r: Step)
    ensures !playing ==> r == Step(t, [])
    ensures playing && !env.ready ==> r == Step(t.(visible := false), [])
    ensures playing && env.ready ==>
      && r.t.visible == (r.t.uid != NoId && seen)
      && (t.uid != NoId || t.loadError ==> r == Step(t.(visible := r.t.visible), []))
  {
    if !playing then Step(t, [])
    else if !env.ready then Step(t.(visible := false), [])
    else
      var loaded := if t.uid == NoId && !t.loadError then Load(t, env, a) else Step(t, []);
      Step(loaded.t.(visible := loaded.t.uid != NoId && seen), loaded.calls)
  }

  /** A trackable without a UID is never visible after an update. */
  lemma UpdateHidesUnloaded(t: Trackable, env: Env, a: Answers, seen: bool)
    ensures var r := Update(t, env, true, a, seen);
      r.t.uid == NoId ==> !r.t.visible
  {
  }

  /** A configuration that cannot be built leaves no error behind, so every later
      update tries the load again; a native refusal does set the error and stops the
      retries. */
  lemma MissingConfigRetried(t: Trackable, env: Env, a: Answers, seen: bool)
    requires t.enabled && t.uid == NoId && !t.loadError && env.ready
    ensures NoConfiguration(DataOf(t), env.unpacker) ==> !Update(t, env, true, a, seen).t.loadError
    ensures !NoConfiguration(DataOf(t), env.unpacker) && a.uid == NoId ==>
      var r := Update(t, env, true, a, seen);
      r.t.loadError && Update(r.t, env, true, a, seen) == Step(r.t, [])
  {
  }

  /** The argument of a `ConfigureAs*` call. */
  datatype Reconfiguration =
    | AsTwoD(imageFilePath: string, imageWidth: real)
    | AsSquarePattern(patternFilePath: string, fileLines: seq<string>, width: real)
    | AsSquareBarcode(barcodeId: nat, width: real)
    | AsMultiSquare(multiConfigFilePath: string)
    | AsNft(nftDataName: string)

  /** The fields a `ConfigureAs*` call writes: the type always, a path or name only if
      non-empty, a width only if positive, a barcode ID always (an unsigned ID is
      never negative). */
  function Apply(t: Trackable, c: Reconfiguration): (u: Trackable)
    ensures u.uid == t.uid && u.options == t.options && u.enabled == t.enabled
    ensures u.kind == KindOf(c)
    ensures u == t.(kind := u.kind, twoDImageFile := u.twoDImageFile, twoDImageWidth := u.twoDImageWidth,
                    patternFileName := u.patternFileName, patternContents := u.patternContents,
                    barcodeId := u.barcodeId, patternWidth := u.patternWidth,
                    multiConfigFile := u.multiConfigFile, nftDataName := u.nftDataName)
  {
    match c
    case AsTwoD(path, width) =>
      t.(kind := TwoD, twoDImageFile := if path != "" then path else t.twoDImageFile,
         twoDImageWidth := if width > 0.0 then width else t.twoDImageWidth)
    case AsSquarePattern(path, lines, width) =>
      t.(kind := Square,
         patternFileName := if path != "" then FileName(path) else t.patternFileName,
         patternContents := if path != "" then Text.Join(lines, ' ') else t.patternContents,
         patternWidth := if width > 0.0 then width else t.patternWidth)
    case AsSquareBarcode(id, width) =>
      t.(kind := SquareBarcode, barcodeId := id, patternWidth := if width > 0.0 then width else t.patternWidth)
    case AsMultiSquare(path) =>
      t.(kind := Multimarker, multiConfigFile := if path != "" then path else t.multiConfigFile)
    case AsNft(name) =>
      t.(kind := NFT, nftDataName := if name != "" then name else t.nftDataName)
  }

  /** The type a reconfiguration selects. */
  function KindOf(c: Reconfiguration): (k: TrackableType)
  {
    match c
    case AsTwoD(_, _) => TwoD
    case AsSquarePattern(_, _, _) => Square
    case AsSquareBarcode(_, _) => SquareBarcode
    case AsMultiSquare(_) => Multimarker
    case AsNft(_) => NFT
  }

  /** The configuration data a reconfiguration leaves, read from the data alone. */
  function ApplyToData(d: MarkerData, c: Reconfiguration): MarkerData {
    match c
    case AsTwoD(path, width) =>
      d.(kind := TwoD, twoDImageFile := if path != "" then path else d.twoDImageFile,
         twoDImageWidth := if width > 0.0 then width else d.twoDImageWidth)
    case AsSquarePattern(path, lines, width) =>
      d.(kind := Square, patternContents := if path != "" then Text.Join(lines, ' ') else d.patternContents,
         patternWidth := if width > 0.0 then width else d.patternWidth)
    case AsSquareBarcode(id, width) =>
      d.(kind := SquareBarcode, barcodeId := id, patternWidth := if width > 0.0 then width else d.patternWidth)
    case AsMultiSquare(path) =>
      d.(kind := Multimarker, multiConfigFile := if path != "" then path else d.multiConfigFile)
    case AsNft(name) =>
      d.(kind := NFT, nftDataName := if name != "" then name else d.nftDataName)
  }

  /** What a reconfiguration does to the configuration data depends on nothing else
      in the component. */
  lemma DataOfApply(t: Trackable, c: Reconfiguration)
    ensures DataOf(Apply(t, c)) == ApplyToData(DataOf(t), c)
  {
    match c
    case AsTwoD(_, _) =>
    case AsSquarePattern(_, _, _) =>
    case AsSquareBarcode(_, _) =>
    case AsMultiSquare(_) =>
    case AsNft(_) =>
  }

  /** Two components that agree on their data still agree after the same
      reconfiguration. */
  lemma ApplySameData(u: Trackable, t: Trackable, c: Reconfiguration)
    requires DataOf(u) == DataOf(t)
    ensures DataOf(Apply(u, c)) == DataOf(Apply(t, c))
  {
    DataOfApply(u, c);
    DataOfApply(t, c);
  }

  /** `ConfigureAs*`: unload, write the fields, clear the load error, load. */
  function Configure(t: Trackable, env: Env, a: Answers, c: Reconfiguration): (r: Step)
    ensures r.t.kind == KindOf(c) && r.t.options == t.options
    ensures t.uid != NoId && env.ready ==> |r.calls| > 0 && r.calls[0] == RemoveTrackable(t.uid)
    ensures t.enabled && env.ready && ConfigOf(Apply(t, c), env).Some? ==>
      r.t.uid == a.uid && (r.t.loadError <==> a.uid == NoId)
    ensures !t.enabled ==> r.t.uid == NoId && !r.t.loadError
  {
    var u := Unload(t, env.ready);
    var c2 := Apply(u.t, c).(loadError := false);
    ApplySameData(u.t, t, c);
    var l := Load(c2, env, a);
    Step(l.t, u.calls + l.calls)
  }

  /** `OnDisable` unloads. */
  function OnDisable(t: Trackable, ready: bool): (r: Step)
    ensures r.t.uid == NoId && r.t.visible == t.visible
  {
    Unload(t, ready)
  }
}

=== FILE: lists.dfy ===
/** `List<T>` operations the components use: finding and removing the first
    occurrence of an element. */
module Lists {
  /** The position of the first occurrence of `x`, or the length when absent. */
  function IndexOf<T(==)>(s: seq<T>, x: T): (i: nat)
    ensures i <= |s|
    ensures i < |s| ==> s[i] == x
    ensures forall j :: 0 <= j < i ==> s[j] != x
    decreases |s|
  {
    if |s| == 0 then 0 else if s[0] == x then 0 else 1 + IndexOf(s[1..], x)
  }

  /** `List.Remove`: the first occurrence goes, the rest keeps its order. */
  function RemoveFirst<T(==)>(s: seq<T>, x: T): (r: seq<T>)
    ensures x !in s ==> r == s
    ensures x in s ==> |r| == |s| - 1 && r == s[..IndexOf(s, x)] + s[IndexOf(s, x) + 1..]
  {
    var i := IndexOf(s, x);
    if i == |s| then s else s[..i] + s[i + 1..]
  }

  /** Removing one occurrence takes exactly one copy out of the multiset of entries. */
  lemma RemoveFirstMultiset<T>(s: seq<T>, x: T)
    ensures multiset(RemoveFirst(s, x)) == multiset(s) - multiset{x}
  {
    var i := IndexOf(s, x);
    if i < |s| {
      SplitAt(s, i);
      TakeOneOut(s, s[..i], s[i], s[i + 1..]);
    } else {
      NothingToTakeOut(s, x);
    }
  }

  lemma SplitAt<T>(s: seq<T>, i: nat)
    requires i < |s|
    ensures s == s[..i] + [s[i]] + s[i + 1..]
  {
  }

  lemma NothingToTakeOut<T>(s: seq<T>, x: T)
    requires x !in s
    ensures multiset(s) - multiset{x} == multiset(s)
  {
    assert x !in multiset(s);
  }

  lemma TakeOneOut<T>(s: seq<T>, before: seq<T>, x: T, after: seq<T>)
    requires s == before + [x] + after
    ensures multiset(before + after) == multiset(s) - multiset{x}
  {
    assert multiset(s) == multiset(before) + multiset{x} + multiset(after);
  }

  /** A head followed by a rest and a tail, whichever way it is grouped. */
  lemma HeadThenParts<T>(whole: seq<T>, head: seq<T>, mid: seq<T>, rest: seq<T>, tail: seq<T>, front: seq<T>)
    requires whole == head + mid && mid == rest + tail && front == head + rest
    ensures whole == front + tail
  {
  }

  /** Regrouping a concatenation whose middle part splits in two; stated over plain
      sequences so that a caller needs only the two equalities. */
  lemma Reassociate<T>(r: seq<T>, a: seq<T>, bc: seq<T>, b: seq<T>, c: seq<T>, d: seq<T>)
    requires r == a + bc + d && bc == b + c
    ensures r == a + b + c + d
  {
  }

  /** Regrouping a concatenation whose tail splits in three, with the head absorbing the
      first part and the last part replaced by an equal one. */
  lemma Regroup<T>(all: seq<T>, head: seq<T>, rest: seq<T>, a: seq<T>, b: seq<T>, c: seq<T>, headA: seq<T>, c': seq<T>)
    requires all == head + rest && rest == a + b + c && headA == head + a && c == c'
    ensures all == headA + b + c'
  {
  }

  /** Rebuilding a concatenation from equal parts. */
  lemma Reassemble<T>(r: seq<T>, a: seq<T>, a': seq<T>, s: seq<T>, b: seq<T>, c: seq<T>, d: seq<T>, d': seq<T>)
    requires r == a + s && a == a' && s == b + c + d && d == d'
    ensures r == a' + b + c + d'
  {
  }
}

=== FILE: manifest.dfy ===
/** The Android manifest post-processor (`ARToolKitAndroidManifestPostProcessor`): after
    Unity generates the Gradle project, the manifest is patched so that it asks for the
    camera and network permissions, declares the camera features and tells the Unity
    player to skip its permission dialog. The XML document is a tree of `Node`s; loading
    and saving the file are left to the caller (`None` means nothing is written). */
module Manifest {
  import opened Wrappers

  const AndroidUri := "http://schemas.android.com/apk/res/android"

  /** An attribute: local name, namespace URI and value. */
  datatype Attribute = Attribute(localName: string, namespace: string, value: string)

  /** An XML node: its name, whether it is an element, its attributes and its children. */
  datatype Node = Node(name: string, isElement: bool, attributes: seq<Attribute>, children: seq<Node>)

  /** The position of the first entry satisfying `p`, if any. */
  function FirstWhere<T>(s: seq<T>, p: T -> bool): (r: Option<nat>)
    ensures r.Some? ==> r.value < |s| && p(s[r.value])
    ensures r.Some? ==> forall k :: 0 <= k < r.value ==> !p(s[k])
    ensures r.None? <==> forall k :: 0 <= k < |s| ==> !p(s[k])
    decreases |s|
  {
    if |s| == 0 then None
    else if p(s[0]) then Some(0)
    else match FirstWhere(s[1..], p) {
      case None =>
        assert forall k :: 1 <= k < |s| ==> s[k] == s[1..][k - 1];
        None
      case Some(k) => Some(k + 1)
    }
  }

  /** The first match does not move when the entries before and at it keep their
      verdict and entries are only appended. */
  lemma FirstWhereKept<T>(s: seq<T>, t: seq<T>, p: T -> bool)
    requires |s| <= |t|
    requires forall k :: 0 <= k < |s| ==> p(t[k]) == p(s[k])
    requires FirstWhere(s, p).Some?
    ensures FirstWhere(t, p) == FirstWhere(s, p)
  {
    var j := FirstWhere(s, p).value;
    assert p(t[j]);
  }

  /** With the same length and the same verdict everywhere, the first match agrees. */
  lemma FirstWhereAgrees<T>(s: seq<T>, t: seq<T>, p: T -> bool)
    requires |s| == |t|
    requires forall k :: 0 <= k < |s| ==> p(t[k]) == p(s[k])
    ensures FirstWhere(t, p) == FirstWhere(s, p)
  {
    if FirstWhere(s, p).Some? {
      FirstWhereKept(s, t, p);
    }
  }

  /** Appending one entry: an earlier match wins, otherwise the new entry decides. */
  lemma FirstWhereAppend<T>(s: seq<T>, x: T, p: T -> bool)
    ensures FirstWhere(s + [x], p) ==
      if FirstWhere(s, p).Some? then FirstWhere(s, p)
      else if p(x) then Some(|s|) else None
  {
    var t := s + [x];
    if FirstWhere(s, p).Some? {
      FirstWhereKept(s, t, p);
    } else if p(x) {
      assert p(t[|s|]);
    } else {
      assert forall k :: 0 <= k < |t| ==> !p(t[k]) by {
        forall k | 0 <= k < |t| ensures !p(t[k]) {
          if k < |s| { assert t[k] == s[k]; }
        }
      }
    }
  }

  function Named(tag: string): Node -> bool {
    (c: Node) => c.name == tag
  }

  /** `FindFirstChild`: the first child with the tag, or none. */
  function FindFirstChild(children: seq<Node>, tag: string): (r: Option<nat>)
    ensures r.Some? ==> r.value < |children| && children[r.value].name == tag
    ensures r.Some? ==> forall k :: 0 <= k < r.value ==> children[k].name != tag
    ensures r.None? <==> forall k :: 0 <= k < |children| ==> children[k].name != tag
  {
    FirstWhere(children, Named(tag))
  }

  function InAndroidNamespace(name: string): Attribute -> bool {
    (a: Attribute) => a.localName == name && a.namespace == AndroidUri
  }

  /** `GetAttributeNode(name, androidUri)` on a child taken as an element with
      attributes: the value of the first such attribute. A node that is not an element,
      or has no attributes, gives none. */
  function Look(c: Node, name: string): (r: Option<string>)
    ensures r.Some? <==>
      (c.isElement && exists k :: 0 <= k < |c.attributes| && InAndroidNamespace(name)(c.attributes[k]))
    ensures r.Some? ==>
      exists k :: 0 <= k < |c.attributes| && InAndroidNamespace(name)(c.attributes[k]) && c.attributes[k].value == r.value
  {
    if !c.isElement || |c.attributes| == 0 then None
    else match FirstWhere(c.attributes, InAndroidNamespace(name)) {
      case None => None
      case Some(k) => Some(c.attributes[k].value)
    }
  }

  /** A child with the tag whose attribute `name` holds `value`: what both lookups of
      the post-processor accept. */
  predicate Keyed(c: Node, tag: string, name: string, value: string) {
    c.name == tag && Look(c, name) == Some(value)
  }

  function KeyedBy(tag: string, name: string, value: string): Node -> bool {
    (c: Node) => Keyed(c, tag, name, value)
  }

  /** Some child carries the tag with that attribute value. */
  predicate Present(children: seq<Node>, tag: string, name: string, value: string) {
    FirstWhere(children, KeyedBy(tag, name, value)).Some?
  }

  /** The first child keyed by the tag and first attribute carries the second
      attribute with its value. */
  predicate Settled(children: seq<Node>, tag: string, firstName: string, firstValue: string,
                    secondName: string, secondValue: string)
  {
    var i := FirstWhere(children, KeyedBy(tag, firstName, firstValue));
    i.Some? && Look(children[i.value], secondName) == Some(secondValue)
  }

  /** A fresh element with attributes in the Android namespace. */
  function NewElement(tag: string, attributes: seq<(string, string)>): Node {
    Node(tag, true, seq(|attributes|, k requires 0 <= k < |attributes| =>
      Attribute(attributes[k].0, AndroidUri, attributes[k].1)), [])
  }

  /** `FindOrCreateTagWithAttribute`: when no child has the tag with the attribute
      value, one such element is appended; otherwise the node stays as it is. */
  function FindOrCreateTagWithAttribute(n: Node, tag: string, name: string, value: string): (r: Node)
    ensures r.name == n.name && r.isElement == n.isElement && r.attributes == n.attributes
    ensures n.children <= r.children && |r.children| <= |n.children| + 1
    ensures Present(r.children, tag, name, value)
    ensures Present(n.children, tag, name, value) <==> r == n
  {
    if Present(n.children, tag, name, value) then n
    else
      var e := NewElement(tag, [(name, value)]);
      FirstWhereAppend(e.attributes[..0], e.attributes[0], InAndroidNamespace(name));
      assert e.attributes[..0] + [e.attributes[0]] == e.attributes;
      FirstWhereAppend(n.children, e, KeyedBy(tag, name, value));
      n.(children := n.children + [e])
  }

  /** Creating the attribute again finds the element appended the first time. */
  lemma FindOrCreateTagWithAttributeIdempotent(n: Node, tag: string, name: string, value: string)
    ensures var once := FindOrCreateTagWithAttribute(n, tag, name, value);
      FindOrCreateTagWithAttribute(once, tag, name, value) == once
  {
  }

  /** Setting an attribute in the Android namespace: the first one with the name gets
      the value, or a new one is appended. Other attributes read back unchanged. */
  function SetAttribute(c: Node, name: string, value: string): (r: Node)
    ensures r.name == c.name && r.isElement == c.isElement && r.children == c.children
    ensures c.isElement ==> Look(r, name) == Some(value)
    ensures forall other :: other != name ==> Look(r, other) == Look(c, other)
    ensures Look(c, name) == Some(value) ==> r == c
  {
    var attrs := c.attributes;
    match FirstWhere(attrs, InAndroidNamespace(name)) {
      case Some(k) =>
        var updated := attrs[k := attrs[k].(value := value)];
        UpdatingValueKeepsLookups(attrs, k, value);
        c.(attributes := updated)
      case None =>
        var a := Attribute(name, AndroidUri, value);
        AppendingKeepsLookups(attrs, a, name);
        c.(attributes := attrs + [a])
    }
  }

  /** Changing one attribute's value moves no attribute lookup. */
  lemma UpdatingValueKeepsLookups(attrs: seq<Attribute>, k: nat, value: string)
    requires k < |attrs|
    ensures forall other :: FirstWhere(attrs[k := attrs[k].(value := value)], InAndroidNamespace(other))
                         == FirstWhere(attrs, InAndroidNamespace(other))
  {
    forall other ensures FirstWhere(attrs[k := attrs[k].(value := value)], InAndroidNamespace(other))
                      == FirstWhere(attrs, InAndroidNamespace(other)) {
      UpdatingValueKeepsLookup(attrs, k, value, other);
    }
  }

  lemma UpdatingValueKeepsLookup(attrs: seq<Attribute>, k: nat, value: string, other: string)
    requires k < |attrs|
    ensures FirstWhere(attrs[k := attrs[k].(value := value)], InAndroidNamespace(other))
         == FirstWhere(attrs, InAndroidNamespace(other))
  {
    var updated := attrs[k := attrs[k].(value := value)];
    var p := InAndroidNamespace(other);
    forall j | 0 <= j < |attrs| ensures p(updated[j]) == p(attrs[j]) {
      assert updated[j].localName == attrs[j].localName && updated[j].namespace == attrs[j].namespace;
    }
    FirstWhereAgrees(attrs, updated, p);
  }

  /** Appending an attribute moves no lookup of another name and finds the appended one
      when its name was absent. */
  lemma AppendingKeepsLookups(attrs: seq<Attribute>, a: Attribute, name: string)
    requires a.localName == name && a.namespace == AndroidUri
    ensures forall other :: other != name ==>
      FirstWhere(attrs + [a], InAndroidNamespace(other)) == FirstWhere(attrs, InAndroidNamespace(other))
    ensures FirstWhere(attrs, InAndroidNamespace(name)).None? ==>
      FirstWhere(attrs + [a], InAndroidNamespace(name)) == Some(|attrs|)
  {
    forall other | other != name
      ensures FirstWhere(attrs + [a], InAndroidNamespace(other)) == FirstWhere(attrs, InAndroidNamespace(other))
    {
      FirstWhereAppend(attrs, a, InAndroidNamespace(other));
    }
    FirstWhereAppend(attrs, a, InAndroidNamespace(name));
  }

  /** `FindOrCreateTagWithAttributes`: the first child with the tag whose first
      attribute has the first value gets the second attribute set; when there is none,
      an element with both attributes is appended. */
  function FindOrCreateTagWithAttributes(n: Node, tag: string, firstName: string, firstValue: string,
                                         secondName: string, secondValue: string): (r: Node)
    ensures r.name == n.name && r.isElement == n.isElement && r.attributes == n.attributes
    ensures |n.children| <= |r.children| <= |n.children| + 1
    ensures Present(n.children, tag, firstName, firstValue) <==> |r.children| == |n.children|
    ensures forall k :: 0 <= k < |n.children| && !Keyed(n.children[k], tag, firstName, firstValue) ==>
      r.children[k] == n.children[k]
  {
    match FirstWhere(n.children, KeyedBy(tag, firstName, firstValue)) {
      case Some(i) =>
        n.(children := n.children[i := SetAttribute(n.children[i], secondName, secondValue)])
      case None =>
        n.(children := n.children + [NewElement(tag, [(firstName, firstValue), (secondName, secondValue)])])
    }
  }

  /** After setting the second attribute (or appending the element) the first child
      keyed by the first attribute carries the second value, provided the two
      attribute names differ. */
  lemma FindOrCreateTagWithAttributesSettles(n: Node, tag: string, firstName: string, firstValue: string,
                                             secondName: string, secondValue: string)
    requires firstName != secondName
    ensures Settled(FindOrCreateTagWithAttributes(n, tag, firstName, firstValue, secondName, secondValue).children,
                    tag, firstName, firstValue, secondName, secondValue)
  {
    match FirstWhere(n.children, KeyedBy(tag, firstName, firstValue)) {
      case Some(i) =>
        SettingSecondSettles(n.children, i, tag, firstName, firstValue, secondName, secondValue);
      case None =>
        AppendingSettles(n.children, tag, firstName, firstValue, secondName, secondValue);
    }
  }

  /** Setting the second attribute on the first keyed child settles the children. */
  lemma SettingSecondSettles(children: seq<Node>, i: nat, tag: string, firstName: string, firstValue: string,
                             secondName: string, secondValue: string)
    requires firstName != secondName
    requires FirstWhere(children, KeyedBy(tag, firstName, firstValue)) == Some(i)
    ensures i < |children|
    ensures Settled(children[i := SetAttribute(children[i], secondName, secondValue)],
                    tag, firstName, firstValue, secondName, secondValue)
  {
    var p := KeyedBy(tag, firstName, firstValue);
    var t := children[i := SetAttribute(children[i], secondName, secondValue)];
    forall k | 0 <= k < |children| ensures p(t[k]) == p(children[k]) {
      if k == i {
        assert Look(t[k], firstName) == Look(children[k], firstName);
      }
    }
    FirstWhereAgrees(children, t, p);
  }

  /** Appending the new element when no child is keyed settles the children. */
  lemma AppendingSettles(children: seq<Node>, tag: string, firstName: string, firstValue: string,
                         secondName: string, secondValue: string)
    requires firstName != secondName
    requires FirstWhere(children, KeyedBy(tag, firstName, firstValue)).None?
    ensures Settled(children + [NewElement(tag, [(firstName, firstValue), (secondName, secondValue)])],
                    tag, firstName, firstValue, secondName, secondValue)
  {
    var e := NewElement(tag, [(firstName, firstValue), (secondName, secondValue)]);
    assert e.attributes[0].localName == firstName;
    assert FirstWhere(e.attributes, InAndroidNamespace(firstName)) == Some(0);
    assert FirstWhere(e.attributes, InAndroidNamespace(secondName)) == Some(1);
    FirstWhereAppend(children, e, KeyedBy(tag, firstName, firstValue));
  }

  /** On a node already settled, the operation changes nothing: running it twice is
      the same as running it once. */
  lemma FindOrCreateTagWithAttributesIdempotent(n: Node, tag: string, firstName: string, firstValue: string,
                                                secondName: string, secondValue: string)
    requires firstName != secondName
    ensures Settled(n.children, tag, firstName, firstValue, secondName, secondValue) ==>
      FindOrCreateTagWithAttributes(n, tag, firstName, firstValue, secondName, secondValue) == n
    ensures var once := FindOrCreateTagWithAttributes(n, tag, firstName, firstValue, secondName, secondValue);
      FindOrCreateTagWithAttributes(once, tag, firstName, firstValue, secondName, secondValue) == once
  {
    var once := FindOrCreateTagWithAttributes(n, tag, firstName, firstValue, secondName, secondValue);
    FindOrCreateTagWithAttributesSettles(n, tag, firstName, firstValue, secondName, secondValue);
    SettledIsFixed(once, tag, firstName, firstValue, secondName, secondValue);
    if Settled(n.children, tag, firstName, firstValue, secondName, secondValue) {
      SettledIsFixed(n, tag, firstName, firstValue, secondName, secondValue);
    }
  }

  lemma SettledIsFixed(n: Node, tag: string, firstName: string, firstValue: string,
                       secondName: string, secondValue: string)
    requires Settled(n.children, tag, firstName, firstValue, secondName, secondValue)
    ensures FindOrCreateTagWithAttributes(n, tag, firstName, firstValue, secondName, secondValue) == n
  {
    var i := FirstWhere(n.children, KeyedBy(tag, firstName, firstValue)).value;
    assert n.children[i := n.children[i]] == n.children;
  }

  /** Children keep their names and their value of attribute `key`, and new ones are
      only appended. */
  predicate KeysKept(s: seq<Node>, t: seq<Node>, key: string) {
    |s| <= |t| &&
    forall k :: 0 <= k < |s| ==> t[k].name == s[k].name && Look(t[k], key) == Look(s[k], key)
  }

  /** Setting a second attribute other than the key keeps every child's key. */
  lemma SettingKeepsKeys(n: Node, tag: string, key: string, firstValue: string,
                         secondName: string, secondValue: string)
    requires key != secondName
    ensures KeysKept(n.children, FindOrCreateTagWithAttributes(n, tag, key, firstValue, secondName, secondValue).children, key)
  {
    match FirstWhere(n.children, KeyedBy(tag, key, firstValue)) {
      case Some(i) =>
        SettingOneKeepsKeys(n.children, i, key, secondName, secondValue);
      case None =>
        AppendingKeepsKeys(n.children, NewElement(tag, [(key, firstValue), (secondName, secondValue)]), key);
    }
  }

  lemma SettingOneKeepsKeys(children: seq<Node>, i: nat, key: string, secondName: string, secondValue: string)
    requires i < |children| && key != secondName
    ensures KeysKept(children, children[i := SetAttribute(children[i], secondName, secondValue)], key)
  {
    var t := children[i := SetAttribute(children[i], secondName, secondValue)];
    forall k | 0 <= k < |children| ensures t[k].name == children[k].name && Look(t[k], key) == Look(children[k], key) {
    }
  }

  lemma AppendingKeepsKeys(children: seq<Node>, e: Node, key: string)
    ensures KeysKept(children, children + [e], key)
  {
  }

  /** Whatever keeps keys keeps the first child with a given tag and a given key. */
  lemma KeysKeptKeepsFirst(s: seq<Node>, t: seq<Node>, key: string, tag: string, value: string)
    requires KeysKept(s, t, key)
    ensures Present(s, tag, key, value) ==>
      FirstWhere(t, KeyedBy(tag, key, value)) == FirstWhere(s, KeyedBy(tag, key, value))
    ensures FindFirstChild(s, tag).Some? ==> FindFirstChild(t, tag) == FindFirstChild(s, tag)
  {
    if Present(s, tag, key, value) {
      FirstWhereKept(s, t, KeyedBy(tag, key, value));
    }
    if FindFirstChild(s, tag).Some? {
      FirstWhereKept(s, t, Named(tag));
    }
  }

  /** Settling one entry leaves another settled entry settled, when the two differ in
      tag or in the key's value and the second attribute is not the key. */
  lemma SettlingKeepsOtherSettled(n: Node, tag: string, key: string, value: string, secondName: string, secondValue: string,
                                  otherTag: string, otherValue: string, otherSecond: string)
    requires key != secondName
    requires tag != otherTag || value != otherValue
    requires Settled(n.children, otherTag, key, otherValue, secondName, otherSecond)
    ensures Settled(FindOrCreateTagWithAttributes(n, tag, key, value, secondName, secondValue).children,
                    otherTag, key, otherValue, secondName, otherSecond)
  {
    var r := FindOrCreateTagWithAttributes(n, tag, key, value, secondName, secondValue);
    SettingKeepsKeys(n, tag, key, value, secondName, secondValue);
    KeysKeptKeepsFirst(n.children, r.children, key, otherTag, otherValue);
    var j := FirstWhere(n.children, KeyedBy(otherTag, key, otherValue)).value;
    assert Keyed(n.children[j], otherTag, key, otherValue);
    assert !Keyed(n.children[j], tag, key, value);
  }

  lemma PrefixKeepsKeys(s: seq<Node>, t: seq<Node>, key: string)
    requires s <= t
    ensures KeysKept(s, t, key)
  {
  }


  /** The names the post-processor writes: the tags, the attribute names and the
      values it looks for. */
  datatype Names = Names(
    manifest: string, application: string,
    usesPermission: string, usesFeature: string, metaData: string,
    nameAttribute: string, valueAttribute: string, requiredAttribute: string,
    camera: string, networkState: string, internet: string, skipPermissionsDialog: string,
    cameraAny: string, cameraFeature: string, autofocus: string)

  /** The names as the Android manifest spells them. */
  const AndroidNames := Names(
    "manifest", "application",
    "uses-permission", "uses-feature", "meta-data",
    "name", "value", "required",
    "android.permission.CAMERA", "android.permission.ACCESS_NETWORK_STATE", "android.permission.INTERNET",
    "unityplayer.SkipPermissionsDialog",
    "android.hardware.camera.any", "android.hardware.camera", "android.hardware.camera.autofocus")

  /** What keeps the seven edits from disturbing one another: the key attribute is not
      one of the second attributes, features are not the application node, and the
      three features differ. */
  predicate Distinct(k: Names) {
    && k.nameAttribute != k.valueAttribute
    && k.nameAttribute != k.requiredAttribute
    && k.usesFeature != k.application
    && k.cameraAny != k.cameraFeature
    && k.cameraAny != k.autofocus
    && k.cameraFeature != k.autofocus
  }

  lemma AndroidNamesDistinct()
    ensures Distinct(AndroidNames)
  {
    assert AndroidNames.nameAttribute[0] != AndroidNames.valueAttribute[0];
    assert AndroidNames.nameAttribute[0] != AndroidNames.requiredAttribute[0];
    assert AndroidNames.usesFeature[0] != AndroidNames.application[0];
    assert |AndroidNames.cameraAny| != |AndroidNames.cameraFeature|;
    assert |AndroidNames.cameraAny| != |AndroidNames.autofocus|;
    assert |AndroidNames.cameraFeature| != |AndroidNames.autofocus|;
  }

  /** The three permissions, each added to the manifest unless already there. */
  function AddPermissions(m: Node, k: Names): (r: Node)
    ensures r.name == m.name && r.isElement == m.isElement && r.attributes == m.attributes
    ensures m.children <= r.children
    ensures Present(r.children, k.usesPermission, k.nameAttribute, k.camera)
    ensures Present(r.children, k.usesPermission, k.nameAttribute, k.networkState)
    ensures Present(r.children, k.usesPermission, k.nameAttribute, k.internet)
  {
    var m1 := FindOrCreateTagWithAttribute(m, k.usesPermission, k.nameAttribute, k.camera);
    var m2 := FindOrCreateTagWithAttribute(m1, k.usesPermission, k.nameAttribute, k.networkState);
    var m3 := FindOrCreateTagWithAttribute(m2, k.usesPermission, k.nameAttribute, k.internet);
    PrefixKeepsKeys(m1.children, m3.children, k.nameAttribute);
    KeysKeptKeepsFirst(m1.children, m3.children, k.nameAttribute, k.usesPermission, k.camera);
    PrefixKeepsKeys(m2.children, m3.children, k.nameAttribute);
    KeysKeptKeepsFirst(m2.children, m3.children, k.nameAttribute, k.usesPermission, k.networkState);
    m3
  }

  /** The meta-data entry telling the Unity player to skip its permission dialog, set
      inside the application node. */
  function AddMetaData(m: Node, application: nat, k: Names): (r: Node)
    requires application < |m.children|
    requires k.nameAttribute != k.valueAttribute
    ensures r.name == m.name && r.isElement == m.isElement && r.attributes == m.attributes
    ensures KeysKept(m.children, r.children, k.nameAttribute) && |r.children| == |m.children|
    ensures r.children[application].name == m.children[application].name
    ensures Settled(r.children[application].children, k.metaData, k.nameAttribute, k.skipPermissionsDialog,
                    k.valueAttribute, "true")
  {
    var app := m.children[application];
    FindOrCreateTagWithAttributesSettles(app, k.metaData, k.nameAttribute, k.skipPermissionsDialog, k.valueAttribute, "true");
    ReplaceChild(m, application,
      FindOrCreateTagWithAttributes(app, k.metaData, k.nameAttribute, k.skipPermissionsDialog, k.valueAttribute, "true"))
  }

  /** The three camera features with their `required` flags. */
  function AddFeatures(m: Node, k: Names): Node {
    var m1 := FindOrCreateTagWithAttributes(m, k.usesFeature, k.nameAttribute, k.cameraAny, k.requiredAttribute, "true");
    var m2 := FindOrCreateTagWithAttributes(m1, k.usesFeature, k.nameAttribute, k.cameraFeature, k.requiredAttribute, "false");
    FindOrCreateTagWithAttributes(m2, k.usesFeature, k.nameAttribute, k.autofocus, k.requiredAttribute, "false")
  }

  /** The manifest node after all seven edits, given the position of its application
      node. */
  function PatchManifest(m: Node, application: nat, k: Names): Node
    requires application < |m.children|
    requires Distinct(k)
  {
    AddFeatures(AddMetaData(AddPermissions(m, k), application, k), k)
  }

  /** Everything the post-processor puts into a manifest is there. */
  predicate ManifestReady(m: Node, application: nat, k: Names) {
    && application < |m.children|
    && Present(m.children, k.usesPermission, k.nameAttribute, k.camera)
    && Present(m.children, k.usesPermission, k.nameAttribute, k.networkState)
    && Present(m.children, k.usesPermission, k.nameAttribute, k.internet)
    && Settled(m.children[application].children, k.metaData, k.nameAttribute, k.skipPermissionsDialog, k.valueAttribute, "true")
    && Settled(m.children, k.usesFeature, k.nameAttribute, k.cameraAny, k.requiredAttribute, "true")
    && Settled(m.children, k.usesFeature, k.nameAttribute, k.cameraFeature, k.requiredAttribute, "false")
    && Settled(m.children, k.usesFeature, k.nameAttribute, k.autofocus, k.requiredAttribute, "false")
  }

  /** The document's first manifest child has a first application child, and the
      manifest is ready. */
  predicate Ready(doc: Node, k: Names) {
    var mi := FindFirstChild(doc.children, k.manifest);
    && mi.Some?
    && var m := doc.children[mi.value];
    && var ai := FindFirstChild(m.children, k.application);
    && ai.Some?
    && ManifestReady(m, ai.value, k)
  }

  /** The node with one child replaced and every other child kept. */
  function ReplaceChild(n: Node, i: nat, c: Node): (r: Node)
    requires i < |n.children|
    ensures r.name == n.name && r.isElement == n.isElement && r.attributes == n.attributes
    ensures |r.children| == |n.children| && r.children[i] == c
    ensures forall j :: 0 <= j < |n.children| && j != i ==> r.children[j] == n.children[j]
  {
    n.(children := n.children[i := c])
  }

  /** The post-processing with the names as a parameter: nothing is written when there
      is no manifest node or it has no application node; otherwise only the first
      manifest node changes. */
  function PostProcess(doc: Node, k: Names): (r: Option<Node>)
    requires Distinct(k)
    ensures r.None? <==>
      FindFirstChild(doc.children, k.manifest).None? ||
      FindFirstChild(doc.children[FindFirstChild(doc.children, k.manifest).value].children, k.application).None?
    ensures r.Some? ==> r.value.name == doc.name && |r.value.children| == |doc.children|
    ensures r.Some? ==> var mi := FindFirstChild(doc.children, k.manifest).value;
      forall j :: 0 <= j < |doc.children| && j != mi ==> r.value.children[j] == doc.children[j]
  {
    match FindFirstChild(doc.children, k.manifest) {
      case None => None
      case Some(mi) =>
        var m := doc.children[mi];
        match FindFirstChild(m.children, k.application) {
          case None => None
          case Some(a) => Some(ReplaceChild(doc, mi, PatchManifest(m, a, k)))
        }
    }
  }

  /** `OnPostGenerateGradleAndroidProject`, on the loaded document; `None` means the
      manifest is not saved. */
  function OnPostGenerateGradleAndroidProject(doc: Node): (r: Option<Node>)
    ensures r.None? <==>
      FindFirstChild(doc.children, "manifest").None? ||
      FindFirstChild(doc.children[FindFirstChild(doc.children, "manifest").value].children, "application").None?
  {
    AndroidNamesDistinct();
    PostProcess(doc, AndroidNames)
  }

  /** One feature edit keeps the keys, the permissions and the application node of a
      manifest that has them. */
  lemma FeatureKeeps(m: Node, n: Node, application: nat, k: Names, feature: string, required: string)
    requires Distinct(k)
    requires KeysKept(m.children, n.children, k.nameAttribute) && application < |n.children|
    requires n.children[application].name == k.application
    requires Present(n.children, k.usesPermission, k.nameAttribute, k.camera)
    requires Present(n.children, k.usesPermission, k.nameAttribute, k.networkState)
    requires Present(n.children, k.usesPermission, k.nameAttribute, k.internet)
    ensures var r := FindOrCreateTagWithAttributes(n, k.usesFeature, k.nameAttribute, feature, k.requiredAttribute, required);
      && KeysKept(m.children, r.children, k.nameAttribute)
      && r.children[application] == n.children[application]
      && Present(r.children, k.usesPermission, k.nameAttribute, k.camera)
      && Present(r.children, k.usesPermission, k.nameAttribute, k.networkState)
      && Present(r.children, k.usesPermission, k.nameAttribute, k.internet)
  {
    var r := FindOrCreateTagWithAttributes(n, k.usesFeature, k.nameAttribute, feature, k.requiredAttribute, required);
    SettingKeepsKeys(n, k.usesFeature, k.nameAttribute, feature, k.requiredAttribute, required);
    KeysKeptKeepsFirst(n.children, r.children, k.nameAttribute, k.usesPermission, k.camera);
    KeysKeptKeepsFirst(n.children, r.children, k.nameAttribute, k.usesPermission, k.networkState);
    KeysKeptKeepsFirst(n.children, r.children, k.nameAttribute, k.usesPermission, k.internet);
  }

  /** The seven edits leave a ready manifest whose application node is where it was. */
  lemma PatchManifestReady(m: Node, application: nat, k: Names)
    requires Distinct(k)
    requires application < |m.children| && m.children[application].name == k.application
    ensures var r := PatchManifest(m, application, k);
      r.name == m.name && KeysKept(m.children, r.children, k.nameAttribute) && ManifestReady(r, application, k)
  {
    var m1 := AddPermissions(m, k);
    PrefixKeepsKeys(m.children, m1.children, k.nameAttribute);
    var m2 := AddMetaData(m1, application, k);
    KeysKeptKeepsFirst(m1.children, m2.children, k.nameAttribute, k.usesPermission, k.camera);
    KeysKeptKeepsFirst(m1.children, m2.children, k.nameAttribute, k.usesPermission, k.networkState);
    KeysKeptKeepsFirst(m1.children, m2.children, k.nameAttribute, k.usesPermission, k.internet);
    var m3 := FindOrCreateTagWithAttributes(m2, k.usesFeature, k.nameAttribute, k.cameraAny, k.requiredAttribute, "true");
    FeatureKeeps(m, m2, application, k, k.cameraAny, "true");
    FindOrCreateTagWithAttributesSettles(m2, k.usesFeature, k.nameAttribute, k.cameraAny, k.requiredAttribute, "true");
    var m4 := FindOrCreateTagWithAttributes(m3, k.usesFeature, k.nameAttribute, k.cameraFeature, k.requiredAttribute, "false");
    FeatureKeeps(m, m3, application, k, k.cameraFeature, "false");
    FindOrCreateTagWithAttributesSettles(m3, k.usesFeature, k.nameAttribute, k.cameraFeature, k.requiredAttribute, "false");
    SettlingKeepsOtherSettled(m3, k.usesFeature, k.nameAttribute, k.cameraFeature, k.requiredAttribute, "false",
                              k.usesFeature, k.cameraAny, "true");
    var m5 := FindOrCreateTagWithAttributes(m4, k.usesFeature, k.nameAttribute, k.autofocus, k.requiredAttribute, "false");
    FeatureKeeps(m, m4, application, k, k.autofocus, "false");
    FindOrCreateTagWithAttributesSettles(m4, k.usesFeature, k.nameAttribute, k.autofocus, k.requiredAttribute, "false");
    SettlingKeepsOtherSettled(m4, k.usesFeature, k.nameAttribute, k.autofocus, k.requiredAttribute, "false",
                              k.usesFeature, k.cameraAny, "true");
    SettlingKeepsOtherSettled(m4, k.usesFeature, k.nameAttribute, k.autofocus, k.requiredAttribute, "false",
                              k.usesFeature, k.cameraFeature, "false");
  }

  /** Replacing the first manifest node by a ready one, with its application node in
      the same place, leaves a ready document. */
  lemma ReplacedManifestReady(doc: Node, mi: nat, m': Node, application: nat, k: Names)
    requires FindFirstChild(doc.children, k.manifest) == Some(mi)
    requires m'.name == k.manifest
    requires FindFirstChild(m'.children, k.application) == Some(application)
    requires ManifestReady(m', application, k)
    ensures Ready(ReplaceChild(doc, mi, m'), k)
  {
    ReplacingKeepsFirstChild(doc, mi, m', k.manifest);
  }

  /** Replacing a child by one with the same name keeps the first child of every name. */
  lemma ReplacingKeepsFirstChild(n: Node, i: nat, c: Node, tag: string)
    requires i < |n.children| && c.name == n.children[i].name
    ensures FindFirstChild(ReplaceChild(n, i, c).children, tag) == FindFirstChild(n.children, tag)
  {
    FirstWhereAgrees(n.children, ReplaceChild(n, i, c).children, Named(tag));
  }

  /** A document the post-processing patched is ready. */
  lemma PostProcessReady(doc: Node, k: Names)
    requires Distinct(k)
    ensures var r := PostProcess(doc, k);
      r.Some? ==> Ready(r.value, k)
  {
    if PostProcess(doc, k).Some? {
      var mi := FindFirstChild(doc.children, k.manifest).value;
      var m := doc.children[mi];
      var a := FindFirstChild(m.children, k.application).value;
      PatchManifestReady(m, a, k);
      KeysKeptKeepsFirst(m.children, PatchManifest(m, a, k).children, k.nameAttribute, k.application, "");
      ReplacedManifestReady(doc, mi, PatchManifest(m, a, k), a, k);
    }
  }

  /** A ready manifest node is left as it is by all seven edits. */
  lemma ReadyManifestUnchanged(m: Node, application: nat, k: Names)
    requires Distinct(k)
    requires ManifestReady(m, application, k)
    ensures PatchManifest(m, application, k) == m
  {
    assert AddPermissions(m, k) == m;
    MetaDataUnchanged(m, application, k);
    FeaturesUnchanged(m, k);
  }

  lemma MetaDataUnchanged(m: Node, application: nat, k: Names)
    requires application < |m.children| && k.nameAttribute != k.valueAttribute
    requires Settled(m.children[application].children, k.metaData, k.nameAttribute, k.skipPermissionsDialog, k.valueAttribute, "true")
    ensures AddMetaData(m, application, k) == m
  {
    SettledIsFixed(m.children[application], k.metaData, k.nameAttribute, k.skipPermissionsDialog, k.valueAttribute, "true");
    assert m.children[application := m.children[application]] == m.children;
  }

  lemma FeaturesUnchanged(m: Node, k: Names)
    requires Settled(m.children, k.usesFeature, k.nameAttribute, k.cameraAny, k.requiredAttribute, "true")
    requires Settled(m.children, k.usesFeature, k.nameAttribute, k.cameraFeature, k.requiredAttribute, "false")
    requires Settled(m.children, k.usesFeature, k.nameAttribute, k.autofocus, k.requiredAttribute, "false")
    ensures AddFeatures(m, k) == m
  {
    SettledIsFixed(m, k.usesFeature, k.nameAttribute, k.cameraAny, k.requiredAttribute, "true");
    SettledIsFixed(m, k.usesFeature, k.nameAttribute, k.cameraFeature, k.requiredAttribute, "false");
    SettledIsFixed(m, k.usesFeature, k.nameAttribute, k.autofocus, k.requiredAttribute, "false");
  }

  /** A ready document is written back unchanged. */
  lemma ReadyIsFixedPoint(doc: Node, k: Names)
    requires Distinct(k)
    requires Ready(doc, k)
    ensures PostProcess(doc, k) == Some(doc)
  {
    var mi := FindFirstChild(doc.children, k.manifest).value;
    var m := doc.children[mi];
    ReadyManifestUnchanged(m, FindFirstChild(m.children, k.application).value, k);
    ReplacingBySameChild(doc, mi);
  }

  lemma ReplacingBySameChild(n: Node, i: nat)
    requires i < |n.children|
    ensures ReplaceChild(n, i, n.children[i]) == n
  {
    assert n.children[i := n.children[i]] == n.children;
  }

  /** Post-processing the generated project twice writes the same manifest as doing it
      once, and the manifest written holds the three permissions, the three camera
      features and the meta-data entry. */
  lemma PostProcessIdempotent(doc: Node)
    ensures var r := OnPostGenerateGradleAndroidProject(doc);
      r.Some? ==> Ready(r.value, AndroidNames) && OnPostGenerateGradleAndroidProject(r.value) == r
  {
    AndroidNamesDistinct();
    PostProcessReady(doc, AndroidNames);
    var r := PostProcess(doc, AndroidNames);
    if r.Some? {
      ReadyIsFixedPoint(r.value, AndroidNames);
    }
  }
}

=== FILE: origin.dfy ===
/** The origin component (`ARXOrigin`, and `AROrigin` in its trackable and marker
    flavours, which differ only in names): a list of trackables eligible to act as the
    base of the camera's coordinate system, and the cached base. Trackables are
    identified by number; their tags, their visibility and the list the scene search
    returns are parameters. */
module Origin {
  import opened Wrappers
  import Lists

  datatype FindMode = AutoAll | AutoByTags | Manual

  datatype Origin = Origin(mode: FindMode, tags: seq<string>, base: Option<nat>, eligible: seq<nat>)

  /** `AddTrackable`: appended, or inserted at the front when `atHeadOfList` is set. */
  function AddTrackable(o: Origin, x: nat, atHeadOfList: bool): (r: Origin)
    ensures r.mode == o.mode && r.tags == o.tags && r.base == o.base
    ensures |r.eligible| == |o.eligible| + 1
    ensures atHeadOfList ==> r.eligible[0] == x && r.eligible[1..] == o.eligible
    ensures !atHeadOfList ==> r.eligible[|o.eligible|] == x && r.eligible[..|o.eligible|] == o.eligible
  {
    if atHeadOfList then o.(eligible := [x] + o.eligible) else o.(eligible := o.eligible + [x])
  }

  /** `RemoveTrackable`: the base is dropped if it is the one removed, and the answer
      says whether the list held it. */
  function RemoveTrackable(o: Origin, x: nat): (r: (Origin, bool))
    ensures r.1 <==> x in o.eligible
    ensures r.0.base == (if o.base == Some(x) then None else o.base)
    ensures r.0.eligible == Lists.RemoveFirst(o.eligible, x)
    ensures r.0.mode == o.mode && r.0.tags == o.tags
  {
    (o.(base := if o.base == Some(x) then None else o.base, eligible := Lists.RemoveFirst(o.eligible, x)),
     x in o.eligible)
  }

  /** `RemoveAllTrackables`. */
  function RemoveAllTrackables(o: Origin): (r: Origin)
    ensures r.base.None? && r.eligible == []
    ensures r.mode == o.mode && r.tags == o.tags
  {
    o.(base := None, eligible := [])
  }

  /** Whether the scene search keeps a trackable in this mode. */
  predicate Keeps(o: Origin, tag: string) {
    o.mode == AutoAll || (o.mode == AutoByTags && tag in o.tags)
  }

  function KeepFound(o: Origin, found: seq<nat>, tagOf: nat -> string): (r: seq<nat>)
    ensures forall x :: x in r <==> x in found && Keeps(o, tagOf(x))
    ensures |r| <= |found|
    decreases |found|
  {
    if |found| == 0 then []
    else (if Keeps(o, tagOf(found[0])) then [found[0]] else []) + KeepFound(o, found[1..], tagOf)
  }

  /** `FindTrackables`: everything is cleared; in Manual mode the list stays empty,
      otherwise it holds the found trackables the mode keeps, in the order found. */
  function FindTrackables(o: Origin, found: seq<nat>, tagOf: nat -> string): (r: Origin)
    ensures r.base.None? && r.mode == o.mode && r.tags == o.tags
    ensures o.mode == Manual ==> r.eligible == []
    ensures o.mode == AutoAll ==> r.eligible == found
    ensures o.mode == AutoByTags ==> forall x :: x in r.eligible <==> x in found && tagOf(x) in o.tags
  {
    var cleared := RemoveAllTrackables(o);
    if o.mode == Manual then cleared
    else
      if o.mode == AutoAll then KeepAllFound(o, found, tagOf); cleared.(eligible := KeepFound(o, found, tagOf))
      else cleared.(eligible := KeepFound(o, found, tagOf))
  }

  /** In AutoAll mode the search keeps everything it finds, in order. */
  lemma {:induction false} KeepAllFound(o: Origin, found: seq<nat>, tagOf: nat -> string)
    requires o.mode == AutoAll
    ensures KeepFound(o, found, tagOf) == found
    decreases |found|
  {
    if |found| > 0 {
      KeepAllFound(o, found[1..], tagOf);
      assert [found[0]] + found[1..] == found;
    }
  }

  /** The `findTrackableMode` setter: a new mode re-runs the search, the same mode does
      nothing. */
  function SetFindMode(o: Origin, m: FindMode, found: seq<nat>, tagOf: nat -> string): (r: Origin)
    ensures m == o.mode ==> r == o
    ensures m != o.mode ==> r == FindTrackables(o.(mode := m), found, tagOf)
  {
    if m == o.mode then o else FindTrackables(o.(mode := m), found, tagOf)
  }

  /** The position of the first visible entry, or the length when none is visible. */
  function FirstVisible(s: seq<nat>, visible: nat -> bool): (i: nat)
    ensures i <= |s|
    ensures i < |s| ==> visible(s[i])
    ensures forall j :: 0 <= j < i ==> !visible(s[j])
    decreases |s|
  {
    if |s| == 0 then 0 else if visible(s[0]) then 0 else 1 + FirstVisible(s[1..], visible)
  }

  /** `GetBaseTrackable`: a visible cached base stays; otherwise the first visible
      eligible trackable becomes the base, or there is none. The answer is the new
      cached base. */
  function GetBaseTrackable(o: Origin, visible: nat -> bool): (r: (Origin, Option<nat>))
    ensures r.0 == o.(base := r.1)
    ensures o.base.Some? && visible(o.base.value) ==> r.1 == o.base
    ensures !(o.base.Some? && visible(o.base.value)) ==>
      && (r.1.None? <==> forall x :: x in o.eligible ==> !visible(x))
      && (r.1.Some? ==>
            && visible(r.1.value)
            && exists i :: 0 <= i < |o.eligible| && o.eligible[i] == r.1.value
                           && forall j :: 0 <= j < i ==> !visible(o.eligible[j]))
  {
    if o.base.Some? && visible(o.base.value) then (o, o.base)
    else
      var i := FirstVisible(o.eligible, visible);
      if i < |o.eligible| then (o.(base := Some(o.eligible[i])), Some(o.eligible[i]))
      else (o.(base := None), None)
  }

  /** Asking again with nothing changed gives the same base. */
  lemma GetBaseStable(o: Origin, visible: nat -> bool)
    ensures var r := GetBaseTrackable(o, visible);
      GetBaseTrackable(r.0, visible) == r
  {
  }

  /** A visible trackable added at the head becomes the base unless a visible base is
      already cached. */
  lemma AddAtHeadBecomesBase(o: Origin, x: nat, visible: nat -> bool)
    requires visible(x)
    requires !(o.base.Some? && visible(o.base.value))
    ensures GetBaseTrackable(AddTrackable(o, x, true), visible).1 == Some(x)
  {
    assert FirstVisible([x] + o.eligible, visible) == 0;
  }

  /** Removing the base and asking again never gives the removed trackable back when it
      was listed once. */
  lemma RemovedBaseNotChosen(o: Origin, x: nat, visible: nat -> bool)
    requires multiset(o.eligible)[x] <= 1
    ensures GetBaseTrackable(RemoveTrackable(o, x).0, visible).1 != Some(x)
  {
    var r := RemoveTrackable(o, x).0;
    Lists.RemoveFirstMultiset(o.eligible, x);
    assert multiset(r.eligible)[x] == 0;
    assert x !in r.eligible;
    ChosenIsBaseOrListed(r, visible);
  }

  /** The base chosen is the current base or one of the listed trackables. */
  lemma ChosenIsBaseOrListed(o: Origin, visible: nat -> bool)
    ensures var b := GetBaseTrackable(o, visible).1;
      b.Some? ==> b == o.base || b.value in o.eligible
  {
  }
}

=== FILE: packager.dfy ===
/** The batch-mode packager's settings logic (`ARToolKitPackager.CreatePackage`): the
    command-line scan, the Android bundle version code, the development/release build
    flags and the choice of keystore. The command line, the application version and
    the Android playback-engine directory are parameters; exporting the package and
    writing the editor settings are left to the caller. */
module Packager {
  import opened Wrappers
  import Text

  /** The settings a two-part option writes. */
  datatype Field =
    | Version | PackageName | JdkPath | SdkPath | NdkPath | GradlePath
    | KeystorePath | KeystorePassword | KeystoreAlias | KeystoreAliasPassword

  /** The two-part options, by lower-case name. */
  function TwoPart(name: string): Option<Field> {
    match name
    case "-arunityxversion" => Some(Version)
    case "-arunityxpackagename" => Some(PackageName)
    case "-androidjdkpath" => Some(JdkPath)
    case "-androidsdkpath" => Some(SdkPath)
    case "-androidndkpath" => Some(NdkPath)
    case "-androidgradlepath" => Some(GradlePath)
    case "-androidkeystorepath" => Some(KeystorePath)
    case "-androidkeystorepassword" => Some(KeystorePassword)
    case "-androidkeystorealias" => Some(KeystoreAlias)
    case "-androidkeystorealiaspassword" => Some(KeystoreAliasPassword)
    case _ => None
  }

  /** Where the tools ship with the Unity editor, and whether it runs on Windows (which
      changes the bundled JDK's directory). */
  datatype Host = Host(playbackEngine: string, windows: bool)

  /** The settings a one-part `...default` option writes, and the path it writes. */
  function OnePartDefault(name: string, h: Host): Option<(Field, string)> {
    match name
    case "-androidjdkpathdefault" =>
      Some((JdkPath, h.playbackEngine + (if h.windows then "/Tools/OpenJDK/Windows" else "/Tools/OpenJDK")))
    case "-androidsdkpathdefault" => Some((SdkPath, h.playbackEngine + "/SDK"))
    case "-androidndkpathdefault" => Some((NdkPath, h.playbackEngine + "/NDK"))
    case "-androidgradlepathdefault" => Some((GradlePath, h.playbackEngine + "/Tools/gradle"))
    case _ => None
  }

  const ReleaseOption := "-arunityxrelease"

  /** What the scan has gathered: the string settings (a tool path not given is
      absent, i.e. null) and whether a release build was asked for. */
  datatype Scan = Scan(values: map<Field, string>, release: bool)

  /** Before the scan: the application's version, the default package name, empty
      keystore settings and no tool paths. */
  function Initial(appVersion: string): Scan {
    Scan(map[Version := appVersion, PackageName := "arunityX.unitypackage",
             KeystorePath := "", KeystorePassword := "", KeystoreAlias := "", KeystoreAliasPassword := ""],
         false)
  }

  /** One argument of the scan, with the argument after it if there is one: a
      two-part option takes that argument as its value; then the argument is checked
      against the one-part options. Option names are compared in lower case. */
  function Step(s: Scan, arg: string, next: Option<string>, h: Host): (r: Scan)
    ensures r.release <==> s.release || Text.ToLower(arg) == ReleaseOption
    ensures next.Some? && TwoPart(Text.ToLower(arg)).Some? ==>
      r.values == s.values[TwoPart(Text.ToLower(arg)).value := next.value]
    ensures TwoPart(Text.ToLower(arg)).None? && OnePartDefault(Text.ToLower(arg), h).None? ==> r.values == s.values
    ensures next.None? && OnePartDefault(Text.ToLower(arg), h).None? ==> r.values == s.values
  {
    var name := Text.ToLower(arg);
    var s1 := match TwoPart(name)
      case Some(f) => if next.Some? then s.(values := s.values[f := next.value]) else s
      case None => s;
    var s2 := if name == ReleaseOption then s1.(release := true) else s1;
    match OnePartDefault(name, h)
    case Some((f, path)) => s2.(values := s2.values[f := path])
    case None => s2
  }

  /** The scan over the first `n` arguments; each sees the argument after it, if the
      command line has one. */
  function ScanUpTo(args: seq<string>, n: nat, appVersion: string, h: Host): Scan
    requires n <= |args|
    decreases n
  {
    if n == 0 then Initial(appVersion)
    else Step(ScanUpTo(args, n - 1, appVersion, h), args[n - 1], if n < |args| then Some(args[n]) else None, h)
  }

  function ScanArgs(args: seq<string>, appVersion: string, h: Host): Scan {
    ScanUpTo(args, |args|, appVersion, h)
  }

  /** A release build is asked for exactly when some argument is the release option,
      in any case. */
  lemma {:induction false} ReleaseIffFlagGiven(args: seq<string>, n: nat, appVersion: string, h: Host)
    requires n <= |args|
    ensures ScanUpTo(args, n, appVersion, h).release <==> exists i :: 0 <= i < n && Text.ToLower(args[i]) == ReleaseOption
    decreases n
  {
    if n > 0 {
      var prev := ScanUpTo(args, n - 1, appVersion, h);
      ReleaseIffFlagGiven(args, n - 1, appVersion, h);
      assert ScanUpTo(args, n, appVersion, h).release <==> prev.release || Text.ToLower(args[n - 1]) == ReleaseOption;
      if ScanUpTo(args, n, appVersion, h).release {
        if !prev.release {
          assert 0 <= n - 1 < n && Text.ToLower(args[n - 1]) == ReleaseOption;
        } else {
          var i :| 0 <= i < n - 1 && Text.ToLower(args[i]) == ReleaseOption;
          assert 0 <= i < n;
        }
      } else {
        forall i | 0 <= i < n ensures Text.ToLower(args[i]) != ReleaseOption {
          if i < n - 1 { } else { }
        }
      }
    }
  }

  /** A two-part option followed by a value that is not itself a one-part option sets
      its setting to that value whatever came before it: the last such pair wins. */
  lemma LastPairWins(pre: seq<string>, opt: string, v: string, appVersion: string, h: Host)
    requires TwoPart(Text.ToLower(opt)).Some?
    requires OnePartDefault(Text.ToLower(v), h).None?
    ensures Get(ScanArgs(pre + [opt, v], appVersion, h), TwoPart(Text.ToLower(opt)).value) == v
  {
    var args := pre + [opt, v];
    var f := TwoPart(Text.ToLower(opt)).value;
    assert args[|pre|] == opt && args[|pre| + 1] == v;
    var s0 := ScanUpTo(args, |pre|, appVersion, h);
    var s1 := ScanUpTo(args, |pre| + 1, appVersion, h);
    assert s1 == Step(s0, opt, Some(v), h);
    assert s1.values == s0.values[f := v];
    assert ScanArgs(args, appVersion, h) == Step(s1, v, None, h);
  }

  /** A two-part option in last place has no value and changes no setting. */
  lemma TrailingOptionIgnored(pre: seq<string>, opt: string, appVersion: string, h: Host)
    requires TwoPart(Text.ToLower(opt)).Some?
    ensures ScanArgs(pre + [opt], appVersion, h).values == ScanUpTo(pre + [opt], |pre|, appVersion, h).values
  {
    var args := pre + [opt];
    assert args[|pre|] == opt;
    assert TwoPart(Text.ToLower(opt)) != None;
    assert OnePartDefault(Text.ToLower(opt), h).None? by {
      var name := Text.ToLower(opt);
      assert TwoPart(name).Some?;
    }
  }

  /** The value after a two-part option is scanned as an argument too, so a value
      that is itself a one-part option takes effect as one. */
  lemma ValueScannedAsOption(h: Host)
    ensures Get(ScanArgs(["-androidJdkPath", "-androidJdkPathDefault"], "1.0", h), JdkPath)
      == h.playbackEngine + (if h.windows then "/Tools/OpenJDK/Windows" else "/Tools/OpenJDK")
  {
    assert Text.ToLower("-androidJdkPath") == "-androidjdkpath";
    assert Text.ToLower("-androidJdkPathDefault") == "-androidjdkpathdefault";
  }

  /** `Math.Min(99, x)`. */
  function Cap(x: int): (r: int)
    ensures r <= 99 && (r == x || r == 99)
    ensures x <= 99 ==> r == x
  {
    if x < 99 then x else 99
  }

  /** The bundle version code of a version's major, minor and tiny numbers (the build
      number is always 0): two decimal digits each, capped at 99. */
  function VersionCode(major: int, minor: int, tiny: int): (code: int)
  {
    Cap(major) * 1000000 + Cap(minor) * 10000 + Cap(tiny) * 100 + Cap(0)
  }

  lemma QuotientRemainder(q: int, r: int, d: int)
    requires d > 0 && 0 <= r < d
    ensures (q * d + r) / d == q && (q * d + r) % d == r
  {
    var x := q * d + r;
    var k := x / d - q;
    assert d * k == r - x % d;
  }

  /** For numbers from 0 to 99 the code decodes back into them. */
  lemma VersionCodeDecodes(major: int, minor: int, tiny: int)
    requires 0 <= major <= 99 && 0 <= minor <= 99 && 0 <= tiny <= 99
    ensures var code := VersionCode(major, minor, tiny);
      && code / 1000000 == major && (code / 10000) % 100 == minor && (code / 100) % 100 == tiny
      && code % 100 == 0 && 0 <= code <= 99999900
  {
    var code := VersionCode(major, minor, tiny);
    assert code == major * 1000000 + minor * 10000 + tiny * 100;
    QuotientRemainder(major, minor * 10000 + tiny * 100, 1000000);
    QuotientRemainder(major * 100 + minor, tiny * 100, 10000);
    assert code == (major * 100 + minor) * 10000 + tiny * 100;
    QuotientRemainder(major, minor, 100);
    assert major * 100 + minor == major * 100 + minor;
    QuotientRemainder(major * 10000 + minor * 100 + tiny, 0, 100);
    assert code == (major * 10000 + minor * 100 + tiny) * 100 + 0;
    QuotientRemainder(major * 100 + minor, tiny, 100);
    assert major * 10000 + minor * 100 + tiny == (major * 100 + minor) * 100 + tiny;
  }

  /** For numbers from 0 to 99 a later version (in the order of major, then minor,
      then tiny) has a larger code. */
  lemma VersionCodeOrdered(a: (int, int, int), b: (int, int, int))
    requires 0 <= a.0 <= 99 && 0 <= a.1 <= 99 && 0 <= a.2 <= 99
    requires 0 <= b.0 <= 99 && 0 <= b.1 <= 99 && 0 <= b.2 <= 99
    requires a.0 < b.0 || (a.0 == b.0 && (a.1 < b.1 || (a.1 == b.1 && a.2 < b.2)))
    ensures VersionCode(a.0, a.1, a.2) < VersionCode(b.0, b.1, b.2)
  {
  }

  /** Numbers above 99 are capped, so such versions share a code with the .99 one. */
  lemma CappedVersionsCollide()
    ensures VersionCode(1, 100, 0) == VersionCode(1, 99, 0)
  {
  }

  /** The version string's code: split at dots, the first three pieces parsed (missing
      minor and tiny numbers count as 0); none when a piece read does not parse, which
      the source reports by throwing. */
  function VersionCodeOf(version: string): (r: Option<int>)
    ensures var parts := Text.Split(version, '.');
      && (r.Some? <==> Text.ParseInt(parts[0]).Some?
                        && (|parts| > 1 ==> Text.ParseInt(parts[1]).Some?)
                        && (|parts| > 2 ==> Text.ParseInt(parts[2]).Some?))
      && (r.Some? ==> r.value == VersionCode(Text.ParseInt(parts[0]).value,
                                            if |parts| > 1 then Text.ParseInt(parts[1]).value else 0,
                                            if |parts| > 2 then Text.ParseInt(parts[2]).value else 0))
  {
    var parts := Text.Split(version, '.');
    var major := Text.ParseInt(parts[0]);
    var minor := if |parts| > 1 then Text.ParseInt(parts[1]) else Some(0);
    var tiny := if |parts| > 2 then Text.ParseInt(parts[2]) else Some(0);
    if major.None? || minor.None? || tiny.None? then None
    else Some(VersionCode(major.value, minor.value, tiny.value))
  }

  /** A version without dots is its major number alone. */
  lemma MajorOnlyVersion(version: string)
    requires '.' !in version && Text.ParseInt(version).Some?
    ensures VersionCodeOf(version) == Some(VersionCode(Text.ParseInt(version).value, 0, 0))
  {
    Text.SplitWithoutSeparator(version, '.');
  }

  /** The editor settings the packager writes. */
  datatype BuildSettings = BuildSettings(
    bundleVersionCode: Option<int>,
    allowDebugging: bool,
    development: bool,
    connectProfiler: bool,
    useCustomKeystore: bool,
    keystore: Option<(string, string, string, string)>)

  /** The value of a setting, "" when absent. */
  function Get(s: Scan, f: Field): string {
    if f in s.values then s.values[f] else ""
  }

  /** `CreatePackage`'s settings: the version code, development settings unless
      releasing, no profiler, and the custom keystore exactly when its four settings
      are all non-empty. */
  function Settings(s: Scan): (r: BuildSettings)
    ensures r.bundleVersionCode == VersionCodeOf(Get(s, Version))
    ensures r.allowDebugging == !s.release && r.development == !s.release && !r.connectProfiler
    ensures r.useCustomKeystore <==>
      Get(s, KeystorePath) != "" && Get(s, KeystorePassword) != "" && Get(s, KeystoreAlias) != "" && Get(s, KeystoreAliasPassword) != ""
    ensures r.useCustomKeystore <==> r.keystore.Some?
    ensures r.keystore.Some? ==>
      r.keystore.value == (Get(s, KeystorePath), Get(s, KeystorePassword), Get(s, KeystoreAlias), Get(s, KeystoreAliasPassword))
  {
    var ks := (Get(s, KeystorePath), Get(s, KeystorePassword), Get(s, KeystoreAlias), Get(s, KeystoreAliasPassword));
    var custom := |ks.0| > 0 && |ks.1| > 0 && |ks.2| > 0 && |ks.3| > 0;
    BuildSettings(VersionCodeOf(Get(s, Version)), !s.release, !s.release, false, custom, if custom then Some(ks) else None)
  }

  /** With no keystore options on the command line the default keystore is used. */
  lemma {:induction false} NoKeystoreOptionsNoCustomKeystore(args: seq<string>, n: nat, appVersion: string, h: Host)
    requires n <= |args|
    requires forall i :: 0 <= i < |args| ==> Text.ToLower(args[i]) != "-androidkeystorepath"
    ensures Get(ScanUpTo(args, n, appVersion, h), KeystorePath) == ""
    decreases n
  {
    if n > 0 {
      NoKeystoreOptionsNoCustomKeystore(args, n - 1, appVersion, h);
      StepKeepsKeystorePath(ScanUpTo(args, n - 1, appVersion, h), args[n - 1],
                            if n < |args| then Some(args[n]) else None, h);
    }
  }

  /** An argument other than the keystore path option leaves the keystore path as it
      was. */
  lemma StepKeepsKeystorePath(s: Scan, arg: string, next: Option<string>, h: Host)
    requires Text.ToLower(arg) != "-androidkeystorepath"
    ensures Get(Step(s, arg, next, h), KeystorePath) == Get(s, KeystorePath)
  {
    var name := Text.ToLower(arg);
    assert TwoPart(name) != Some(KeystorePath);
    assert OnePartDefault(name, h).None? || OnePartDefault(name, h).value.0 != KeystorePath;
  }

  lemma NoKeystoreOptionsUseDefault(args: seq<string>, appVersion: string, h: Host)
    requires forall i :: 0 <= i < |args| ==> Text.ToLower(args[i]) != "-androidkeystorepath"
    ensures !Settings(ScanArgs(args, appVersion, h)).useCustomKeystore
  {
    NoKeystoreOptionsNoCustomKeystore(args, |args|, appVersion, h);
  }
}

=== FILE: scripting_defines.dfy ===
/** The editor's scripting-define helpers (`ARToolKitEditorUtilities`): the defines of
    the selected build target group are one `;`-separated string, read as a list,
    changed and written back. The settings store is a parameter: the string read in,
    and the string written out, if any. */
module ScriptingDefines {
  import opened Wrappers
  import Text
  import Lists

  datatype AddOrRemove = Add | Remove

  /** The list the defines string splits into. */
  function Defines(definesString: string): seq<string> {
    Text.Split(definesString, ';')
  }

  /** `HasScriptingDefine`. */
  predicate HasScriptingDefine(definesString: string, define: string) {
    define in Defines(definesString)
  }

  /** `ChangeScriptingDefine`: the string written back, or none when the list did not
      change. Adding appends a define that is absent; removing takes out the first
      occurrence of one that is present. */
  function ChangeScriptingDefine(definesString: string, define: string, op: AddOrRemove): (r: Option<string>)
    ensures op == Add ==> (r.Some? <==> !HasScriptingDefine(definesString, define))
    ensures op == Remove ==> (r.Some? <==> HasScriptingDefine(definesString, define))
    ensures r.Some? && op == Add ==> r.value == Text.Join(Defines(definesString) + [define], ';')
    ensures r.Some? && op == Remove ==> r.value == Text.Join(Lists.RemoveFirst(Defines(definesString), define), ';')
  {
    var all := Defines(definesString);
    if op == Add && define !in all then Some(Text.Join(all + [define], ';'))
    else if op == Remove && define in all then Some(Text.Join(Lists.RemoveFirst(all, define), ';'))
    else None
  }

  /** The defines string after the change, written or not. */
  function Applied(definesString: string, define: string, op: AddOrRemove): string {
    var r := ChangeScriptingDefine(definesString, define, op);
    if r.Some? then r.value else definesString
  }

  lemma DefinesSeparatorFree(s: string)
    ensures forall i :: 0 <= i < |Defines(s)| ==> ';' !in Defines(s)[i]
  {
  }

  /** Adding a define (without a separator in it) makes it present and keeps every
      define already there, in order; adding it again writes nothing. */
  lemma AddIsIdempotent(ds: string, d: string)
    requires ';' !in d
    ensures HasScriptingDefine(Applied(ds, d, Add), d)
    ensures !HasScriptingDefine(ds, d) ==> Defines(Applied(ds, d, Add)) == Defines(ds) + [d]
    ensures ChangeScriptingDefine(Applied(ds, d, Add), d, Add).None?
  {
    if !HasScriptingDefine(ds, d) {
      var parts := Defines(ds) + [d];
      DefinesSeparatorFree(ds);
      assert forall i :: 0 <= i < |parts| ==> ';' !in parts[i] by {
        forall i | 0 <= i < |parts| ensures ';' !in parts[i] {
          if i < |Defines(ds)| { assert parts[i] == Defines(ds)[i]; }
        }
      }
      Text.SplitJoin(parts, ';');
      assert d == parts[|parts| - 1];
    }
  }

  /** Taking an entry out of a separator-free list leaves a separator-free list. */
  lemma RemovedSeparatorFree(all: seq<string>, d: string)
    requires forall i :: 0 <= i < |all| ==> ';' !in all[i]
    ensures var parts := Lists.RemoveFirst(all, d);
      forall k :: 0 <= k < |parts| ==> ';' !in parts[k]
  {
    var parts := Lists.RemoveFirst(all, d);
    var i := Lists.IndexOf(all, d);
    forall k | 0 <= k < |parts| ensures ';' !in parts[k] {
      if k < i { assert parts[k] == all[k]; } else { assert parts[k] == all[k + 1]; }
    }
  }

  /** Removing writes back the remaining defines, which read back as they were left;
      when none remain the string is empty. */
  lemma RemoveReadsBack(ds: string, d: string)
    requires HasScriptingDefine(ds, d)
    ensures var parts := Lists.RemoveFirst(Defines(ds), d);
      && (|parts| > 0 ==> Defines(Applied(ds, d, Remove)) == parts)
      && (|parts| == 0 ==> Applied(ds, d, Remove) == "")
  {
    var parts := Lists.RemoveFirst(Defines(ds), d);
    if |parts| > 0 {
      DefinesSeparatorFree(ds);
      RemovedSeparatorFree(Defines(ds), d);
      Text.SplitJoin(parts, ';');
    }
  }

  /** Removing takes out exactly one copy of a present define and nothing else, so a
      define listed twice is still present afterwards. */
  lemma RemoveTakesOneCopy(ds: string, d: string)
    requires d != ""
    requires HasScriptingDefine(ds, d)
    ensures multiset(Defines(Applied(ds, d, Remove)))[d] == multiset(Defines(ds))[d] - 1
    ensures HasScriptingDefine(Applied(ds, d, Remove), d) <==> multiset(Defines(ds))[d] >= 2
  {
    var parts := Lists.RemoveFirst(Defines(ds), d);
    Lists.RemoveFirstMultiset(Defines(ds), d);
    RemoveReadsBack(ds, d);
    if |parts| == 0 {
      assert Defines("") == [""];
      assert multiset(Defines(""))[d] == 0;
    }
  }

  /** Removing a define that is absent, or adding one that is present, writes
      nothing. */
  lemma NoChangeNoWrite(ds: string, d: string)
    ensures HasScriptingDefine(ds, d) ==> ChangeScriptingDefine(ds, d, Add).None?
    ensures !HasScriptingDefine(ds, d) ==> ChangeScriptingDefine(ds, d, Remove).None?
  {
  }

  /** Adding to an empty defines string keeps the empty first entry the split gives,
      so the string written starts with a separator. */
  lemma AddToEmptyKeepsLeadingSeparator()
    ensures ChangeScriptingDefine("", "AR_DEBUG", Add) == Some(";AR_DEBUG")
  {
    assert Defines("") == [""];
    assert !HasScriptingDefine("", "AR_DEBUG");
    assert Text.Join(["", "AR_DEBUG"], ';') == ";AR_DEBUG" by {
      assert Text.Join(["AR_DEBUG"], ';') == "AR_DEBUG";
      assert ["", "AR_DEBUG"][1..] == ["AR_DEBUG"];
    }
    assert Text.Join(["", "AR_DEBUG"], ';') == "" + [';'] + Text.Join(["AR_DEBUG"], ';');
  }
}

=== FILE: text.dfy ===
/** String helpers shared by the configuration builder, the editor scripts and the
    packager: C#'s `int.ToString()`, `int.Parse`, `string.Split(char)`,
    `string.Join(char, ...)` and ASCII `ToLower`. */
module Text {
  import opened Wrappers

  const Int32Min: int := -0x8000_0000
  const Int32Max: int := 0x7FFF_FFFF

  /** C#'s unchecked `int` arithmetic: `x` brought into the 32-bit range modulo 2^32,
      so one past the largest value is the smallest. */
  function WrapInt32(x: int): (r: int)
    ensures Int32Min <= r <= Int32Max
    ensures (x - r) % 0x1_0000_0000 == 0
    ensures Int32Min <= x <= Int32Max ==> r == x
  {
    (x - Int32Min) % 0x1_0000_0000 + Int32Min
  }

  predicate IsDigit(c: char) {
    '0' <= c <= '9'
  }

  predicate AllDigits(s: string) {
    forall i :: 0 <= i < |s| ==> IsDigit(s[i])
  }

  function DigitChar(d: nat): (c: char)
    requires d < 10
    ensures IsDigit(c)
    ensures (c as int) - ('0' as int) == d
  {
    (('0' as int) + d) as char
  }

  /** Decimal rendering of a non-negative number, most significant digit first. */
  function NatToString(n: nat): (s: string)
    ensures 1 <= |s|
    ensures AllDigits(s)
    ensures 1 < |s| ==> s[0] != '0'
    decreases n
  {
    if n < 10 then [DigitChar(n)] else NatToString(n / 10) + [DigitChar(n % 10)]
  }

  /** `int.ToString()` in the invariant culture: a leading `-` for negatives. */
  function IntToString(i: int): (s: string)
    ensures 1 <= |s|
    ensures i < 0 <==> s[0] == '-'
    ensures i >= 0 ==> AllDigits(s)
  {
    if i < 0 then "-" + NatToString(-i) else NatToString(i)
  }

  /** The value of a string of decimal digits (0 for the empty string). */
  function DigitsValue(s: string): (v: nat)
    requires AllDigits(s)
    decreases |s|
  {
    if |s| == 0 then 0
    else 10 * DigitsValue(s[..|s| - 1]) + ((s[|s| - 1] as int) - ('0' as int))
  }

  /** `int.Parse` on an optionally signed run of decimal digits; `None` stands for the
      FormatException (no digits, a stray character) and the OverflowException
      (outside the 32-bit range). */
  function ParseInt(s: string): (r: Option<int>)
    ensures r.Some? ==> Int32Min <= r.value <= Int32Max
    ensures |s| == 0 ==> r.None?
  {
    if |s| == 0 then None
    else
      var negative := s[0] == '-';
      var digits := if s[0] == '-' || s[0] == '+' then s[1..] else s;
      if |digits| == 0 || !AllDigits(digits) then None
      else
        var v: int := if negative then -(DigitsValue(digits) as int) else DigitsValue(digits);
        if Int32Min <= v <= Int32Max then Some(v) else None
  }

  lemma {:induction false} DigitsValueOfNatToString(n: nat)
    ensures DigitsValue(NatToString(n)) == n
    decreases n
  {
    if n >= 10 {
      var s := NatToString(n);
      assert s[..|s| - 1] == NatToString(n / 10);
      DigitsValueOfNatToString(n / 10);
    }
  }

  /** Parsing undoes rendering for every 32-bit value. */
  lemma ParseIntOfIntToString(i: int)
    requires Int32Min <= i <= Int32Max
    ensures ParseInt(IntToString(i)) == Some(i)
  {
    var s := IntToString(i);
    if i < 0 {
      var d := NatToString(-i);
      DigitsValueOfNatToString(-i);
      assert s == "-" + d;
      assert s[0] == '-' && s[1..] == d;
      assert ParseInt(s) == Some(-(DigitsValue(d) as int));
    } else {
      DigitsValueOfNatToString(i);
      assert s[0] != '-' && s[0] != '+';
      assert ParseInt(s) == Some(DigitsValue(s));
    }
  }

  /** `s.Split(sep)`: the maximal separator-free pieces, empty pieces included. */
  function Split(s: string, sep: char): (parts: seq<string>)
    ensures 1 <= |parts|
    ensures forall i :: 0 <= i < |parts| ==> sep !in parts[i]
    decreases |s|
  {
    if |s| == 0 then [""]
    else
      var rest := Split(s[1..], sep);
      if s[0] == sep then [""] + rest
      else [[s[0]] + rest[0]] + rest[1..]
  }

  /** `string.Join(sep, parts)`. */
  function Join(parts: seq<string>, sep: char): (s: string)
    decreases |parts|
  {
    if |parts| == 0 then ""
    else if |parts| == 1 then parts[0]
    else parts[0] + [sep] + Join(parts[1..], sep)
  }

  /** Joining the pieces of a split gives back the original string. */
  lemma {:induction false} JoinSplit(s: string, sep: char)
    ensures Join(Split(s, sep), sep) == s
    decreases |s|
  {
    if |s| > 0 {
      var rest := Split(s[1..], sep);
      JoinSplit(s[1..], sep);
      if s[0] == sep {
        assert Split(s, sep) == [""] + rest;
        assert ([""] + rest)[1..] == rest;
      } else {
        var parts := Split(s, sep);
        assert parts == [[s[0]] + rest[0]] + rest[1..];
        if |rest| == 1 {
          assert Join(rest, sep) == rest[0];
        } else {
          assert parts[1..] == rest[1..];
          assert Join(rest, sep) == rest[0] + [sep] + Join(rest[1..], sep);
        }
      }
    }
  }

  lemma {:induction false} SplitWithoutSeparator(p: string, sep: char)
    requires sep !in p
    ensures Split(p, sep) == [p]
    decreases |p|
  {
    if |p| > 0 {
      SplitWithoutSeparator(p[1..], sep);
      assert [p[0]] + p[1..] == p;
    }
  }

  lemma {:induction false} SplitAfterPiece(p: string, sep: char, t: string)
    requires sep !in p
    ensures Split(p + [sep] + t, sep) == [p] + Split(t, sep)
    decreases |p|
  {
    var s := p + [sep] + t;
    if |p| == 0 {
      assert s[1..] == t;
    } else {
      assert s[1..] == p[1..] + [sep] + t;
      SplitAfterPiece(p[1..], sep, t);
      assert [p[0]] + p[1..] == p;
    }
  }

  /** Splitting a join of separator-free pieces gives back the pieces. */
  lemma {:induction false} SplitJoin(parts: seq<string>, sep: char)
    requires 1 <= |parts|
    requires forall i :: 0 <= i < |parts| ==> sep !in parts[i]
    ensures Split(Join(parts, sep), sep) == parts
    decreases |parts|
  {
    if |parts| == 1 {
      SplitWithoutSeparator(parts[0], sep);
    } else {
      SplitJoin(parts[1..], sep);
      SplitAfterPiece(parts[0], sep, Join(parts[1..], sep));
      assert [parts[0]] + parts[1..] == parts;
    }
  }

  function ToLowerChar(c: char): (l: char)
    ensures !('A' <= l <= 'Z')
    ensures !('A' <= c <= 'Z') ==> l == c
  {
    if 'A' <= c <= 'Z' then ((c as int) + 32) as char else c
  }

  /** `ToLower()` restricted to ASCII letters, the only ones the option names use. */
  function ToLower(s: string): (l: string)
    ensures |l| == |s|
    ensures forall i :: 0 <= i < |s| ==> l[i] == ToLowerChar(s[i])
  {
    seq(|s|, i requires 0 <= i < |s| => ToLowerChar(s[i]))
  }

  function ToUpperChar(c: char): (u: char)
    ensures !('a' <= u <= 'z')
    ensures !('a' <= c <= 'z') ==> u == c
  {
    if 'a' <= c <= 'z' then ((c as int) - 32) as char else c
  }

  /** `ToUpper()` restricted to ASCII letters. */
  function ToUpper(s: string): (u: string)
    ensures |u| == |s|
    ensures forall i :: 0 <= i < |s| ==> u[i] == ToUpperChar(s[i])
  {
    seq(|s|, i requires 0 <= i < |s| => ToUpperChar(s[i]))
  }

  /** `string.StartsWith` with ordinal comparison. */
  predicate StartsWith(s: string, prefix: string) {
    |prefix| <= |s| && s[..|prefix|] == prefix
  }
}

=== FILE: trackable_core.dfy ===
/** What the three trackable components (`ARXTrackable` in both package layouts and the
    older `ARTrackable`) share: the `NO_ID` sentinel, the trackable-type and option codes
    of the native interface, the five per-trackable options and the native calls a
    trackable makes. Configuration strings are kept as structured values: the float
    formatting C# applies when it writes them is not modelled. */
module TrackableCore {
  import opened Wrappers
  import Lists

  /** Value of `UID` while no native trackable is assigned. */
  const NoId: int := -1

  /** `TrackableType`; a value cast from a native integer that names no member of the
      enum is `Undeclared`. */
  datatype TrackableType = Unknown | Square | SquareBarcode | Multimarker | NFT | TwoD | Undeclared(code: int)

  function TypeCode(k: TrackableType): (code: int)
  {
    match k
    case Unknown => -1
    case Square => 0
    case SquareBarcode => 1
    case Multimarker => 2
    case NFT => 3
    case TwoD => 4
    case Undeclared(c) => c
  }

  /** The C# cast `(TrackableType)code`. */
  function TypeFromCode(code: int): (k: TrackableType)
    ensures -1 <= code <= 4 <==> !k.Undeclared?
    ensures TypeCode(k) == code
  {
    if code == -1 then Unknown
    else if code == 0 then Square
    else if code == 1 then SquareBarcode
    else if code == 2 then Multimarker
    else if code == 3 then NFT
    else if code == 4 then TwoD
    else Undeclared(code)
  }

  /** Every declared type survives the trip through its native code. */
  lemma TypeCodeRoundTrip(k: TrackableType)
    requires !k.Undeclared? || !(-1 <= k.code <= 4)
    ensures TypeFromCode(TypeCode(k)) == k
  {
  }

  /** `ARWTrackableOption` codes used by the option setters and the auto-create path. */
  const OptionType: int := 0
  const OptionFiltered: int := 1
  const OptionFilterSampleRate: int := 2
  const OptionFilterCutoffFreq: int := 3
  const OptionSquareUseContPoseEstimation: int := 4
  const OptionNftScale: int := 7
  const OptionSquareWidth: int := 12
  const OptionSquareBarcodeId: int := 14

  /** The serialised option fields (`currentFiltered` and friends). */
  datatype Options = Options(
    useContPoseEstimation: bool,
    filtered: bool,
    filterSampleRate: real,
    filterCutoffFreq: real,
    nftScale: real)

  /** The initialisers of the serialised option fields. */
  function DefaultOptions(): (o: Options)
    ensures !o.useContPoseEstimation && !o.filtered
    ensures o.filterSampleRate == 30.0 && o.filterCutoffFreq == 15.0 && o.nftScale == 1.0
  {
    Options(false, false, 30.0, 15.0, 1.0)
  }

  /** An assignment through one of the five option properties. */
  datatype Setting =
    | Filtered(on: bool)
    | FilterSampleRate(rate: real)
    | FilterCutoffFreq(freq: real)
    | UseContPoseEstimation(cont: bool)
    | NftScale(scale: real)

  /** What a property setter stores, whether or not it forwards. */
  function Store(o: Options, s: Setting): (p: Options)
  {
    match s
    case Filtered(b) => o.(filtered := b)
    case FilterSampleRate(x) => o.(filterSampleRate := x)
    case FilterCutoffFreq(x) => o.(filterCutoffFreq := x)
    case UseContPoseEstimation(b) => o.(useContPoseEstimation := b)
    case NftScale(x) => o.(nftScale := x)
  }

  /** The property getter for the option `s` assigns, as a setting of the same kind. */
  function Stored(o: Options, s: Setting): (r: Setting)
  {
    match s
    case Filtered(_) => Filtered(o.filtered)
    case FilterSampleRate(_) => FilterSampleRate(o.filterSampleRate)
    case FilterCutoffFreq(_) => FilterCutoffFreq(o.filterCutoffFreq)
    case UseContPoseEstimation(_) => UseContPoseEstimation(o.useContPoseEstimation)
    case NftScale(_) => NftScale(o.nftScale)
  }

  predicate SameOption(s: Setting, s2: Setting) {
    (s.Filtered? && s2.Filtered?) || (s.FilterSampleRate? && s2.FilterSampleRate?)
    || (s.FilterCutoffFreq? && s2.FilterCutoffFreq?)
    || (s.UseContPoseEstimation? && s2.UseContPoseEstimation?) || (s.NftScale? && s2.NftScale?)
  }

  /** A getter returns what its setter stored, and a setter leaves the other options alone. */
  lemma StoreThenGet(o: Options, s: Setting, other: Setting)
    ensures Stored(Store(o, s), s) == s
    ensures !SameOption(s, other) ==> Stored(Store(o, s), other) == Stored(o, other)
  {
  }

  /** Storing what the getter returns changes nothing. */
  lemma StoreStoredUnchanged(o: Options, s: Setting)
    ensures Store(o, Stored(o, s)) == o
  {
  }

  /** The type gate of the setters: continuous pose estimation only for square and
      barcode markers, the NFT scale only for NFT markers, the filter options always. */
  predicate AppliesTo(s: Setting, k: TrackableType) {
    match s
    case UseContPoseEstimation(_) => k == Square || k == SquareBarcode
    case NftScale(_) => k == NFT
    case _ => true
  }

  /** Where a data file is read from: `Application.streamingAssetsPath` or, once
      unpacked, `Application.temporaryCachePath`. */
  datatype Folder = StreamingAssets | TemporaryCache
  datatype FilePath = FilePath(folder: Folder, name: string)

  /** The configuration string handed to `arwAddTrackable`, one constructor per prefix
      (`single_buffer;`, `single_barcode;`, `multi;`, `nft;`, `2d;`). Widths are the
      numbers written into the string. */
  datatype Config =
    | SingleBuffer(width: real, contents: string)
    | SingleBarcode(barcodeId: int, width: real)
    | Multi(file: FilePath)
    | Nft(dataset: FilePath)
    | TwoDImage(image: FilePath, width: real)

  /** The native calls a trackable makes on its own behalf. */
  datatype Call =
    | AddTrackable(config: Config)
    | RemoveTrackable(uid: int)
    | SetOptionBool(uid: int, option: int, value: bool)
    | SetOptionFloat(uid: int, option: int, amount: real)

  /** The native call a setter makes when it forwards. */
  function NativeSet(uid: int, s: Setting): (c: Call)
    ensures c.SetOptionBool? <==> s.Filtered? || s.UseContPoseEstimation?
    ensures c.SetOptionBool? || c.SetOptionFloat?
    ensures c.uid == uid
  {
    match s
    case Filtered(b) => SetOptionBool(uid, OptionFiltered, b)
    case FilterSampleRate(x) => SetOptionFloat(uid, OptionFilterSampleRate, x)
    case FilterCutoffFreq(x) => SetOptionFloat(uid, OptionFilterCutoffFreq, x)
    case UseContPoseEstimation(b) => SetOptionBool(uid, OptionSquareUseContPoseEstimation, b)
    case NftScale(x) => SetOptionFloat(uid, OptionNftScale, x)
  }

  /** Distinct options travel under distinct codes, so the native side can tell them apart. */
  lemma NativeSetDistinguishes(uid: int, s: Setting, s2: Setting)
    requires !SameOption(s, s2)
    ensures NativeSet(uid, s).option != NativeSet(uid, s2).option
  {
  }

  /** The native calls that a run of setters on a loaded trackable of type `k` makes:
      one per setting that passes the type gate, in order. */
  function ForwardedCalls(uid: int, k: TrackableType, ss: seq<Setting>): (cs: seq<Call>)
    ensures |cs| <= |ss|
    ensures forall i :: 0 <= i < |cs| ==> (cs[i].SetOptionBool? || cs[i].SetOptionFloat?) && cs[i].uid == uid
    ensures (forall i :: 0 <= i < |ss| ==> AppliesTo(ss[i], k)) ==>
      |cs| == |ss| && forall i :: 0 <= i < |ss| ==> cs[i] == NativeSet(uid, ss[i])
    ensures (forall i :: 0 <= i < |ss| ==> !AppliesTo(ss[i], k)) ==> cs == []
    decreases |ss|
  {
    if |ss| == 0 then []
    else (if AppliesTo(ss[0], k) then [NativeSet(uid, ss[0])] else []) + ForwardedCalls(uid, k, ss[1..])
  }

  /** The native side's answers to one load: the UID from `arwAddTrackable` and the
      count from `arwGetTrackablePatternCount`. */
  datatype Answers = Answers(uid: int, patternCount: int)

  /** What a load re-applies after the add: continuous pose estimation and the
      NFT scale (each behind its type gate), then the three filter options. */
  function ReappliedSettings(o: Options): (ss: seq<Setting>)
    ensures |ss| == 5
    ensures forall i :: 0 <= i < 5 ==> Store(o, ss[i]) == o
  {
    [UseContPoseEstimation(o.useContPoseEstimation), NftScale(o.nftScale),
     Filtered(o.filtered), FilterSampleRate(o.filterSampleRate), FilterCutoffFreq(o.filterCutoffFreq)]
  }

  /** The pattern array after a successful add: replaced when the count is positive,
      left as it was otherwise. */
  function PatternsAfterAdd(previous: Option<nat>, count: int): (p: Option<nat>)
    ensures count > 0 ==> p == Some(count)
    ensures count <= 0 ==> p == previous
  {
    if count > 0 then Some(count as nat) else previous
  }

  /** Whether `streamingAssetsPath` contains `://` (an archive that must be unpacked)
      and the base names that `unpackStreamingAssetToCacheDir` manages to place in the
      temporary cache. */
  datatype Unpacker = Unpacker(archived: bool, unpackable: set<string>)

  /** The component fields a configuration string is built from. */
  datatype MarkerData = MarkerData(
    kind: TrackableType,
    twoDImageFile: string,
    twoDImageWidth: real,
    patternContents: string,
    barcodeId: int,
    patternWidth: real,
    multiConfigFile: string,
    nftDataName: string)

  const NftDataExts: seq<string> := ["iset", "fset", "fset3"]

  /** `unpackStreamingAssetToCacheDir`: whether the file system places `basename` in
      the cache. The `ARXTrackable` variant also refuses an empty name; every use below
      is followed by a test that the name is non-empty, so the difference never shows. */
  predicate Unpacks(u: Unpacker, basename: string) {
    basename != "" && basename in u.unpackable
  }

  /** The folder a data file is read from: the streaming assets directly, or the cache
      once every file has been unpacked into it; `None` is the empty directory that an
      unpacking failure leaves. */
  function DataFolder(u: Unpacker, files: seq<string>): (f: Option<Folder>)
    ensures !u.archived ==> f == Some(StreamingAssets)
    ensures u.archived ==> (f == Some(TemporaryCache) <==> forall i :: 0 <= i < |files| ==> Unpacks(u, files[i]))
    ensures u.archived ==> (f.None? <==> exists i :: 0 <= i < |files| && !Unpacks(u, files[i]))
  {
    if !u.archived then Some(StreamingAssets)
    else if forall i :: 0 <= i < |files| ==> Unpacks(u, files[i]) then Some(TemporaryCache)
    else None
  }

  lemma DataFolderOfOne(u: Unpacker, file: string)
    ensures DataFolder(u, [file]).Some? <==> !u.archived || Unpacks(u, file)
  {
    if u.archived && !Unpacks(u, file) {
      assert !Unpacks(u, [file][0]);
    }
  }

  function NftFiles(name: string): (files: seq<string>)
    ensures |files| == 3
    ensures forall i :: 0 <= i < 3 ==> files[i] == name + "." + NftDataExts[i]
  {
    [name + ".iset", name + ".fset", name + ".fset3"]
  }

  /** The configuration string, `None` for the empty string: square and barcode markers
      always have one; the file-based types need a name and a usable folder; an unknown
      type has none. Square and barcode widths are converted from metres to millimetres; 2D widths
      are multiplied by `twoDScale`, which differs between the variants. */
  function Configuration(t: MarkerData, u: Unpacker, twoDScale: real): (cfg: Option<Config>)
  {
    match t.kind
    case Square => Some(SingleBuffer(t.patternWidth * 1000.0, t.patternContents))
    case SquareBarcode => Some(SingleBarcode(t.barcodeId, t.patternWidth * 1000.0))
    case Multimarker =>
      var f := DataFolder(u, [t.multiConfigFile]);
      if f.Some? && t.multiConfigFile != "" then Some(Multi(FilePath(f.value, t.multiConfigFile))) else None
    case NFT =>
      var f := DataFolder(u, NftFiles(t.nftDataName));
      if f.Some? && t.nftDataName != "" then Some(Nft(FilePath(f.value, t.nftDataName))) else None
    case TwoD =>
      var f := DataFolder(u, [t.twoDImageFile]);
      if f.Some? && t.twoDImageFile != "" then Some(TwoDImage(FilePath(f.value, t.twoDImageFile), t.twoDImageWidth * twoDScale))
      else None
    case _ => None
  }

  /** When there is no configuration: the type names no data, or its file is unnamed,
      or it cannot be unpacked. */
  predicate NoConfiguration(t: MarkerData, u: Unpacker) {
    match t.kind
    case Square => false
    case SquareBarcode => false
    case Multimarker => t.multiConfigFile == "" || (u.archived && !Unpacks(u, t.multiConfigFile))
    case NFT =>
      t.nftDataName == ""
      || (u.archived && exists i :: 0 <= i < 3 && !Unpacks(u, t.nftDataName + "." + NftDataExts[i]))
    case TwoD => t.twoDImageFile == "" || (u.archived && !Unpacks(u, t.twoDImageFile))
    case _ => true
  }

  /** The configuration the older components (`ARTrackable`, `ARMarker`) write: the 2D
      width goes out in metres, as given, with no conversion to millimetres. */
  function MetresConfiguration(t: MarkerData, u: Unpacker): (cfg: Option<Config>)
    ensures cfg.None? <==> NoConfiguration(t, u)
    ensures t.kind == TwoD && cfg.Some? ==> cfg.value.TwoDImage? && cfg.value.width == t.twoDImageWidth
  {
    ConfigurationDecided(t, u, 1.0);
    Configuration(t, u, 1.0)
  }

  /** A configuration exists exactly when the data is there, and it names the type's own
      file in the cache when unpacking was needed and in the streaming assets otherwise. */
  lemma ConfigurationDecided(t: MarkerData, u: Unpacker, twoDScale: real)
    ensures Configuration(t, u, twoDScale).None? <==> NoConfiguration(t, u)
    ensures Configuration(t, u, twoDScale) == Some(Multi(FilePath(if u.archived then TemporaryCache else StreamingAssets, t.multiConfigFile)))
            <== t.kind == Multimarker && !NoConfiguration(t, u)
    ensures Configuration(t, u, twoDScale) == Some(Nft(FilePath(if u.archived then TemporaryCache else StreamingAssets, t.nftDataName)))
            <== t.kind == NFT && !NoConfiguration(t, u)
  {
    DataFolderOfOne(u, t.multiConfigFile);
    DataFolderOfOne(u, t.twoDImageFile);
    if t.kind == NFT && u.archived {
      var files := NftFiles(t.nftDataName);
      if exists i :: 0 <= i < 3 && !Unpacks(u, t.nftDataName + "." + NftDataExts[i]) {
        var i :| 0 <= i < 3 && !Unpacks(u, t.nftDataName + "." + NftDataExts[i]);
        assert !Unpacks(u, files[i]);
      }
    }
  }

  /** Every setting in the run that passes the type gate is forwarded. */
  lemma {:induction false} ForwardedCallsContain(uid: int, k: TrackableType, ss: seq<Setting>, s: Setting)
    requires s in ss && AppliesTo(s, k)
    ensures NativeSet(uid, s) in ForwardedCalls(uid, k, ss)
    decreases |ss|
  {
    if ss[0] != s {
      assert s in ss[1..];
      ForwardedCallsContain(uid, k, ss[1..], s);
    }
  }

  /** What `ARTrackable` and `ARMarker` re-apply after the add: continuous pose
      estimation, the three filter options, then the NFT scale. */
  function MarkerReappliedSettings(o: Options): (ss: seq<Setting>)
    ensures |ss| == 5
    ensures forall i :: 0 <= i < 5 ==> Store(o, ss[i]) == o
  {
    [UseContPoseEstimation(o.useContPoseEstimation), Filtered(o.filtered),
     FilterSampleRate(o.filterSampleRate), FilterCutoffFreq(o.filterCutoffFreq), NftScale(o.nftScale)]
  }

  /** The calls a load of `ARTrackable` or `ARMarker` forwards for a square or barcode
      marker: continuous pose estimation, then the three filter options. */
  lemma MarkerForwardedCallsSquare(uid: int, k: TrackableType, o: Options)
    requires k == Square || k == SquareBarcode
    ensures ForwardedCalls(uid, k, MarkerReappliedSettings(o))
      == [NativeSet(uid, UseContPoseEstimation(o.useContPoseEstimation)), NativeSet(uid, Filtered(o.filtered)),
          NativeSet(uid, FilterSampleRate(o.filterSampleRate)), NativeSet(uid, FilterCutoffFreq(o.filterCutoffFreq))]
  {
    MarkerForwardedFilters(uid, k, o);
    ForwardedCallsCons(uid, k, UseContPoseEstimation(o.useContPoseEstimation), MarkerReappliedSettings(o)[1..]);
  }

  /** For an NFT marker: the three filter options, then the NFT scale. */
  lemma MarkerForwardedCallsNft(uid: int, o: Options)
    ensures ForwardedCalls(uid, NFT, MarkerReappliedSettings(o))
      == [NativeSet(uid, Filtered(o.filtered)), NativeSet(uid, FilterSampleRate(o.filterSampleRate)),
          NativeSet(uid, FilterCutoffFreq(o.filterCutoffFreq)), NativeSet(uid, NftScale(o.nftScale))]
  {
    MarkerForwardedFilters(uid, NFT, o);
    ForwardedCallsCons(uid, NFT, UseContPoseEstimation(o.useContPoseEstimation), MarkerReappliedSettings(o)[1..]);
  }

  /** The tail after continuous pose estimation: the filters, then the NFT scale if the
      type admits it. */
  lemma MarkerForwardedFilters(uid: int, k: TrackableType, o: Options)
    ensures ForwardedCalls(uid, k, MarkerReappliedSettings(o)[1..])
      == [NativeSet(uid, Filtered(o.filtered)), NativeSet(uid, FilterSampleRate(o.filterSampleRate)),
          NativeSet(uid, FilterCutoffFreq(o.filterCutoffFreq))]
         + (if k == NFT then [NativeSet(uid, NftScale(o.nftScale))] else [])
  {
    var filters := [Filtered(o.filtered), FilterSampleRate(o.filterSampleRate), FilterCutoffFreq(o.filterCutoffFreq)];
    var nft: seq<Setting> := [NftScale(o.nftScale)];
    assert MarkerReappliedSettings(o)[1..] == filters + nft;
    ForwardedCallsAppend(uid, k, filters, nft);
    FiltersForwarded(uid, k, o);
    ForwardedCallsCons(uid, k, NftScale(o.nftScale), []);
  }

  /** The three filter settings are forwarded whatever the type. */
  lemma FiltersForwarded(uid: int, k: TrackableType, o: Options)
    ensures ForwardedCalls(uid, k, [Filtered(o.filtered), FilterSampleRate(o.filterSampleRate),
                                    FilterCutoffFreq(o.filterCutoffFreq)])
      == [NativeSet(uid, Filtered(o.filtered)), NativeSet(uid, FilterSampleRate(o.filterSampleRate)),
          NativeSet(uid, FilterCutoffFreq(o.filterCutoffFreq))]
  {
    var filters := [Filtered(o.filtered), FilterSampleRate(o.filterSampleRate), FilterCutoffFreq(o.filterCutoffFreq)];
    assert forall i :: 0 <= i < |filters| ==> AppliesTo(filters[i], k);
  }

  /** Forwarding a concatenation forwards each part in turn. */
  lemma {:induction false} ForwardedCallsAppend(uid: int, k: TrackableType, a: seq<Setting>, b: seq<Setting>)
    ensures ForwardedCalls(uid, k, a + b) == ForwardedCalls(uid, k, a) + ForwardedCalls(uid, k, b)
    decreases |a|
  {
    if |a| > 0 {
      var rest := a[1..];
      assert a == [a[0]] + rest;
      assert a + b == [a[0]] + (rest + b);
      ForwardedCallsCons(uid, k, a[0], rest);
      ForwardedCallsCons(uid, k, a[0], rest + b);
      ForwardedCallsAppend(uid, k, rest, b);
      Lists.HeadThenParts(ForwardedCalls(uid, k, a + b), if AppliesTo(a[0], k) then [NativeSet(uid, a[0])] else [],
                          ForwardedCalls(uid, k, rest + b), ForwardedCalls(uid, k, rest), ForwardedCalls(uid, k, b),
                          ForwardedCalls(uid, k, a));
    } else {
      assert a + b == b;
    }
  }

  lemma ForwardedCallsCons(uid: int, k: TrackableType, s: Setting, ss: seq<Setting>)
    ensures ForwardedCalls(uid, k, [s] + ss)
      == (if AppliesTo(s, k) then [NativeSet(uid, s)] else []) + ForwardedCalls(uid, k, ss)
  {
    assert ([s] + ss)[1..] == ss;
  }

  /** The pattern array after an `ARTrackable` or `ARMarker` add: NFT and 2D trackables
      ask for their size instead and keep the array they had. */
  function MarkerPatternsAfterAdd(k: TrackableType, previous: Option<nat>, count: int): (p: Option<nat>)
    ensures k == NFT || k == TwoD ==> p == previous
    ensures k != NFT && k != TwoD ==> p == PatternsAfterAdd(previous, count)
  {
    if k == NFT || k == TwoD then previous else PatternsAfterAdd(previous, count)
  }

  /** `Path.GetFileName`: what follows the last `/` or `\`. */
  function FileName(path: string): (name: string)
    ensures '/' !in name && '\\' !in name
    ensures |name| <= |path| && name == path[|path| - |name|..]
    ensures |name| < |path| ==> path[|path| - |name| - 1] in {'/', '\\'}
    decreases |path|
  {
    if |path| == 0 then ""
    else if path[|path| - 1] in {'/', '\\'} then ""
    else
      var front := path[..|path| - 1];
      var tail := FileName(front);
      FileNameGrows(path, front, tail, path[|path| - 1]);
      tail + [path[|path| - 1]]
  }

  /** A file name of the path without its last character, extended by that character
      when it is not a separator, is the file name of the whole path. */
  lemma FileNameGrows(path: string, front: string, tail: string, c: char)
    requires path == front + [c] && c != '/' && c != '\\'
    requires '/' !in tail && '\\' !in tail
    requires |tail| <= |front| && tail == front[|front| - |tail|..]
    requires |tail| < |front| ==> front[|front| - |tail| - 1] in {'/', '\\'}
    ensures '/' !in tail + [c] && '\\' !in tail + [c]
    ensures |tail + [c]| <= |path| && tail + [c] == path[|path| - |tail + [c]|..]
    ensures |tail + [c]| < |path| ==> path[|path| - |tail + [c]| - 1] in {'/', '\\'}
  {
    assert path[|path| - |tail + [c]|..] == front[|front| - |tail|..] + [c];
  }
}

=== FILE: tracked_camera.dfy ===
/** Tracked cameras: a camera that takes its pose from one tagged trackable
    (`ARXTrackedCamera`, and `ARTrackedCamera` of the 5.x package for markers). After
    the camera's tracking update, `ApplyTracking` renders the content (restoring the
    culling mask) while the trackable is visible or within the grace period, and hides
    it (culling mask 0) otherwise. Found and lost are meant to fire on the edges between
    the two. The component's own `Camera` culling mask and the saved one are plain
    integers. */
module TrackedCamera {
  import opened Wrappers
  import Camera
  import TrackedObject
  import Visibility

  /** The culling mask value meaning "not captured yet". */
  const MaskUnset := -1

  /** The component: its tag and cached trackable, the camera's tracking state, the
      state of the previous apply, the saved culling mask, the `Camera`'s current one,
      and the grace period. */
  datatype TCam = TCam(
    tag: string,
    trackable: Option<nat>,
    tracking: Camera.Tracking,
    last: bool,
    savedMask: int,
    mask: int,
    secondsToRemainVisible: real)

  /** `Start`: the `Camera`'s mask is captured only while the saved one is unset. */
  function Start(c: TCam): (r: TCam)
    ensures c.savedMask == MaskUnset ==> r == c.(savedMask := c.mask)
    ensures c.savedMask != MaskUnset ==> r == c
  {
    if c.savedMask == MaskUnset then c.(savedMask := c.mask) else c
  }

  /** A second `Start` captures nothing new, unless the mask captured was itself the
      unset value. */
  lemma StartOnce(c: TCam)
    requires c.mask != MaskUnset
    ensures Start(Start(c)) == Start(c)
  {
  }

  /** The `TrackableTag` (or `MarkerTag`) setter. */
  function SetTag(c: TCam, tag: string): (r: TCam)
    ensures r.tag == tag && r.trackable.None?
    ensures r == c.(tag := tag, trackable := None)
  {
    c.(tag := tag, trackable := None)
  }

  /** `GetTrackable` (or `GetMarker`): cached, or the first trackable with the tag. */
  function GetTrackable(c: TCam, ms: seq<TrackedObject.Tagged>): (r: TCam)
    ensures c.trackable.Some? ==> r == c
    ensures c.trackable.None? ==> r == c.(trackable := TrackedObject.FirstTagged(ms, c.tag))
  {
    c.(trackable := TrackedObject.Cached(c.trackable, TrackedObject.FirstTagged(ms, c.tag)))
  }

  /** Whether the content is rendered: the trackable is visible, or the last update
      falls within the grace period after the loss. */
  predicate Shown(c: TCam) {
    c.tracking.arVisible
    || c.tracking.timeLastUpdate - c.tracking.timeTrackingLost < c.secondsToRemainVisible
  }

  datatype Applied = Applied(c: TCam, events: seq<TrackedObject.Event>, moved: bool)

  /** `ARXTrackedCamera`'s flavour: Unity events and `OnTrackable…` broadcasts. */
  function ArxFlavour(receiver: bool): TrackedObject.Flavour {
    TrackedObject.Flavour(true, receiver, "OnTrackable", false, false)
  }

  /** `ARTrackedCamera`'s flavour: `OnMarker…` broadcasts only. */
  function MarkerFlavour(receiver: bool): TrackedObject.Flavour {
    TrackedObject.Flavour(false, receiver, "OnMarker", false, false)
  }

  /** `ApplyTracking` as written. The branch is chosen by `Shown`, but the found and lost
      side effects are gated on a change of `arVisible` against the previous call, and
      `last` then records `arVisible`. */
  function ApplyTracking(c: TCam, f: TrackedObject.Flavour): (r: Applied)
    ensures r.c.last == c.tracking.arVisible
    ensures r.moved <==> Shown(c)
    ensures var changed := c.tracking.arVisible != c.last;
      && (Shown(c) && changed ==>
            r.c.mask == c.savedMask
            && r.events == TrackedObject.Notify(f, TrackedObject.Found, "Found") + TrackedObject.Notify(f, TrackedObject.Tracked, "Tracked"))
      && (Shown(c) && !changed ==>
            r.c.mask == c.mask && r.events == TrackedObject.Notify(f, TrackedObject.Tracked, "Tracked"))
      && (!Shown(c) && changed ==>
            r.c.mask == 0 && r.events == TrackedObject.Notify(f, TrackedObject.Lost, "Lost"))
      && (!Shown(c) && !changed ==> r.c.mask == c.mask && r.events == [])
    ensures r.c == c.(last := r.c.last, mask := r.c.mask)
  {
    var changed := c.tracking.arVisible != c.last;
    var c1 := c.(last := c.tracking.arVisible);
    if Shown(c) then
      var found := if changed then TrackedObject.Notify(f, TrackedObject.Found, "Found") else [];
      Applied(if changed then c1.(mask := c.savedMask) else c1, found + TrackedObject.Notify(f, TrackedObject.Tracked, "Tracked"), true)
    else if changed then Applied(c1.(mask := 0), TrackedObject.Notify(f, TrackedObject.Lost, "Lost"), false)
    else Applied(c1, [], false)
  }

  /** `ApplyTracking` as evidently intended: the side effects are gated on a change of
      the rendered state itself, which `last` then records. */
  function ApplyTrackingOnShownEdge(c: TCam, f: TrackedObject.Flavour): (r: Applied)
    ensures r.c.last == Shown(c)
    ensures r.moved <==> Shown(c)
    ensures Shown(c) && !c.last ==>
      r.c.mask == c.savedMask
      && r.events == TrackedObject.Notify(f, TrackedObject.Found, "Found") + TrackedObject.Notify(f, TrackedObject.Tracked, "Tracked")
    ensures Shown(c) && c.last ==> r.c.mask == c.mask && r.events == TrackedObject.Notify(f, TrackedObject.Tracked, "Tracked")
    ensures !Shown(c) && c.last ==> r.c.mask == 0 && r.events == TrackedObject.Notify(f, TrackedObject.Lost, "Lost")
    ensures !Shown(c) && !c.last ==> r.c.mask == c.mask && r.events == []
    ensures r.c == c.(last := r.c.last, mask := r.c.mask)
  {
    var shown := Shown(c);
    var c1 := c.(last := shown);
    if shown then
      var found := if !c.last then TrackedObject.Notify(f, TrackedObject.Found, "Found") else [];
      Applied(if !c.last then c1.(mask := c.savedMask) else c1, found + TrackedObject.Notify(f, TrackedObject.Tracked, "Tracked"), true)
    else if c.last then Applied(c1.(mask := 0), TrackedObject.Notify(f, TrackedObject.Lost, "Lost"), false)
    else Applied(c1, [], false)
  }

  /** Without a grace period the two agree on the rendered side: `Shown` is then just
      `arVisible`. */
  lemma NoGraceAgrees(c: TCam, f: TrackedObject.Flavour)
    requires c.secondsToRemainVisible <= 0.0 && Camera.Ordered(c.tracking)
    ensures ApplyTracking(c, f) == ApplyTrackingOnShownEdge(c, f)
  {
  }

  /** One frame: the camera's tracking update for the tagged trackable, then the apply
      step chosen by `corrected`. */
  function Frame(c: TCam, now: real, seen: bool, f: TrackedObject.Flavour, corrected: bool): (r: Applied)
    ensures var u := c.(tracking := Camera.UpdateTracking(c.tracking, now, seen));
      r == (if corrected then ApplyTrackingOnShownEdge(u, f) else ApplyTracking(u, f))
  {
    var u := c.(tracking := Camera.UpdateTracking(c.tracking, now, seen));
    if corrected then ApplyTrackingOnShownEdge(u, f) else ApplyTracking(u, f)
  }

  /** `ARXTrackedCamera`'s update: as for `ARXCamera`, nothing happens outside play mode
      or while no origin is cached; otherwise the tagged trackable is looked up and one
      frame runs. */
  function ArxUpdate(c: TCam, originCached: bool, playing: bool, now: real,
                     ms: seq<TrackedObject.Tagged>, visibleOf: nat -> bool, f: TrackedObject.Flavour): (r: Applied)
    ensures !playing || !originCached ==> r == Applied(c, [], false)
    ensures playing && originCached ==>
      var g := GetTrackable(c, ms);
      r == Frame(g, now, g.trackable.Some? && visibleOf(g.trackable.value), f, false)
  {
    if !playing || !originCached then Applied(c, [], false)
    else
      var g := GetTrackable(c, ms);
      Frame(g, now, g.trackable.Some? && visibleOf(g.trackable.value), f, false)
  }

  /** A run of frames, given whether the trackable is seen and the time of each. */
  function Run(c: TCam, frames: seq<TrackedObject.Sighting>, f: TrackedObject.Flavour, corrected: bool): (r: Applied)
    ensures |frames| == 0 ==> r == Applied(c, [], false)
    decreases |frames|
  {
    if |frames| == 0 then Applied(c, [], false)
    else
      var a := Frame(c, frames[0].now, frames[0].shown, f, corrected);
      var rest := Run(a.c, frames[1..], f, corrected);
      Applied(rest.c, a.events + rest.events, rest.moved)
  }

  /** A camera that has not been shown yet, with one second of grace and a saved mask
      of 5. */
  function Fresh(): TCam {
    TCam("marker", Some(0), Camera.InitialTracking, false, 5, 5, 1.0)
  }

  /** The frames: seen at 0, lost at 0.5, still lost at 2. */
  function LossFrames(): seq<TrackedObject.Sighting> {
    [TrackedObject.Sighting(true, 0.0), TrackedObject.Sighting(false, 0.5), TrackedObject.Sighting(false, 2.0)]
  }

  /** As written: the frame that loses the trackable falls within the grace period, so
      the found branch fires again and `last` records "not visible"; when the grace
      period ends, `arVisible` equals `last`, so lost never fires and the culling mask
      stays restored with nothing tracked. */
  lemma GraceLossNeverReported()
    ensures var r := Run(Fresh(), LossFrames(), ArxFlavour(false), false);
      && r.events == [TrackedObject.Found, TrackedObject.Tracked, TrackedObject.Found, TrackedObject.Tracked]
      && TrackedObject.Lost !in r.events
      && r.c.mask == 5
      && !r.c.tracking.arVisible
  {
    var f := ArxFlavour(false);
    var a0 := Frame(Fresh(), 0.0, true, f, false);
    assert a0.events == [TrackedObject.Found, TrackedObject.Tracked];
    var a1 := Frame(a0.c, 0.5, false, f, false);
    assert a1.events == [TrackedObject.Found, TrackedObject.Tracked];
    var a2 := Frame(a1.c, 2.0, false, f, false);
    assert a2.events == [] && a2.c.mask == 5;
    assert LossFrames()[1..][1..] == [TrackedObject.Sighting(false, 2.0)];
    assert Run(a2.c, [], f, false) == Applied(a2.c, [], false);
  }

  /** As written, in general: once a loss has been absorbed by the grace period, no
      later hidden frame reports it or clears the culling mask. */
  lemma AbsorbedLossStaysUnreported(c: TCam, now: real, f: TrackedObject.Flavour)
    requires !c.tracking.arVisible && !c.last
    ensures var a := Frame(c, now, false, f, false);
      a.c.mask == c.mask && TrackedObject.Lost !in a.events && !a.c.last
  {
  }

  /** Corrected: the same frames report the loss once the grace period has run out, and
      the culling mask is cleared. */
  lemma GraceLossReported()
    ensures var r := Run(Fresh(), LossFrames(), ArxFlavour(false), true);
      && r.events == [TrackedObject.Found, TrackedObject.Tracked, TrackedObject.Tracked, TrackedObject.Lost]
      && r.c.mask == 0
  {
    var f := ArxFlavour(false);
    var a0 := Frame(Fresh(), 0.0, true, f, true);
    assert a0.events == [TrackedObject.Found, TrackedObject.Tracked];
    var a1 := Frame(a0.c, 0.5, false, f, true);
    assert a1.events == [TrackedObject.Tracked];
    var a2 := Frame(a1.c, 2.0, false, f, true);
    assert a2.events == [TrackedObject.Lost] && a2.c.mask == 0;
    assert LossFrames()[1..][1..] == [TrackedObject.Sighting(false, 2.0)];
    assert Run(a2.c, [], f, true) == Applied(a2.c, [], false);
  }

  /** A notification with Unity events on carries its event and otherwise at most a
      broadcast message; its only edge is the event itself, when that is one. */
  lemma NotifyEdges(f: TrackedObject.Flavour, e: TrackedObject.Event, suffix: string)
    requires f.unityEvents
    ensures var n := TrackedObject.Notify(f, e, suffix);
      && (TrackedObject.Found in n <==> e == TrackedObject.Found)
      && (TrackedObject.Lost in n <==> e == TrackedObject.Lost)
      && Visibility.Edges(n, TrackedObject.Found, TrackedObject.Lost)
           == if e == TrackedObject.Found || e == TrackedObject.Lost then [e] else []
  {
    var m: seq<TrackedObject.Event> := if f.receiver then [TrackedObject.Message(f.messagePrefix + suffix)] else [];
    assert TrackedObject.Notify(f, e, suffix) == [e] + m;
    Visibility.EdgesAppend([e], m, TrackedObject.Found, TrackedObject.Lost);
    Visibility.EdgesOfQuiet(m, TrackedObject.Found, TrackedObject.Lost);
    assert [e][1..] == [];
  }

  /** The corrected rule on its own: its found and lost edges lead from the recorded
      rendered state to the new one. */
  lemma ShownEdgeEdges(c: TCam, f: TrackedObject.Flavour)
    requires f.unityEvents
    ensures var a := ApplyTrackingOnShownEdge(c, f);
      && (TrackedObject.Found in a.events <==> !c.last && a.c.last)
      && (TrackedObject.Lost in a.events <==> c.last && !a.c.last)
      && Visibility.Alternating(Visibility.Edges(a.events, TrackedObject.Found, TrackedObject.Lost),
                                TrackedObject.Found, TrackedObject.Lost, c.last, a.c.last)
  {
    var found := TrackedObject.Notify(f, TrackedObject.Found, "Found");
    var tracked := TrackedObject.Notify(f, TrackedObject.Tracked, "Tracked");
    var lost := TrackedObject.Notify(f, TrackedObject.Lost, "Lost");
    if Shown(c) && !c.last {
      NotifyEdges(f, TrackedObject.Found, "Found");
      NotifyEdges(f, TrackedObject.Tracked, "Tracked");
      Visibility.EdgesAppend(found, tracked, TrackedObject.Found, TrackedObject.Lost);
    } else if Shown(c) {
      NotifyEdges(f, TrackedObject.Tracked, "Tracked");
    } else if c.last {
      NotifyEdges(f, TrackedObject.Lost, "Lost");
    }
  }

  /** Corrected, one frame: found fires exactly when the content starts being shown and
      lost exactly when it stops, and the edges lead from the old rendered state to the
      new one. */
  lemma FrameEdge(c: TCam, s: TrackedObject.Sighting, f: TrackedObject.Flavour)
    requires f.unityEvents
    ensures var a := Frame(c, s.now, s.shown, f, true);
      && (TrackedObject.Found in a.events <==> !c.last && a.c.last)
      && (TrackedObject.Lost in a.events <==> c.last && !a.c.last)
      && Visibility.Alternating(Visibility.Edges(a.events, TrackedObject.Found, TrackedObject.Lost),
                                TrackedObject.Found, TrackedObject.Lost, c.last, a.c.last)
  {
    ShownEdgeEdges(c.(tracking := Camera.UpdateTracking(c.tracking, s.now, s.shown)), f);
  }

  /** Corrected, over any run: found and lost alternate, starting with found exactly when
      the content was hidden, and the last of them agrees with the final rendered
      state. */
  lemma {:induction false} CorrectedFoundLostAlternate(c: TCam, frames: seq<TrackedObject.Sighting>, f: TrackedObject.Flavour)
    requires f.unityEvents
    ensures var r := Run(c, frames, f, true);
      Visibility.Alternating(Visibility.Edges(r.events, TrackedObject.Found, TrackedObject.Lost),
                             TrackedObject.Found, TrackedObject.Lost, c.last, r.c.last)
    decreases |frames|
  {
    if |frames| > 0 {
      var a := Frame(c, frames[0].now, frames[0].shown, f, true);
      var rest := Run(a.c, frames[1..], f, true);
      FrameEdge(c, frames[0], f);
      CorrectedFoundLostAlternate(a.c, frames[1..], f);
      Visibility.EdgesAppend(a.events, rest.events, TrackedObject.Found, TrackedObject.Lost);
      Visibility.AlternatingAppend(Visibility.Edges(a.events, TrackedObject.Found, TrackedObject.Lost),
                                   Visibility.Edges(rest.events, TrackedObject.Found, TrackedObject.Lost),
                                   TrackedObject.Found, TrackedObject.Lost, c.last, a.c.last, rest.c.last);
    } else {
      assert Run(c, frames, f, true).events == [];
    }
  }
}

=== FILE: tracked_object.dfy ===
/** Tracked objects: content that follows a trackable, with edge-triggered found,
    tracked and lost notifications and a grace period after tracking is lost. The three
    components (`ARXTrackedObject`, the older `ARTrackedObject`, and the marker-flavoured
    `ARTrackedObject` of the 5.x package) share the found/lost state machine and differ
    in how they find their trackable, which notifications they send and whether child
    activation can be switched off. Poses are not computed: a frame only says which
    reference the pose was taken from. */
module TrackedObject {
  import opened Wrappers
  import Origin

  /** `_visible`, `_visibleOrRemain` and `_timeTrackingLost`. */
  datatype Presence = Presence(visible: bool, visibleOrRemain: bool, timeTrackingLost: real)

  const Initial := Presence(false, false, 0.0)

  /** Where a shown object's pose comes from: the origin itself (the trackable is the
      base), the base trackable, or the camera when there is no origin. */
  datatype PoseFrom = AtOrigin | RelativeToBase | RelativeToCamera

  /** Notifications: the Unity events, a message broadcast to the event receiver, and
      activation of the children. */
  datatype Event = Found | Tracked | Lost | Message(name: string) | ChildrenActive(active: bool)

  /** What a component sends: whether it has Unity events, whether an event receiver is
      set, the prefix of its broadcast messages, and whether children follow found and
      lost. */
  datatype Flavour = Flavour(
    unityEvents: bool,
    receiver: bool,
    messagePrefix: string,
    activateOnFound: bool,
    deactivateOnLost: bool)

  datatype Step = Step(p: Presence, events: seq<Event>)

  function Notify(f: Flavour, e: Event, suffix: string): (r: seq<Event>)
    ensures |r| == (if f.unityEvents then 1 else 0) + (if f.receiver then 1 else 0)
  {
    (if f.unityEvents then [e] else []) + (if f.receiver then [Message(f.messagePrefix + suffix)] else [])
  }

  function FoundEvents(f: Flavour): seq<Event> {
    Notify(f, Found, "Found") + (if f.activateOnFound then [ChildrenActive(true)] else [])
  }

  function LostEvents(f: Flavour): seq<Event> {
    Notify(f, Lost, "Lost") + (if f.deactivateOnLost then [ChildrenActive(false)] else [])
  }

  /** A frame on which the trackable is shown: the found notifications only on a
      hidden-to-visible change, the tracked ones on every such frame. */
  function Show(p: Presence, f: Flavour): (r: Step)
    ensures r.p.visible && r.p.timeTrackingLost == p.timeTrackingLost
    ensures !p.visible ==> r.p.visibleOrRemain && r.events == FoundEvents(f) + Notify(f, Tracked, "Tracked")
    ensures p.visible ==> r.p == p && r.events == Notify(f, Tracked, "Tracked")
  {
    if !p.visible then Step(p.(visible := true, visibleOrRemain := true), FoundEvents(f) + Notify(f, Tracked, "Tracked"))
    else Step(p, Notify(f, Tracked, "Tracked"))
  }

  /** A frame on which the trackable is not shown: a visible-to-hidden change records
      the time, and once the grace period has run out the lost notifications are sent,
      once. */
  function Hide(p: Presence, now: real, secondsToRemainVisible: real, f: Flavour): (r: Step)
    ensures !r.p.visible
    ensures r.p.timeTrackingLost == (if p.visible then now else p.timeTrackingLost)
    ensures r.p.visibleOrRemain <==>
      p.visibleOrRemain && now - r.p.timeTrackingLost < secondsToRemainVisible
    ensures r.events == (if p.visibleOrRemain && !r.p.visibleOrRemain then LostEvents(f) else [])
  {
    var q := if p.visible then p.(visible := false, timeTrackingLost := now) else p;
    if q.visibleOrRemain && now - q.timeTrackingLost >= secondsToRemainVisible then
      Step(q.(visibleOrRemain := false), LostEvents(f))
    else Step(q, [])
  }

  /** A loss is reported once: a second hidden frame after the lost notifications sends
      nothing, whatever the time. */
  lemma LostOncePerLoss(p: Presence, now1: real, now2: real, secs: real, f: Flavour)
    requires Hide(p, now1, secs, f).events != []
    ensures Hide(Hide(p, now1, secs, f).p, now2, secs, f).events == []
  {
  }

  /** With no grace period, the first hidden frame after a visible one reports the loss. */
  lemma NoGraceLosesAtOnce(p: Presence, now: real, f: Flavour)
    requires p.visible && p.visibleOrRemain
    ensures Hide(p, now, 0.0, f).events == LostEvents(f) && !Hide(p, now, 0.0, f).p.visibleOrRemain
  {
  }

  /** A trackable that comes back within the grace period is reported found again,
      although no loss was reported in between. */
  lemma RefoundWithinGrace(p: Presence, lostAt: real, secs: real, f: Flavour)
    requires p.visible && p.visibleOrRemain && secs > 0.0
    ensures var h := Hide(p, lostAt, secs, f);
      && h.events == []
      && h.p.visibleOrRemain
      && Show(h.p, f).events == FoundEvents(f) + Notify(f, Tracked, "Tracked")
  {
  }

  /** One frame of a run: whether the trackable is shown, and the time. */
  datatype Sighting = Sighting(shown: bool, now: real)

  function StepOf(p: Presence, s: Sighting, secs: real, f: Flavour): Step {
    if s.shown then Show(p, f) else Hide(p, s.now, secs, f)
  }

  /** The frames in order, with their notifications concatenated. */
  function Run(p: Presence, frames: seq<Sighting>, secs: real, f: Flavour): (r: Step)
    ensures |frames| > 0 ==> r.events == StepOf(p, frames[0], secs, f).events + Run(StepOf(p, frames[0], secs, f).p, frames[1..], secs, f).events
    ensures |frames| > 0 ==> r.p == Run(StepOf(p, frames[0], secs, f).p, frames[1..], secs, f).p
    ensures |frames| == 0 ==> r == Step(p, [])
    decreases |frames|
  {
    if |frames| == 0 then Step(p, [])
    else
      var s := StepOf(p, frames[0], secs, f);
      var rest := Run(s.p, frames[1..], secs, f);
      Step(rest.p, s.events + rest.events)
  }

  function Pending(p: Presence): nat {
    if p.visibleOrRemain then 1 else 0
  }

  /** One frame keeps the balance: a find adds at most one pending loss, a loss report
      takes one away. */
  lemma StepBalance(p: Presence, s: Sighting, secs: real, f: Flavour)
    requires f.unityEvents
    ensures var r := StepOf(p, s, secs, f);
      multiset(r.events)[Lost] + Pending(r.p) <= multiset(r.events)[Found] + Pending(p)
  {
    NotifyCounts(f, Tracked, "Tracked");
    FoundLostCounts(f);
  }

  /** How many found and lost events each group of notifications holds. */
  lemma NotifyCounts(f: Flavour, e: Event, suffix: string)
    requires f.unityEvents
    ensures multiset(Notify(f, e, suffix))[Found] == (if e == Found then 1 else 0)
    ensures multiset(Notify(f, e, suffix))[Lost] == (if e == Lost then 1 else 0)
  {
  }

  lemma FoundLostCounts(f: Flavour)
    requires f.unityEvents
    ensures multiset(FoundEvents(f))[Found] == 1 && multiset(FoundEvents(f))[Lost] == 0
    ensures multiset(LostEvents(f))[Lost] == 1 && multiset(LostEvents(f))[Found] == 0
  {
    NotifyCounts(f, Found, "Found");
    NotifyCounts(f, Lost, "Lost");
  }

  /** Over any run, lost is never reported more often than found: every loss is matched
      by an earlier find, or by the content that was already showing at the start. */
  lemma {:induction false} LostNeverOutnumbersFound(p: Presence, frames: seq<Sighting>, secs: real, f: Flavour)
    requires f.unityEvents
    ensures var r := Run(p, frames, secs, f);
      multiset(r.events)[Lost] + Pending(r.p) <= multiset(r.events)[Found] + Pending(p)
    decreases |frames|
  {
    if |frames| > 0 {
      var s := StepOf(p, frames[0], secs, f);
      LostNeverOutnumbersFound(s.p, frames[1..], secs, f);
      StepBalance(p, frames[0], secs, f);
    }
  }

  /** A trackable in the scene: its number and its `Tag`. */
  datatype Tagged = Tagged(id: nat, tag: string)

  /** The first trackable of the scene search carrying `tag`. */
  function FirstTagged(ms: seq<Tagged>, tag: string): (r: Option<nat>)
    ensures r.None? <==> forall i :: 0 <= i < |ms| ==> ms[i].tag != tag
    ensures r.Some? ==> exists i :: 0 <= i < |ms| && ms[i] == Tagged(r.value, tag)
                                    && forall j :: 0 <= j < i ==> ms[j].tag != tag
    decreases |ms|
  {
    if |ms| == 0 then None
    else if ms[0].tag == tag then Some(ms[0].id)
    else
      var r := FirstTagged(ms[1..], tag);
      assert r.Some? ==> exists i :: 0 <= i < |ms[1..]| && ms[1..][i] == Tagged(r.value, tag)
                                     && forall j :: 0 <= j < i ==> ms[1..][j].tag != tag;
      assert r.Some? ==> exists i :: 1 <= i < |ms| && ms[i] == Tagged(r.value, tag)
                                     && forall j :: 0 <= j < i ==> ms[j].tag != tag;
      r
  }

  /** A cached lookup (`GetTrackable`, `GetMarker`, `GetCamera`): a cached answer is
      kept, otherwise the search result becomes the cache. */
  function Cached(cache: Option<nat>, search: Option<nat>): (r: Option<nat>)
    ensures cache.Some? ==> r == cache
    ensures cache.None? ==> r == search
  {
    if cache.Some? then cache else search
  }

  /** A camera in the scene: its number, and whether it is stereo and its left eye. */
  datatype CameraInfo = CameraInfo(id: nat, stereo: bool, leftEye: bool)

  predicate PoseReference(c: CameraInfo) {
    !c.stereo || c.leftEye
  }

  /** `GetCamera`'s search: the first mono camera or left eye. */
  function FirstReferenceCamera(cs: seq<CameraInfo>): (r: Option<nat>)
    ensures r.None? <==> forall i :: 0 <= i < |cs| ==> !PoseReference(cs[i])
    ensures r.Some? ==> exists i :: 0 <= i < |cs| && cs[i].id == r.value && PoseReference(cs[i])
                                    && forall j :: 0 <= j < i ==> !PoseReference(cs[j])
    decreases |cs|
  {
    if |cs| == 0 then None
    else if PoseReference(cs[0]) then Some(cs[0].id)
    else
      var r := FirstReferenceCamera(cs[1..]);
      assert r.Some? ==> exists i :: 0 <= i < |cs[1..]| && cs[1..][i].id == r.value && PoseReference(cs[1..][i])
                                     && forall j :: 0 <= j < i ==> !PoseReference(cs[1..][j]);
      assert r.Some? ==> exists i :: 1 <= i < |cs| && cs[i].id == r.value && PoseReference(cs[i])
                                     && forall j :: 0 <= j < i ==> !PoseReference(cs[j]);
      r
  }

  /** The component: its tag, its cached trackable and camera, its grace period and its
      presence. */
  datatype Obj = Obj(
    tag: string,
    trackable: Option<nat>,
    camera: Option<nat>,
    secondsToRemainVisible: real,
    presence: Presence)

  /** The `TrackableTag` (or `MarkerTag`) setter: the cached trackable is dropped. */
  function SetTag(o: Obj, tag: string): (r: Obj)
    ensures r.tag == tag && r.trackable.None?
    ensures r.camera == o.camera && r.presence == o.presence && r.secondsToRemainVisible == o.secondsToRemainVisible
  {
    o.(tag := tag, trackable := None)
  }

  /** After a new tag, the next lookup finds the first trackable with that tag. */
  lemma SetTagThenLookup(o: Obj, tag: string, ms: seq<Tagged>)
    ensures Cached(SetTag(o, tag).trackable, FirstTagged(ms, SetTag(o, tag).tag)) == FirstTagged(ms, tag)
  {
  }

  /** What one update sees: play mode, the time, the scene search results, which
      trackables report themselves visible, and the origin in the parent hierarchy. */
  datatype Scene = Scene(
    playing: bool,
    now: real,
    trackables: seq<Tagged>,
    cameras: seq<CameraInfo>,
    visibleOf: nat -> bool,
    origin: Option<Origin.Origin>)

  /** The component after an update, the origin after its base lookup, the
      notifications, and the pose reference when the content was placed. */
  datatype Frame = Frame(o: Obj, origin: Option<Origin.Origin>, events: seq<Event>, pose: Option<PoseFrom>)

  function ShowFrame(o: Obj, origin: Option<Origin.Origin>, f: Flavour, from: PoseFrom): (r: Frame)
    ensures r.o == o.(presence := Show(o.presence, f).p) && r.pose == Some(from) && r.origin == origin
    ensures r.events == Show(o.presence, f).events
  {
    var s := Show(o.presence, f);
    Frame(o.(presence := s.p), origin, s.events, Some(from))
  }

  function HideFrame(o: Obj, origin: Option<Origin.Origin>, now: real, f: Flavour): (r: Frame)
    ensures r.o == o.(presence := Hide(o.presence, now, o.secondsToRemainVisible, f).p) && r.pose.None? && r.origin == origin
    ensures r.events == Hide(o.presence, now, o.secondsToRemainVisible, f).events
  {
    var s := Hide(o.presence, now, o.secondsToRemainVisible, f);
    Frame(o.(presence := s.p), origin, s.events, None)
  }

  /** `ARXTrackedObject`'s hidden frame: the time is read only while something is
      showing, and 0 is used otherwise. */
  function ArxHide(p: Presence, now: real, secs: real, f: Flavour): (r: Step)
    ensures r == Hide(p, if p.visible || p.visibleOrRemain then now else 0.0, secs, f)
  {
    Hide(p, if p.visible || p.visibleOrRemain then now else 0.0, secs, f)
  }

  /** The zero time makes no difference: with nothing showing, the time is neither
      recorded nor compared. */
  lemma ArxHideIsHide(p: Presence, now: real, secs: real, f: Flavour)
    ensures ArxHide(p, now, secs, f) == Hide(p, now, secs, f)
  {
  }

  /** `ARXTrackedObject`'s flavour: Unity events, broadcasts named `OnTrackable…`, and
      the two child-activation switches. */
  function ArxFlavour(receiver: bool, activateOnFound: bool, deactivateOnLost: bool): Flavour {
    Flavour(true, receiver, "OnTrackable", activateOnFound, deactivateOnLost)
  }

  /** `ARXTrackedObject.Update`. Outside play mode nothing happens. Without a trackable
      with the tag, the content is marked hidden with no notification. With an origin,
      the content is shown when the origin has a base and the trackable is visible,
      relative to that base or at the origin when the trackable is the base. Without an
      origin the first mono or left-eye camera is the reference; without one either,
      the content is marked hidden. */
  function ArxUpdate(o: Obj, sc: Scene, f: Flavour): (r: Frame)
    ensures !sc.playing ==> r == Frame(o, sc.origin, [], None)
    ensures sc.playing ==> r.o.trackable == Cached(o.trackable, FirstTagged(sc.trackables, o.tag))
    ensures sc.playing && r.o.trackable.None? ==>
      r.o.presence == o.presence.(visible := false, visibleOrRemain := false) && r.events == [] && r.pose.None?
    ensures sc.playing && r.o.trackable.Some? && sc.origin.Some? ==>
      var b := Origin.GetBaseTrackable(sc.origin.value, sc.visibleOf);
      && r.origin == Some(b.0)
      && (r.pose.Some? <==> b.1.Some? && sc.visibleOf(r.o.trackable.value))
      && (r.pose.Some? ==> r.pose.value == (if b.1 == r.o.trackable then AtOrigin else RelativeToBase))
    ensures sc.playing && r.o.trackable.Some? && sc.origin.None? ==>
      && r.o.camera == Cached(o.camera, FirstReferenceCamera(sc.cameras))
      && (r.pose.Some? <==> r.o.camera.Some? && sc.visibleOf(r.o.trackable.value))
      && (r.pose.Some? ==> r.pose.value == RelativeToCamera)
      && (r.o.camera.None? ==> r.o.presence == o.presence.(visible := false, visibleOrRemain := false) && r.events == [])
  {
    if !sc.playing then Frame(o, sc.origin, [], None)
    else
      var o1 := o.(trackable := Cached(o.trackable, FirstTagged(sc.trackables, o.tag)));
      if o1.trackable.None? then
        Frame(o1.(presence := o.presence.(visible := false, visibleOrRemain := false)), sc.origin, [], None)
      else
        var t := o1.trackable.value;
        match sc.origin
        case Some(org) =>
          var b := Origin.GetBaseTrackable(org, sc.visibleOf);
          if b.1.Some? && sc.visibleOf(t) then ShowFrame(o1, Some(b.0), f, if b.1 == Some(t) then AtOrigin else RelativeToBase)
          else
            var s := ArxHide(o1.presence, sc.now, o1.secondsToRemainVisible, f);
            Frame(o1.(presence := s.p), Some(b.0), s.events, None)
        case None =>
          var o2 := o1.(camera := Cached(o.camera, FirstReferenceCamera(sc.cameras)));
          if o2.camera.None? then
            Frame(o2.(presence := o.presence.(visible := false, visibleOrRemain := false)), None, [], None)
          else if sc.visibleOf(t) then ShowFrame(o2, None, f, RelativeToCamera)
          else
            var s := ArxHide(o2.presence, sc.now, o2.secondsToRemainVisible, f);
            Frame(o2.(presence := s.p), None, s.events, None)
  }

  /** A visible trackable that its origin already caches as the base is placed at the
      origin. */
  lemma ArxBaseAtOrigin(o: Obj, sc: Scene, f: Flavour, t: nat)
    requires sc.playing && o.trackable == Some(t) && sc.visibleOf(t)
    requires sc.origin.Some? && sc.origin.value.base == Some(t)
    ensures ArxUpdate(o, sc, f).pose == Some(AtOrigin)
  {
  }

  /** `ARXTrackedObject` with children following found and lost: a first visible frame
      activates the children, and the tracked event closes every shown frame. */
  lemma ArxFirstSightingActivates(o: Obj, sc: Scene, receiver: bool)
    requires sc.playing && !o.presence.visible
    requires o.trackable.Some? && sc.origin.None? && o.camera.Some? && sc.visibleOf(o.trackable.value)
    ensures var r := ArxUpdate(o, sc, ArxFlavour(receiver, true, true));
      && ChildrenActive(true) in r.events && Found in r.events
      && r.events[|r.events| - 1] == (if receiver then Message("OnTrackableTracked") else Tracked)
  {
  }

  /** The older `ARTrackedObject` (`Update`) and the 5.x marker one (`LateUpdate`).
      Outside play mode, without an origin, or without a trackable with the tag, nothing
      changes; the time is always read; otherwise the content follows the base as in
      `ARXTrackedObject`. */
  function LegacyUpdate(o: Obj, sc: Scene, f: Flavour): (r: Frame)
    ensures !sc.playing || sc.origin.None? ==> r == Frame(o, sc.origin, [], None)
    ensures sc.playing && sc.origin.Some? ==> r.o.trackable == Cached(o.trackable, FirstTagged(sc.trackables, o.tag))
    ensures sc.playing && sc.origin.Some? && r.o.trackable.None? ==>
      r.o == o.(trackable := None) && r.events == [] && r.origin == sc.origin
    ensures sc.playing && sc.origin.Some? && r.o.trackable.Some? ==>
      var b := Origin.GetBaseTrackable(sc.origin.value, sc.visibleOf);
      && r.origin == Some(b.0)
      && (b.1.Some? && sc.visibleOf(r.o.trackable.value) ==>
            r == ShowFrame(o.(trackable := r.o.trackable), r.origin, f, if b.1 == r.o.trackable then AtOrigin else RelativeToBase))
      && (!(b.1.Some? && sc.visibleOf(r.o.trackable.value)) ==>
            r == HideFrame(o.(trackable := r.o.trackable), r.origin, sc.now, f))
  {
    if !sc.playing || sc.origin.None? then Frame(o, sc.origin, [], None)
    else
      var o1 := o.(trackable := Cached(o.trackable, FirstTagged(sc.trackables, o.tag)));
      if o1.trackable.None? then Frame(o1, sc.origin, [], None)
      else
        var t := o1.trackable.value;
        var b := Origin.GetBaseTrackable(sc.origin.value, sc.visibleOf);
        if b.1.Some? && sc.visibleOf(t) then ShowFrame(o1, Some(b.0), f, if b.1 == Some(t) then AtOrigin else RelativeToBase)
        else HideFrame(o1, Some(b.0), sc.now, f)
  }

  /** The older `ARTrackedObject`'s flavour: Unity events, `OnTrackable…` broadcasts,
      children always follow. */
  function LegacyFlavour(receiver: bool): Flavour {
    Flavour(true, receiver, "OnTrackable", true, true)
  }

  /** The 5.x marker flavour: broadcasts named `OnMarker…` only, children always
      follow. */
  function MarkerFlavour(receiver: bool): Flavour {
    Flavour(false, receiver, "OnMarker", true, true)
  }

  /** Unlike `ARXTrackedObject`, the older components leave the presence alone when the
      trackable is missing, so content that was showing stays showing. */
  lemma LegacyMissingTrackableKeepsContent(o: Obj, sc: Scene, f: Flavour)
    requires sc.playing && sc.origin.Some? && o.trackable.None?
    requires forall i :: 0 <= i < |sc.trackables| ==> sc.trackables[i].tag != o.tag
    requires o.presence.visibleOrRemain
    ensures LegacyUpdate(o, sc, f).o.presence.visibleOrRemain
    ensures !ArxUpdate(o, sc, f).o.presence.visibleOrRemain
  {
  }

  /** The marker flavour sends only broadcasts: a newly seen marker with an event
      receiver broadcasts `OnMarkerFound`, activates the children, then broadcasts
      `OnMarkerTracked`. */
  lemma MarkerFoundMessages(p: Presence)
    requires !p.visible
    ensures Show(p, MarkerFlavour(true)).events ==
      [Message("OnMarkerFound"), ChildrenActive(true), Message("OnMarkerTracked")]
  {
    assert "OnMarker" + "Found" == "OnMarkerFound";
    assert "OnMarker" + "Tracked" == "OnMarkerTracked";
  }
}

=== FILE: utility.dfy ===
/** The matrix, texture and mesh helpers of `ARUtilityFunctions` (the artoolkitX copy
    and the ARToolKit5 copy agree on the matrix helpers). Matrices are `Matrix4x4`s
    as sixteen reals indexed the way Unity's flat indexer is, column by column; real
    arithmetic stands in for single-precision floats. */
module Utility {
  import opened Wrappers
  import Text

  /** `FindCameraByName`: the position, among the scene's cameras (given by their
      object names), of the first camera with the name, or none. */
  function FindCameraByName(cameraNames: seq<string>, name: string): (r: Option<nat>)
    ensures r.None? <==> name !in cameraNames
    ensures r.Some? ==> r.value < |cameraNames| && cameraNames[r.value] == name
    ensures r.Some? ==> forall j :: 0 <= j < r.value ==> cameraNames[j] != name
    decreases |cameraNames|
  {
    if |cameraNames| == 0 then None
    else if cameraNames[0] == name then Some(0)
    else
      var rest := FindCameraByName(cameraNames[1..], name);
      if rest.None? then None else Some(rest.value + 1)
  }

  type Matrix = s: seq<real> | |s| == 16 witness seq(16, i => 0.0)

  /** `Matrix4x4[row, column]`: the flat index is `row + 4 * column`. */
  function At(m: Matrix, row: nat, col: nat): real
    requires row < 4 && col < 4
  {
    m[row + 4 * col]
  }

  /** `MatrixFromFloatArray`: a missing array or one of fewer than sixteen values is an
      argument error; otherwise the first sixteen values, in order. */
  function MatrixFromFloatArray(values: Option<seq<real>>): (r: Option<Matrix>)
    ensures r.Some? <==> values.Some? && |values.value| >= 16
    ensures r.Some? ==> forall i :: 0 <= i < 16 ==> r.value[i] == values.value[i]
  {
    if values.None? || |values.value| < 16 then None else Some(values.value[..16])
  }

  /** The flat view of a matrix: its sixteen values. */
  function ToFloatArray(m: Matrix): (r: seq<real>)
    ensures |r| == 16 && forall row, col :: 0 <= row < 4 && 0 <= col < 4 ==> r[row + 4 * col] == At(m, row, col)
  {
    m
  }

  /** A matrix's values give the matrix back, and extra values are ignored. */
  lemma MatrixRoundTrip(m: Matrix, extra: seq<real>)
    ensures MatrixFromFloatArray(Some(ToFloatArray(m) + extra)) == Some(m)
  {
    assert (m + extra)[..16] == m;
  }

  /** `LHMatrixFromRHMatrix`, written out entry by entry as the source does. */
  function LHMatrixFromRHMatrix(rhm: Matrix): (lhm: Matrix)
    ensures forall row, col :: 0 <= row < 4 && 0 <= col < 4 ==>
      At(lhm, row, col) == if (row == 2) != (col == 2) then -At(rhm, row, col) else At(rhm, row, col)
  {
    [ rhm[0],  rhm[1], -rhm[2],  rhm[3],     // column 0
      rhm[4],  rhm[5], -rhm[6],  rhm[7],     // column 1
     -rhm[8], -rhm[9],  rhm[10], -rhm[11],   // column 2
      rhm[12], rhm[13], -rhm[14], rhm[15] ]  // column 3
  }

  /** Negating one row of a matrix. */
  function NegateRow(m: Matrix, row: nat): (r: Matrix)
    requires row < 4
  {
    seq(16, i requires 0 <= i < 16 => if i % 4 == row then -m[i] else m[i])
  }

  /** Negating one column of a matrix. */
  function NegateColumn(m: Matrix, col: nat): (r: Matrix)
    requires col < 4
  {
    seq(16, i requires 0 <= i < 16 => if i / 4 == col then -m[i] else m[i])
  }

  /** The conversion is negating row 2 and then column 2, as the source's comment
      says. */
  lemma LHIsRowThenColumnNegation(m: Matrix)
    ensures LHMatrixFromRHMatrix(m) == NegateColumn(NegateRow(m, 2), 2)
  {
    var a := LHMatrixFromRHMatrix(m);
    var b := NegateColumn(NegateRow(m, 2), 2);
    forall i | 0 <= i < 16 ensures a[i] == b[i] {
      assert At(a, i % 4, i / 4) == a[i];
    }
  }

  /** Converting twice gives the matrix back, and entry (2,2) never changes. */
  lemma LHInvolution(m: Matrix)
    ensures LHMatrixFromRHMatrix(LHMatrixFromRHMatrix(m)) == m
    ensures At(LHMatrixFromRHMatrix(m), 2, 2) == At(m, 2, 2)
  {
    var a := LHMatrixFromRHMatrix(LHMatrixFromRHMatrix(m));
    forall i | 0 <= i < 16 ensures a[i] == m[i] {
      assert At(a, i % 4, i / 4) == a[i];
    }
  }

  datatype Vector3 = Vector3(x: real, y: real, z: real)

  /** `PositionFromMatrix`: the translation column. */
  function PositionFromMatrix(m: Matrix): (r: Vector3)
    ensures r == Vector3(At(m, 0, 3), At(m, 1, 3), At(m, 2, 3))
  {
    Vector3(m[12], m[13], m[14])
  }

  /** After the handedness conversion the position keeps x and y and negates z. */
  lemma LHPositionMirrorsZ(m: Matrix)
    ensures var p := PositionFromMatrix(m);
      PositionFromMatrix(LHMatrixFromRHMatrix(m)) == Vector3(p.x, p.y, -p.z)
  {
  }

  /** `QuaternionFromMatrix`'s result: the identity when column 2 equals the zero
      vector, otherwise the look rotation along column 2 with column 1 as up (which is
      not computed here). */
  datatype Rotation = Identity | LookRotation(forward: seq<real>, up: seq<real>)

  function Column(m: Matrix, col: nat): (r: seq<real>)
    requires col < 4
    ensures |r| == 4 && forall row :: 0 <= row < 4 ==> r[row] == At(m, row, col)
  {
    m[4 * col..4 * col + 4]
  }

  /** Unity's `Vector4 ==`: the squared distance is below 1e-5 squared. */
  predicate NearlyZero(v: seq<real>)
    requires |v| == 4
  {
    v[0] * v[0] + v[1] * v[1] + v[2] * v[2] + v[3] * v[3] < 1.0 / 10000000000.0
  }

  function QuaternionFromMatrix(m: Matrix): (r: Rotation)
    ensures r.Identity? <==> NearlyZero(Column(m, 2))
    ensures r.LookRotation? ==> r.forward == Column(m, 2) && r.up == Column(m, 1)
  {
    if NearlyZero(Column(m, 2)) then Identity else LookRotation(Column(m, 2), Column(m, 1))
  }

  /** The handedness conversion only changes signs in column 2, so a matrix falls back
      to the identity rotation before the conversion exactly when it does after it. */
  lemma LHKeepsIdentityFallback(m: Matrix)
    ensures QuaternionFromMatrix(LHMatrixFromRHMatrix(m)).Identity? <==> QuaternionFromMatrix(m).Identity?
  {
    var c := Column(m, 2);
    var d := Column(LHMatrixFromRHMatrix(m), 2);
    assert d[0] == -c[0] && d[1] == -c[1] && d[2] == c[2] && d[3] == -c[3];
  }

  /** The Unity texture formats the pixel formats map to; `Zero` is `(TextureFormat)0`. */
  datatype TextureFormat = Zero | RGB24 | RGBA32 | BGRA32 | R8 | ARGB32 | YUY2 | RGB565 | RGBA4444

  /** `GetTextureFormatFromARPixelFormat`. */
  function GetTextureFormatFromARPixelFormat(pixelFormat: string): (r: TextureFormat)
    ensures r != Zero <==> pixelFormat in SupportedPixelFormats()
  {
    match pixelFormat
    case "AR_PIXEL_FORMAT_RGB" => RGB24
    case "AR_PIXEL_FORMAT_RGBA" => RGBA32
    case "AR_PIXEL_FORMAT_BGRA" => BGRA32
    case "AR_PIXEL_FORMAT_MONO" => R8
    case "AR_PIXEL_FORMAT_ARGB" => ARGB32
    case "AR_PIXEL_FORMAT_yuvs" => YUY2
    case "AR_PIXEL_FORMAT_RGB_565" => RGB565
    case "AR_PIXEL_FORMAT_RGBA_4444" => RGBA4444
    case _ => Zero
  }

  /** The pixel formats with a Unity texture format. BGR, ABGR, 2vuy, RGBA_5551, 420v,
      420f, NV21 and anything else have none. */
  function SupportedPixelFormats(): set<string> {
    {"AR_PIXEL_FORMAT_RGB", "AR_PIXEL_FORMAT_RGBA", "AR_PIXEL_FORMAT_BGRA", "AR_PIXEL_FORMAT_MONO",
     "AR_PIXEL_FORMAT_ARGB", "AR_PIXEL_FORMAT_yuvs", "AR_PIXEL_FORMAT_RGB_565", "AR_PIXEL_FORMAT_RGBA_4444"}
  }

  /** The pixel format each texture format comes from. */
  function PixelFormatName(f: TextureFormat): (s: string)
    requires f != Zero
  {
    match f
    case RGB24 => "AR_PIXEL_FORMAT_RGB"
    case RGBA32 => "AR_PIXEL_FORMAT_RGBA"
    case BGRA32 => "AR_PIXEL_FORMAT_BGRA"
    case R8 => "AR_PIXEL_FORMAT_MONO"
    case ARGB32 => "AR_PIXEL_FORMAT_ARGB"
    case YUY2 => "AR_PIXEL_FORMAT_yuvs"
    case RGB565 => "AR_PIXEL_FORMAT_RGB_565"
    case RGBA4444 => "AR_PIXEL_FORMAT_RGBA_4444"
  }

  /** Every texture format is reached from exactly one pixel format, so the mapping is
      one-to-one on the supported names. */
  lemma TextureFormatRoundTrip(f: TextureFormat, name: string)
    requires f != Zero
    ensures GetTextureFormatFromARPixelFormat(PixelFormatName(f)) == f
    ensures GetTextureFormatFromARPixelFormat(name) == f ==> name == PixelFormatName(f)
  {
  }

  datatype Color32 = Color32(r: int, g: int, b: int, a: int)

  const BlackOpaque := Color32(0, 0, 0, 255)

  datatype Texture = Texture(width: int, height: int, format: TextureFormat, pixels: seq<Color32>)

  /** `CreateTexture`: no texture for a non-positive size; otherwise one whose every
      pixel is opaque black. */
  method CreateTexture(width: int, height: int, format: TextureFormat) returns (r: Option<Texture>)
    ensures r.None? <==> width <= 0 || height <= 0
    ensures r.Some? ==> r.value.width == width && r.value.height == height && r.value.format == format
    ensures r.Some? ==> |r.value.pixels| == width * height
    ensures r.Some? ==> forall i :: 0 <= i < |r.value.pixels| ==> r.value.pixels[i] == BlackOpaque
  {
    if width <= 0 || height <= 0 {
      return None;
    }
    var n := width * height;
    var arr: seq<Color32> := [];
    var i := 0;
    while i < n
      invariant 0 <= i <= n && |arr| == i
      invariant forall k :: 0 <= k < i ==> arr[k] == BlackOpaque
    {
      arr := arr + [BlackOpaque];
      i := i + 1;
    }
    r := Some(Texture(width, height, format, arr));
  }

  datatype Vector2 = Vector2(u: real, v: real)

  datatype Mesh = Mesh(vertices: seq<Vector3>, uv: seq<Vector2>, triangles: seq<int>)

  /** `CreateTextureMesh`: a quad of the given width and height centred on x at depth
      `zPosition`, two triangles, and texture coordinates flipped on request. */
  function CreateTextureMesh(scaleU: real, scaleV: real, width: real, height: real, z: real, flipX: bool, flipY: bool): (m: Mesh)
    ensures |m.vertices| == 4 && |m.uv| == 4
    ensures m.triangles == [2, 1, 0, 3, 2, 0]
    ensures forall i :: 0 <= i < 4 ==> m.vertices[i].z == z
    ensures m.uv[0].u == m.uv[3].u && m.uv[1].u == m.uv[2].u && m.uv[0].v == m.uv[1].v && m.uv[2].v == m.uv[3].v
    ensures m.uv[0] == Vector2(if flipX then scaleU else 0.0, if flipY then scaleV else 0.0)
    ensures m.uv[2] == Vector2(if flipX then 0.0 else scaleU, if flipY then 0.0 else scaleV)
  {
    var u1 := if flipX then scaleU else 0.0;
    var u2 := if flipX then 0.0 else scaleU;
    var v1 := if flipY then scaleV else 0.0;
    var v2 := if flipY then 0.0 else scaleV;
    Mesh(
      [Vector3(-width * 0.5, 0.0, z), Vector3(width * 0.5, 0.0, z), Vector3(width * 0.5, height, z), Vector3(-width * 0.5, height, z)],
      [Vector2(u1, v1), Vector2(u2, v1), Vector2(u2, v2), Vector2(u1, v2)],
      [2, 1, 0, 3, 2, 0])
  }

  /** Flipping horizontally mirrors every u coordinate and flipping vertically every v
      coordinate; the geometry is the same. */
  lemma FlipsMirrorTextureCoordinates(su: real, sv: real, w: real, h: real, z: real, fx: bool, fy: bool)
    ensures var a := CreateTextureMesh(su, sv, w, h, z, fx, fy);
      var b := CreateTextureMesh(su, sv, w, h, z, !fx, fy);
      var c := CreateTextureMesh(su, sv, w, h, z, fx, !fy);
      && b.vertices == a.vertices && c.vertices == a.vertices
      && (forall i :: 0 <= i < 4 ==> b.uv[i] == Vector2(su - a.uv[i].u, a.uv[i].v))
      && (forall i :: 0 <= i < 4 ==> c.uv[i] == Vector2(a.uv[i].u, sv - a.uv[i].v))
  {
  }

  /** The video object `CreateVideoGameObject` makes: its name, layer, ARGB32 texture
      and the unit video quad. */
  datatype VideoObject = VideoObject(name: string, layer: int, texture: Texture, mesh: Mesh)

  /** `CreateVideoGameObject`: nothing for a non-positive video size; otherwise an
      object named after the video source index, in the given layer, with a texture of
      the video's size and the quad flipped as asked. */
  method CreateVideoGameObject(index: int, w: int, h: int, flipH: bool, flipV: bool, layer: int) returns (r: Option<VideoObject>)
    ensures r.None? <==> w <= 0 || h <= 0
    ensures r.Some? ==>
      && r.value.name == "Video source " + Text.IntToString(index)
      && r.value.layer == layer
      && r.value.texture.width == w && r.value.texture.height == h && r.value.texture.format == ARGB32
      && r.value.mesh == CreateTextureMesh(1.0, 1.0, 2.0, 2.0, 0.5, flipH, flipV)
  {
    if w <= 0 || h <= 0 {
      return None;
    }
    var vt := CreateTexture(w, h, ARGB32);
    r := Some(VideoObject("Video source " + Text.IntToString(index), layer, vt.value,
                          CreateTextureMesh(1.0, 1.0, 2.0, 2.0, 0.5, flipH, flipV)));
  }
}

=== FILE: video_config.dfy ===
/** The video-configuration string builder of `ARXVideoConfig`, in both shipped
    variants: `Current` (the Unity package) and `Legacy` (the older asset folder, whose
    Unity-video-source branch has no `-nocopy` and whose tables lack WebGL and the
    Linux editor). A per-platform record plus three constant tables (modules, AVFoundation
    presets, size preferences) become one space-separated option string for the native
    video library. */
module VideoConfig {
  import opened Wrappers
  import Text
  import Lists

  datatype Variant = Current | Legacy

  /** `AR_VIDEO_POSITION`; only Back, Front and Other affect the option string. */
  datatype VideoPosition = Unknown | Front | Back | LeftSide | RightSide | Top | Bottom | Other

  datatype VideoModule = Dummy | Image | V4L2 | GStreamer | Firewire1394 | AVFoundation | Android | WinMF | External

  datatype InputSelection = AnyCamera | NthCamera | CameraAtPosition | NthCameraAtPosition | VideoSourceInfoList

  datatype SizeStrategy = NoSizeSelection | WidthAndHeight | PresetSelection | PreferenceSelection

  datatype Preset = Medium | Low | High | Photo | Cif | Qvga | Vga | P540 | P720 | P1080 | P2160

  datatype Preference =
    | AnySize | Exact | ClosestSameAspect | ClosestPixelCount | SameAspect
    | LargestWithMaximum | SmallestWithMinimum | Largest | Smallest

  datatype UnitySource = NoUnitySource | WebcamTexture

  /** `RuntimePlatform`, with every platform the tables do not mention folded into `OtherPlatform`. */
  datatype Platform =
    | WindowsEditor | OSXEditor | WindowsPlayer | OSXPlayer | AndroidPlayer
    | IPhonePlayer | LinuxPlayer | LinuxEditor | WebGLPlayer | OtherPlatform(name: string)

  /** The fields of `ARVideoModuleInfo` the builder reads. */
  datatype ModuleInfo = ModuleInfo(
    selection: string,
    byPosition: bool,
    positionOption: string,
    byIndex: bool,
    indexOption: string,
    indexFrom1: bool,
    strategy: SizeStrategy)

  /** The fields of `ARVideoPlatformConfig` the builder reads. */
  datatype PlatformConfig = PlatformConfig(
    platform: Platform,
    videoModule: VideoModule,
    selectionMethod: InputSelection,
    position: VideoPosition,
    index: int,
    openToken: string,
    width: int,
    height: int,
    preset: Preset,
    preference: Preference,
    manual: bool,
    manualConfig: string,
    usingUnitySource: bool,
    unitySource: UnitySource)

  /** The `modules` table (identical in both variants). */
  function Modules(m: VideoModule): (info: ModuleInfo)
    ensures "-module=" <= info.selection
    ensures info.byPosition <==> m == AVFoundation || m == Android
    ensures info.byIndex <==> m == V4L2 || m == AVFoundation || m == Android || m == WinMF
    ensures info.indexFrom1 <==> m == WinMF
    ensures info.strategy == PresetSelection <==> m == AVFoundation
    ensures info.strategy == PreferenceSelection <==> m == Android
  {
    match m
    case Dummy => ModuleInfo("-module=Dummy", false, "", false, "", false, WidthAndHeight)
    case Image => ModuleInfo("-module=Image", false, "", false, "", false, WidthAndHeight)
    case V4L2 => ModuleInfo("-module=V4L2", false, "", true, "-dev=/dev/video", false, WidthAndHeight)
    case GStreamer => ModuleInfo("-module=GStreamer", false, "", false, "", false, NoSizeSelection)
    case Firewire1394 => ModuleInfo("-module=1394", false, "", false, "", false, NoSizeSelection)
    case AVFoundation => ModuleInfo("-module=AVFoundation", true, "-position=", true, "-source=", false, PresetSelection)
    case Android => ModuleInfo("-module=Android -native", true, "-position=", true, "-source=", false, PreferenceSelection)
    case WinMF => ModuleInfo("-module=WinMF", false, "", true, "-devNum=", true, WidthAndHeight)
    case External => ModuleInfo("-module=External", false, "", false, "", false, NoSizeSelection)
  }

  /** The `config` column of the `AVFoundationPresets` table. Photo is mapped to the
      medium preset, as the table has it. */
  function PresetOption(p: Preset): (s: string)
    ensures "-preset=" <= s
    ensures s == "-preset=medium" <==> p == Medium || p == Photo
  {
    match p
    case Medium => "-preset=medium"
    case Low => "-preset=low"
    case High => "-preset=high"
    case Photo => "-preset=medium"
    case Cif => "-preset=cif"
    case Qvga => "-preset=qvga"
    case Vga => "-preset=vga"
    case P540 => "-preset=540p"
    case P720 => "-preset=720p"
    case P1080 => "-preset=1080p"
    case P2160 => "-preset=2160p"
  }

  /** The `config` column of the `SizePreferences` table. */
  function PreferenceOption(p: Preference): (s: string)
    ensures "-prefer=" <= s
  {
    match p
    case AnySize => "-prefer=any"
    case Exact => "-prefer=exact"
    case ClosestSameAspect => "-prefer=closestsameaspect"
    case ClosestPixelCount => "-prefer=closestpixelcount"
    case SameAspect => "-prefer=sameaspect"
    case LargestWithMaximum => "-prefer=largestwithmaximum"
    case SmallestWithMinimum => "-prefer=smallestwithminimum"
    case Largest => "-prefer=largest"
    case Smallest => "-prefer=smallest"
  }

  /** The `usesWidthAndHeightFields` column of the `SizePreferences` table. */
  predicate UsesWidthAndHeight(p: Preference) {
    !(p == AnySize || p == Largest || p == Smallest)
  }

  /** `List.FindIndex(c => c.platform == platform)`: the first matching position, or -1. */
  function FindIndex(configs: seq<PlatformConfig>, platform: Platform): (i: int)
    ensures -1 <= i < |configs|
    ensures i == -1 <==> forall j :: 0 <= j < |configs| ==> configs[j].platform != platform
    ensures 0 <= i ==> configs[i].platform == platform
    ensures 0 <= i ==> forall j :: 0 <= j < i ==> configs[j].platform != platform
    decreases |configs|
  {
    if |configs| == 0 then -1
    else if configs[0].platform == platform then 0
    else
      var k := FindIndex(configs[1..], platform);
      if k < 0 then -1 else k + 1
  }

  /** `GetPlatformConfig`: the first record for the platform in the list the stereo
      flag selects. */
  function GetPlatformConfig(configs: seq<PlatformConfig>, stereoConfigs: seq<PlatformConfig>,
                             platform: Platform, stereoSecondInput: bool): (r: Option<PlatformConfig>)
    ensures var cs := if stereoSecondInput then stereoConfigs else configs;
      && (r.None? <==> forall j :: 0 <= j < |cs| ==> cs[j].platform != platform)
      && (r.Some? ==> r.value in cs && r.value.platform == platform)
  {
    var cs := if stereoSecondInput then stereoConfigs else configs;
    var i := FindIndex(cs, platform);
    if i >= 0 then Some(cs[i]) else None
  }

  /** The word the position option names, or "" when the position selects nothing. */
  function PositionWord(position: VideoPosition, platform: Platform): string {
    if position == Back then "back"
    else if position == Front then "front"
    else if platform == AndroidPlayer && position == Other then "external"
    else ""
  }

  function PositionOption(c: PlatformConfig, platform: Platform): string {
    var info := Modules(c.videoModule);
    var p := PositionWord(c.position, platform);
    if info.byPosition && p != "" then " " + info.positionOption + p else ""
  }

  /** The index actually written: one more than the stored index for 1-indexed modules,
      in C#'s unchecked `int` addition, which wraps. */
  function WrittenIndex(c: PlatformConfig): int {
    Text.WrapInt32(c.index + (if Modules(c.videoModule).indexFrom1 then 1 else 0))
  }

  function IndexOption(c: PlatformConfig): string {
    var info := Modules(c.videoModule);
    if info.byIndex then " " + info.indexOption + Text.IntToString(WrittenIndex(c)) else ""
  }

  /** The input-selection part of the string (the first `switch` of the builder). */
  function InputOptions(c: PlatformConfig, platform: Platform): string {
    match c.selectionMethod
    case AnyCamera => ""
    case NthCamera => IndexOption(c)
    case CameraAtPosition => PositionOption(c, platform)
    case NthCameraAtPosition => PositionOption(c, platform) + IndexOption(c)
    case VideoSourceInfoList => " " + c.openToken
  }

  function WidthHeightOption(c: PlatformConfig): string {
    " -width=" + Text.IntToString(c.width) + " -height=" + Text.IntToString(c.height)
  }

  /** The size part of the string (the second `switch` of the builder). */
  function SizeOptions(c: PlatformConfig): string {
    match Modules(c.videoModule).strategy
    case NoSizeSelection => ""
    case WidthAndHeight => WidthHeightOption(c)
    case PresetSelection => " " + PresetOption(c.preset)
    case PreferenceSelection =>
      if !UsesWidthAndHeight(c.preference) || (c.width != 0 && c.height != 0) then
        " " + PreferenceOption(c.preference) + (if UsesWidthAndHeight(c.preference) then WidthHeightOption(c) else "")
      else ""
  }

  /** The string for one platform record. */
  function ConfigString(v: Variant, c: PlatformConfig, platform: Platform): (r: string)
    ensures c.manual ==> r == c.manualConfig
    ensures !c.manual && c.usingUnitySource && v == Current ==> r == "-module=External -nocopy"
    ensures !c.manual && c.usingUnitySource && v == Legacy ==> r == "-module=External"
    ensures !c.manual && !c.usingUnitySource ==> Modules(c.videoModule).selection <= r
  {
    if c.manual then c.manualConfig
    else if c.usingUnitySource then
      Modules(External).selection + (if v == Current then " -nocopy" else "")
    else
      Modules(c.videoModule).selection + InputOptions(c, platform) + SizeOptions(c)
  }

  /** `GetVideoConfigStringForPlatform`. */
  function VideoConfigString(v: Variant, configs: seq<PlatformConfig>, stereoConfigs: seq<PlatformConfig>,
                             platform: Platform, stereoSecondInput: bool): (r: string)
    ensures GetPlatformConfig(configs, stereoConfigs, platform, stereoSecondInput).None? ==> r == ""
  {
    match GetPlatformConfig(configs, stereoConfigs, platform, stereoSecondInput)
    case None => ""
    case Some(c) => ConfigString(v, c, platform)
  }

  /** `IsUsingUnityVideoSource` (present in the current variant only); it always
      consults the mono list. */
  function IsUsingUnityVideoSource(configs: seq<PlatformConfig>, platform: Platform): (b: bool)
    ensures (forall j :: 0 <= j < |configs| ==> configs[j].platform != platform) ==> !b
    ensures b ==> exists j :: 0 <= j < |configs| && configs[j].platform == platform && configs[j].usingUnitySource
  {
    match GetPlatformConfig(configs, [], platform, false)
    case None => false
    case Some(c) => c.usingUnitySource
  }

  // ---------------------------------------------------------------------------------
  // Properties of the builder.

  /** Selecting the N-th camera writes the index only for modules that select by index,
      shifted by one for the 1-indexed module, and the written number reads back. The
      stored index is a C# `int`; for the 1-indexed module the largest one wraps to the
      smallest. */
  lemma NthCameraWritesIndex(v: Variant, c: PlatformConfig, platform: Platform)
    requires !c.manual && !c.usingUnitySource && c.selectionMethod == NthCamera
    requires Text.Int32Min <= c.index <= Text.Int32Max
    ensures var info := Modules(c.videoModule);
      ConfigString(v, c, platform)
        == info.selection
           + (if info.byIndex then " " + info.indexOption + Text.IntToString(WrittenIndex(c)) else "")
           + SizeOptions(c)
    ensures !Modules(c.videoModule).indexFrom1 ==> WrittenIndex(c) == c.index
    ensures Modules(c.videoModule).indexFrom1 && c.index < Text.Int32Max ==> WrittenIndex(c) == c.index + 1
    ensures Modules(c.videoModule).indexFrom1 && c.index == Text.Int32Max ==> WrittenIndex(c) == Text.Int32Min
    ensures Text.ParseInt(Text.IntToString(WrittenIndex(c))) == Some(WrittenIndex(c))
  {
    WrittenIndexCases(c);
    Text.ParseIntOfIntToString(WrittenIndex(c));
  }

  /** The written index for a stored C# `int`: unchanged, one more, or wrapped to the
      smallest value from the largest. */
  lemma WrittenIndexCases(c: PlatformConfig)
    requires Text.Int32Min <= c.index <= Text.Int32Max
    ensures !Modules(c.videoModule).indexFrom1 ==> WrittenIndex(c) == c.index
    ensures Modules(c.videoModule).indexFrom1 && c.index < Text.Int32Max ==> WrittenIndex(c) == c.index + 1
    ensures Modules(c.videoModule).indexFrom1 && c.index == Text.Int32Max ==> WrittenIndex(c) == Text.Int32Min
  {
    if Modules(c.videoModule).indexFrom1 && c.index == Text.Int32Max {
      assert c.index + 1 - Text.Int32Min == 0x1_0000_0000;
    }
  }

  /** The position word is back or front, and external only on Android with position
      Other; every other combination names nothing. */
  lemma PositionWordCases(position: VideoPosition, platform: Platform)
    ensures PositionWord(position, platform) == "back" <==> position == Back
    ensures PositionWord(position, platform) == "front" <==> position == Front
    ensures PositionWord(position, platform) == "external" <==> platform == AndroidPlayer && position == Other
    ensures PositionWord(position, platform) == "" <==>
      position != Back && position != Front && !(platform == AndroidPlayer && position == Other)
  {
  }

  /** Modules without position support get no position option; the others write
      `-position=` and the word, when there is one. */
  lemma PositionOptionShape(c: PlatformConfig, platform: Platform)
    ensures !Modules(c.videoModule).byPosition || PositionWord(c.position, platform) == "" ==>
      PositionOption(c, platform) == ""
    ensures Modules(c.videoModule).byPosition && PositionWord(c.position, platform) != "" ==>
      PositionOption(c, platform) == " -position=" + PositionWord(c.position, platform)
  {
  }

  /** The N-th-camera-at-position method writes the position first and the index
      after it. */
  lemma PositionSelection(v: Variant, c: PlatformConfig, platform: Platform)
    requires !c.manual && !c.usingUnitySource
    requires c.selectionMethod == CameraAtPosition || c.selectionMethod == NthCameraAtPosition
    ensures ConfigString(v, c, platform)
      == Modules(c.videoModule).selection + PositionOption(c, platform)
         + (if c.selectionMethod == NthCameraAtPosition then IndexOption(c) else "")
         + SizeOptions(c)
  {
    ConfigStringParts(v, c, platform);
    PositionInput(c, platform);
    Lists.Reassociate(ConfigString(v, c, platform), Modules(c.videoModule).selection, InputOptions(c, platform),
                      PositionOption(c, platform), if c.selectionMethod == NthCameraAtPosition then IndexOption(c) else "",
                      SizeOptions(c));
  }

  /** A builder-made string is the module's selection, the input options and the size
      options. */
  lemma ConfigStringParts(v: Variant, c: PlatformConfig, platform: Platform)
    requires !c.manual && !c.usingUnitySource
    ensures ConfigString(v, c, platform) == Modules(c.videoModule).selection + InputOptions(c, platform) + SizeOptions(c)
  {
  }

  /** The text up to the first space: the first option of an option string. */
  function FirstWord(s: string): (w: string)
    ensures w <= s && ' ' !in w
    ensures |w| < |s| ==> s[|w|] == ' '
    decreases |s|
  {
    if |s| == 0 || s[0] == ' ' then [] else [s[0]] + FirstWord(s[1..])
  }

  lemma {:induction false} FirstWordAppend(a: string, b: string)
    requires b == [] || b[0] == ' '
    ensures FirstWord(a + b) == FirstWord(a)
    decreases |a|
  {
    if |a| == 0 {
      assert a + b == b;
    } else {
      assert (a + b)[0] == a[0];
      if a[0] != ' ' {
        assert (a + b)[1..] == a[1..] + b;
        FirstWordAppend(a[1..], b);
      }
    }
  }

  /** The module a `-module=` option names: the inverse of the selection column of the
      module table, read up to the first space. */
  function ModuleNamed(word: string): Option<VideoModule> {
    if word == "-module=Dummy" then Some(Dummy)
    else if word == "-module=Image" then Some(Image)
    else if word == "-module=V4L2" then Some(V4L2)
    else if word == "-module=GStreamer" then Some(GStreamer)
    else if word == "-module=1394" then Some(Firewire1394)
    else if word == "-module=AVFoundation" then Some(AVFoundation)
    else if word == "-module=Android" then Some(Android)
    else if word == "-module=WinMF" then Some(WinMF)
    else if word == "-module=External" then Some(External)
    else None
  }

  lemma {:induction false} FirstWordOfWord(s: string)
    requires forall i :: 0 <= i < |s| ==> s[i] != ' '
    ensures FirstWord(s) == s
    decreases |s|
  {
    if |s| > 0 {
      FirstWordOfWord(s[1..]);
    }
  }

  /** The first word of a selection: the whole selection, except Android's, whose
      `-native` flag is a second word. */
  lemma SelectionFirstWord(m: VideoModule)
    ensures FirstWord(Modules(m).selection) == if m == Android then "-module=Android" else Modules(m).selection
  {
    var sel := Modules(m).selection;
    if m == Android {
      assert sel == "-module=Android" + " -native";
      FirstWordOfWord("-module=Android");
      FirstWordAppend("-module=Android", " -native");
    } else {
      SelectionOneWord(m);
      FirstWordOfWord(sel);
    }
  }

  /** Every selection but Android's is a single option. */
  lemma SelectionOneWord(m: VideoModule)
    requires m != Android
    ensures forall i :: 0 <= i < |Modules(m).selection| ==> Modules(m).selection[i] != ' '
  {
    var sel := Modules(m).selection;
    match m
    case Dummy => assert sel == "-module=Dummy";
    case Image => assert sel == "-module=Image";
    case V4L2 => assert sel == "-module=V4L2";
    case GStreamer => assert sel == "-module=GStreamer";
    case Firewire1394 => assert sel == "-module=1394";
    case AVFoundation => assert sel == "-module=AVFoundation";
    case WinMF => assert sel == "-module=WinMF";
    case External => assert sel == "-module=External";
  }

  /** Each module's selection reads back as that module. */
  lemma ModuleNamedSelection(m: VideoModule)
    ensures ModuleNamed(FirstWord(Modules(m).selection)) == Some(m)
  {
    SelectionFirstWord(m);
    var w := FirstWord(Modules(m).selection);
    match m
    case Dummy => assert w == "-module=Dummy";
    case Image => assert w == "-module=Image";
    case V4L2 => assert w == "-module=V4L2";
    case GStreamer => assert w == "-module=GStreamer";
    case Firewire1394 => assert w == "-module=1394";
    case AVFoundation => assert w == "-module=AVFoundation";
    case Android => assert w == "-module=Android";
    case WinMF => assert w == "-module=WinMF";
    case External => assert w == "-module=External";
  }

  /** Only a module's own selection reads back as that module. */
  lemma ModuleNamedOnlySelections(word: string)
    ensures ModuleNamed(word).Some? ==> word == FirstWord(Modules(ModuleNamed(word).value).selection)
  {
    if word == "-module=Dummy" { SelectionFirstWord(Dummy); }
    else if word == "-module=Image" { SelectionFirstWord(Image); }
    else if word == "-module=V4L2" { SelectionFirstWord(V4L2); }
    else if word == "-module=GStreamer" { SelectionFirstWord(GStreamer); }
    else if word == "-module=1394" { SelectionFirstWord(Firewire1394); }
    else if word == "-module=AVFoundation" { SelectionFirstWord(AVFoundation); }
    else if word == "-module=Android" { SelectionFirstWord(Android); }
    else if word == "-module=WinMF" { SelectionFirstWord(WinMF); }
    else if word == "-module=External" { SelectionFirstWord(External); }
  }

  /** The input and size options are each empty or a run of space-prefixed options, so
      they never run into the option before them. */
  lemma OptionsSpaceSeparated(c: PlatformConfig, platform: Platform)
    ensures InputOptions(c, platform) == [] || InputOptions(c, platform)[0] == ' '
    ensures SizeOptions(c) == [] || SizeOptions(c)[0] == ' '
  {
  }

  /** Every string the builder makes from a record reads back, at its first option, as
      the module that record selects: the record's own module, or the external module
      for a Unity video source. */
  lemma ConfigStringNamesModule(v: Variant, c: PlatformConfig, platform: Platform)
    requires !c.manual
    ensures ModuleNamed(FirstWord(ConfigString(v, c, platform)))
      == Some(if c.usingUnitySource then External else c.videoModule)
  {
    if c.usingUnitySource {
      UnitySourceString(v, c, platform);
      SelectionThenOptions(External, if v == Current then " -nocopy" else "");
    } else {
      OptionsSpaceSeparated(c, platform);
      BuilderString(v, c, platform);
      SelectionThenOptions(c.videoModule, InputOptions(c, platform) + SizeOptions(c));
    }
  }

  lemma UnitySourceString(v: Variant, c: PlatformConfig, platform: Platform)
    requires !c.manual && c.usingUnitySource
    ensures ConfigString(v, c, platform) == Modules(External).selection + (if v == Current then " -nocopy" else "")
  {
  }

  lemma BuilderString(v: Variant, c: PlatformConfig, platform: Platform)
    requires !c.manual && !c.usingUnitySource
    ensures ConfigString(v, c, platform) == Modules(c.videoModule).selection + (InputOptions(c, platform) + SizeOptions(c))
  {
    ConfigStringParts(v, c, platform);
  }

  /** A selection followed by space-separated options still reads back as its module. */
  lemma SelectionThenOptions(m: VideoModule, rest: string)
    requires rest == [] || rest[0] == ' '
    ensures ModuleNamed(FirstWord(Modules(m).selection + rest)) == Some(m)
  {
    FirstWordAppend(Modules(m).selection, rest);
    ModuleNamedSelection(m);
  }

  lemma PositionInput(c: PlatformConfig, platform: Platform)
    requires c.selectionMethod == CameraAtPosition || c.selectionMethod == NthCameraAtPosition
    ensures InputOptions(c, platform)
      == PositionOption(c, platform) + (if c.selectionMethod == NthCameraAtPosition then IndexOption(c) else "")
  {
  }

  /** Under the size-preference strategy the preference is written only when it ignores
      width and height or both are non-zero, and the dimensions follow exactly when the
      preference uses them. */
  lemma PreferenceSizeOptions(c: PlatformConfig)
    requires Modules(c.videoModule).strategy == PreferenceSelection
    ensures var written := !UsesWidthAndHeight(c.preference) || (c.width != 0 && c.height != 0);
      && (written ==> SizeOptions(c) == " " + PreferenceOption(c.preference)
                                        + (if UsesWidthAndHeight(c.preference) then WidthHeightOption(c) else ""))
      && (!written ==> SizeOptions(c) == "")
    ensures c.videoModule == Android
  {
  }

  /** The width-and-height strategy always ends the string with both dimensions, zeros
      included. */
  lemma WidthAndHeightAlwaysWritten(v: Variant, c: PlatformConfig, platform: Platform)
    requires !c.manual && !c.usingUnitySource && Modules(c.videoModule).strategy == WidthAndHeight
    ensures var r := ConfigString(v, c, platform);
      var t := " -width=" + Text.IntToString(c.width) + " -height=" + Text.IntToString(c.height);
      |t| <= |r| && r[|r| - |t|..] == t
  {
    var r := ConfigString(v, c, platform);
    var t := WidthHeightOption(c);
    var front := Modules(c.videoModule).selection + InputOptions(c, platform);
    assert r == front + t;
    assert r[|r| - |t|..] == t;
  }

  /** The video-source-list method writes a space and then the stored open token. */
  lemma SourceListWritesToken(v: Variant, c: PlatformConfig, platform: Platform)
    requires !c.manual && !c.usingUnitySource && c.selectionMethod == VideoSourceInfoList
    ensures ConfigString(v, c, platform) == Modules(c.videoModule).selection + " " + c.openToken + SizeOptions(c)
  {
  }

  // ---------------------------------------------------------------------------------
  // The default tables.

  function Entry(platform: Platform, videoModule: VideoModule, selectionMethod: InputSelection, position: VideoPosition,
                 index: int, width: int, height: int, preference: Preference, unity: bool): PlatformConfig
  {
    PlatformConfig(platform, videoModule, selectionMethod, position, index, "", width, height, Medium, preference,
                   false, "", unity, if unity then WebcamTexture else NoUnitySource)
  }

  /** `configs`: the mono (first-input) list. */
  function DefaultConfigs(v: Variant): (cs: seq<PlatformConfig>)
    ensures forall i :: 0 <= i < |cs| ==> !cs[i].manual
    ensures v == Legacy ==> forall i :: 0 <= i < |cs| ==> !cs[i].usingUnitySource
  {
    [ Entry(WindowsEditor, WinMF, VideoSourceInfoList, Unknown, 0, 640, 480, AnySize, false),
      Entry(OSXEditor, AVFoundation, VideoSourceInfoList, Front, 0, 0, 0, AnySize, false),
      Entry(WindowsPlayer, WinMF, AnyCamera, Unknown, 0, 640, 480, AnySize, false),
      Entry(OSXPlayer, AVFoundation, AnyCamera, Front, 0, 0, 0, AnySize, false),
      Entry(AndroidPlayer, Android, AnyCamera, Back, 0, 1280, 720, ClosestPixelCount, false),
      Entry(IPhonePlayer, AVFoundation, AnyCamera, Back, 0, 0, 0, AnySize, false),
      Entry(LinuxPlayer, V4L2, AnyCamera, Unknown, 0, 640, 480, AnySize, false) ]
    + (if v == Current then
         [ Entry(LinuxEditor, V4L2, AnyCamera, Unknown, 0, 640, 480, AnySize, false),
           Entry(WebGLPlayer, External, AnyCamera, Unknown, 0, 640, 480, AnySize, true) ]
       else [])
  }

  /** `configsForStereoSecondInput`: the same platforms, selecting camera 1. */
  function StereoConfigs(v: Variant): (cs: seq<PlatformConfig>)
    ensures forall i :: 0 <= i < |cs| ==> !cs[i].manual
  {
    [ Entry(WindowsEditor, WinMF, VideoSourceInfoList, Unknown, 1, 640, 480, AnySize, false),
      Entry(OSXEditor, AVFoundation, VideoSourceInfoList, Front, 1, 0, 0, AnySize, false),
      Entry(WindowsPlayer, WinMF, NthCamera, Unknown, 1, 640, 480, AnySize, false),
      Entry(OSXPlayer, AVFoundation, NthCamera, Front, 1, 0, 0, AnySize, false),
      Entry(AndroidPlayer, Android, NthCamera, Back, 1, 1280, 720, ClosestPixelCount, false),
      Entry(IPhonePlayer, AVFoundation, NthCamera, Back, 1, 0, 0, AnySize, false),
      Entry(LinuxPlayer, V4L2, NthCamera, Unknown, 1, 640, 480, AnySize, false) ]
    + (if v == Current then
         [ Entry(LinuxEditor, V4L2, NthCamera, Unknown, 1, 640, 480, AnySize, false),
           Entry(WebGLPlayer, External, AnyCamera, Unknown, 0, 640, 480, AnySize, true) ]
       else [])
  }

  /** `List.FindIndex` stops at the first record naming the platform. */
  lemma {:induction false} FindIndexAt(configs: seq<PlatformConfig>, platform: Platform, i: nat)
    requires i < |configs| && configs[i].platform == platform
    requires forall j :: 0 <= j < i ==> configs[j].platform != platform
    ensures FindIndex(configs, platform) == i
    decreases i
  {
    if i > 0 {
      FindIndexAt(configs[1..], platform, i - 1);
    }
  }

  /** The stereo Windows-player record: WinMF, camera 1 by index, 640 by 480. */
  lemma StereoWindowsPlayerRecord()
    ensures forall j :: 0 <= j < 2 ==> StereoConfigs(Current)[j].platform != WindowsPlayer
    ensures StereoConfigs(Current)[2] == Entry(WindowsPlayer, WinMF, NthCamera, Unknown, 1, 640, 480, AnySize, false)
  {
  }

  lemma StereoWindowsPlayerString()
    ensures ConfigString(Current, Entry(WindowsPlayer, WinMF, NthCamera, Unknown, 1, 640, 480, AnySize, false), WindowsPlayer)
      == "-module=WinMF" + " -devNum=2" + " -width=640 -height=480"
  {
    var c := Entry(WindowsPlayer, WinMF, NthCamera, Unknown, 1, 640, 480, AnySize, false);
    ConfigStringParts(Current, c, WindowsPlayer);
    StereoWindowsPlayerParts();
  }

  lemma StereoWindowsPlayerParts()
    ensures var c := Entry(WindowsPlayer, WinMF, NthCamera, Unknown, 1, 640, 480, AnySize, false);
      && Modules(c.videoModule).selection == "-module=WinMF"
      && InputOptions(c, WindowsPlayer) == " -devNum=2"
      && SizeOptions(c) == " -width=640 -height=480"
  {
    var c := Entry(WindowsPlayer, WinMF, NthCamera, Unknown, 1, 640, 480, AnySize, false);
    StereoWindowsPlayerInput(c);
    StereoWindowsPlayerSize(c);
  }

  lemma StereoWindowsPlayerInput(c: PlatformConfig)
    requires c == Entry(WindowsPlayer, WinMF, NthCamera, Unknown, 1, 640, 480, AnySize, false)
    ensures InputOptions(c, WindowsPlayer) == " -devNum=2"
  {
    assert WrittenIndex(c) == 2;
    assert Text.IntToString(2) == "2";
  }

  lemma StereoWindowsPlayerSize(c: PlatformConfig)
    requires c == Entry(WindowsPlayer, WinMF, NthCamera, Unknown, 1, 640, 480, AnySize, false)
    ensures SizeOptions(c) == " -width=640 -height=480"
  {
    WindowsDimensions();
  }

  lemma WindowsDimensions()
    ensures Text.IntToString(640) == "640" && Text.IntToString(480) == "480"
  {
    assert Text.IntToString(640) == "640";
  }

  /** The 1-indexed WinMF module turns stereo camera 1 into `-devNum=2`. */
  lemma DefaultStereoWindowsPlayer()
    ensures VideoConfigString(Current, DefaultConfigs(Current), StereoConfigs(Current), WindowsPlayer, true)
      == "-module=WinMF" + " -devNum=2" + " -width=640 -height=480"
  {
    var cs := StereoConfigs(Current);
    var c := Entry(WindowsPlayer, WinMF, NthCamera, Unknown, 1, 640, 480, AnySize, false);
    StereoWindowsPlayerRecord();
    FindIndexAt(cs, WindowsPlayer, 2);
    assert GetPlatformConfig(DefaultConfigs(Current), cs, WindowsPlayer, true) == Some(c);
    StereoWindowsPlayerString();
  }

  /** The mono Android record: back camera, closest pixel count to 1280 by 720. */
  lemma AndroidRecord()
    ensures forall j :: 0 <= j < 4 ==> DefaultConfigs(Current)[j].platform != AndroidPlayer
    ensures DefaultConfigs(Current)[4] == Entry(AndroidPlayer, Android, AnyCamera, Back, 0, 1280, 720, ClosestPixelCount, false)
  {
  }

  lemma AndroidString()
    ensures ConfigString(Current, Entry(AndroidPlayer, Android, AnyCamera, Back, 0, 1280, 720, ClosestPixelCount, false), AndroidPlayer)
      == "-module=Android -native" + " " + "-prefer=closestpixelcount" + " -width=1280 -height=720"
  {
    var c := Entry(AndroidPlayer, Android, AnyCamera, Back, 0, 1280, 720, ClosestPixelCount, false);
    ConfigStringParts(Current, c, AndroidPlayer);
    AndroidSize();
    AndroidSelection();
    Lists.Reassemble(ConfigString(Current, c, AndroidPlayer), Modules(Android).selection + InputOptions(c, AndroidPlayer),
                     "-module=Android -native", SizeOptions(c), " ", "-prefer=closestpixelcount", WidthHeightOption(c),
                     " -width=1280 -height=720");
  }

  lemma AndroidSelection()
    ensures var c := Entry(AndroidPlayer, Android, AnyCamera, Back, 0, 1280, 720, ClosestPixelCount, false);
      Modules(Android).selection + InputOptions(c, AndroidPlayer) == "-module=Android -native"
  {
  }

  lemma AndroidSize()
    ensures var c := Entry(AndroidPlayer, Android, AnyCamera, Back, 0, 1280, 720, ClosestPixelCount, false);
      && SizeOptions(c) == " " + "-prefer=closestpixelcount" + WidthHeightOption(c)
      && WidthHeightOption(c) == " -width=1280 -height=720"
  {
    AndroidDimensions();
  }

  lemma AndroidDimensions()
    ensures Text.IntToString(1280) == "1280" && Text.IntToString(720) == "720"
  {
    assert Text.IntToString(1280) == "1280";
  }

  /** Android writes its size preference followed by the requested size. */
  lemma DefaultAndroid()
    ensures VideoConfigString(Current, DefaultConfigs(Current), StereoConfigs(Current), AndroidPlayer, false)
      == "-module=Android -native" + " " + "-prefer=closestpixelcount" + " -width=1280 -height=720"
  {
    var cs := DefaultConfigs(Current);
    var c := Entry(AndroidPlayer, Android, AnyCamera, Back, 0, 1280, 720, ClosestPixelCount, false);
    AndroidRecord();
    FindIndexAt(cs, AndroidPlayer, 4);
    assert GetPlatformConfig(cs, StereoConfigs(Current), AndroidPlayer, false) == Some(c);
    AndroidString();
  }

  /** The WebGL record exists only in the current variant, as the last mono entry. */
  lemma WebGLRecord()
    ensures forall j :: 0 <= j < 8 ==> DefaultConfigs(Current)[j].platform != WebGLPlayer
    ensures DefaultConfigs(Current)[8] == Entry(WebGLPlayer, External, AnyCamera, Unknown, 0, 640, 480, AnySize, true)
    ensures forall j :: 0 <= j < |DefaultConfigs(Legacy)| ==> DefaultConfigs(Legacy)[j].platform != WebGLPlayer
  {
  }

  /** The WebGL record of the current variant: the external module, no copy. */
  lemma WebGLSelected()
    ensures GetPlatformConfig(DefaultConfigs(Current), StereoConfigs(Current), WebGLPlayer, false)
      == Some(Entry(WebGLPlayer, External, AnyCamera, Unknown, 0, 640, 480, AnySize, true))
    ensures GetPlatformConfig(DefaultConfigs(Current), [], WebGLPlayer, false)
      == Some(Entry(WebGLPlayer, External, AnyCamera, Unknown, 0, 640, 480, AnySize, true))
  {
    WebGLRecord();
    FindIndexAt(DefaultConfigs(Current), WebGLPlayer, 8);
  }

  /** WebGL uses the Unity webcam source in the current variant and has no entry at all
      in the legacy one. */
  lemma DefaultWebGL()
    ensures VideoConfigString(Current, DefaultConfigs(Current), StereoConfigs(Current), WebGLPlayer, false)
      == "-module=External -nocopy"
    ensures VideoConfigString(Legacy, DefaultConfigs(Legacy), StereoConfigs(Legacy), WebGLPlayer, false) == ""
    ensures IsUsingUnityVideoSource(DefaultConfigs(Current), WebGLPlayer)
  {
    WebGLSelected();
    WebGLRecord();
  }
}

=== FILE: visibility.dfy ===
/** Found and lost notifications, whatever event type carries them: the edges a run of
    events contains, and the rule that they alternate between the two visibility
    states. */
module Visibility {
  /** The found and lost events of `es`, in order, with everything else dropped. */
  function Edges<E(==)>(es: seq<E>, found: E, lost: E): (r: seq<E>)
    ensures |r| <= |es|
    ensures forall i :: 0 <= i < |r| ==> r[i] == found || r[i] == lost
    decreases |es|
  {
    if |es| == 0 then []
    else (if es[0] == found || es[0] == lost then [es[0]] else []) + Edges(es[1..], found, lost)
  }

  lemma {:induction false} EdgesAppend<E>(a: seq<E>, b: seq<E>, found: E, lost: E)
    ensures Edges(a + b, found, lost) == Edges(a, found, lost) + Edges(b, found, lost)
    decreases |a|
  {
    if |a| > 0 {
      assert (a + b)[0] == a[0];
      assert (a + b)[1..] == a[1..] + b;
      EdgesAppend(a[1..], b, found, lost);
    } else {
      assert a + b == b;
    }
  }

  /** Events that are neither found nor lost contribute no edge. */
  lemma {:induction false} EdgesOfQuiet<E>(es: seq<E>, found: E, lost: E)
    requires forall i :: 0 <= i < |es| ==> es[i] != found && es[i] != lost
    ensures Edges(es, found, lost) == []
    decreases |es|
  {
    if |es| > 0 {
      EdgesOfQuiet(es[1..], found, lost);
    }
  }

  /** Found and lost alternate, the first being found exactly when starting hidden; the
      predicate also names the visibility the sequence ends in. */
  predicate Alternating<E(==)>(es: seq<E>, found: E, lost: E, from: bool, to: bool)
    decreases |es|
  {
    if |es| == 0 then from == to
    else es[0] == (if from then lost else found) && Alternating(es[1..], found, lost, !from, to)
  }

  lemma {:induction false} AlternatingAppend<E>(a: seq<E>, b: seq<E>, found: E, lost: E, x: bool, y: bool, z: bool)
    requires Alternating(a, found, lost, x, y) && Alternating(b, found, lost, y, z)
    ensures Alternating(a + b, found, lost, x, z)
    decreases |a|
  {
    if |a| > 0 {
      assert (a + b)[0] == a[0];
      assert (a + b)[1..] == a[1..] + b;
      AlternatingAppend(a[1..], b, found, lost, !x, y, z);
    } else {
      assert a + b == b;
    }
  }
}

=== FILE: webcam_source.dfy ===
/** The Unity webcam video source (`ARXUnityVideoSourceWebCamTexture`): it waits for
    the webcam to leave its 16x16 "not ready" size, initialises the native push input
    once, then on every fresh frame copies the pixels into a free buffer of a two-slot
    pool, flips the rows (Unity's images start at the bottom, the tracker's at the top)
    and pushes the buffer, which the native side hands back through a release callback.
    The webcam's per-frame answers and the native return codes are parameters; pixels
    are 32-bit words, as the row flip sees them. */
module WebcamSource {

  // ---------------------------------------------------------------------------------
  // The row flip.

  /** The reference meaning of the flip: the rows of a `w`-wide image in reverse order. */
  function ReverseRows(p: seq<int>, w: nat, h: nat): (q: seq<int>)
    requires |p| == w * h
    ensures |q| == w * h
    decreases h
  {
    if h == 0 then []
    else
      assert (h - 1) * w + w == w * h;
      p[(h - 1) * w..] + ReverseRows(p[..(h - 1) * w], w, h - 1)
  }

  /** The position of pixel (r, c) in a row-major image `w` wide and `h` high. */
  function At(w: nat, h: nat, r: nat, c: nat): (k: nat)
    requires r < h && c < w
    ensures k < w * h
  {
    assert (r + 1) * w <= h * w;
    r * w + c
  }

  /** Every index of a `w`-wide image is some (row, column). */
  lemma Decompose(k: nat, w: nat, h: nat)
    requires 0 < w && k < w * h
    ensures k / w < h && k % w < w
    ensures k == At(w, h, k / w, k % w)
  {
  }

  /** The flipped image starts with the original's last row. */
  lemma ReverseRowsUnfold(p: seq<int>, w: nat, h: nat, start: nat)
    requires |p| == w * h && 0 < h && start == (h - 1) * w
    ensures start <= |p|
    ensures ReverseRows(p, w, h) == p[start..] + ReverseRows(p[..start], w, h - 1)
  {
    assert start + w == w * h;
  }

  /** Where the first row and the last row of an image start. */
  lemma FirstAndLastRowAt(w: nat, h: nat, c: nat, start: nat)
    requires 0 < h && c < w && start == (h - 1) * w
    ensures At(w, h, 0, c) == c
    ensures At(w, h, h - 1, c) == start + c
  {
  }

  /** An index inside the front part of a concatenation reads the front part. */
  lemma IndexInFront(q: seq<int>, front: seq<int>, back: seq<int>, i: nat)
    requires q == front + back && i < |front|
    ensures q[i] == front[i]
  {
  }

  /** Column `c` of the flipped image's first row, by plain index. */
  lemma FirstRowByIndex(p: seq<int>, w: nat, h: nat, c: nat, start: nat)
    requires |p| == w * h && 0 < h && c < w && start == (h - 1) * w
    ensures start + c < |p| && c < |ReverseRows(p, w, h)|
    ensures ReverseRows(p, w, h)[c] == p[start + c]
  {
    ReverseRowsUnfold(p, w, h, start);
    IndexInFront(ReverseRows(p, w, h), p[start..], ReverseRows(p[..start], w, h - 1), c);
  }

  /** The first row of the flipped image is the last row of the original. */
  lemma ReverseRowsFirstRow(p: seq<int>, w: nat, h: nat, c: nat)
    requires |p| == w * h && 0 < h && c < w
    ensures ReverseRows(p, w, h)[At(w, h, 0, c)] == p[At(w, h, h - 1, c)]
  {
    var start := (h - 1) * w;
    FirstAndLastRowAt(w, h, c, start);
    FirstRowByIndex(p, w, h, c, start);
  }

  /** Below the first row, the flipped image is the flip of the original without its
      last row. */
  lemma ReverseRowsLaterRow(p: seq<int>, w: nat, h: nat, r: nat, c: nat)
    requires |p| == w * h && 0 < r < h && c < w
    ensures (h - 1) * w <= |p|
    ensures ReverseRows(p, w, h)[At(w, h, r, c)]
         == ReverseRows(p[..(h - 1) * w], w, h - 1)[At(w, h - 1, r - 1, c)]
  {
    var last := p[(h - 1) * w..];
    assert |last| == w;
    assert At(w, h, r, c) == w + At(w, h - 1, r - 1, c);
  }

  /** Entry (r, c) of the flipped image is entry (h-1-r, c) of the original. */
  lemma {:induction false} ReverseRowsAt(p: seq<int>, w: nat, h: nat, r: nat, c: nat)
    requires |p| == w * h && r < h && c < w
    ensures ReverseRows(p, w, h)[At(w, h, r, c)] == p[At(w, h, h - 1 - r, c)]
    decreases h
  {
    if r == 0 {
      ReverseRowsFirstRow(p, w, h, c);
    } else {
      ReverseRowsLaterRow(p, w, h, r, c);
      var front := p[..(h - 1) * w];
      ReverseRowsAt(front, w, h - 1, r - 1, c);
      assert front[At(w, h - 1, h - 1 - 1 - (r - 1), c)] == p[At(w, h, h - 1 - r, c)];
    }
  }

  /** Two images of the same shape that agree on every (row, column) are equal. */
  lemma SameAtEveryPixel(a: seq<int>, b: seq<int>, w: nat, h: nat)
    requires |a| == w * h && |b| == w * h
    requires forall r: nat, c: nat :: r < h && c < w ==> a[At(w, h, r, c)] == b[At(w, h, r, c)]
    ensures a == b
  {
    if 0 < w {
      forall k | 0 <= k < |a|
        ensures a[k] == b[k]
      {
        Decompose(k, w, h);
        assert a[At(w, h, k / w, k % w)] == b[At(w, h, k / w, k % w)];
      }
    }
  }

  /** Flipping twice gives back the image. */
  lemma ReverseRowsInvolution(p: seq<int>, w: nat, h: nat)
    requires |p| == w * h
    ensures ReverseRows(ReverseRows(p, w, h), w, h) == p
  {
    var q := ReverseRows(p, w, h);
    forall r: nat, c: nat | r < h && c < w
      ensures ReverseRows(q, w, h)[At(w, h, r, c)] == p[At(w, h, r, c)]
    {
      FlippedTwiceAt(p, q, w, h, r, c);
    }
    SameAtEveryPixel(ReverseRows(q, w, h), p, w, h);
  }

  /** One pixel of the image flipped twice. */
  lemma FlippedTwiceAt(p: seq<int>, q: seq<int>, w: nat, h: nat, r: nat, c: nat)
    requires |p| == w * h && q == ReverseRows(p, w, h) && r < h && c < w
    ensures ReverseRows(q, w, h)[At(w, h, r, c)] == p[At(w, h, r, c)]
  {
    ReverseRowsAt(q, w, h, r, c);
    ReverseRowsAt(p, w, h, h - 1 - r, c);
  }

  /** The middle row of an odd-height image stays where it is. */
  lemma MiddleRowFixed(p: seq<int>, w: nat, h: nat, c: nat)
    requires |p| == w * h && h % 2 == 1 && c < w
    ensures ReverseRows(p, w, h)[At(w, h, h / 2, c)] == p[At(w, h, h / 2, c)]
  {
    ReverseRowsAt(p, w, h, h / 2, c);
  }

  /** Distinct (row, column) pairs sit at distinct positions. */
  lemma AtDistinct(w: nat, h: nat, r: nat, c: nat, r2: nat, c2: nat)
    requires r < h && c < w && r2 < h && c2 < w
    ensures At(w, h, r, c) == At(w, h, r2, c2) ==> r == r2 && c == c2
  {
    if r < r2 {
      RowsApart(w, r, r2);
    } else if r2 < r {
      RowsApart(w, r2, r);
    }
  }

  lemma RowsApart(w: nat, r: nat, r2: nat)
    requires r < r2
    ensures r * w + w <= r2 * w
  {
    var d: nat := r2 - r - 1;
    assert r2 * w == r * w + w + d * w;
  }

  /** Writing pixel (i, c) leaves every other pixel alone. */
  lemma OnlyThatPixel(w: nat, h: nat, i: nat, c: nat)
    requires i < h && c < w
    ensures forall r: nat, x: nat :: r < h && x < w && (r != i || x != c) ==> At(w, h, r, x) != At(w, h, i, c)
  {
    forall r: nat, x: nat | r < h && x < w && (r != i || x != c)
      ensures At(w, h, r, x) != At(w, h, i, c)
    {
      AtDistinct(w, h, r, x, i, c);
    }
  }

  /** Rows i and j of `a` exchanged through the one-row temporary, as the three span
      copies do it. */
  method SwapRows(a: array<int>, temp: array<int>, w: nat, h: nat, i: nat, j: nat)
    requires a.Length == w * h && temp.Length == w && a != temp
    requires i < j < h
    modifies a, temp
    ensures forall r: nat, c: nat :: r < h && c < w ==>
      a[At(w, h, r, c)] == (if r == i then old(a[At(w, h, j, c)])
                            else if r == j then old(a[At(w, h, i, c)])
                            else old(a[At(w, h, r, c)]))
  {
    var c: nat := 0;
    while c < w
      invariant c <= w
      invariant a[..] == old(a[..])
      invariant forall x :: 0 <= x < c ==> temp[x] == old(a[At(w, h, i, x)])
    {
      temp[c] := a[At(w, h, i, c)];
      c := c + 1;
    }
    c := 0;
    while c < w
      invariant c <= w
      invariant forall x :: 0 <= x < w ==> temp[x] == old(a[At(w, h, i, x)])
      invariant forall r: nat, x: nat :: r < h && x < w ==>
        a[At(w, h, r, x)] == (if r == i && x < c then old(a[At(w, h, j, x)]) else old(a[At(w, h, r, x)]))
    {
      OnlyThatPixel(w, h, i, c);
      a[At(w, h, i, c)] := a[At(w, h, j, c)];
      c := c + 1;
    }
    c := 0;
    while c < w
      invariant c <= w
      invariant forall x :: 0 <= x < w ==> temp[x] == old(a[At(w, h, i, x)])
      invariant forall r: nat, x: nat :: r < h && x < w ==>
        a[At(w, h, r, x)] == (if r == i then old(a[At(w, h, j, x)])
                              else if r == j && x < c then old(a[At(w, h, i, x)])
                              else old(a[At(w, h, r, x)]))
    {
      OnlyThatPixel(w, h, j, c);
      a[At(w, h, j, c)] := temp[c];
      c := c + 1;
    }
  }

  /** Pixel (r, c) after the first `i` row pairs have been exchanged. */
  function PartlyFlipped(pixels: seq<int>, w: nat, h: nat, i: nat, r: nat, c: nat): int
    requires |pixels| == w * h && r < h && c < w
  {
    if r < i || h - 1 - i < r then pixels[At(w, h, h - 1 - r, c)] else pixels[At(w, h, r, c)]
  }

  /** The flip of `OnVideoUpdate`: rows i and h-1-i are exchanged for every i < h/2. */
  method FlipRows(pixels: seq<int>, w: nat, h: nat) returns (flipped: seq<int>)
    requires |pixels| == w * h
    ensures flipped == ReverseRows(pixels, w, h)
  {
    var a := new int[|pixels|](k requires 0 <= k < |pixels| => pixels[k]);
    var temp := new int[w];
    forall r: nat, c: nat | r < h && c < w
      ensures a[At(w, h, r, c)] == PartlyFlipped(pixels, w, h, 0, r, c)
    {
    }
    var i: nat := 0;
    while i < h / 2
      invariant i <= h / 2
      invariant forall r: nat, c: nat :: r < h && c < w ==> a[At(w, h, r, c)] == PartlyFlipped(pixels, w, h, i, r, c)
    {
      var j: nat := h - 1 - i;
      ghost var before := a[..];
      SwapRows(a, temp, w, h, i, j);
      forall r: nat, c: nat | r < h && c < w
        ensures a[At(w, h, r, c)] == PartlyFlipped(pixels, w, h, i + 1, r, c)
      {
        if r == i {
          assert a[At(w, h, r, c)] == before[At(w, h, j, c)];
        } else if r == j {
          assert a[At(w, h, r, c)] == before[At(w, h, i, c)];
        } else {
          assert a[At(w, h, r, c)] == before[At(w, h, r, c)];
        }
      }
      i := i + 1;
    }
    flipped := a[..];
    forall r: nat, c: nat | r < h && c < w
      ensures flipped[At(w, h, r, c)] == ReverseRows(pixels, w, h)[At(w, h, r, c)]
    {
      ReverseRowsAt(pixels, w, h, r, c);
      assert flipped[At(w, h, r, c)] == PartlyFlipped(pixels, w, h, i, r, c);
    }
    SameAtEveryPixel(flipped, ReverseRows(pixels, w, h), w, h);
  }

  // ---------------------------------------------------------------------------------
  // The source's state machine.

  /** `AR_VIDEO_POSITION_UNKNOWN`, the position this source reports. */
  const PositionUnknown: int := 0

  /** One slot of the pool: its pixels and whether the native side holds it. */
  datatype Buffer = Buffer(pixels: seq<int>, checkedOut: bool)

  /** `attached` is a non-null controller, `hasWebcam` a non-null webcam texture;
      `buffers` is empty while the pool is null. */
  datatype Source = Source(attached: bool, hasWebcam: bool, inited: bool, buffers: seq<Buffer>)

  /** What the webcam texture reports this frame; `pixels` is what `GetPixels32` gives. */
  datatype Camera = Camera(isPlaying: bool, width: nat, height: nat, didUpdateThisFrame: bool, pixels: seq<int>)

  datatype Event =
    | PushInit(source: int, width: int, height: int, pixelFormat: string, cameraIndex: int, cameraPosition: int)
    | Push(source: int, buffer: nat, pixels: seq<int>, width: int)
    | PushFinal(source: int)

  datatype Outcome = Outcome(source: Source, calls: seq<Event>, ok: bool)

  /** A constructed source: nothing attached, no webcam, no pool. */
  function Fresh(): (s: Source)
    ensures !s.attached && !s.hasWebcam && !s.inited && s.buffers == []
  {
    Source(false, false, false, [])
  }

  /** The pool's shape: two slots whenever the push input is initialised. */
  predicate PoolReady(s: Source) {
    s.inited ==> |s.buffers| == 2
  }

  /** The index of the lowest-numbered free slot, or -1 when all are checked out. */
  function FirstFree(buffers: seq<Buffer>): (k: int)
    ensures -1 <= k < |buffers|
    ensures k == -1 <==> forall i :: 0 <= i < |buffers| ==> buffers[i].checkedOut
    ensures 0 <= k ==> !buffers[k].checkedOut && forall i :: 0 <= i < k ==> buffers[i].checkedOut
    decreases |buffers|
  {
    if |buffers| == 0 then -1
    else if !buffers[0].checkedOut then 0
    else
      var k := FirstFree(buffers[1..]);
      if k < 0 then -1 else k + 1
  }

  /** `OnVideoStart`: refuses when a controller is already attached; otherwise
      attaches, starts a new webcam and clears the initialised flag. */
  function OnVideoStart(s: Source): (r: Outcome)
    ensures s.attached ==> r == Outcome(s, [], false)
    ensures !s.attached ==> r.ok && r.source.attached && r.source.hasWebcam && !r.source.inited
    ensures r.source.buffers == s.buffers && r.calls == []
  {
    if s.attached then Outcome(s, [], false)
    else Outcome(s.(attached := true, hasWebcam := true, inited := false), [], true)
  }

  /** The two free slots allocated at initialisation, each `n` pixels. */
  function NewPool(n: nat): (pool: seq<Buffer>)
    ensures |pool| == 2
    ensures forall i :: 0 <= i < 2 ==> !pool[i].checkedOut && |pool[i].pixels| == n
  {
    var empty := Buffer(seq(n, _ => 0), false);
    [empty, empty]
  }

  /** The part of `OnVideoUpdate` after initialisation: take the first free slot, fill
      it with the flipped frame, check it out and push it; a failed push frees it. */
  function PushFrame(s: Source, cam: Camera, pushAnswer: int): (r: Outcome)
    requires |cam.pixels| == cam.width * cam.height
  {
    if !cam.didUpdateThisFrame then Outcome(s, [], true)
    else
      var k := FirstFree(s.buffers);
      if k < 0 then Outcome(s, [], false)
      else
        var flipped := ReverseRows(cam.pixels, cam.width, cam.height);
        var call := Push(0, k, flipped, cam.width);
        if pushAnswer < 0 then
          Outcome(s.(buffers := s.buffers[k := Buffer(flipped, false)]), [call], false)
        else
          Outcome(s.(buffers := s.buffers[k := Buffer(flipped, true)]), [call], true)
  }

  /** `OnVideoUpdate` with the webcam's answers and the native return codes. */
  function Update(s: Source, cam: Camera, initAnswer: int, pushAnswer: int): (r: Outcome)
    requires |cam.pixels| == cam.width * cam.height
    ensures !s.attached || !s.hasWebcam ==> r == Outcome(s, [], false)
    ensures s.attached && s.hasWebcam && !s.inited && (!cam.isPlaying || (cam.width == 16 && cam.height == 16)) ==>
      r == Outcome(s, [], true)
    ensures r.source.attached == s.attached && r.source.hasWebcam == s.hasWebcam
    ensures s.inited ==> r.source.inited && |r.source.buffers| == |s.buffers|
    ensures PoolReady(s) ==> PoolReady(r.source)
    ensures |r.calls| <= 2
    ensures forall i :: 0 <= i < |r.calls| ==> r.calls[i].PushInit? || r.calls[i].Push?
    ensures (exists i :: 0 <= i < |r.calls| && r.calls[i].PushInit?) ==> !s.inited
    ensures r.source.inited && r.ok ==>
      forall i :: 0 <= i < |r.calls| && r.calls[i].Push? ==> r.calls[i].buffer < |r.source.buffers| && r.source.buffers[r.calls[i].buffer].checkedOut
  {
    if !s.attached || !s.hasWebcam then Outcome(s, [], false)
    else if !s.inited then
      if !cam.isPlaying || (cam.width == 16 && cam.height == 16) then Outcome(s, [], true)
      else
        var initCall := PushInit(0, cam.width, cam.height, "RGBA", 0, PositionUnknown);
        var withPool := s.(buffers := NewPool(cam.width * cam.height));
        if initAnswer != 0 then Outcome(withPool, [initCall], false)
        else
          var pushed := PushFrame(withPool.(inited := true), cam, pushAnswer);
          Outcome(pushed.source, [initCall] + pushed.calls, pushed.ok)
    else PushFrame(s, cam, pushAnswer)
  }

  /** The release callback: the native side hands back slot `index`. */
  function Release(s: Source, index: nat): (r: Source)
    ensures index < |s.buffers| ==> r.buffers == s.buffers[index := s.buffers[index].(checkedOut := false)]
    ensures index >= |s.buffers| ==> r == s
    ensures r.inited == s.inited && |r.buffers| == |s.buffers|
  {
    if index < |s.buffers| then s.(buffers := s.buffers[index := s.buffers[index].(checkedOut := false)]) else s
  }

  /** `OnVideoStop`, given whether the webcam is still playing: a no-op unless it is;
      otherwise push-final when initialised, then the pool, the flag and the
      controller are dropped. */
  function OnVideoStop(s: Source, isPlaying: bool): (r: Outcome)
    ensures !s.hasWebcam || !isPlaying ==> r == Outcome(s, [], true)
    ensures s.hasWebcam && isPlaying ==>
      && r.source == Fresh().(buffers := if s.inited then [] else s.buffers)
      && r.calls == (if s.inited then [PushFinal(0)] else [])
  {
    if !s.hasWebcam || !isPlaying then Outcome(s, [], true)
    else if s.inited then Outcome(Source(false, false, false, []), [PushFinal(0)], true)
    else Outcome(Source(false, false, s.inited, s.buffers), [], true)
  }

  /** `OnVideoUpdate` as the code runs it, with the row flip done in place. */
  method OnVideoUpdate(s: Source, cam: Camera, initAnswer: int, pushAnswer: int) returns (r: Outcome)
    requires |cam.pixels| == cam.width * cam.height
    ensures r == Update(s, cam, initAnswer, pushAnswer)
  {
    if !s.attached || !s.hasWebcam {
      return Outcome(s, [], false);
    }
    var current := s;
    var calls: seq<Event> := [];
    if !s.inited {
      if !cam.isPlaying || (cam.width == 16 && cam.height == 16) {
        return Outcome(s, [], true);
      }
      current := s.(buffers := NewPool(cam.width * cam.height));
      calls := [PushInit(0, cam.width, cam.height, "RGBA", 0, PositionUnknown)];
      if initAnswer != 0 {
        return Outcome(current, calls, false);
      }
      current := current.(inited := true);
    }
    if !cam.didUpdateThisFrame {
      return Outcome(current, calls, true);
    }
    var k := FirstFree(current.buffers);
    if k == -1 {
      return Outcome(current, calls, false);
    }
    var flipped := FlipRows(cam.pixels, cam.width, cam.height);
    calls := calls + [Push(0, k, flipped, cam.width)];
    current := current.(buffers := current.buffers[k := Buffer(flipped, true)]);
    if pushAnswer < 0 {
      current := current.(buffers := current.buffers[k := current.buffers[k].(checkedOut := false)]);
      return Outcome(current, calls, false);
    }
    return Outcome(current, calls, true);
  }

  /** A frame pushed into slot k and then released by the native side leaves the pool
      with the same free and checked-out slots as before the frame. */
  lemma PushThenReleaseRestoresPool(s: Source, cam: Camera, pushAnswer: int)
    requires s.attached && s.hasWebcam && s.inited && PoolReady(s)
    requires |cam.pixels| == cam.width * cam.height && cam.didUpdateThisFrame
    requires FirstFree(s.buffers) >= 0
    ensures var r := Update(s, cam, 0, pushAnswer);
      var k := FirstFree(s.buffers);
      && r.calls == [Push(0, k, ReverseRows(cam.pixels, cam.width, cam.height), cam.width)]
      && (r.ok <==> pushAnswer >= 0)
      && (r.ok ==> r.source.buffers[k].checkedOut)
      && var released := Release(r.source, k);
         forall i :: 0 <= i < 2 ==> released.buffers[i].checkedOut == s.buffers[i].checkedOut
  {
  }

  /** With both slots checked out, a fresh frame is dropped: nothing is pushed and
      the update reports failure. */
  lemma FullPoolDropsFrame(s: Source, cam: Camera, pushAnswer: int)
    requires s.attached && s.hasWebcam && s.inited && PoolReady(s)
    requires |cam.pixels| == cam.width * cam.height && cam.didUpdateThisFrame
    requires s.buffers[0].checkedOut && s.buffers[1].checkedOut
    ensures Update(s, cam, 0, pushAnswer) == Outcome(s, [], false)
  {
  }

  /** A ready webcam initialises the push input once, with two free slots of the
      frame's size; a refused init leaves the source uninitialised and retries on the
      next update. */
  lemma InitialisationAllocatesPool(s: Source, cam: Camera, initAnswer: int, pushAnswer: int)
    requires s.attached && s.hasWebcam && !s.inited
    requires |cam.pixels| == cam.width * cam.height && cam.isPlaying && !(cam.width == 16 && cam.height == 16)
    ensures var r := Update(s, cam, initAnswer, pushAnswer);
      && 1 <= |r.calls| && r.calls[0] == PushInit(0, cam.width, cam.height, "RGBA", 0, PositionUnknown)
      && |r.source.buffers| == 2
      && (initAnswer != 0 ==> !r.ok && !r.source.inited && r.source.buffers == NewPool(cam.width * cam.height))
      && (initAnswer == 0 ==> r.source.inited)
      && (initAnswer == 0 && !cam.didUpdateThisFrame ==> r.ok && r.calls == [r.calls[0]])
  {
  }

  /** A stop while the webcam is not playing keeps the controller attached, so the
      next start is refused. */
  lemma IdleStopBlocksRestart(s: Source)
    requires s.attached && s.hasWebcam
    ensures var stopped := OnVideoStop(s, false);
      !OnVideoStart(stopped.source).ok
  {
  }

  /** A stop of a playing source releases everything, and the source can be started
      again. */
  lemma StopThenStart(s: Source)
    requires s.attached && s.hasWebcam && s.inited
    ensures var stopped := OnVideoStop(s, true);
      && stopped.calls == [PushFinal(0)]
      && stopped.source == Fresh()
      && OnVideoStart(stopped.source).ok
  {
  }
}

=== FILE: wrappers.dfy ===
/** The optional value used wherever the C# and Java code returns a possibly-null
    reference (a config record, a cached component, a looked-up child node). */
module Wrappers {

  datatype Option<+T> = None | Some(value: T) {

    /** The wrapped value, or `default` when there is none (C#'s `??`). */
    function GetOr(default: T): T {
      match this
      case Some(v) => v
      case None => default
    }
  }
}
